=== FILE: README.md ===
# M4LProg core in Dafny

This project models the sequential logic of M4LProg, a chord-progression
editor. M4LProg drives Ableton Live through a Max for Live helper and an
ATOM SQ controller. The model covers six parts of the application:

- **Patch-line splicer** (`rewrite_lines.py`, module `PatchLines`). It finds the `"lines"`
  block of a Max patcher after a marker, renders a fixed list of patchlines, and splices the
  rendered block onto the text before the block.
- **Music-theory engine** (`MusicTheory`). It holds the chord formulas and modal step profiles,
  the diatonic qualities and Roman numerals, degree parsing, scales, inversions and drop
  voicings, and the range constraint and quality extension.
- **Progressions** (`ProgressionManager`, `ProgressionStore`). The manager provides the pattern
  library and lookup, sliding-window detection, pattern application, custom-pattern parsing,
  repeat flattening, transposition and validation. The song store is a state machine over
  sections, chords, custom patterns and saved progressions. It keeps the invariant that the
  current section index is in range.
- **Arrangement rendering** (`ArrangementOutput`, `MidiFile`, `ArrangementLane`, `LoopTimeline`).
  Blocks × repeats × chords become timed, clamped chord events, then a gap-filled OSC
  progression, then a Standard MIDI File. The MIDI file follows the Standard MIDI Files 1.0
  specification: an MThd header chunk, one MTrk track chunk, variable-length delta-times and the
  FF 2F 00 end-of-track meta-event. This part also covers the lane's reflow and sync rules and the
  loop timeline's beat arithmetic.
- **Controller and OSC codecs** (`Hardware`, `OscService`, `OscRouter`, `LiveStore`). These cover
  sign-bit relative encoders, the ATOM SQ SysEx display frame and pad messages, OSC note
  flattening, the handler registry and dispatch, the helper's regrouping of flat note arrays, and
  the offline transport state machine.
- **Settings** (`RoutingStore`, `OutputAdapters`, `ExpandableTimeline`, `MarkdownOutline`). These
  cover channel clamping, route validation, the capped event history, the output-adapter table,
  the four-mode timeline with drag snapping and keyboard ladder, and the Markdown outline parser
  of `tools/extract/extract.js`.

Shared modules hold cross-cutting definitions:

- `Common`: `Option`, `Result`, clamps, JavaScript's truncating `%`, and sums.
- `Text`: decimal rendering and parsing, `parseInt`, `trim`, ASCII lower-casing, and word
  splitting.
- `Sorting`: a stable sort by a real key, and string order.
- `Bags`: occurrence counts.
- `Song`: the chord, section, pattern and arrangement records.

Every operation is a pure function of its inputs. Each store action takes a state record and
returns the next one. Each message send returns the list of messages it would put on the wire.
Random identifiers and `Date.now()` are parameters.

Where a test or comment of the repository disagrees with the code, the model follows the code.
`tests/hardware_tests.js` expects CC value 192 to read as -64 and expects out-of-range encoder
CCs to be rejected. `parseRelativeCC` does neither: it maps every value above 64 to
`value - 128` and never checks the CC.

## Model

| member | source | states |
|---|---|---|
| PatchLines.IndexFrom | rewrite_lines.py:6-7 | `str.index` from a start: the result is an occurrence at or after the start with none between, and `None` (the `ValueError`) exactly when nothing occurs from the start on |
| PatchLines.RFind | rewrite_lines.py:8-10 | `str.rfind`: the result is an occurrence, and `None` (the `-1` that stops the script) exactly when the pattern occurs nowhere |
| PatchLines.RenderLines | rewrite_lines.py:63-73 | the loop over the entries yields each rendered entry followed by `",\n"`, except the last, which is followed by `"\n"` |
| PatchLines.RenderBlock | rewrite_lines.py:62-74 | the block the script builds is the `"lines"` header, the entries joined as above, and the closing suffix |
| PatchLines.BlockFrame | rewrite_lines.py:62-74 | every block opens with the `"lines" : [` header and ends with the closing brackets; with no entries it is just the two |
| PatchLines.PatchlineDelimited | rewrite_lines.py:64-69 | in the patchline layout each field is followed by a delimiter that the field's value cannot contain, so the layout can be read back |
| PatchLines.IntToStringPlain | rewrite_lines.py:66-67 | a rendered outlet number contains no space and no quote, so it cannot run into the next delimiter |
| PatchLines.DecodeRenderWith | rewrite_lines.py:66-67 | in any delimited layout, names without quotes read back exactly as written: rendering loses nothing |
| PatchLines.DecodeRenderEntry | rewrite_lines.py:64-69 | every patchline the script writes for quote-free object names reads back as its destination and source, with their outlets |
| PatchLines.Locate | rewrite_lines.py:4-10 | the marker is found first and the `"lines"` start pattern after it. The marker is missing exactly when it occurs nowhere. Success implies the end pattern occurs somewhere, and the end error implies it occurs nowhere |
| PatchLines.Splice | rewrite_lines.py:75 | the rewrite succeeds exactly when the searches do, and fails with their error otherwise. The new text is the old text up to the start pattern followed by the block |
| PatchLines.SpliceKeepsPrefix | rewrite_lines.py:75 | the output keeps everything before the start pattern verbatim, has exactly that length plus the block, and ends with the block and its closing suffix |
| PatchLines.SpliceIgnoresTail | rewrite_lines.py:75 | two documents that agree up to the start pattern are rewritten identically: the position of the end pattern and the old lines never matter |
| PatchLines.SpliceSucceeds | rewrite_lines.py:6-10 | a document with the marker, a start pattern at or after it and the end pattern anywhere is always spliced, at the first such start pattern |
| PatchLines.UniversalNewlines | rewrite_lines.py:4 | reading in text mode leaves no carriage return in the text |
| PatchLines.NoStartWithoutCarriageReturn | rewrite_lines.py:7 | the start pattern holds `"\r\n"`, so it occurs nowhere in a text without carriage returns |
| PatchLines.RewriteFileAsWrittenFails | rewrite_lines.py:4-7 | as written, every file fails before the rewrite: the marker is missing or the start pattern is, never only the end pattern |
| PatchLines.RewriteFileSucceeds | rewrite_lines.py:3-76 | read without newline translation, a patcher holding the marker, a later start pattern and the end pattern is rewritten to its text before the start pattern followed by the block of the 49 entries |
| MarkdownOutline.SplitLines | tools/extract/extract.js:14 | splitting always yields at least one line, even for the empty document |
| MarkdownOutline.SplitLinesNoNewline | tools/extract/extract.js:14 | no line the split yields contains a line feed |
| MarkdownOutline.SplitJoinRoundTrip | tools/extract/extract.js:14 | for a document without carriage returns, joining the lines with `"\n"` gives the document back: the split loses nothing |
| MarkdownOutline.TakeLine | tools/extract/extract.js:19-20 | the `(.*)` capture is the longest prefix holding no line terminator: a prefix of the input, free of terminators, and stopped only by one |
| MarkdownOutline.ClassifyOpensH2 | tools/extract/extract.js:19-23 | a line opening with `##` and white space becomes an entry titled by the trimmed rest of the line |
| MarkdownOutline.H2RoundTrip | tools/extract/extract.js:19-23 | a written `## t` heading with a clean title is read back as an entry titled exactly `t` |
| MarkdownOutline.ClassifyOpensH3 | tools/extract/extract.js:20-30 | a line opening with `###` and white space (and so not with `##` and white space) becomes a child titled by the trimmed rest |
| MarkdownOutline.H3RoundTrip | tools/extract/extract.js:20-30 | a written `### t` heading with a clean title is read back as a child titled exactly `t` |
| MarkdownOutline.PlainLineIsText | tools/extract/extract.js:31-40 | a line that does not start with `#` is a text line carrying the line itself |
| MarkdownOutline.WithLast | tools/extract/extract.js:16-40 | replacing the current entry changes only the newest entry of the outline |
| MarkdownOutline.AddChild | tools/extract/extract.js:30 | a child heading appends one child with empty text and leaves the entry's title and text alone |
| MarkdownOutline.AddLine | tools/extract/extract.js:32-39 | a text line goes to the newest child when there is one, else to the entry's own text, joined with `"\n"` unless that text is empty; nothing else changes |
| MarkdownOutline.ClassifyAll | tools/extract/extract.js:18-20 | every line is classified, one result per line, in order |
| MarkdownOutline.ParseMarkdownToOutlineLoop | tools/extract/extract.js:12-44 | the `for` loop with its mutable `current` entry computes the outline of the recursive definition |
| MarkdownOutline.TextOnlyEmpty | tools/extract/extract.js:31-40 | a document without headings produces an empty outline |
| MarkdownOutline.PreambleDropped | tools/extract/extract.js:32 | text lines before the first heading never reach the outline |
| MarkdownOutline.OrphanChildOpensOverview | tools/extract/extract.js:24-30 | a child heading met before any entry opens an "Overview" entry holding that child alone |
| MarkdownOutline.OpenedNonEmpty | tools/extract/extract.js:21-23 | a document that opens with a `##` heading never has an empty outline |
| MarkdownOutline.SplitAtHeading | tools/extract/extract.js:21-23 | the outline of a document is the outline of the part before a `##` heading followed by the outline from that heading on: no entry reaches across a `##` heading |
| MarkdownOutline.DropLeadingEmpty | tools/extract/extract.js:35-37 | the lines with the empty ones at the start removed never begin with an empty line |
| MarkdownOutline.AccumulateIsJoin | tools/extract/extract.js:35-37 | accumulating text lines is joining them with `"\n"` once the empty lines before the first non-empty one are dropped, since those add nothing while the text is still empty |
| MarkdownOutline.TextOf | tools/extract/extract.js:31-40 | the text of a run of text lines is those lines, one for one |
| MarkdownOutline.SectionText | tools/extract/extract.js:21-38 | a `##` heading followed only by text lines makes one entry with no children whose text is the accumulated lines |
| MarkdownOutline.SectionTextJoined | tools/extract/extract.js:21-38 | that entry's text is the lines joined by `"\n"` with the leading empty ones dropped |
| MusicTheory.FormulasWellFormed | src/services/musicTheory/MusicTheoryEngine.ts:15-43 | every chord formula has at least three notes, starts at the root (0) and climbs strictly |
| MusicTheory.Formula | src/services/musicTheory/MusicTheoryEngine.ts:82 | a known quality reads its formula, and an unknown one falls back to the major triad `[0, 4, 7]` |
| MusicTheory.ChordNotes | src/services/musicTheory/MusicTheoryEngine.ts:81-84 | the chord has one note per interval of the formula, each the root plus that interval |
| MusicTheory.ChordNotesShape | src/services/musicTheory/MusicTheoryEngine.ts:81-84 | a spelled chord has at least three notes, starts on its root, climbs strictly, and transposing the root transposes every note by the same amount |
| MusicTheory.ModeOffset | src/services/musicTheory/MusicTheoryEngine.ts:108-118 | each mode's offset into the major-scale table lies in 0..6 |
| MusicTheory.DiatonicQuality | src/services/musicTheory/MusicTheoryEngine.ts:92-122 | the quality is the major table read at `(degree - 1 + offset) % 7` with JavaScript's sign-keeping `%`. It is defined exactly when that index is not negative, and then it is a known quality |
| MusicTheory.DiatonicQualityIonian | src/services/musicTheory/MusicTheoryEngine.ts:97-105 | in the major mode I is major, ii minor, V a dominant seventh and vii half-diminished |
| MusicTheory.DiatonicQualityRotation | src/services/musicTheory/MusicTheoryEngine.ts:92-122 | for positive degrees a mode reads the major table shifted by its offset, and the qualities repeat every seven degrees |
| MusicTheory.RaiseLowest | src/services/musicTheory/MusicTheoryEngine.ts:141-143 | the loop raises exactly the first `inversion` notes (at most all of them) by an octave and leaves the rest |
| MusicTheory.ApplyInversion | src/services/musicTheory/MusicTheoryEngine.ts:132-146 | an inversion keeps the number of notes |
| MusicTheory.ApplyInversionCorrect | src/services/musicTheory/MusicTheoryEngine.ts:132-146 | an inversion keeps the pitch classes and raises the note sum by 12 for each moved note (`min(inversion, n)`, none when negative). A real inversion returns, in ascending order, exactly the notes of the sorted chord with its lowest `min(inversion, n)` raised by an octave; inversion 0 returns the notes unchanged |
| MusicTheory.ApplyInversionExample | src/services/musicTheory/MusicTheoryEngine.ts:132-146 | C major (0, 4, 7) in first inversion is (4, 7, 12): the lowest note, and only it, goes up an octave |
| MusicTheory.ApplyDropVoicing | src/services/musicTheory/MusicTheoryEngine.ts:156-179 | a drop voicing keeps the number of notes |
| MusicTheory.Lowered | src/services/musicTheory/MusicTheoryEngine.ts:164-176 | on ascending notes, drop 2 lowers the second-highest note by an octave, drop 3 the third-highest, drop 2&4 the second- and fourth-highest; every other note stays |
| MusicTheory.ApplyDropVoicingCorrect | src/services/musicTheory/MusicTheoryEngine.ts:156-179 | a drop voicing keeps the pitch classes and lowers the sum by 12 (drop 2, drop 3) or 24 (drop 2&4). On four or more notes it returns, in ascending order, exactly the sorted notes with the dropped positions lowered by an octave. Any other non-zero type only sorts. Fewer than four notes, or type 0, leave the notes unchanged |
| MusicTheory.ApplyDropVoicingExample | src/services/musicTheory/MusicTheoryEngine.ts:156-179 | drop 2 on C major seventh (60, 64, 67, 71) lowers the G: (55, 60, 64, 71) |
| MusicTheory.ApplyVoicing | src/services/musicTheory/MusicTheoryEngine.ts:190-208 | voicing keeps the number of notes |
| MusicTheory.ApplyVoicingCorrect | src/services/musicTheory/MusicTheoryEngine.ts:190-208 | voicing never changes which pitch classes sound, and with both settings at or below 0 it is the identity |
| MusicTheory.InversionName | src/services/musicTheory/MusicTheoryEngine.ts:220-226 | the name is one of the four table names: "3rd Inversion" from 3 up and "Root Position" for 0 and below (the `undefined` of a negative index falls back) |
| MusicTheory.DropSuffix | src/services/musicTheory/MusicTheoryEngine.ts:228-230 | only drops 2, 3 and 23 add text |
| MusicTheory.VoicingDescription | src/services/musicTheory/MusicTheoryEngine.ts:216-233 | the description starts with the clamped inversion name and is longer than it exactly for drops 2, 3 and 23 |
| MusicTheory.VoicingDescriptionParts | src/services/musicTheory/MusicTheoryEngine.ts:216-233 | the description is the inversion name followed by exactly the drop suffix; with no drop it is the name alone |
| MusicTheory.VoicingDescriptionExamples | src/services/musicTheory/MusicTheoryEngine.ts:216-233 | "1st Inversion Drop 2" for (1, 2), "3rd Inversion Drop 2&4" for (7, 23), and "Root Position" for (-1, 5) |
| MusicTheory.ChordName | src/services/musicTheory/MusicTheoryEngine.ts:241-258 | the name always ends with the quality, and for a non-negative root it is the note name of `root % 12` followed by the quality |
| MusicTheory.ChordNameOctave | src/services/musicTheory/MusicTheoryEngine.ts:256 | names repeat every octave |
| MusicTheory.ChordNameExamples | src/services/musicTheory/MusicTheoryEngine.ts:241-258 | 60 with "Maj7" is "CMaj7", -12 with "min" is "Cmin", and -1 reads past the table, giving "undefinedmin" |
| MusicTheory.ParseDegree | src/services/musicTheory/MusicTheoryEngine.ts:267-286 | the result lies in 0..11. It is the table's value for the fourteen degree spellings and 0 for anything else |
| MusicTheory.ParseDegreeMatchesIonian | src/services/musicTheory/MusicTheoryEngine.ts:267-309 | the plain degrees "1".."7" parse to the pitches of the major scale on C |
| MusicTheory.IonianNotes | src/services/musicTheory/MusicTheoryEngine.ts:294-309 | the major scale on 0 is 0, 2, 4, 5, 7, 9, 11 |
| MusicTheory.Running | src/services/musicTheory/MusicTheoryEngine.ts:299-306 | the running sums start at the root and have one entry more than the steps |
| MusicTheory.ScaleNotes | src/services/musicTheory/MusicTheoryEngine.ts:294-309 | a scale has seven notes starting on its root |
| MusicTheory.ScaleNotesCorrect | src/services/musicTheory/MusicTheoryEngine.ts:65-73 | each mode's steps sum to an octave, so its seven notes climb strictly within the octave above the root |
| MusicTheory.RaiseTo | src/services/musicTheory/MusicTheoryEngine.ts:327-329 | the first loop stops at or above the minimum, an octave multiple away. It leaves a note already there alone and otherwise stops within an octave of the minimum |
| MusicTheory.LowerTo | src/services/musicTheory/MusicTheoryEngine.ts:332-334 | the second loop stops at or below the maximum, an octave multiple away. It leaves a note already there alone and otherwise stops within an octave of the maximum |
| MusicTheory.ConstrainNote | src/services/musicTheory/MusicTheoryEngine.ts:323-337 | the note moves by octaves to at most the maximum, reaches the minimum when the range spans an octave, and stays put when already in range |
| MusicTheory.ConstrainToRange | src/services/musicTheory/MusicTheoryEngine.ts:318-338 | each note is constrained on its own, in place |
| MusicTheory.ConstrainToRangeLoops | src/services/musicTheory/MusicTheoryEngine.ts:318-338 | the two `while` loops, note by note, leave each note at or below the maximum, an octave multiple from where it started, and at or above the minimum once the range spans an octave. Notes already in range are untouched, and the result is the functional definition |
| MusicTheory.ConstrainNoteLoops | src/services/musicTheory/MusicTheoryEngine.ts:324-337 | for one note the two loops give the same result as `ConstrainNote` |
| MusicTheory.ConstrainToRangeCorrect | src/services/musicTheory/MusicTheoryEngine.ts:318-338 | constraining keeps the pitch classes, and once the range spans an octave, constraining again changes nothing |
| MusicTheory.GenerateChord | src/services/musicTheory/MusicTheoryEngine.ts:370-385 | a generated chord has one note per interval of its formula |
| MusicTheory.GenerateChordCorrect | src/services/musicTheory/MusicTheoryEngine.ts:370-385 | a generated chord sounds exactly the pitch classes of its quality on its root. With no voicing and no range it is the plain spelling, and with a range spanning an octave every note lies in it |
| MusicTheory.ScaleDegreeRoot | src/services/musicTheory/MusicTheoryEngine.ts:394-402 | the root is the scale note at `(degree - 1) % 7` with the sign-keeping remainder, defined exactly when that index is not negative |
| MusicTheory.ScaleDegreeRootCorrect | src/services/musicTheory/MusicTheoryEngine.ts:394-402 | positive degrees have a root within the octave above the key root. Degrees 1 to 7 name the scale's notes in order, and degrees repeat every seven |
| MusicTheory.ExtensionRow | src/services/musicTheory/MusicTheoryEngine.ts:415-426 | every row of the extension map has four entries, for 7, 9, 11 and 13 |
| MusicTheory.ExtensionColumn | src/services/musicTheory/MusicTheoryEngine.ts:415-426 | exactly the extensions 7, 9, 11 and 13 have a column, in 0..3 |
| MusicTheory.ExtendChordQuality | src/services/musicTheory/MusicTheoryEngine.ts:410-435 | a quality without a row, or an extension that is not a key, leaves the quality as it is |
| MusicTheory.ExtendedInRow | src/services/musicTheory/MusicTheoryEngine.ts:428-431 | a mapped extension is one of its row's four qualities |
| MusicTheory.ExtendChordQualityCorrect | src/services/musicTheory/MusicTheoryEngine.ts:410-435 | extending keeps a known quality known and never drops chord tones (the formula only grows), and it is idempotent |
| MusicTheory.NumeralFor | src/services/musicTheory/MusicTheoryEngine.ts:449-469 | the case analysis throws exactly when the numeral is `undefined` and the quality takes the lower-casing branch (minor, half-diminished or diminished) |
| MusicTheory.RomanNumeral | src/services/musicTheory/MusicTheoryEngine.ts:443-469 | an `undefined` diatonic quality makes `includes` throw |
| MusicTheory.RomanNumeralCorrect | src/services/musicTheory/MusicTheoryEngine.ts:443-469 | for degrees 1 to 7 the numeral is the table's. It is lower-cased exactly for minor and half-diminished chords, with the degree sign exactly for half-diminished |
| MusicTheory.RomanNumeralTonic | src/services/musicTheory/MusicTheoryEngine.ts:443-469 | the tonic of the major mode is "I" |
| MusicTheory.RomanNumeralLeadingTone | src/services/musicTheory/MusicTheoryEngine.ts:443-469 | the seventh degree of the major mode is "vii°" |
| MusicTheory.RomanNumeralUndefinedQuality | src/services/musicTheory/MusicTheoryEngine.ts:447-452 | degree 0 in the major mode reads an `undefined` quality and throws |
| MusicTheory.RomanNumeralUndefinedNumeral | src/services/musicTheory/MusicTheoryEngine.ts:449-469 | degree 0 in Dorian has a (major) quality but no numeral, and returns `undefined` |
| MusicTheory.GenerateDiatonicChord | src/services/musicTheory/MusicTheoryEngine.ts:507-537 | a chord is produced exactly when the degree's root is defined |
| MusicTheory.GenerateDiatonicChordCorrect | src/services/musicTheory/MusicTheoryEngine.ts:507-537 | for degrees 1 to 7 the chord sounds the pitch classes of the (extended) diatonic quality on the degree's scale note, and a range spanning an octave holds every note |
| ProgressionManager.NormalizeDegree | src/services/progression/ProgressionManager.ts:32-35 | the folded semitone lies in 0..11 and equals the parsed degree, since `parseDegree` already yields 0..11 and the fold is then the identity |
| ProgressionManager.WithSemitones | src/services/progression/ProgressionManager.ts:105-108 | the recomputed pattern has one semitone per degree |
| ProgressionManager.DefaultPatternsSemitones | src/services/progression/ProgressionManager.ts:41-108 | there are seven built-in patterns, the `.map` leaves each one as written, and every semitone column agrees with its degree |
| ProgressionManager.CloneSection | src/services/progression/ProgressionManager.ts:141-155 | a clone keeps the id, name, progression, held root, current notes and transitions |
| ProgressionManager.CloneSectionCorrect | src/services/progression/ProgressionManager.ts:141-155 | a clone always has a present, non-zero repeat count and metre. Cloning twice is cloning once, and a section is its own clone exactly when both are already present and non-zero |
| ProgressionManager.RepeatSeq | src/services/progression/ProgressionManager.ts:178-179 | `n` copies of a progression hold `n` times as many chords |
| ProgressionManager.RepeatSeqIndex | src/services/progression/ProgressionManager.ts:178-179 | chord `k` of the repetition is chord `k mod length` of the original |
| ProgressionManager.FlattenDefined | src/services/progression/ProgressionManager.ts:176-181 | flattening fails (`Array(n)` throws) exactly when some section has a negative repeat count |
| ProgressionManager.FlattenAppend | src/services/progression/ProgressionManager.ts:176-181 | flattening distributes over concatenation of section lists |
| ProgressionManager.FlattenSingle | src/services/progression/ProgressionManager.ts:176-181 | a single section flattens to its progression repeated `repeats \|\| 1` times |
| ProgressionManager.ProgressionDuration | src/services/progression/ProgressionManager.ts:443-445 | the left-to-right `reduce` from 0 equals the sum of the chord durations |
| ProgressionManager.DurationFrom | src/services/progression/ProgressionManager.ts:444 | the `reduce` from any start adds the sum of the durations to it |
| ProgressionManager.Offset | src/services/progression/ProgressionManager.ts:216 | the double remainder with JavaScript's `%` yields the Euclidean remainder mod 12, always in 0..11 |
| ProgressionManager.Offsets | src/services/progression/ProgressionManager.ts:208-216 | there are at most as many offsets as chords, each in 0..11 |
| ProgressionManager.DetectPatternsWith | src/services/progression/ProgressionManager.ts:195-221 | an empty progression, or one with fewer than two chords that have notes, detects nothing |
| ProgressionManager.ScanPatternCorrect | src/services/progression/ProgressionManager.ts:228-261 | every window reported for one pattern matches its semitones, and every matching window of a non-empty signature is reported |
| ProgressionManager.DetectInCorrect | src/services/progression/ProgressionManager.ts:227-262 | across all definitions, every detection comes from a definition whose window matches (soundness) and every matching window is reported (completeness) |
| ProgressionManager.DetectPatternsCorrect | src/services/progression/ProgressionManager.ts:195-265 | `detectPatterns` reports exactly the windows of the chord-root offsets (from the key root, or the first note, or 60) that spell a pattern's semitones, with the pattern's id, name and description |
| ProgressionManager.PatternDefinitions | src/services/progression/ProgressionManager.ts:276-280 | the definitions are the built-ins followed by the custom patterns, in order |
| ProgressionManager.FindFirst | src/services/progression/ProgressionManager.ts:295-299 | the pattern found matches by lower-cased id or name; nothing is found exactly when no pattern matches |
| ProgressionManager.FindFirstIsFirst | src/services/progression/ProgressionManager.ts:295-299 | the pattern found is the first match in list order |
| ProgressionManager.FindPattern | src/services/progression/ProgressionManager.ts:288-300 | an empty query finds nothing, and a pattern found is a definition matching the lower-cased query |
| ProgressionManager.FindPatternIgnoresCase | src/services/progression/ProgressionManager.ts:292 | a query and its lower-cased form find the same pattern |
| ProgressionManager.FindPatternMissing | src/services/progression/ProgressionManager.ts:288-300 | a non-empty query finds nothing exactly when no definition matches it |
| ProgressionManager.FindPatternBuiltinFirst | src/services/progression/ProgressionManager.ts:279-299 | a built-in match shadows every custom pattern |
| ProgressionManager.FirstMatchIndex | src/services/progression/ProgressionManager.ts:295-299 | the least index at or below a match holds a match with none before it |
| ProgressionManager.QualityAt | src/services/progression/ProgressionManager.ts:326-328 | the quality is never empty: the chain of `\|\|` ends in "Maj" |
| ProgressionManager.DegreeNumber | src/services/progression/ProgressionManager.ts:347 | `parseInt(degree) \|\| undefined` never records degree 0 |
| ProgressionManager.ApplyFound | src/services/progression/ProgressionManager.ts:324-352 | one chord per degree of the pattern |
| ProgressionManager.ApplyFoundCorrect | src/services/progression/ProgressionManager.ts:324-352 | chord `i` stands on the root (60 by default) raised by the semitones of degree `i`, records that root, the quality `qualities[i] \|\| defaultQuality \|\| "Maj"` and the degree's number, lasts the chosen duration, and sounds the pitch classes of that quality on that root; with no inversion and no drop its notes are the chord as spelled |
| ProgressionManager.ApplyPattern | src/services/progression/ProgressionManager.ts:311-353 | a progression is built exactly when the pattern is found (`null` otherwise) |
| ProgressionManager.ApplyPatternCorrect | src/services/progression/ProgressionManager.ts:311-353 | for a found pattern there is one chord per degree, and chord `i` stands on the root plus degree `i`'s semitones, records that root and the degree's quality, and sounds that quality's pitch classes on it |
| ProgressionManager.DegreeChordCorrect | src/services/progression/ProgressionManager.ts:329-351 | a built chord records its root, quality and degree, keeps the duration, and sounds the pitch classes of that root and quality whatever the voicing |
| ProgressionManager.SaveCustomPattern | src/services/progression/ProgressionManager.ts:362-376 | a pattern is saved exactly when the name and the degree text are non-empty and the text holds at least two words |
| ProgressionManager.SaveCustomPatternCorrect | src/services/progression/ProgressionManager.ts:362-395 | a saved pattern keeps the words of the text as its degrees and aligns one semitone with each degree. Its id is "custom_" followed by a slug of letters, digits and single underscores that is a fixed point of slugging, and it is custom |
| ProgressionManager.SaveCustomPatternDegrees | src/services/progression/ProgressionManager.ts:370-373 | degrees written with single spaces read back as written |
| ProgressionManager.TransposeChord | src/services/progression/ProgressionManager.ts:457-468 | every note moves by the interval and the duration stays |
| ProgressionManager.Transpose | src/services/progression/ProgressionManager.ts:453-469 | transposing maps every chord on its own, in place |
| ProgressionManager.TransposeDuration | src/services/progression/ProgressionManager.ts:453-469 | transposing keeps the total duration |
| ProgressionManager.TransposeChordBack | src/services/progression/ProgressionManager.ts:457-468 | transposing back restores a chord's notes, and restores the whole chord unless its root is 0 or passes through 0 (a falsy root becomes `undefined`) |
| ProgressionManager.TransposeBackNotes | src/services/progression/ProgressionManager.ts:453-469 | transposing back restores every chord's notes |
| ProgressionManager.TransposeBack | src/services/progression/ProgressionManager.ts:453-469 | transposing back restores the whole progression when no root is or becomes 0 |
| ProgressionManager.AnalyzeChord | src/services/progression/ProgressionManager.ts:476-494 | without metadata, or with a falsy root or quality, the analysis is the note count |
| ProgressionManager.AnalyzeChordOctave | src/services/progression/ProgressionManager.ts:476-494 | moving a chord with a positive root up an octave does not change its analysis |
| ProgressionManager.AllNotes | src/services/progression/ProgressionManager.ts:520 | the flattened notes are exactly the notes of the chords |
| ProgressionManager.MinOf | src/services/progression/ProgressionManager.ts:521 | the minimum is one of the notes and no note lies below it |
| ProgressionManager.MaxOf | src/services/progression/ProgressionManager.ts:522 | the maximum is one of the notes and no note lies above it |
| ProgressionManager.ChordWarning | src/services/progression/ProgressionManager.ts:510-517 | a chord is warned about exactly when it has no notes or a duration of 0 or less |
| ProgressionManager.ValidateProgression | src/services/progression/ProgressionManager.ts:504-507 | an empty progression gets exactly the "Progression is empty" warning |
| ProgressionManager.ChordWarningsEmpty | src/services/progression/ProgressionManager.ts:510-517 | there are no per-chord warnings exactly when every chord has notes and a positive duration |
| ProgressionManager.RangeWarningsLow | src/services/progression/ProgressionManager.ts:521-527 | the low warning appears exactly when some note lies below A0 (21); without notes `Math.min` is Infinity and no warning appears |
| ProgressionManager.RangeWarningsHigh | src/services/progression/ProgressionManager.ts:522-531 | the high warning appears exactly when some note lies above C8 (108) |
| ProgressionManager.RangeWarningsEmpty | src/services/progression/ProgressionManager.ts:519-531 | there is no range warning exactly when every note lies in 21..108 |
| ProgressionManager.ValidateLow | src/services/progression/ProgressionManager.ts:501-534 | a non-empty progression gets the low warning exactly when some note lies below 21 |
| ProgressionManager.ValidateHigh | src/services/progression/ProgressionManager.ts:501-534 | a non-empty progression gets the high warning exactly when some note lies above 108 |
| ProgressionManager.ValidateClean | src/services/progression/ProgressionManager.ts:501-534 | a non-empty progression validates clean exactly when every chord has notes and a positive duration and every note lies in the piano range 21..108 |
| ProgressionStore.EmptySection | src/services/progression/ProgressionManager.ts:122-134 | a new section carries the given id and name, no chords, one repeat and four beats to the bar |
| ProgressionStore.Initial | src/stores/progressionStore.ts:142-150 | the initial state satisfies the store invariant and has key C (60), one empty "Section 1" that is current, no custom patterns and nothing saved |
| ProgressionStore.Reset | src/stores/progressionStore.ts:406-408 | reset yields the initial state from any state |
| ProgressionStore.SetKeyRoot | src/stores/progressionStore.ts:161-163 | only the key root changes, to the given one |
| ProgressionStore.SetMode | src/stores/progressionStore.ts:165-167 | only the mode changes, to the given one |
| ProgressionStore.SelectSlot | src/stores/progressionStore.ts:169-171 | only the selected slot changes, to the given one |
| ProgressionStore.CurrentSection | src/stores/progressionStore.ts:177-180 | the current section is one of the store's sections |
| ProgressionStore.LoadSection | src/stores/progressionStore.ts:182-187 | an index inside the section list becomes current; any other index changes nothing; no other field changes |
| ProgressionStore.UpdateCurrentSection | src/stores/progressionStore.ts:189-195 | the clone of the given section replaces the current one and every other section, the index, the patterns and the saved progressions stay |
| ProgressionStore.MoveSection | src/stores/progressionStore.ts:197-204 | the current index moves by the offset, clamped into the section list; no other field changes |
| ProgressionStore.NewSectionName | src/stores/progressionStore.ts:208 | a non-empty name is kept; an absent or empty one becomes "Section n+1" |
| ProgressionStore.CreateSection | src/stores/progressionStore.ts:206-214 | one empty section is appended under that name and becomes current; the key, mode, patterns and saved progressions stay |
| ProgressionStore.RemoveIndex | src/stores/progressionStore.ts:222 | an index in range removes exactly that element and shifts the rest down; any other index keeps the list |
| ProgressionStore.DeleteSection | src/stores/progressionStore.ts:216-232 | with one section left nothing changes; otherwise that index is removed, the invariant still holds, a current index still in range stays and one past the end moves to the last section; the key, mode, patterns and saved progressions stay |
| ProgressionStore.RenameSection | src/stores/progressionStore.ts:234-242 | only the current section's name changes |
| ProgressionStore.WithProgression | src/stores/progressionStore.ts:248-304 | every chord action keeps the store invariant |
| ProgressionStore.AddChord | src/stores/progressionStore.ts:248-255 | adding a chord keeps the store invariant |
| ProgressionStore.RemoveChord | src/stores/progressionStore.ts:257-264 | removing a chord keeps the store invariant |
| ProgressionStore.UpdateChord | src/stores/progressionStore.ts:266-275 | replacing a chord keeps the store invariant |
| ProgressionStore.InsertChord | src/stores/progressionStore.ts:277-286 | inserting a chord keeps the store invariant |
| ProgressionStore.SpliceIndex | src/stores/progressionStore.ts:280 | `splice` inserts at a position clamped into 0..length, the index itself when in range |
| ProgressionStore.InsertAt | src/stores/progressionStore.ts:280 | the chord sits at the splice position with everything before it kept and everything after it shifted by one |
| ProgressionStore.ClearProgression | src/stores/progressionStore.ts:288-295 | the current progression becomes empty |
| ProgressionStore.SetProgression | src/stores/progressionStore.ts:297-304 | the current progression becomes the given one |
| ProgressionStore.WithProgressionEffect | src/stores/progressionStore.ts:189-195 | a chord action sets the current progression, normalises the current section's repeat count and metre through `cloneSection`, and touches nothing else |
| ProgressionStore.AddChordAppends | src/stores/progressionStore.ts:248-255 | `addChord` appends the chord to the current section only |
| ProgressionStore.RemoveChordDeletes | src/stores/progressionStore.ts:257-264 | an index in range deletes exactly that chord |
| ProgressionStore.RemoveChordOutOfRange | src/stores/progressionStore.ts:257-264 | an index out of range leaves the chords as they were |
| ProgressionStore.InsertChordPlaces | src/stores/progressionStore.ts:277-286 | an index in range puts the chord at that position and shifts the rest right |
| ProgressionStore.RemoveAfterInsert | src/stores/progressionStore.ts:257-286 | removing the chord just inserted gives the progression back |
| ProgressionStore.UpdateChordReplaces | src/stores/progressionStore.ts:266-275 | an index inside the progression replaces exactly that chord and keeps the length |
| ProgressionStore.ReplaceById | src/stores/progressionStore.ts:319-321 | every pattern with the new pattern's id is replaced by it, and every other stays in place |
| ProgressionStore.AddCustomPattern | src/stores/progressionStore.ts:310-328 | a known id replaces the patterns with that id; an unknown one appends the pattern; no other field changes |
| ProgressionStore.RemoveCustomPattern | src/stores/progressionStore.ts:330-335 | the custom patterns become those with another id; no other field changes |
| ProgressionStore.AddCustomPatternUnique | src/stores/progressionStore.ts:310-328 | with unique ids, adding keeps the ids unique, stores the pattern, and grows the list exactly when the id was new |
| ProgressionStore.RemoveByCorrect | src/stores/progressionStore.ts:333 | the filter keeps exactly the patterns with another id, never grows the list, and keeps it unchanged when no pattern has the id |
| ProgressionStore.RemoveByIdAppend | src/stores/progressionStore.ts:333 | filtering a concatenation filters each part, so the kept patterns stay in their input order |
| ProgressionStore.RemoveByIdSingle | src/stores/progressionStore.ts:333 | a single pattern is kept exactly when it has another id |
| ProgressionStore.RemoveAfterAdd | src/stores/progressionStore.ts:310-335 | adding a pattern and removing its id leaves no pattern with that id and every pattern with another id survives |
| ProgressionStore.AllPatterns | src/stores/progressionStore.ts:337-340 | the store's patterns are the built-ins followed by its custom patterns |
| ProgressionStore.ApplyPatternToSection | src/stores/progressionStore.ts:342-353 | an unknown pattern leaves the store unchanged; a known one becomes the current progression |
| ProgressionStore.CreateSnapshot | src/services/progression/ProgressionManager.ts:408-421 | the snapshot keeps the name and chords; a given `savedAt` wins over the clock, and the other metadata is copied |
| ProgressionStore.SaveProgression | src/stores/progressionStore.ts:359-377 | the current progression is stored under the name, the other saved names keep their snapshots, and every other field stays |
| ProgressionStore.LoadProgression | src/stores/progressionStore.ts:379-388 | an unknown name changes nothing; a known one makes its saved chords the current progression; only the sections change |
| ProgressionStore.DeleteProgression | src/stores/progressionStore.ts:390-395 | exactly the name is removed and every remaining snapshot stays; no other field changes |
| ProgressionStore.LoadAfterSave | src/stores/progressionStore.ts:359-388 | saving and then loading the same name (in any state holding those saved progressions) restores the saved chords |
| ProgressionStore.DeleteAfterSave | src/stores/progressionStore.ts:359-395 | saving and then deleting a name leaves the other saved progressions as they were |
| ProgressionStore.SavedProgressionNames | src/stores/progressionStore.ts:397-400 | every saved name appears once, and the names are in ascending order |
| ArrangementLane.SectionRepeats | src/components/ProgressionEditor/ArrangementLane.tsx:27 | the repeat count is at least 1, and a repeat count of 1 or more is kept |
| ArrangementLane.SectionLaneBeats | src/components/ProgressionEditor/ArrangementLane.tsx:27-29 | a lane block lasts at least one beat |
| ArrangementLane.CreateLaneBlock | src/components/ProgressionEditor/ArrangementLane.tsx:22-40 | a new block plays its section from the given start for the section's lane length. It has one repeat, the main intent and the section's name, or "Section" when the name is empty |
| ArrangementLane.LaneBeats | src/components/ProgressionEditor/ArrangementLane.tsx:45-48 | on reflow a block lasts at least one beat (4 beats when its section is gone) |
| ArrangementLane.LaneSpan | src/components/ProgressionEditor/ArrangementLane.tsx:43-57 | the reflowed blocks take up at least one beat each |
| ArrangementLane.Reflow | src/components/ProgressionEditor/ArrangementLane.tsx:42-58 | reflowing keeps the number of blocks and each block's id, source and mode |
| ArrangementLane.ReflowLengths | src/components/ProgressionEditor/ArrangementLane.tsx:45-53 | a reflowed block takes its section's lane length and its name unless the name is empty; a block whose section is gone lasts 4 beats and keeps its label |
| ArrangementLane.ReflowLoop | src/components/ProgressionEditor/ArrangementLane.tsx:42-58 | the `map` with its running `cursor` computes the reflowed lane |
| ArrangementLane.ReflowEndToEnd | src/components/ProgressionEditor/ArrangementLane.tsx:42-58 | a reflowed lane starts at beat 0 and each block starts where the one before it ends |
| ArrangementLane.ReflowTotal | src/components/ProgressionEditor/ArrangementLane.tsx:42-58 | the total length of a reflowed lane is the sum of the reflowed lengths |
| ArrangementLane.SeedBeats | src/components/ProgressionEditor/ArrangementLane.tsx:86-90 | the seeded blocks take up at least one beat each |
| ArrangementLane.Seed | src/components/ProgressionEditor/ArrangementLane.tsx:84-91 | seeding makes one block per section in section order. Block `i` plays section `i` for its lane length under a fresh id, and starts after the blocks before it |
| ArrangementLane.KeepValid | src/components/ProgressionEditor/ArrangementLane.tsx:94 | the filter keeps exactly the blocks of the lane whose section still exists: every kept block is one of them, and every one of them is kept |
| ArrangementLane.KeepValidAppend | src/components/ProgressionEditor/ArrangementLane.tsx:94 | filtering a concatenation filters each part, so the kept blocks stay in their input order |
| ArrangementLane.KeepValidSingle | src/components/ProgressionEditor/ArrangementLane.tsx:94 | a single block is kept exactly when its section exists |
| ArrangementLane.Missing | src/components/ProgressionEditor/ArrangementLane.tsx:95-98 | the missing sections are sections that no kept block plays |
| ArrangementLane.AppendMissing | src/components/ProgressionEditor/ArrangementLane.tsx:104-110 | the kept blocks stay in front, followed by one block per missing section, in order |
| ArrangementLane.SeedEndToEnd | src/components/ProgressionEditor/ArrangementLane.tsx:84-91 | seeded blocks are laid end to end from the start beat |
| ArrangementLane.SyncSeedsEmptyLane | src/components/ProgressionEditor/ArrangementLane.tsx:83-92 | an empty lane gets one block per section, in section order, end to end from 0 |
| ArrangementLane.MissingAppend | src/components/ProgressionEditor/ArrangementLane.tsx:95-98 | the missing sections of a concatenation are those of each part, so they keep section order |
| ArrangementLane.MissingSingle | src/components/ProgressionEditor/ArrangementLane.tsx:95-98 | a single section is missing exactly when no kept block plays it |
| ArrangementLane.MissingComplete | src/components/ProgressionEditor/ArrangementLane.tsx:95-98 | every section no kept block plays is among the missing ones |
| ArrangementLane.SyncEndToEnd | src/components/ProgressionEditor/ArrangementLane.tsx:93-113 | after a sync of a non-empty lane, the lane is laid end to end from beat 0 |
| ArrangementLane.SyncBlocksHaveSections | src/components/ProgressionEditor/ArrangementLane.tsx:93-113 | after a sync of a non-empty lane, every block plays a section that exists |
| ArrangementLane.SyncCoversSections | src/components/ProgressionEditor/ArrangementLane.tsx:93-113 | after a sync of a non-empty lane, every section is played by some block |
| ArrangementLane.ReflowAppended | src/components/ProgressionEditor/ArrangementLane.tsx:103-112 | reflowing the kept blocks followed by the appended ones keeps each kept block's id, source, mode, repeats and intent in place, and each appended block has the id and source of its missing section |
| ArrangementLane.SyncKeepsValidInOrder | src/components/ProgressionEditor/ArrangementLane.tsx:93-113 | after a sync of a non-empty lane, the first blocks are the kept ones in their order, with their ids, sources, modes, repeats and intents, and only the missing sections' blocks follow |
| ArrangementLane.SyncAppendsMissing | src/components/ProgressionEditor/ArrangementLane.tsx:93-113 | after a sync of a non-empty lane, the blocks after the kept ones are new blocks for the missing sections, in section order, each with an id made from its section's id |
| ArrangementLane.AddSectionToLane | src/components/ProgressionEditor/ArrangementLane.tsx:138-145 | an unknown section id changes nothing; a known one appends one block for it and keeps every earlier block's id |
| ArrangementLane.WithoutId | src/components/ProgressionEditor/ArrangementLane.tsx:164 | the filter removes every block with the id |
| ArrangementLane.WithoutIdAppend | src/components/ProgressionEditor/ArrangementLane.tsx:164 | deleting from a concatenation deletes from each part, so the remaining blocks keep their order |
| ArrangementLane.WithoutIdSingle | src/components/ProgressionEditor/ArrangementLane.tsx:164 | a single block survives the delete exactly when it has another id |
| ArrangementLane.WithoutIdKeeps | src/components/ProgressionEditor/ArrangementLane.tsx:164 | every block with another id is kept |
| ArrangementLane.DeleteBlock | src/components/ProgressionEditor/ArrangementLane.tsx:161-167 | after a delete no block carries the deleted id |
| ArrangementLane.DeleteBlockEndToEnd | src/components/ProgressionEditor/ArrangementLane.tsx:161-167 | after a delete the lane is laid end to end from beat 0 again |
| ArrangementLane.DeleteBlockKeeps | src/components/ProgressionEditor/ArrangementLane.tsx:161-167 | every block with another id survives the delete, with its source |
| ArrangementLane.IndexOfId | src/components/ProgressionEditor/ArrangementLane.tsx:150 | `findIndex` gives the first block with the id, or -1 exactly when none has it |
| ArrangementLane.DuplicateBlockCorrect | src/components/ProgressionEditor/ArrangementLane.tsx:147-159 | a duplicate adds one block and the lane stays end to end from 0. The blocks up to the original keep their ids, and the copy comes right after it with a new id and the original's source. The rest keep their ids, shifted by one |
| ArrangementOutput.ClampMidi | src/services/output/ArrangementOutput.ts:38-39 | a clamped value lies in 0..127 and a value already there is kept |
| ArrangementOutput.SafeDuration | src/services/output/ArrangementOutput.ts:41 | a safe duration is at least a quarter beat, and a duration of a quarter beat or more is kept |
| ArrangementOutput.ValueAt | src/services/output/ArrangementOutput.ts:79-84 | an optional per-beat value is present exactly when the array is present and the index lies inside it |
| ArrangementOutput.Cursor | src/services/output/ArrangementOutput.ts:63-87 | chord `k` starts at least a quarter beat per earlier chord into its pass |
| ArrangementOutput.BlockRepeats | src/services/output/ArrangementOutput.ts:55 | a block plays at least once. Its own repeat count of 1 or more wins, and when that is absent or 0 the section's does |
| ArrangementOutput.PassStartNext | src/services/output/ArrangementOutput.ts:61-62 | passes follow one another with no gap: each is one section length long |
| ArrangementOutput.MakeEvent | src/services/output/ArrangementOutput.ts:66-86 | the pushed event is in range: notes and velocity in 0..127, gate in 1..200, strum not negative, duration at least a quarter beat. It carries the chord index, the block and section ids and the given start |
| ArrangementOutput.ChordEvent | src/services/output/ArrangementOutput.ts:61-88 | chord `k` of pass `r` starts `Cursor(k)` beats after the pass start and lasts its safe duration |
| ArrangementOutput.Pass | src/services/output/ArrangementOutput.ts:65-88 | one pass yields one event per chord, event `k` for chord `k` |
| ArrangementOutput.BlockEventsLoop | src/services/output/ArrangementOutput.ts:51-90 | the block loops, with `sectionLength` from the `reduce`, compute the block's events |
| ArrangementOutput.PassLoop | src/services/output/ArrangementOutput.ts:61-89 | the inner `forEach` with its running `chordCursor` from 0 computes one pass |
| ArrangementOutput.PassesLength | src/services/output/ArrangementOutput.ts:61-89 | a block yields repeats × chords events |
| ArrangementOutput.PassesAt | src/services/output/ArrangementOutput.ts:61-89 | the event at `r * n + k` is chord `k` of pass `r` |
| ArrangementOutput.BlockEventsInRange | src/services/output/ArrangementOutput.ts:61-89 | every event of a block has its fields in range |
| ArrangementOutput.PassSpan | src/services/output/ArrangementOutput.ts:61-89 | a pass leaves no gap and no overlap: it starts at its pass start and ends where the next pass starts |
| ArrangementOutput.PassesSpan | src/services/output/ArrangementOutput.ts:61-89 | the events of a block leave no gap and no overlap, across pass boundaries too. They start at the block's start and end `repeats × sectionLength` later |
| ArrangementOutput.BlockCount | src/services/output/ArrangementOutput.ts:52-55 | a block contributes a non-negative number of events |
| ArrangementOutput.BuildCount | src/services/output/ArrangementOutput.ts:43-93 | there are as many events as the blocks' repeats × chords summed; a block whose section is missing adds none, and sorting the blocks does not change the count |
| ArrangementOutput.BuildSortedInRange | src/services/output/ArrangementOutput.ts:43-93 | the built events are ordered by start beat, are a permutation of the events collected from the blocks in start order, keep that order among events with equal start beats, and every one has its fields in range |
| ArrangementOutput.TotalBeats | src/services/output/ArrangementOutput.ts:104-107 | the total is not negative, reaches the end of every event, and is 0 or the end of some event |
| ArrangementOutput.CreateArrangementSnapshot | src/services/output/ArrangementOutput.ts:95-119 | the snapshot holds the built events, the given sections and blocks and their count. An absent or zero tempo becomes 120 and an absent or empty signature "4/4". The total covers the end of every event |
| ArrangementOutput.Gap | src/services/output/ArrangementOutput.ts:128-134 | a rest is inserted exactly when the event starts after the cursor; it has no notes and a positive duration |
| ArrangementOutput.ToOscProgression | src/services/output/ArrangementOutput.ts:121-122 | no events give an empty progression |
| ArrangementOutput.FillDuration | src/services/output/ArrangementOutput.ts:124-141 | the filled progression lasts exactly as long as the cursor moved |
| ArrangementOutput.FillSplit | src/services/output/ArrangementOutput.ts:127-141 | the filled progression splits at event `k` into what comes before, its rest (if any), its chord and the rest |
| ArrangementOutput.FillTiming | src/services/output/ArrangementOutput.ts:127-141 | in the filled progression the chord of event `k` begins at `max(cursor, startBeat)`: an event is never played early |
| ArrangementOutput.FillContiguous | src/services/output/ArrangementOutput.ts:127-141 | events that start where the previous one ends, from the cursor, need no rest at all |
| ArrangementOutput.ContiguousSorted | src/services/output/ArrangementOutput.ts:123 | contiguous events with positive durations are already in start order, so the sort keeps them as they are |
| ArrangementOutput.BlockOscProgression | src/services/output/ArrangementOutput.ts:121-144 | a single block starting at beat 0 plays on the OSC bridge as its chords, pass after pass, with no rest inserted |
| MidiFile.Lead | src/services/output/ArrangementOutput.ts:147-152 | every leading group of a quantity has its continuation bit set |
| MidiFile.EncodeVarLen | src/services/output/ArrangementOutput.ts:146-159 | a quantity is at least one byte; every byte but the last has bit 7 set and the last has it clear |
| MidiFile.DecodeVarLen | src/services/output/ArrangementOutput.ts:146-159 | the reader of variable-length quantities always consumes at least one byte |
| MidiFile.DecodeLead | src/services/output/ArrangementOutput.ts:147-152 | reading the leading groups shifts each of their seven bits into the accumulator |
| MidiFile.VarLenRoundTrip | src/services/output/ArrangementOutput.ts:146-159 | decoding what `encodeVarLen` wrote gives back the value and leaves the following bytes untouched |
| MidiFile.VarLenLength | src/services/output/ArrangementOutput.ts:146-159 | a value takes at most `k + 1` bytes exactly when it is below 128^(k+1) |
| MidiFile.VarLenAtMostFour | src/services/output/ArrangementOutput.ts:146-159 | every value below 2^28 takes one to four bytes |
| MidiFile.EncodeVarLenLoop | src/services/output/ArrangementOutput.ts:146-159 | the two loops on an unbounded buffer compute the quantity: the first packs the groups and the second emits bytes until one has bit 7 clear |
| MidiFile.EncodeVarLenAsWrittenHangs | src/services/output/ArrangementOutput.ts:146-159 | with JavaScript's 32-bit `<<=` and `>>=`, the value 2^28 never leaves the second loop, however many iterations are allowed |
| MidiFile.EncodeVarLenAsWrittenAgrees | src/services/output/ArrangementOutput.ts:146-159 | below 2^28 the 32-bit loops emit exactly the quantity, within four iterations |
| MidiFile.U32 | src/services/output/ArrangementOutput.ts:161-166 | `pushU32` writes four bytes |
| MidiFile.U32RoundTrip | src/services/output/ArrangementOutput.ts:161-166 | reading back the four big-endian bytes gives the value modulo 2^32 |
| MidiFile.JsRound | src/services/output/ArrangementOutput.ts:196-198 | `Math.round` lands within half a unit of its argument, halves rounding up |
| MidiFile.StartTick | src/services/output/ArrangementOutput.ts:196 | a start tick is never negative |
| MidiFile.DurationTicks | src/services/output/ArrangementOutput.ts:197-198 | a note lasts at least one tick |
| MidiFile.NoteMessages | src/services/output/ArrangementOutput.ts:201-214 | each note yields two messages |
| MidiFile.MessageKeyOrder | src/services/output/ArrangementOutput.ts:217-220 | the sort key orders messages by tick first and by status between messages at the same tick |
| MidiFile.TimelineOrdered | src/services/output/ArrangementOutput.ts:217-220 | the timeline is ordered by tick and, at equal ticks, by status, so a note-off (0x80) comes before a note-on (0x90) at the same tick |
| MidiFile.TimelineCounts | src/services/output/ArrangementOutput.ts:195-220 | each note yields exactly one note-on and one note-off: for `n` notes the sorted timeline holds `n` of each status, `2n` messages and no other status |
| MidiFile.TimelineTicks | src/services/output/ArrangementOutput.ts:195-220 | no message of the timeline lies before tick 0 |
| MidiFile.Header | src/services/output/ArrangementOutput.ts:248-253 | the header chunk is fourteen bytes |
| MidiFile.Deltas | src/services/output/ArrangementOutput.ts:234-244 | one delta message per timeline message |
| MidiFile.Accumulate | src/services/output/ArrangementOutput.ts:234-244 | summing the deltas gives one absolute message per delta message |
| MidiFile.MessagesRoundTrip | src/services/output/ArrangementOutput.ts:234-246 | the channel messages written with their delta-times, followed by the end-of-track event, read back as the delta messages |
| MidiFile.MetaRoundTrip | src/services/output/ArrangementOutput.ts:223-225 | a meta event reads back as its type and data, leaving what follows |
| MidiFile.AccumulateDeltas | src/services/output/ArrangementOutput.ts:234-244 | for ticks that never go back, from the starting tick on, summing the deltas restores them |
| MidiFile.TrackRoundTrip | src/services/output/ArrangementOutput.ts:222-246 | a track reads back as the tempo data, the time-signature data and the timeline's delta messages; no status is taken for a meta event |
| MidiFile.TimelineStatuses | src/services/output/ArrangementOutput.ts:195-214 | no timeline message has the meta status 0xFF |
| MidiFile.TimelineRecovered | src/services/output/ArrangementOutput.ts:234-244 | the decoded messages, with their deltas summed from tick 0, are exactly the sorted timeline: the delta-times lose nothing because the timeline never goes back |
| MidiFile.DecodeFileFields | src/services/output/ArrangementOutput.ts:248-257 | the reader accepts any byte string whose fixed header and track fields are in place |
| MidiFile.FileLayout | src/services/output/ArrangementOutput.ts:248-257 | the header with a track chunk reads back as the ticks per quarter note (modulo 2^16) and the track |
| MidiFile.FileRoundTrip | src/services/output/ArrangementOutput.ts:176-260 | `toMidiFileBytes` reads back as its ticks per quarter note (as 16 bits) and its track |
| MidiFile.TrackEnds | src/services/output/ArrangementOutput.ts:246 | the track data ends with the end-of-track meta event `00 FF 2F 00` |
| LoopTimeline.MidiToNoteName | src/components/ProgressionEditor/LoopTimeline.tsx:40-56 | a non-negative note reads the name of its pitch class; a name is found exactly when JavaScript's sign-keeping remainder is not negative |
| LoopTimeline.NoteNamesPeriodic | src/components/ProgressionEditor/LoopTimeline.tsx:40-56 | names repeat every octave, and the twelve pitch classes have twelve different names |
| LoopTimeline.SectionPositions | src/components/ProgressionEditor/LoopTimeline.tsx:473-485 | one position per section; each ends its section's total beats after it starts |
| LoopTimeline.SectionPositionsLoop | src/components/ProgressionEditor/LoopTimeline.tsx:473-485 | the `map` with its running `cumulativeBeat` computes the positions |
| LoopTimeline.PositionsContiguous | src/components/ProgressionEditor/LoopTimeline.tsx:473-485 | the positions tile the timeline: the first starts at 0 and each starts where the previous one ends |
| LoopTimeline.TimelineBeatsIsSpan | src/components/ProgressionEditor/LoopTimeline.tsx:488-494 | the timeline is as long as all sections' total beats together |
| LoopTimeline.ClockFields | src/components/ProgressionEditor/LoopTimeline.tsx:83-86 | the minutes are not negative and the seconds lie in 0..59; together they are the whole seconds of the input, negatives counted as 0 |
| LoopTimeline.ClockFieldsSum | src/components/ProgressionEditor/LoopTimeline.tsx:84-86 | `Math.floor(safe / 60)` minutes and the floored remainder make up the whole seconds |
| LoopTimeline.Field | src/components/ProgressionEditor/LoopTimeline.tsx:87 | a padded field has at least two digits (exactly two below 100) and reads back as its number |
| LoopTimeline.ClockTextShape | src/components/ProgressionEditor/LoopTimeline.tsx:87 | the clock text is the minutes, a colon and the two seconds digits |
| LoopTimeline.ParsePadded | src/components/ProgressionEditor/LoopTimeline.tsx:87 | zero padding keeps a digit string's value |
| LoopTimeline.ParseClockOf | src/components/ProgressionEditor/LoopTimeline.tsx:87 | two digit fields joined by a colon read back as those fields |
| LoopTimeline.ClockRoundTrip | src/components/ProgressionEditor/LoopTimeline.tsx:83-88 | the clock text carries exactly the whole minutes and seconds of the input |
| LoopTimeline.JsRemR | src/components/ProgressionEditor/LoopTimeline.tsx:522 | JavaScript's `%` on a non-negative number lies in `[0, \|divisor\|)` |
| LoopTimeline.FindActive | src/components/ProgressionEditor/LoopTimeline.tsx:523-525 | `findIndex` gives the first position holding the beat in `[start, end)`, or -1 exactly when none does |
| LoopTimeline.BeatsPerBar | src/components/ProgressionEditor/LoopTimeline.tsx:532 | `beatsPerBar \|\| 4` is never 0 |
| LoopTimeline.ActiveSection | src/components/ProgressionEditor/LoopTimeline.tsx:518-529 | the active section, when there is one, holds the folded playhead |
| LoopTimeline.ReadoutBounds | src/components/ProgressionEditor/LoopTimeline.tsx:533-535 | the readout shows bar 1 or later and a beat within the bar |
| LoopTimeline.BarsBeforeNonNegative | src/components/ProgressionEditor/LoopTimeline.tsx:537-540 | with measured sections the bars before the active one are never negative |
| LoopTimeline.LoopedInRange | src/components/ProgressionEditor/LoopTimeline.tsx:522 | the folded playhead lies in `[0, total)` whenever the sections hold beats, negative playheads included |
| LoopTimeline.BarAndBeatBounds | src/components/ProgressionEditor/LoopTimeline.tsx:517-546 | the bar readout is at least 1:1, and the beat never exceeds the active section's beats to the bar |
| LoopTimeline.ActiveBeatInSection | src/components/ProgressionEditor/LoopTimeline.tsx:819-832 | a section's active beat is whole and below the section's length. It is found exactly when the total is not 0 and the playhead, folded by `%` without the sign fix, lies in the section |
| LoopTimeline.ActiveBeatBelowTotal | src/components/ProgressionEditor/LoopTimeline.tsx:819-832 | on the component's own positions, an active beat is below the section's total beats |
| LoopTimeline.HandleDragEndAsWritten | src/components/ProgressionEditor/LoopTimeline.tsx:835-841 | equal indices return early and leave the sections as they were |
| LoopTimeline.HandleDragEndAsWrittenFails | src/components/ProgressionEditor/LoopTimeline.tsx:835-841 | every real drag between two different places fails: `reorderSection` is not defined by the progression store |
| LoopTimeline.MoveItem | src/components/ProgressionEditor/LoopTimeline.tsx:835-841 | a move keeps the length and puts the moved item at its target |
| LoopTimeline.MoveItemPermutes | src/components/ProgressionEditor/LoopTimeline.tsx:835-841 | a move only reorders: the same items with the same multiplicities |
| LoopTimeline.MoveItemBack | src/components/ProgressionEditor/LoopTimeline.tsx:835-841 | moving back undoes a move |
| LoopTimeline.HandleDragEnd | src/components/ProgressionEditor/LoopTimeline.tsx:835-841 | the corrected drag puts the dragged section at the target, keeps the count, and does nothing for equal indices |
| Hardware.ParseRelativeCc | src/services/hardware/HardwareService.ts:142-155 | the encoder index is the CC minus 14. Values up to 64 turn clockwise by the value, and larger ones turn by the value minus 128 (negative, congruent mod 128) |
| Hardware.EncodeRelative | src/services/hardware/HardwareService.ts:139-141 | a turn of -63..64 steps is sent as a 7-bit value |
| Hardware.RelativeRoundTrip | src/services/hardware/HardwareService.ts:142-155 | every turn the controller can send decodes to itself |
| Hardware.RelativeValueRoundTrip | src/services/hardware/HardwareService.ts:142-155 | every 7-bit value decodes to a turn in -63..64 that encodes back to it |
| Hardware.EncoderIndexRange | src/services/hardware/HardwareService.ts:15-16 | exactly the CCs 14..21 map onto encoder indices 0..7 |
| Hardware.RelativeExamples | src/services/hardware/HardwareService.ts:139-155 | 1 turns one step clockwise and 127 one step back; 64 is the largest clockwise turn and 65 reads -63 |
| Hardware.CodeUnits | src/services/hardware/HardwareService.ts:116 | a character becomes one UTF-16 code unit below U+10000 and a surrogate pair above |
| Hardware.TextBytesBmp | src/services/hardware/HardwareService.ts:105-117 | text below U+10000 becomes one number per character, with the note sign turned into the icon byte 0x0B |
| Hardware.DisplayFrame | src/services/hardware/HardwareService.ts:119-129 | the frame is the SysEx header, line, colour and alignment, then the text bytes, then 0xF7 |
| Hardware.DisplayFrameRoundTrip | src/services/hardware/HardwareService.ts:119-129 | a display frame reads back as its line, colour and text bytes |
| Hardware.UpdateDisplay | src/services/hardware/HardwareService.ts:90-136 | nothing is sent without an output port or without SysEx. Otherwise one frame is sent, and it reads back as the line, colour and text |
| Hardware.ParseChannelMessage | src/services/hardware/HardwareService.ts:163-169 | a three-byte message with a channel status (0x80..0xEF) is read back, and nothing else is: the status splits into its kind (0x8..0xE) and channel (0..15), and the data bytes are kept |
| Hardware.SetPadState | src/services/hardware/HardwareService.ts:162-169 | without an output port nothing is sent; otherwise one note-on on channel 1 for the pad's note with the mode as velocity |
| Hardware.InitializeNativeMode | src/services/hardware/HardwareService.ts:64-82 | without an output or SysEx nothing is sent; otherwise the handshake (note-off, note 0, velocity 127, channel 16) and then a green "CHORD GEN" title on line 0 |
| LiveStore.Play | src/stores/liveStore.ts:165-171 | play sets the transport playing and changes nothing else |
| LiveStore.Pause | src/stores/liveStore.ts:173-178 | pause stops playback and keeps the position, tempo, tracks and selection |
| LiveStore.Stop | src/stores/liveStore.ts:180-185 | stop halts playback and rewinds to beat 0 while keeping the tempo |
| LiveStore.JumpByBars | src/stores/liveStore.ts:187-194 | while linked to Live the local state is left alone. Offline, the position moves by four beats per bar, and a target before beat 0 lands exactly on 0; only the position changes |
| LiveStore.JumpToBeat | src/stores/liveStore.ts:196-202 | while linked the local state is left alone. Offline, the position becomes the beat, with negative beats clamped to 0; only the position changes |
| LiveStore.JumpBackRestores | src/stores/liveStore.ts:187-194 | offline, jumping forward and then back by the same number of bars returns to the starting state |
| LiveStore.LocalControlsKeepBeat | src/stores/liveStore.ts:165-202 | no transport action ever makes the playback position negative |
| LiveStore.SetTempo | src/stores/liveStore.ts:145-150 | the tempo is stored and the rest of the transport is kept |
| LiveStore.SelectTrack | src/stores/liveStore.ts:152-154 | the selected track becomes the index and nothing else changes |
| LiveStore.Disconnect | src/stores/liveStore.ts:156-162 | disconnecting clears the connection flag and the track list and keeps the transport |
| LiveStore.InitializeOsc | src/stores/liveStore.ts:63-126 | a successful connection marks the store connected; a failed one leaves it as it was |
| LiveStore.ProgressionTrack | src/stores/liveStore.ts:128-135 | a progression goes to the given track, or else to the selected one |
| LiveStore.OnTransportUpdate | src/stores/liveStore.ts:68-76 | a transport message sets playing exactly when its first argument is 1, and copies the beat and tempo |
| LiveStore.FindTrack | src/stores/liveStore.ts:85-87 | the position of the first track with the index, or -1 exactly when there is none |
| LiveStore.OnTrackInfo | src/stores/liveStore.ts:78-105 | a track message changes only the track list |
| LiveStore.TrackInfoUpsert | src/stores/liveStore.ts:78-105 | a track message replaces the track with the same index, or appends it. Indices stay unique and other tracks are untouched |
| LiveStore.TrackInfoIdempotent | src/stores/liveStore.ts:78-105 | repeating the same track message changes nothing |
| OscService.SendOscMessage | src/services/live/OSCService.ts:122-136 | nothing is sent unless a port exists and is connected. Otherwise one message goes to the address; an array argument is sent as the argument list and anything else is wrapped as a single argument |
| OscService.OnReady | src/services/live/OSCService.ts:36-43 | once the port is ready it counts as connected and sends the handshake (version "1.0.0", client "chordgen-pro") |
| OscService.OnError | src/services/live/OSCService.ts:49-53 | a port error keeps the port but marks it disconnected |
| OscService.CloseOsc | src/services/live/OSCService.ts:193-199 | closing drops the port and marks it disconnected; with no port nothing changes |
| OscService.ClosedSendsNothing | src/services/live/OSCService.ts:122-199 | after closing, every send is dropped |
| OscService.CommandArguments | src/services/live/OSCService.ts:169-213 | transport and track requests carry no arguments, the tempo goes as one number, and a raw send passes its arguments through unchanged |
| OscService.ChordNotes | src/services/live/OSCService.ts:151-158 | a chord yields one note per pitch |
| OscService.FlattenNotes | src/services/live/OSCService.ts:146-160 | the flat list holds one note per pitch across all chords |
| OscService.NoteCountPrefix | src/services/live/OSCService.ts:146-160 | the notes of chords up to and including one chord fit inside the flat list |
| OscService.FlattenNoteAt | src/services/live/OSCService.ts:146-160 | pitch j of chord k lands after the earlier chords' notes. It starts at the summed duration of the earlier chords, lasts the chord's duration, and has velocity 100 |
| OscService.FlattenNotesLoop | src/services/live/OSCService.ts:146-160 | the forEach loop that advances currentBeat builds exactly the flat note list |
| OscService.CreateProgression | src/services/live/OSCService.ts:141-167 | when connected, one create-progression message is sent. Track 0 is the default, start -1 means the current position, and the message carries every note of the progression |
| OscService.CreateProgressionCarriesNotes | src/services/live/OSCService.ts:141-167 | the message sent carries pitch `j` of chord `k` after the notes of the earlier chords, starting at the sum of their durations, lasting the chord's duration at velocity 100 |
| OscService.OnOscMessage | src/services/live/OSCService.ts:98-105 | registering appends the handler to its address's list and leaves every other address alone |
| OscService.IndexOf | src/services/live/OSCService.ts:111 | the first position of the handler, or -1 exactly when it is absent |
| OscService.Unsubscribe | src/services/live/OSCService.ts:108-116 | unsubscribing removes the first occurrence of the handler from its address, keeping the other handlers in order; an absent handler and every other address are left alone |
| OscService.UnsubscribeFirstExample | src/services/live/OSCService.ts:108-116 | unsubscribing 1 from [1, 2, 1] leaves [2, 1], and from [1, 2, 3] leaves [2, 3] |
| OscService.SubscribeUnsubscribe | src/services/live/OSCService.ts:98-116 | registering then calling the returned unsubscribe leaves every handler list with its original contents |
| OscService.UnsubscribeOnce | src/services/live/OSCService.ts:98-116 | for a handler not yet registered, subscribe then unsubscribe restores the list exactly |
| OscService.CallsWith | src/services/live/OSCService.ts:85 | every handler is called once, in order, with the same argument |
| OscService.Dispatch | src/services/live/OSCService.ts:76-93 | an incoming message calls the address's handlers with the arguments, then the wildcard handlers with address and arguments |
| OscService.SubscribedHandlerCalled | src/services/live/OSCService.ts:76-105 | a newly registered handler is called right after the existing handlers of its address, and the other calls are unchanged |
| OscService.OtherAddressNotCalled | src/services/live/OSCService.ts:76-105 | a handler registered on a different (non-wildcard) address is not called |
| OscRouter.At | m4l-helper/code/osc_router.js:23-26 | reading an index of the flat array gives its value, or undefined past the end |
| OscRouter.RecordCount | m4l-helper/code/osc_router.js:21 | the loop makes one record per started group of four values, rounding up |
| OscRouter.FormatNotes | m4l-helper/code/osc_router.js:18-32 | there is one record per group of four, rounding up. Record i is unmuted and holds values 4i, 4i+1, 4i+2 and 4i+3 as its pitch, start time, duration and velocity; a value past the end is undefined |
| OscRouter.FormatNotesLoop | m4l-helper/code/osc_router.js:18-32 | the stride-4 loop builds exactly the list of records |
| OscRouter.Flatten | m4l-helper/code/osc_router.js:14-17 | complete records flatten to four numbers each |
| OscRouter.FlattenAt | m4l-helper/code/osc_router.js:14-17 | record i sits at positions 4i..4i+3 of the flat array as pitch, start, duration and velocity |
| OscRouter.FormatFlattenRoundTrip | m4l-helper/code/osc_router.js:18-32 | regrouping a flattened list of complete unmuted notes gives the notes back |
| OscRouter.FlattenFormatRoundTrip | m4l-helper/code/osc_router.js:18-32 | a flat array whose length is a multiple of four regroups into complete records that flatten back to it |
| OscRouter.UpdateTransport | m4l-helper/code/osc_router.js:68-71 | the router keeps exactly the triple and forwards the same three values under /live/transport on outlet 1 |
| OscRouter.CreateClipCarriesNotes | m4l-helper/code/osc_router.js:37-49 | notes sent flat reach the create_clip call on outlet 0 unchanged, followed by a success response |
| OscRouter.ObservationAddresses | m4l-helper/code/osc_router.js:54-78 | responses, errors and track info leave on outlet 1 under the addresses the application subscribes to, with their values in handler order |
| OscRouter.TransportReachesStore | m4l-helper/code/osc_router.js:68-71 | after the application handles a forwarded transport update, its transport matches the router's copy (playing means 1) |
| OutputAdapters.TableIdsUnique | src/services/output/OutputAdapters.ts:15-52 | the table holds live-osc, json-file, midi-file and webmidi-out in that order, and no two share an id |
| OutputAdapters.FindById | src/services/output/OutputAdapters.ts:54-56 | the search returns an adapter with that id from the list, and returns nothing exactly when no adapter has it |
| OutputAdapters.GetAdapterById | src/services/output/OutputAdapters.ts:54-56 | looking up an id gives the table's adapter with that id, or undefined exactly when no adapter has it |
| OutputAdapters.FindOwnId | src/services/output/OutputAdapters.ts:54-56 | with unique ids, looking up an adapter's own id finds that adapter |
| OutputAdapters.GetAdapterOwnId | src/services/output/OutputAdapters.ts:54-56 | every table adapter is found by its own id |
| OutputAdapters.Filter | src/services/output/OutputAdapters.ts:61 | the filter keeps exactly the adapters that pass the test and never grows the list |
| OutputAdapters.FilterAppend | src/services/output/OutputAdapters.ts:61 | filtering a concatenation is concatenating the filtered parts, so the order is kept |
| OutputAdapters.GetAdaptersByTransport | src/services/output/OutputAdapters.ts:58-62 | exactly the table's adapters with that transport |
| OutputAdapters.GetAvailableAdaptersByFormat | src/services/output/OutputAdapters.ts:64-70 | exactly the table's available adapters with that format |
| OutputAdapters.OscTransportAdapters | src/services/output/OutputAdapters.ts:58-62 | only Live OSC uses the OSC transport |
| OutputAdapters.FileTransportAdapters | src/services/output/OutputAdapters.ts:58-62 | the JSON and MIDI file exports, in table order, are the file adapters |
| OutputAdapters.MidiTransportAdapters | src/services/output/OutputAdapters.ts:58-62 | only General MIDI Out uses the MIDI transport |
| OutputAdapters.MidiFormatAdapters | src/services/output/OutputAdapters.ts:64-70 | the available MIDI-format adapters are the MIDI file and General MIDI Out |
| RoutingStore.WithRoute | src/stores/routingStore.ts:62 | the chosen route key takes the id and every other field is kept |
| RoutingStore.SetRoute | src/stores/routingStore.ts:59-63 | an id that names no adapter leaves the state unchanged; a known id is stored under the key |
| RoutingStore.DefaultsKnown | src/stores/routingStore.ts:36-53 | every default route names an existing adapter |
| RoutingStore.SetRouteKeepsKnown | src/stores/routingStore.ts:59-63 | once every route names an existing adapter, setting a route keeps it so |
| RoutingStore.SafeChannel | src/stores/routingStore.ts:68 | the channel is floored into 1..16, and zero or anything below 1 becomes 1 |
| RoutingStore.SafeChannelExamples | src/stores/routingStore.ts:68 | 0 becomes 1, 99 becomes 16, and 12 stays 12 |
| RoutingStore.SetMidiOutChannel | src/stores/routingStore.ts:67-70 | the output channel becomes the safe channel and every other field is kept |
| RoutingStore.SetModeDefaultChannel | src/stores/routingStore.ts:71-79 | one mode's default channel becomes the safe channel, the other modes keep theirs, and no other field changes |
| RoutingStore.ChannelsStayValid | src/stores/routingStore.ts:36-79 | from the defaults on, every channel in the store stays within 1..16 |
| RoutingStore.Cap | src/stores/routingStore.ts:96 | the history keeps its newest 40 events, in order |
| RoutingStore.Push | src/stores/routingStore.ts:88-96 | a new event goes to the front and the older ones follow, capped at 40 |
| RoutingStore.PushConnectionEvent | src/stores/routingStore.ts:99-112 | the event, with id evt-now-token, is pushed to the front and every other field is kept |
| RoutingStore.SetMidiOutSignal | src/stores/routingStore.ts:83-98 | the last signal and its time are stored, a "midi" event with the signal is pushed, and no other field changes |
| RoutingStore.ClearConnectionEvents | src/stores/routingStore.ts:113-115 | the history is emptied and nothing else changes |
| RoutingStore.PulseMidiOut | src/stores/routingStore.ts:80-82 | the pulse time becomes now and nothing else changes |
| RoutingStore.SetMidiOutDeviceId | src/stores/routingStore.ts:64-66 | the device id is stored, null included, and nothing else changes |
| RoutingStore.SetShowHeaderConnectionCards | src/stores/routingStore.ts:116-118 | the header-card flag is stored and nothing else changes |
| RoutingStore.HistoryStaysBounded | src/stores/routingStore.ts:83-115 | the history never holds more than 40 events |
| RoutingStore.PushAllNewestFirst | src/stores/routingStore.ts:99-112 | pushing a run of events one by one leaves the newest 40, newest first, ahead of the old history |
| ExpandableTimeline.MergeSizes | src/hooks/useExpandableTimeline.ts:19-40 | a given size replaces its default, and every size not given keeps the default (80, 200, 400, 0) |
| ExpandableTimeline.Height | src/hooks/useExpandableTimeline.ts:50 | the height is the custom height when one is set, else the current mode's preset |
| ExpandableTimeline.ChangeMode | src/hooks/useExpandableTimeline.ts:53-60 | changing mode drops the custom height, so the height becomes the new mode's preset; the dragging flag and the drag start point and height are kept |
| ExpandableTimeline.Toggle | src/hooks/useExpandableTimeline.ts:63-66 | toggle goes from normal to expanded and from any other mode to normal |
| ExpandableTimeline.ToggleTwice | src/hooks/useExpandableTimeline.ts:63-66 | toggling twice from normal or expanded returns to the same mode |
| ExpandableTimeline.CycleIndex | src/hooks/useExpandableTimeline.ts:70-76 | every mode has a position in the cycle collapsed, normal, expanded, fullscreen |
| ExpandableTimeline.CycleMode | src/hooks/useExpandableTimeline.ts:69-79 | cycling moves to the next mode in that order, wrapping around, and drops the custom height |
| ExpandableTimeline.CycleFour | src/hooks/useExpandableTimeline.ts:69-79 | four cycles return to the starting mode |
| ExpandableTimeline.CycleVisitsAll | src/hooks/useExpandableTimeline.ts:69-79 | every mode is reached by cycling from some mode |
| ExpandableTimeline.DragStart | src/hooks/useExpandableTimeline.ts:82-90 | a drag starts from the pointer position and the current height; the mode and custom height are kept |
| ExpandableTimeline.DragEnd | src/hooks/useExpandableTimeline.ts:119-121 | ending a drag clears the dragging flag and keeps every other field |
| ExpandableTimeline.DraggedHeight | src/hooks/useExpandableTimeline.ts:97-101 | the dragged height is clamped to 80..800 |
| ExpandableTimeline.Drag | src/hooks/useExpandableTimeline.ts:93-96 | a pointer move outside a drag changes nothing |
| ExpandableTimeline.DragOutcome | src/hooks/useExpandableTimeline.ts:93-116 | a drag sets the clamped height, or snaps to a non-fullscreen preset within 20 and switches to that mode; the dragging flag and the drag start point and height are kept |
| ExpandableTimeline.DragHeightBounded | src/hooks/useExpandableTimeline.ts:93-116 | with the default sizes, the height after a drag stays within 80..800 |
| ExpandableTimeline.DragSnapsDefault | src/hooks/useExpandableTimeline.ts:105-113 | with the default sizes, a height within 20 of a non-fullscreen preset snaps to it and selects its mode |
| ExpandableTimeline.DragWithoutSnap | src/hooks/useExpandableTimeline.ts:97-113 | a height near no preset is kept as dragged and the mode is unchanged |
| ExpandableTimeline.LadderInverse | src/hooks/useExpandableTimeline.ts:153-167 | Ctrl+Up and Ctrl+Down step through the same ladder in opposite directions. Fullscreen has no step up and collapsed has no step down |
| ExpandableTimeline.Up | src/hooks/useExpandableTimeline.ts:154-159 | Ctrl+Up moves one place along collapsed, normal, expanded, fullscreen, and has nowhere to go exactly from fullscreen |
| ExpandableTimeline.Down | src/hooks/useExpandableTimeline.ts:162-167 | Ctrl+Down moves one place back along that order, and has nowhere to go exactly from collapsed |
| ExpandableTimeline.CtrlUp | src/hooks/useExpandableTimeline.ts:153-159 | Ctrl or Cmd with Up moves one step up the ladder and does nothing in fullscreen |
| ExpandableTimeline.CtrlDown | src/hooks/useExpandableTimeline.ts:161-167 | Ctrl or Cmd with Down moves one step down and does nothing when collapsed |
| ExpandableTimeline.EscapeKey | src/hooks/useExpandableTimeline.ts:147-151 | Escape leaves fullscreen for normal and does nothing in any other mode |
| ExpandableTimeline.LetterTKey | src/hooks/useExpandableTimeline.ts:135-145 | T toggles. Shift+T ends in normal from fullscreen and in fullscreen from any other mode, since it reads the mode from before the toggle |
| ExpandableTimeline.FocusedInputIgnored | src/hooks/useExpandableTimeline.ts:125-133 | no key does anything while an input, text area or select has focus |
| ExpandableTimeline.HandleKey | src/hooks/useExpandableTimeline.ts:125-168 | while an input, text area or select has focus, a key press leaves the state as it was |
| Song.OrInt | src/components/ProgressionEditor/ArrangementLane.tsx:27 | `x \|\| d` on a number: an absent value or 0 gives the default, and any other value is kept |
| Song.FindSectionByIdLast | src/services/output/ArrangementOutput.ts:47 | when several sections share an id, the lookup map yields the last of them |
| Sorting.SortByCorrect | src/services/output/ArrangementOutput.ts:48 | sorting by start beat orders the items, keeps them as a permutation, and keeps items with equal keys in their input order (stable) |
| Sorting.SortBySortedIdentity | src/services/output/ArrangementOutput.ts:123 | sorting an already ordered list changes nothing |
| Sorting.SortIntsCorrect | src/services/musicTheory/MusicTheoryEngine.ts:137 | the numeric sort orders the notes ascending and keeps them as a permutation |
| Sorting.SortedKeys | src/stores/progressionStore.ts:399 | the names come out in ascending order with every key exactly once |
| Text.TrimStart | src/services/progression/ProgressionManager.ts:347 | `parseInt` skips leading white space: the result is a suffix of the input, does not start with white space, and what was removed is all white space |
| Text.TrimEnd | tools/extract/extract.js:22 | the result is a prefix of the input, does not end with white space, and what was removed is all white space |
| Text.Trim | tools/extract/extract.js:22 | trimming leaves a slice of the input with no white space at either end, and everything removed before and after the slice is white space |
| Text.WordsAreWords | src/services/progression/ProgressionManager.ts:370-373 | every token is non-empty and holds no white space |
| Text.WordsJoin | src/services/progression/ProgressionManager.ts:370-373 | splitting words joined by single spaces on white space gives the words back |
| Text.SlugCorrect | src/services/progression/ProgressionManager.ts:382 | the id part holds only lower-case letters, digits and single underscores, and slugging it again changes nothing |
| Text.AsciiLowerIdempotent | src/services/progression/ProgressionManager.ts:292-298 | lower-casing twice is lower-casing once |
| Text.JsParseIntDigits | src/services/progression/ProgressionManager.ts:347 | parseInt reads a digit string as its decimal value |
| Text.JsParseIntMinusDigits | src/services/progression/ProgressionManager.ts:347 | parseInt reads a minus sign and digits as the negated value |
| Text.JsParseIntRoundTrip | src/services/progression/ProgressionManager.ts:347 | parseInt reads back the decimal rendering of a natural number |
| Text.JsParseIntNaN | src/services/progression/ProgressionManager.ts:347 | a string starting with a letter or another non-sign symbol reads as NaN |
| Text.JsParseIntHex | src/services/progression/ProgressionManager.ts:347 | with no radix, a `0x` prefix reads hexadecimal: "0x1A" is 26 and "-0x1A" is -26 |
| Text.JsParseIntSigned | src/services/progression/ProgressionManager.ts:347 | once no white space leads, parseInt reads the magnitude after the sign and negates it exactly after a minus |
| Text.PadStartZeros | src/components/ProgressionEditor/LoopTimeline.tsx:87 | padding keeps the string at the end, fills the front with zeros, and reaches the width unless the string is already longer |
| Text.IntToStringRoundTrip | rewrite_lines.py:66-67 | a rendered integer parses back to itself |

## Left out

- I/O is outside the model. This covers reading and writing the patcher file (rewrite_lines.py:4, 76), Web MIDI access and port selection (`initializeMIDIAccess`, `setupMIDIInput`, `getMIDIPorts`, `selectMIDIPorts` in HardwareService.ts), the UDP port of `initializeOSC`, `triggerBrowserDownload`, `localStorage` persistence of the Zustand stores, and the `main` function of extract.js. Each operation's result stands for what would be written or sent.
- Random ids and the clock are parameters. This covers `Math.random` and `Date.now` in routingStore.ts and ProgressionManager.ts, and the random block ids of ArrangementLane.tsx.
- Floating point is modelled with reals. Beats, durations and seconds are exact rationals, and `Math.round` is `floor(x + 0.5)`. NaN, infinities and rounding error are not modelled.
- `parseTimeSignature` (a base-2 logarithm) and the tempo-to-microseconds division are not modelled. The tempo and time-signature bytes of `toMidiFileBytes` are inputs.
- The connected branches of `play`, `pause`, `stop`, `jumpByBars` and `jumpToBeat` in liveStore.ts are not modelled. They call functions that OSCService.ts does not export, and the model takes the link state as a parameter and leaves the local state alone while the link is up.
- The `RESPONSE` and `ERROR` handlers of liveStore.ts only log, so they are not modelled.
- OSC arguments are typed fields, not untyped `any` values. A transport or track message with non-numeric arguments is not modelled.
- The callback `onModeChange` of useExpandableTimeline.ts is an effect on the caller and is not modelled. React state batching is not modelled either.
- `cloneProgression` and the other deep copies are the identity, since values are immutable.
- String case mapping is ASCII only, through `toLowerCase`. There is no Unicode case folding.
- The keyboard handler of useExpandableTimeline.ts treats `t` and `T` as one key. Key-event fields it does not read are dropped.
- ExpandableTimeline.MergeSizes: an explicitly `undefined` size in `sizes` would override the default in `{...DEFAULT_SIZES, ...sizes}`. The model treats it as absent.
- ProgressionStore.UpdateChord: requires an index of at most the progression's length. A larger index would leave holes in the JavaScript array.
- ProgressionStore actions require the store invariant (at least one section, current index in range). Every action is proved to keep it, starting from the initial state.
- Text.JsParseIntRoundTrip: stated for naturals only. The negative case is `Text.JsParseIntMinusDigits`.
- MusicTheory.ParseDegree: reads only the table's own fourteen keys. `degreeMap` in MusicTheoryEngine.ts:268-283 is an object literal, so a key inherited from `Object.prototype` ("toString", "constructor", "valueOf") yields that function rather than 0. The model returns 0 for such strings.
- ProgressionManager.NormalizeDegree: for those inherited keys `(semitone || 0) % 12` in ProgressionManager.ts:33-34 is NaN. The model gives 0, because it inherits the reading above.
- ProgressionStore.LoadProgression: treats a name as known only when it was saved. `savedProgressions` in progressionStore.ts:380-381 is a plain object, so a name such as "constructor" or "toString" finds a truthy inherited function, and `loadProgressionFromSnapshot` then reads fields of that function. The model treats such names as unknown and changes nothing.
- MusicTheory.GenerateDiatonicChord: returns `None` when the degree has no scale note, that is when the JavaScript remainder `(degree - 1) % 7` is negative (degree 0, say). In MusicTheoryEngine.ts:519-536 the root is then `undefined` and the function still returns a chord whose notes are all NaN. The model does not represent NaN notes.
- Text.JsParseInt: digits are read exactly. JavaScript's `parseInt` loses precision above 2^53, and the model does not round.
- MidiFile.EncodeVarLen: the corrected encoder works on unbounded naturals. The 32-bit buffer of ArrangementOutput.ts is modelled separately, as `MidiFile.EncodeVarLenAsWritten`.

## Findings

| source | as written | input that shows it | evidently intended | confidence | as-written member | corrected member |
|---|---|---|---|---|---|---|
| rewrite_lines.py:4-8 | `read_text()` translates `\r\n` to `\n`, but the start and end patterns search for `\r\n`, so the start pattern is never found and the script always raises | any patcher file, e.g. one holding the marker followed by `,\r\n\t\t,\r\n\t\t\t"lines" : [` | read the file without newline translation, so the block is located and replaced | not executed | PatchLines.RewriteFileAsWrittenFails | PatchLines.RewriteFileSucceeds |
| src/components/ProgressionEditor/LoopTimeline.tsx:835-841 | `handleDragEnd` calls `reorderSection` from the progression store, which the store does not define, so every real drag throws a `TypeError` | dragging section 0 onto position 1 | move the dragged section to the drop position, which a move back undoes | not executed | LoopTimeline.HandleDragEndAsWrittenFails | LoopTimeline.MoveItemBack |
| src/services/output/ArrangementOutput.ts:146-159 | `encodeVarLen` packs the 7-bit groups into a 32-bit buffer and emits them with an arithmetic shift, so from five groups up the buffer fills with ones and the emit loop never stops | value 2^28 (268435456) | emit the big-endian 7-bit groups of any length, which decode back to the value | not executed | MidiFile.EncodeVarLenAsWrittenHangs | MidiFile.VarLenRoundTrip |

=== FILE: arrangement_lane.dfy ===
/**
 The arrangement lane of src/components/ProgressionEditor/ArrangementLane.tsx: blocks laid end to
 end from beat 0, each as long as its section's beats times its repeats, kept in step with the
 song's sections, and edited by adding, duplicating and deleting blocks. The random part of a new
 block id is a parameter.
 */
module ArrangementLane {
  import opened Common
  import opened Song
  import Bags

  /** `getSectionBeats`: the chord durations summed (`duration || 0` is the duration itself). */
  function SectionBeats(s: Section): real
  {
    TotalDuration(s.progression)
  }

  /** `Math.max(1, section.repeats || 1)`. */
  function SectionRepeats(s: Section): (r: int)
    ensures r >= 1
    ensures s.repeats.Some? && s.repeats.value >= 1 ==> r == s.repeats.value
  {
    Max(1, OrInt(s.repeats, 1))
  }

  /** A lane block's length for its section: `max(1, beats) × repeats`. */
  function SectionLaneBeats(s: Section): (r: real)
    ensures r >= 1.0
  {
    MaxR(1.0, SectionBeats(s)) * SectionRepeats(s) as real
  }

  /** `section.name || "Section"`. */
  function SectionLabel(s: Section): string
  {
    if s.name != "" then s.name else "Section"
  }

  /** The id of a new block: `arr-<section id>-<random suffix>`. */
  function BlockId(sourceId: string, suffix: string): string
  {
    "arr-" + sourceId + "-" + suffix
  }

  /** `createLaneBlock`: a main-intent block of one repeat covering the whole section. */
  function CreateLaneBlock(s: Section, startBeat: real, mode: ModeId, suffix: string): (b: ArrangementBlock)
    ensures b.sourceId == s.id && b.startBeat == startBeat && b.repeats == Some(1) && b.intent == Some(Main)
    ensures b.lengthBeats == SectionLaneBeats(s) && b.labelText == SectionLabel(s)
  {
    ArrangementBlock(BlockId(s.id, suffix), s.id, mode, None, startBeat, SectionLaneBeats(s),
      SectionLabel(s), Some(1), Some(Main))
  }

  /** The length a block gets on reflow: its section's lane beats, or 4 beats without a section. */
  function LaneBeats(b: ArrangementBlock, sections: seq<Section>): (r: real)
    ensures r >= 1.0
  {
    match FindSectionById(sections, b.sourceId)
    case Some(s) => SectionLaneBeats(s)
    case None => 4.0
  }

  /** The label a block gets on reflow: its section's name when it has one, else its own label. */
  function LaneLabel(b: ArrangementBlock, sections: seq<Section>): string
  {
    match FindSectionById(sections, b.sourceId)
    case Some(s) => if s.name != "" then s.name else b.labelText
    case None => b.labelText
  }

  /** One block placed at the cursor by `reflowBlocks`. */
  function Placed(b: ArrangementBlock, sections: seq<Section>, cursor: real): ArrangementBlock
  {
    b.(startBeat := cursor, lengthBeats := LaneBeats(b, sections), labelText := LaneLabel(b, sections))
  }

  /** The beats the given blocks take up once reflowed. */
  function LaneSpan(blocks: seq<ArrangementBlock>, sections: seq<Section>): (r: real)
    ensures r >= |blocks| as real  // every block lasts at least one beat
    decreases |blocks|
  {
    if |blocks| == 0 then 0.0
    else LaneSpan(blocks[..|blocks| - 1], sections) + LaneBeats(blocks[|blocks| - 1], sections)
  }

  /**
   `reflowBlocks`: block `i` keeps everything but its start, length and label, and starts after
   the reflowed lengths of the blocks before it.
   */
  function Reflow(blocks: seq<ArrangementBlock>, sections: seq<Section>): (r: seq<ArrangementBlock>)
    ensures |r| == |blocks|
    ensures forall i :: 0 <= i < |r| ==>
      r[i].id == blocks[i].id && r[i].sourceId == blocks[i].sourceId && r[i].mode == blocks[i].mode
    ensures forall i :: 0 <= i < |r| ==>
      r[i].midiChannel == blocks[i].midiChannel && r[i].repeats == blocks[i].repeats && r[i].intent == blocks[i].intent
  {
    seq(|blocks|, i requires 0 <= i < |blocks| => Placed(blocks[i], sections, LaneSpan(blocks[..i], sections)))
  }

  /**
   A reflowed block takes its section's lane length and name; one whose section is gone lasts
   4 beats and keeps its label.
   */
  lemma ReflowLengths(blocks: seq<ArrangementBlock>, sections: seq<Section>, i: int)
    requires 0 <= i < |blocks|
    ensures var b := Reflow(blocks, sections)[i];
      match FindSectionById(sections, blocks[i].sourceId)
      case Some(s) => b.lengthBeats == SectionLaneBeats(s) && b.labelText == (if s.name != "" then s.name else blocks[i].labelText)
      case None => b.lengthBeats == 4.0 && b.labelText == blocks[i].labelText
  {
  }

  /** The span of one block more is the span before it plus that block's reflowed length. */
  lemma LaneSpanStep(blocks: seq<ArrangementBlock>, sections: seq<Section>, i: int)
    requires 0 <= i < |blocks|
    ensures LaneSpan(blocks[..i + 1], sections) == LaneSpan(blocks[..i], sections) + LaneBeats(blocks[i], sections)
  {
    assert blocks[..i + 1][..i] == blocks[..i];
  }

  /** Reflowing the first `n` blocks gives the first `n` blocks of the reflowed lane. */
  lemma ReflowPrefix(blocks: seq<ArrangementBlock>, sections: seq<Section>, n: int)
    requires 0 <= n <= |blocks|
    ensures Reflow(blocks[..n], sections) == Reflow(blocks, sections)[..n]
  {
    var front := blocks[..n];
    forall k | 0 <= k < n
      ensures Reflow(front, sections)[k] == Reflow(blocks, sections)[k]
    {
      assert front[..k] == blocks[..k];
    }
  }

  /** The loop of `reflowBlocks`, with its running cursor, computes `Reflow`. */
  method ReflowLoop(blocks: seq<ArrangementBlock>, sections: seq<Section>) returns (r: seq<ArrangementBlock>)
    ensures r == Reflow(blocks, sections)
  {
    ghost var full := Reflow(blocks, sections);
    var cursor := 0.0;
    r := [];
    var i := 0;
    while i < |blocks|
      invariant 0 <= i <= |blocks|
      invariant cursor == LaneSpan(blocks[..i], sections)
      invariant r == full[..i]
    {
      var next := Placed(blocks[i], sections, cursor);
      assert next == full[i];
      assert full[..i + 1] == full[..i] + [next];
      LaneSpanStep(blocks, sections, i);
      r := r + [next];
      cursor := cursor + next.lengthBeats;
      i := i + 1;
    }
  }

  /** Blocks laid end to end from `start`: no gap and no overlap. */
  ghost predicate EndToEnd(blocks: seq<ArrangementBlock>, start: real)
  {
    (|blocks| > 0 ==> blocks[0].startBeat == start) &&
    forall i :: 0 <= i < |blocks| - 1 ==> blocks[i + 1].startBeat == blocks[i].startBeat + blocks[i].lengthBeats
  }

  /** The beats of the lane: the sum of the block lengths (`totalBeats`). */
  function LaneTotal(blocks: seq<ArrangementBlock>): real
    decreases |blocks|
  {
    if |blocks| == 0 then 0.0 else LaneTotal(blocks[..|blocks| - 1]) + blocks[|blocks| - 1].lengthBeats
  }

  /** A reflowed lane is laid end to end from beat 0. */
  lemma ReflowEndToEnd(blocks: seq<ArrangementBlock>, sections: seq<Section>)
    ensures EndToEnd(Reflow(blocks, sections), 0.0)
  {
    var r := Reflow(blocks, sections);
    forall i | 0 <= i < |r| - 1
      ensures r[i + 1].startBeat == r[i].startBeat + r[i].lengthBeats
    {
      LaneSpanStep(blocks, sections, i);
    }
    if |r| > 0 {
      assert blocks[..0] == [];
    }
  }

  /** The total beats of a reflowed lane are the reflowed lengths summed. */
  lemma {:induction false} ReflowTotal(blocks: seq<ArrangementBlock>, sections: seq<Section>)
    ensures LaneTotal(Reflow(blocks, sections)) == LaneSpan(blocks, sections)
    decreases |blocks|
  {
    if |blocks| > 0 {
      var n := |blocks| - 1;
      ReflowTotal(blocks[..n], sections);
      ReflowPrefix(blocks, sections, n);
    }
  }

  // ---------------------------------------------------------------------------------------------
  // Lane sync
  // ---------------------------------------------------------------------------------------------

  /** The beats of the blocks created for these sections. */
  function SeedBeats(sections: seq<Section>): (r: real)
    ensures r >= |sections| as real  // every seeded block lasts at least one beat
    decreases |sections|
  {
    if |sections| == 0 then 0.0
    else SeedBeats(sections[..|sections| - 1]) + SectionLaneBeats(sections[|sections| - 1])
  }

  /**
   The seeding loop: block `i` is created for section `i` with the `i`-th random suffix, starting
   where the blocks before it end.
   */
  function Seed(sections: seq<Section>, startBeat: real, mode: ModeId, suffixes: nat -> string): (r: seq<ArrangementBlock>)
    ensures |r| == |sections|
    ensures forall i :: 0 <= i < |r| ==>
      r[i].id == BlockId(sections[i].id, suffixes(i)) && r[i].sourceId == sections[i].id &&
      r[i].lengthBeats == SectionLaneBeats(sections[i]) && r[i].startBeat == startBeat + SeedBeats(sections[..i])
  {
    seq(|sections|, i requires 0 <= i < |sections| =>
      CreateLaneBlock(sections[i], startBeat + SeedBeats(sections[..i]), mode, suffixes(i)))
  }

  /** `prev.filter(block => sectionMap.has(block.sourceId))`. */
  function KeepValid(blocks: seq<ArrangementBlock>, sections: seq<Section>): (r: seq<ArrangementBlock>)
    ensures |r| <= |blocks|
    ensures forall i :: 0 <= i < |r| ==> r[i] in blocks && FindSectionById(sections, r[i].sourceId).Some?
    ensures forall i :: 0 <= i < |blocks| && FindSectionById(sections, blocks[i].sourceId).Some? ==> blocks[i] in r
    decreases |blocks|
  {
    if |blocks| == 0 then []
    else
      (if FindSectionById(sections, blocks[0].sourceId).Some? then [blocks[0]] else [])
        + KeepValid(blocks[1..], sections)
  }

  /**
   The filter works block by block: filtering a concatenation filters each part, so the kept
   blocks stay in their input order.
   */
  lemma {:induction false} KeepValidAppend(a: seq<ArrangementBlock>, b: seq<ArrangementBlock>, sections: seq<Section>)
    ensures KeepValid(a + b, sections) == KeepValid(a, sections) + KeepValid(b, sections)
    decreases |a|
  {
    if |a| == 0 {
      assert a + b == b;
    } else {
      assert (a + b)[0] == a[0];
      assert (a + b)[1..] == a[1..] + b;
      KeepValidAppend(a[1..], b, sections);
    }
  }

  /** A single block is kept exactly when its section exists. */
  lemma KeepValidSingle(b: ArrangementBlock, sections: seq<Section>)
    ensures KeepValid([b], sections) == if FindSectionById(sections, b.sourceId).Some? then [b] else []
  {
    assert [b][1..] == [];
  }

  /** Whether some block plays the section with this id. */
  predicate Covered(blocks: seq<ArrangementBlock>, id: string)
  {
    exists i :: 0 <= i < |blocks| && blocks[i].sourceId == id
  }

  /** The sections no block plays, in section order. */
  function Missing(sections: seq<Section>, blocks: seq<ArrangementBlock>): (r: seq<Section>)
    ensures forall i :: 0 <= i < |r| ==> r[i] in sections && !Covered(blocks, r[i].id)
    decreases |sections|
  {
    if |sections| == 0 then []
    else (if Covered(blocks, sections[0].id) then [] else [sections[0]]) + Missing(sections[1..], blocks)
  }

  /** Missing sections of a concatenation are those of each part, in section order. */
  lemma {:induction false} MissingAppend(a: seq<Section>, b: seq<Section>, blocks: seq<ArrangementBlock>)
    ensures Missing(a + b, blocks) == Missing(a, blocks) + Missing(b, blocks)
    decreases |a|
  {
    if |a| == 0 {
      assert a + b == b;
    } else {
      assert (a + b)[0] == a[0];
      assert (a + b)[1..] == a[1..] + b;
      MissingAppend(a[1..], b, blocks);
    }
  }

  /** A single section is missing exactly when no block plays it. */
  lemma MissingSingle(x: Section, blocks: seq<ArrangementBlock>)
    ensures Missing([x], blocks) == if Covered(blocks, x.id) then [] else [x]
  {
    assert [x][1..] == [];
  }

  /** The kept blocks with a block appended for each missing section, from the kept blocks' end. */
  function AppendMissing(valid: seq<ArrangementBlock>, missing: seq<Section>, mode: ModeId, suffixes: nat -> string): (r: seq<ArrangementBlock>)
    ensures |r| == |valid| + |missing| && r[..|valid|] == valid
    ensures forall i :: |valid| <= i < |r| ==>
      r[i].sourceId == missing[i - |valid|].id && r[i].id == BlockId(missing[i - |valid|].id, suffixes(i - |valid|))
  {
    if |missing| == 0 then valid
    else
      var seeded := Seed(missing, LaneTotal(valid), mode, suffixes);
      assert forall i :: |valid| <= i < |valid| + |missing| ==> (valid + seeded)[i] == seeded[i - |valid|];
      valid + seeded
  }

  /** The blocks sync lays out on a non-empty lane: the valid ones, then one per section none plays. */
  function Gathered(prev: seq<ArrangementBlock>, sections: seq<Section>, mode: ModeId, suffixes: nat -> string): seq<ArrangementBlock>
  {
    var valid := KeepValid(prev, sections);
    AppendMissing(valid, Missing(sections, valid), mode, suffixes)
  }

  /** The effect on the lane when the sections (or the mode) change. */
  function Sync(prev: seq<ArrangementBlock>, sections: seq<Section>, mode: ModeId, suffixes: nat -> string): seq<ArrangementBlock>
  {
    if |prev| == 0 then Seed(sections, 0.0, mode, suffixes)
    else Reflow(Gathered(prev, sections, mode, suffixes), sections)
  }

  /**
   Reflowing the kept blocks followed by the appended ones keeps each kept block's identity in
   place and gives every appended block the id and source of its missing section.
   */
  lemma ReflowAppended(valid: seq<ArrangementBlock>, missing: seq<Section>, sections: seq<Section>, mode: ModeId, suffixes: nat -> string)
    ensures var r := Reflow(AppendMissing(valid, missing, mode, suffixes), sections);
      |r| == |valid| + |missing| &&
      (forall i :: 0 <= i < |valid| ==>
        r[i].id == valid[i].id && r[i].sourceId == valid[i].sourceId && r[i].mode == valid[i].mode &&
        r[i].repeats == valid[i].repeats && r[i].intent == valid[i].intent) &&
      (forall i :: |valid| <= i < |r| ==>
        r[i].sourceId == missing[i - |valid|].id && r[i].id == BlockId(missing[i - |valid|].id, suffixes(i - |valid|)))
  {
    var g := AppendMissing(valid, missing, mode, suffixes);
    forall i | 0 <= i < |valid|
      ensures g[i] == valid[i]
    {
      assert g[..|valid|][i] == g[i];
    }
  }

  /**
   On a non-empty lane, sync keeps the blocks whose section exists in their order, with their
   ids, sources, modes, repeats and intents, ahead of one new block per section none of them plays.
   */
  lemma SyncKeepsValidInOrder(prev: seq<ArrangementBlock>, sections: seq<Section>, mode: ModeId, suffixes: nat -> string)
    requires |prev| > 0
    ensures var valid := KeepValid(prev, sections);
      var r := Sync(prev, sections, mode, suffixes);
      |r| == |valid| + |Missing(sections, valid)| &&
      forall i :: 0 <= i < |valid| ==>
        r[i].id == valid[i].id && r[i].sourceId == valid[i].sourceId && r[i].mode == valid[i].mode &&
        r[i].repeats == valid[i].repeats && r[i].intent == valid[i].intent
  {
    var valid := KeepValid(prev, sections);
    var missing := Missing(sections, valid);
    assert Sync(prev, sections, mode, suffixes) == Reflow(AppendMissing(valid, missing, mode, suffixes), sections);
    ReflowAppended(valid, missing, sections, mode, suffixes);
  }

  /** A block created for this section with this random suffix. */
  predicate NewBlockFor(b: ArrangementBlock, s: Section, suffix: string)
  {
    b.sourceId == s.id && b.id == BlockId(s.id, suffix)
  }

  /**
   On a non-empty lane, the blocks after the kept ones are new blocks for the sections no kept
   block plays, in section order, each with an id made from its section's id.
   */
  lemma SyncAppendsMissing(prev: seq<ArrangementBlock>, sections: seq<Section>, mode: ModeId, suffixes: nat -> string)
    requires |prev| > 0
    ensures var valid := KeepValid(prev, sections);
      var missing := Missing(sections, valid);
      var r := Sync(prev, sections, mode, suffixes);
      |r| == |valid| + |missing| &&
      forall i :: |valid| <= i < |r| ==> NewBlockFor(r[i], missing[i - |valid|], suffixes(i - |valid|))
  {
    var valid := KeepValid(prev, sections);
    var missing := Missing(sections, valid);
    SyncReflowsGathered(prev, sections, mode, suffixes, valid, missing);
    ReflowAppendedNew(valid, missing, sections, mode, suffixes);
  }

  /** Reflowing the kept blocks followed by the appended ones makes each appended block new. */
  lemma ReflowAppendedNew(valid: seq<ArrangementBlock>, missing: seq<Section>, sections: seq<Section>, mode: ModeId, suffixes: nat -> string)
    ensures var r := Reflow(AppendMissing(valid, missing, mode, suffixes), sections);
      |r| == |valid| + |missing| &&
      forall i :: |valid| <= i < |r| ==> NewBlockFor(r[i], missing[i - |valid|], suffixes(i - |valid|))
  {
  }

  /** On a non-empty lane, sync reflows the kept blocks followed by the appended ones. */
  lemma SyncReflowsGathered(prev: seq<ArrangementBlock>, sections: seq<Section>, mode: ModeId, suffixes: nat -> string,
                            valid: seq<ArrangementBlock>, missing: seq<Section>)
    requires |prev| > 0 && valid == KeepValid(prev, sections) && missing == Missing(sections, valid)
    ensures Sync(prev, sections, mode, suffixes) == Reflow(AppendMissing(valid, missing, mode, suffixes), sections)
  {
  }

  /** The beats of one section more are those before plus that section's lane beats. */
  lemma SeedBeatsStep(sections: seq<Section>, i: int)
    requires 0 <= i < |sections|
    ensures SeedBeats(sections[..i + 1]) == SeedBeats(sections[..i]) + SectionLaneBeats(sections[i])
  {
    assert sections[..i + 1][..i] == sections[..i];
  }

  /** Seeded blocks are laid end to end: each starts after the lane beats of the ones before. */
  lemma SeedEndToEnd(sections: seq<Section>, startBeat: real, mode: ModeId, suffixes: nat -> string)
    ensures EndToEnd(Seed(sections, startBeat, mode, suffixes), startBeat)
  {
    var r := Seed(sections, startBeat, mode, suffixes);
    forall i | 0 <= i < |r| - 1
      ensures r[i + 1].startBeat == r[i].startBeat + r[i].lengthBeats
    {
      SeedBeatsStep(sections, i);
    }
    if |r| > 0 {
      assert sections[..0] == [];
    }
  }

  /** An empty lane is seeded with one block per section, in section order, end to end from 0. */
  lemma SyncSeedsEmptyLane(sections: seq<Section>, mode: ModeId, suffixes: nat -> string)
    ensures var r := Sync([], sections, mode, suffixes);
      |r| == |sections| && EndToEnd(r, 0.0) &&
      forall i :: 0 <= i < |r| ==> r[i].sourceId == sections[i].id && r[i].lengthBeats == SectionLaneBeats(sections[i])
  {
    SeedEndToEnd(sections, 0.0, mode, suffixes);
  }

  lemma {:induction false} MissingComplete(sections: seq<Section>, blocks: seq<ArrangementBlock>, j: int)
    requires 0 <= j < |sections| && !Covered(blocks, sections[j].id)
    ensures exists i :: 0 <= i < |Missing(sections, blocks)| && Missing(sections, blocks)[i].id == sections[j].id
    decreases |sections|
  {
    var m := Missing(sections, blocks);
    if j == 0 {
      assert m[0] == sections[0];
    } else {
      MissingComplete(sections[1..], blocks, j - 1);
      var head := if Covered(blocks, sections[0].id) then [] else [sections[0]];
      var i :| 0 <= i < |Missing(sections[1..], blocks)| && Missing(sections[1..], blocks)[i].id == sections[j].id;
      assert m[|head| + i] == Missing(sections[1..], blocks)[i];
    }
  }

  /** Every gathered block plays a section that still exists. */
  lemma GatheredHaveSections(prev: seq<ArrangementBlock>, sections: seq<Section>, mode: ModeId, suffixes: nat -> string)
    ensures var g := Gathered(prev, sections, mode, suffixes);
      forall i :: 0 <= i < |g| ==> FindSectionById(sections, g[i].sourceId).Some?
  {
    var valid := KeepValid(prev, sections);
    var missing := Missing(sections, valid);
    var g := Gathered(prev, sections, mode, suffixes);
    forall i | |valid| <= i < |g|
      ensures FindSectionById(sections, g[i].sourceId).Some?
    {
      var s := missing[i - |valid|];
      var j :| 0 <= j < |sections| && sections[j] == s;
      assert sections[j].id == g[i].sourceId;
    }
  }

  /** A section some kept block plays is still played after the missing ones are appended. */
  lemma GatheredKeepsCover(prev: seq<ArrangementBlock>, sections: seq<Section>, mode: ModeId, suffixes: nat -> string, id: string)
    requires Covered(KeepValid(prev, sections), id)
    ensures Covered(Gathered(prev, sections, mode, suffixes), id)
  {
    var valid := KeepValid(prev, sections);
    var g := Gathered(prev, sections, mode, suffixes);
    var i :| 0 <= i < |valid| && valid[i].sourceId == id;
    assert g[..|valid|][i] == g[i];
  }

  /** A section no kept block plays gets a block of its own. */
  lemma GatheredAddsCover(prev: seq<ArrangementBlock>, sections: seq<Section>, mode: ModeId, suffixes: nat -> string, j: int)
    requires 0 <= j < |sections| && !Covered(KeepValid(prev, sections), sections[j].id)
    ensures Covered(Gathered(prev, sections, mode, suffixes), sections[j].id)
  {
    var valid := KeepValid(prev, sections);
    var missing := Missing(sections, valid);
    var g := Gathered(prev, sections, mode, suffixes);
    MissingComplete(sections, valid, j);
    var i :| 0 <= i < |missing| && missing[i].id == sections[j].id;
    assert g[|valid| + i].sourceId == sections[j].id;
  }

  /** Every section is played by some gathered block. */
  lemma GatheredCoverSections(prev: seq<ArrangementBlock>, sections: seq<Section>, mode: ModeId, suffixes: nat -> string)
    ensures var g := Gathered(prev, sections, mode, suffixes);
      forall j :: 0 <= j < |sections| ==> Covered(g, sections[j].id)
  {
    forall j | 0 <= j < |sections|
      ensures Covered(Gathered(prev, sections, mode, suffixes), sections[j].id)
    {
      if Covered(KeepValid(prev, sections), sections[j].id) {
        GatheredKeepsCover(prev, sections, mode, suffixes, sections[j].id);
      } else {
        GatheredAddsCover(prev, sections, mode, suffixes, j);
      }
    }
  }

  /** On a non-empty lane, sync reflows: the lane is laid end to end from 0. */
  lemma SyncEndToEnd(prev: seq<ArrangementBlock>, sections: seq<Section>, mode: ModeId, suffixes: nat -> string)
    requires |prev| > 0
    ensures EndToEnd(Sync(prev, sections, mode, suffixes), 0.0)
  {
    ReflowEndToEnd(Gathered(prev, sections, mode, suffixes), sections);
  }

  /** After a sync of a non-empty lane, every block plays a section that exists. */
  lemma SyncBlocksHaveSections(prev: seq<ArrangementBlock>, sections: seq<Section>, mode: ModeId, suffixes: nat -> string)
    requires |prev| > 0
    ensures var r := Sync(prev, sections, mode, suffixes);
      forall i :: 0 <= i < |r| ==> FindSectionById(sections, r[i].sourceId).Some?
  {
    GatheredHaveSections(prev, sections, mode, suffixes);
  }

  /**
   On a non-empty lane, sync drops the blocks whose section vanished, keeps the rest in order and
   appends a block for every section no block plays: afterwards every section is played.
   */
  lemma SyncCoversSections(prev: seq<ArrangementBlock>, sections: seq<Section>, mode: ModeId, suffixes: nat -> string)
    requires |prev| > 0
    ensures var r := Sync(prev, sections, mode, suffixes);
      forall j :: 0 <= j < |sections| ==> Covered(r, sections[j].id)
  {
    var g := Gathered(prev, sections, mode, suffixes);
    var r := Sync(prev, sections, mode, suffixes);
    GatheredCoverSections(prev, sections, mode, suffixes);
    forall j | 0 <= j < |sections|
      ensures Covered(r, sections[j].id)
    {
      var i :| 0 <= i < |g| && g[i].sourceId == sections[j].id;
      assert r[i].sourceId == sections[j].id;
    }
  }

  // ---------------------------------------------------------------------------------------------
  // Editing the lane
  // ---------------------------------------------------------------------------------------------

  /** `handleAddSectionToLane`: an unknown section id changes nothing. */
  function AddSectionToLane(prev: seq<ArrangementBlock>, sections: seq<Section>, sectionId: string, suffix: string): (r: seq<ArrangementBlock>)
    ensures FindSectionById(sections, sectionId).None? ==> r == prev
    ensures FindSectionById(sections, sectionId).Some? ==>
      |r| == |prev| + 1 && r[|prev|].sourceId == sectionId && forall i :: 0 <= i < |prev| ==> r[i].id == prev[i].id
  {
    match FindSectionById(sections, sectionId)
    case None => prev
    case Some(s) => Reflow(prev + [CreateLaneBlock(s, 0.0, Harmony, suffix)], sections)
  }

  /** `prev.filter(block => block.id !== id)`. */
  function WithoutId(blocks: seq<ArrangementBlock>, id: string): (r: seq<ArrangementBlock>)
    ensures |r| <= |blocks|
    ensures forall i :: 0 <= i < |r| ==> r[i].id != id
    decreases |blocks|
  {
    if |blocks| == 0 then []
    else (if blocks[0].id == id then [] else [blocks[0]]) + WithoutId(blocks[1..], id)
  }

  /** Deleting by id filters each part of a concatenation, so the survivors keep their order. */
  lemma {:induction false} WithoutIdAppend(a: seq<ArrangementBlock>, b: seq<ArrangementBlock>, id: string)
    ensures WithoutId(a + b, id) == WithoutId(a, id) + WithoutId(b, id)
    decreases |a|
  {
    if |a| == 0 {
      assert a + b == b;
    } else {
      assert (a + b)[0] == a[0];
      assert (a + b)[1..] == a[1..] + b;
      WithoutIdAppend(a[1..], b, id);
    }
  }

  /** A single block survives exactly when it carries another id. */
  lemma WithoutIdSingle(x: ArrangementBlock, id: string)
    ensures WithoutId([x], id) == if x.id == id then [] else [x]
  {
    assert [x][1..] == [];
  }

  /** The filter keeps every block with another id. */
  lemma {:induction false} WithoutIdKeeps(blocks: seq<ArrangementBlock>, id: string, j: int)
    requires 0 <= j < |blocks| && blocks[j].id != id
    ensures blocks[j] in WithoutId(blocks, id)
    decreases |blocks|
  {
    if j > 0 {
      WithoutIdKeeps(blocks[1..], id, j - 1);
      assert blocks[1..][j - 1] == blocks[j];
    }
  }

  /** `handleDeleteSelected`. */
  function DeleteBlock(prev: seq<ArrangementBlock>, sections: seq<Section>, id: string): (r: seq<ArrangementBlock>)
    ensures forall i :: 0 <= i < |r| ==> r[i].id != id
  {
    Reflow(WithoutId(prev, id), sections)
  }

  /** After a delete the lane is laid end to end from beat 0 again. */
  lemma DeleteBlockEndToEnd(prev: seq<ArrangementBlock>, sections: seq<Section>, id: string)
    ensures EndToEnd(DeleteBlock(prev, sections, id), 0.0)
  {
    ReflowEndToEnd(WithoutId(prev, id), sections);
  }

  /** Delete keeps every block with another id, with its source. */
  lemma DeleteBlockKeeps(prev: seq<ArrangementBlock>, sections: seq<Section>, id: string, j: int)
    requires 0 <= j < |prev| && prev[j].id != id
    ensures var r := DeleteBlock(prev, sections, id);
      exists i :: 0 <= i < |r| && r[i].id == prev[j].id && r[i].sourceId == prev[j].sourceId
  {
    var kept := WithoutId(prev, id);
    WithoutIdKeeps(prev, id, j);
    var i :| 0 <= i < |kept| && kept[i] == prev[j];
    assert DeleteBlock(prev, sections, id)[i].id == prev[j].id;
  }

  /** `findIndex(block => block.id === id)`. */
  function IndexOfId(blocks: seq<ArrangementBlock>, id: string): (r: int)
    ensures -1 <= r < |blocks|
    ensures r >= 0 ==> blocks[r].id == id && forall i :: 0 <= i < r ==> blocks[i].id != id
    ensures r == -1 ==> forall i :: 0 <= i < |blocks| ==> blocks[i].id != id
    decreases |blocks|
  {
    if |blocks| == 0 then -1
    else if blocks[0].id == id then 0
    else
      var k := IndexOfId(blocks[1..], id);
      if k < 0 then -1 else k + 1
  }

  /**
   `handleDuplicateSelected`: a copy of the selected block, under a new id, right after it; a
   selection no longer in the lane changes nothing.
   */
  function DuplicateBlock(prev: seq<ArrangementBlock>, sections: seq<Section>, selected: ArrangementBlock, suffix: string): seq<ArrangementBlock>
  {
    var idx := IndexOfId(prev, selected.id);
    if idx < 0 then prev
    else
      var clone := selected.(id := BlockId(selected.sourceId, suffix));
      Reflow(prev[..idx + 1] + [clone] + prev[idx + 1..], sections)
  }

  /**
   After a duplicate the lane has one block more; the blocks before and including the original
   keep their ids, the copy follows with the original's source, then the rest keep theirs.
   */
  lemma DuplicateBlockCorrect(prev: seq<ArrangementBlock>, sections: seq<Section>, selected: ArrangementBlock, suffix: string)
    requires IndexOfId(prev, selected.id) >= 0
    ensures var idx := IndexOfId(prev, selected.id);
      var r := DuplicateBlock(prev, sections, selected, suffix);
      |r| == |prev| + 1 && EndToEnd(r, 0.0) &&
      (forall i :: 0 <= i <= idx ==> r[i].id == prev[i].id) &&
      r[idx + 1].id == BlockId(selected.sourceId, suffix) && r[idx + 1].sourceId == selected.sourceId &&
      (forall i :: idx < i < |prev| ==> r[i + 1].id == prev[i].id)
  {
    var idx := IndexOfId(prev, selected.id);
    var clone := selected.(id := BlockId(selected.sourceId, suffix));
    var r := DuplicateBlock(prev, sections, selected, suffix);
    assert r == Reflow(prev[..idx + 1] + [clone] + prev[idx + 1..], sections);
    ReflowInserted(prev, idx + 1, clone, sections);
    assert r[idx + 1].id == clone.id && r[idx + 1].sourceId == clone.sourceId;
  }

  /** Reflowing a lane with one block inserted keeps the ids around it and lays it end to end. */
  lemma ReflowInserted(prev: seq<ArrangementBlock>, j: int, x: ArrangementBlock, sections: seq<Section>)
    requires 0 <= j <= |prev|
    ensures var r := Reflow(prev[..j] + [x] + prev[j..], sections);
      |r| == |prev| + 1 && EndToEnd(r, 0.0) &&
      (forall i :: 0 <= i < j ==> r[i].id == prev[i].id) &&
      r[j].id == x.id && r[j].sourceId == x.sourceId &&
      (forall i :: j <= i < |prev| ==> r[i + 1].id == prev[i].id)
  {
    var spliced := prev[..j] + [x] + prev[j..];
    Bags.InsertAt(prev, j, x);
    ReflowEndToEnd(spliced, sections);
  }
}

=== FILE: arrangement_output.dfy ===
/**
 Arrangement rendering of src/services/output/ArrangementOutput.ts: every arrangement block is
 expanded into timed chord events (block × repeat × chord) with clamped MIDI fields, and a list of
 events is turned into a gap-filled chord progression for the OSC bridge.
 */
module ArrangementOutput {
  import opened Common
  import opened Sorting
  import opened Bags
  import opened Song

  /** `ArrangedChordEvent`. */
  datatype Event = Event(
    blockId: string,
    sectionId: string,
    sectionName: string,
    mode: ModeId,
    midiChannel: Option<int>,
    startBeat: real,
    durationBeats: real,
    notes: seq<int>,
    velocity: int,
    gatePercent: int,
    strumMs: int,
    chordIndex: int)

  /** `clampMidi` on an integer value (rounding is the identity there). */
  function ClampMidi(v: int): (r: int)
    ensures 0 <= r <= 127
    ensures 0 <= v <= 127 ==> r == v
  {
    Clamp(v, 0, 127)
  }

  /** `safeDuration`: `Math.max(0.25, duration || 0.25)`. */
  function SafeDuration(d: real): (r: real)
    ensures r >= 0.25
    ensures d >= 0.25 ==> r == d
  {
    MaxR(0.25, if d != 0.0 then d else 0.25)
  }

  /** `xs?.[i]`: absent when the array is absent or the index is outside it. */
  function ValueAt(xs: Option<seq<int>>, i: int): (r: Option<int>)
    ensures r.Some? <==> xs.Some? && 0 <= i < |xs.value|
  {
    if xs.Some? && 0 <= i < |xs.value| then Some(xs.value[i]) else None
  }

  function Velocities(c: Chord): Option<seq<int>>
  {
    if c.metadata.Some? then c.metadata.value.velocities else None
  }

  function Gates(c: Chord): Option<seq<int>>
  {
    if c.metadata.Some? then c.metadata.value.gate else None
  }

  function Strums(c: Chord): Option<seq<int>>
  {
    if c.metadata.Some? then c.metadata.value.strum else None
  }

  /** Where chord `k` starts inside one pass of the progression: the safe durations before it. */
  function Cursor(p: Progression, k: nat): (r: real)
    requires k <= |p|
    ensures r >= 0.25 * k as real
    decreases k
  {
    if k == 0 then 0.0 else Cursor(p, k - 1) + SafeDuration(p[k - 1].duration)
  }

  /** `sectionLength`: one pass of the progression, in beats. */
  function SectionLength(p: Progression): real
  {
    Cursor(p, |p|)
  }

  /** `Math.max(1, block.repeats || section.repeats || 1)`. */
  function BlockRepeats(b: ArrangementBlock, s: Section): (r: int)
    ensures r >= 1
    ensures b.repeats.Some? && b.repeats.value >= 1 ==> r == b.repeats.value
    ensures (b.repeats.None? || b.repeats.value == 0) && s.repeats.Some? && s.repeats.value >= 1 ==> r == s.repeats.value
  {
    Max(1, OrInt(b.repeats, OrInt(s.repeats, 1)))
  }

  /** Every field a well-formed event keeps inside its range. */
  predicate EventInRange(e: Event)
  {
    (forall i :: 0 <= i < |e.notes| ==> 0 <= e.notes[i] <= 127) &&
    0 <= e.velocity <= 127 && 1 <= e.gatePercent <= 200 && e.strumMs >= 0 && e.durationBeats >= 0.25
  }

  /** Where pass `r` of a block starts: `block.startBeat + repeatOffset`. */
  function PassStart(b: ArrangementBlock, s: Section, r: nat): real
  {
    b.startBeat + r as real * SectionLength(s.progression)
  }

  /** Passes follow one another with no gap: each is one section length long. */
  lemma PassStartNext(b: ArrangementBlock, s: Section, r: nat)
    ensures PassStart(b, s, r + 1) == PassStart(b, s, r) + SectionLength(s.progression)
  {
    var len := SectionLength(s.progression);
    assert (r + 1) as real * len == r as real * len + len;
  }

  /** The event ArrangementOutput.ts pushes for chord `k` at a start beat, its cursor inside the pass given. */
  function MakeEvent(b: ArrangementBlock, s: Section, k: nat, startBeat: real, cursor: real): (e: Event)
    requires k < |s.progression|
    ensures EventInRange(e)
    ensures e.chordIndex == k && e.blockId == b.id && e.sectionId == s.id && e.startBeat == startBeat
    ensures e.durationBeats == SafeDuration(s.progression[k].duration)
  {
    var c := s.progression[k];
    var beatIndex := Max(0, cursor.Floor);
    Event(b.id, s.id, if s.name != "" then s.name else "Section", b.mode, b.midiChannel,
      startBeat,
      SafeDuration(c.duration),
      MapSeq(c.notes, ClampMidi),
      ClampMidi(ValueAt(Velocities(c), beatIndex).GetOr(100)),
      Max(1, Min(200, ValueAt(Gates(c), beatIndex).GetOr(100))),
      Max(0, ValueAt(Strums(c), beatIndex).GetOr(0)),
      k)
  }

  /** The event for chord `k` of pass `r`: it starts `Cursor` beats into the pass. */
  function ChordEvent(b: ArrangementBlock, s: Section, r: nat, k: nat): (e: Event)
    requires k < |s.progression|
    ensures EventInRange(e)
    ensures e.chordIndex == k && e.blockId == b.id && e.sectionId == s.id
    ensures e.durationBeats == SafeDuration(s.progression[k].duration)
    ensures e.startBeat == PassStart(b, s, r) + Cursor(s.progression, k)
  {
    var cursor := Cursor(s.progression, k);
    MakeEvent(b, s, k, PassStart(b, s, r) + cursor, cursor)
  }

  /** One pass of a block over its section: one event per chord. */
  function Pass(b: ArrangementBlock, s: Section, r: nat): (events: seq<Event>)
    ensures |events| == |s.progression|
    ensures forall k :: 0 <= k < |events| ==> events[k] == ChordEvent(b, s, r, k)
  {
    seq(|s.progression|, k requires 0 <= k < |s.progression| => ChordEvent(b, s, r, k))
  }

  /** The first `m` passes, one after another. */
  function Passes(b: ArrangementBlock, s: Section, m: nat): seq<Event>
    decreases m
  {
    if m == 0 then [] else Passes(b, s, m - 1) + Pass(b, s, m - 1)
  }

  /** The events one block contributes: `BlockRepeats` passes over its section. */
  function BlockEvents(b: ArrangementBlock, s: Section): seq<Event>
  {
    Passes(b, s, BlockRepeats(b, s))
  }

  /** The block loops of ArrangementOutput.ts: `sectionLength` first, then one inner loop per pass. */
  method BlockEventsLoop(b: ArrangementBlock, s: Section) returns (events: seq<Event>)
    ensures events == BlockEvents(b, s)
  {
    var n := |s.progression|;
    var repeats := BlockRepeats(b, s);
    var sectionLength := 0.0;
    var k := 0;
    while k < n
      invariant 0 <= k <= n && sectionLength == Cursor(s.progression, k)
    {
      sectionLength := sectionLength + SafeDuration(s.progression[k].duration);
      k := k + 1;
    }
    events := [];
    var r := 0;
    while r < repeats
      invariant 0 <= r <= repeats
      invariant events == Passes(b, s, r)
    {
      var passEvents := PassLoop(b, s, r, sectionLength);
      events := events + passEvents;
      r := r + 1;
    }
  }

  /** The inner loop of one pass, with the running `chordCursor` from 0. */
  method PassLoop(b: ArrangementBlock, s: Section, r: nat, sectionLength: real) returns (passEvents: seq<Event>)
    requires sectionLength == SectionLength(s.progression)
    ensures passEvents == Pass(b, s, r)
  {
    var n := |s.progression|;
    var repeatOffset := r as real * sectionLength;
    var chordCursor := 0.0;
    passEvents := [];
    var j := 0;
    while j < n
      invariant 0 <= j <= n && chordCursor == Cursor(s.progression, j)
      invariant passEvents == Pass(b, s, r)[..j]
    {
      var durationBeats := SafeDuration(s.progression[j].duration);
      var next := MakeEvent(b, s, j, b.startBeat + repeatOffset + chordCursor, chordCursor);
      PassEventAt(b, s, r, j, next);
      passEvents := passEvents + [next];
      chordCursor := chordCursor + durationBeats;
      j := j + 1;
    }
    assert Pass(b, s, r)[..n] == Pass(b, s, r);
  }

  /** One step of the inner loop: the event it pushes is the next one of the pass. */
  lemma PassEventAt(b: ArrangementBlock, s: Section, r: nat, j: nat, next: Event)
    requires j < |s.progression|
    requires next == MakeEvent(b, s, j, b.startBeat + r as real * SectionLength(s.progression) + Cursor(s.progression, j),
      Cursor(s.progression, j))
    ensures Pass(b, s, r)[..j + 1] == Pass(b, s, r)[..j] + [next]
  {
    assert Pass(b, s, r)[j] == next;
  }

  lemma {:induction false} PassesLength(b: ArrangementBlock, s: Section, m: nat)
    ensures |Passes(b, s, m)| == m * |s.progression|
    decreases m
  {
    if m > 0 {
      PassesLength(b, s, m - 1);
      assert (m - 1) * |s.progression| + |s.progression| == m * |s.progression|;
    }
  }

  /** A block yields repeats × chords events, and the one at `r * n + k` is chord `k` of pass `r`. */
  lemma {:induction false} PassesAt(b: ArrangementBlock, s: Section, m: nat, r: nat, k: nat)
    requires r < m && k < |s.progression|
    ensures r * |s.progression| + k < |Passes(b, s, m)|
    ensures Passes(b, s, m)[r * |s.progression| + k] == ChordEvent(b, s, r, k)
    decreases m
  {
    var n := |s.progression|;
    PassesLength(b, s, m - 1);
    if r < m - 1 {
      PassesAt(b, s, m - 1, r, k);
    } else {
      assert r * n == (m - 1) * n;
    }
  }

  /** Every event of a block has its fields in range. */
  lemma {:induction false} BlockEventsInRange(b: ArrangementBlock, s: Section, m: nat, e: Event)
    requires e in Passes(b, s, m)
    ensures EventInRange(e)
    decreases m
  {
    if e in Passes(b, s, m - 1) {
      BlockEventsInRange(b, s, m - 1, e);
    } else {
      var pass := Pass(b, s, m - 1);
      assert e in pass;
      var k :| 0 <= k < |pass| && pass[k] == e;
    }
  }

  /** Each event starts where the previous one ends. */
  predicate Contiguous(events: seq<Event>)
  {
    forall i :: 0 <= i < |events| - 1 ==> events[i + 1].startBeat == events[i].startBeat + events[i].durationBeats
  }

  function EndBeat(e: Event): real { e.startBeat + e.durationBeats }

  lemma ContiguousAppend(a: seq<Event>, b: seq<Event>)
    requires Contiguous(a) && Contiguous(b)
    requires |a| > 0 && |b| > 0 && b[0].startBeat == EndBeat(a[|a| - 1])
    ensures Contiguous(a + b)
  {
    forall i | 0 <= i < |a + b| - 1
      ensures (a + b)[i + 1].startBeat == EndBeat((a + b)[i])
    {
      if i < |a| - 1 {
        assert (a + b)[i] == a[i] && (a + b)[i + 1] == a[i + 1];
      } else if i == |a| - 1 {
        assert (a + b)[i + 1] == b[0];
      } else {
        assert (a + b)[i] == b[i - |a|] && (a + b)[i + 1] == b[i - |a| + 1];
      }
    }
  }

  /** Pass `r` is contiguous: it starts at `PassStart(r)` and ends where pass `r + 1` starts. */
  lemma PassSpan(b: ArrangementBlock, s: Section, r: nat)
    requires |s.progression| > 0
    ensures Contiguous(Pass(b, s, r))
    ensures Pass(b, s, r)[0].startBeat == PassStart(b, s, r)
    ensures EndBeat(Pass(b, s, r)[|s.progression| - 1]) == PassStart(b, s, r + 1)
  {
    var pass := Pass(b, s, r);
    var n := |s.progression|;
    PassStartNext(b, s, r);
    forall i | 0 <= i < n - 1
      ensures pass[i + 1].startBeat == EndBeat(pass[i])
    {
    }
    assert EndBeat(pass[n - 1]) == PassStart(b, s, r) + Cursor(s.progression, n);
  }

  /**
   The events of a block leave no gap and no overlap, across pass boundaries too: they start at
   the block's start beat and end `repeats × sectionLength` beats later.
   */
  lemma {:induction false} PassesSpan(b: ArrangementBlock, s: Section, m: nat)
    requires |s.progression| > 0 && m > 0
    ensures Contiguous(Passes(b, s, m))
    ensures Passes(b, s, m)[0].startBeat == b.startBeat
    ensures EndBeat(Passes(b, s, m)[|Passes(b, s, m)| - 1]) == PassStart(b, s, m)
    decreases m
  {
    if m == 1 {
      PassesOne(b, s, m);
    } else {
      PassesSpan(b, s, m - 1);
      PassesStep(b, s, m);
    }
  }

  /** A single pass spans from the block's start to where the second pass starts. */
  lemma PassesOne(b: ArrangementBlock, s: Section, m: nat)
    requires |s.progression| > 0 && m == 1
    ensures Contiguous(Passes(b, s, m))
    ensures Passes(b, s, m)[0].startBeat == b.startBeat
    ensures EndBeat(Passes(b, s, m)[|Passes(b, s, m)| - 1]) == PassStart(b, s, m)
  {
    var first := Pass(b, s, m - 1);
    PassSpan(b, s, m - 1);
    assert Passes(b, s, m) == first;
    assert PassStart(b, s, m - 1) == b.startBeat;
  }

  /** Appending pass `m - 1` to contiguous earlier passes that end where it starts keeps them contiguous. */
  lemma PassesStep(b: ArrangementBlock, s: Section, m: nat)
    requires |s.progression| > 0 && m > 1
    requires Contiguous(Passes(b, s, m - 1))
    requires Passes(b, s, m - 1)[0].startBeat == b.startBeat
    requires EndBeat(Passes(b, s, m - 1)[|Passes(b, s, m - 1)| - 1]) == PassStart(b, s, m - 1)
    ensures Contiguous(Passes(b, s, m))
    ensures Passes(b, s, m)[0].startBeat == b.startBeat
    ensures EndBeat(Passes(b, s, m)[|Passes(b, s, m)| - 1]) == PassStart(b, s, m)
  {
    var before, last := Passes(b, s, m - 1), Pass(b, s, m - 1);
    PassSpan(b, s, m - 1);
    JoinSpans(before, last);
    assert Passes(b, s, m) == before + last;
  }

  /** Two contiguous runs, the second starting where the first ends, join into one contiguous run. */
  lemma JoinSpans(a: seq<Event>, b: seq<Event>)
    requires Contiguous(a) && Contiguous(b)
    requires |a| > 0 && |b| > 0 && b[0].startBeat == EndBeat(a[|a| - 1])
    ensures Contiguous(a + b) && (a + b)[0] == a[0] && (a + b)[|a + b| - 1] == b[|b| - 1]
  {
    ContiguousAppend(a, b);
  }


  function BlockStart(b: ArrangementBlock): real { b.startBeat }

  function EventStart(e: Event): real { e.startBeat }

  /** The events of the blocks in the given order; a block whose section is missing adds none. */
  function Collect(sections: seq<Section>, blocks: seq<ArrangementBlock>): seq<Event>
    decreases |blocks|
  {
    if |blocks| == 0 then []
    else
      var b := blocks[|blocks| - 1];
      Collect(sections, blocks[..|blocks| - 1]) +
        match FindSectionById(sections, b.sourceId)
        case None => []
        case Some(s) => BlockEvents(b, s)
  }

  /** How many events one block contributes: repeats × chords, or none without a section. */
  function BlockCount(sections: seq<Section>, b: ArrangementBlock): (r: int)
    ensures r >= 0
  {
    match FindSectionById(sections, b.sourceId)
    case None => 0
    case Some(s) => BlockRepeats(b, s) * |s.progression|
  }

  /** `buildArrangedChordEvents`: blocks in start order, then all events by start beat. */
  function BuildArrangedChordEvents(sections: seq<Section>, blocks: seq<ArrangementBlock>): seq<Event>
  {
    SortBy(Collect(sections, SortBy(blocks, BlockStart)), EventStart)
  }

  /** The per-block event count, as a function to map over the blocks. */
  function CountOf(sections: seq<Section>): ArrangementBlock -> int
  {
    b => BlockCount(sections, b)
  }

  lemma {:induction false} CollectCount(sections: seq<Section>, blocks: seq<ArrangementBlock>)
    ensures |Collect(sections, blocks)| == SumInts(MapSeq(blocks, CountOf(sections)))
    decreases |blocks|
  {
    if |blocks| > 0 {
      var init := blocks[..|blocks| - 1];
      var last := blocks[|blocks| - 1];
      CollectCount(sections, init);
      MapSeqLast(blocks, CountOf(sections));
      SumIntsAppend(MapSeq(init, CountOf(sections)), [CountOf(sections)(last)]);
      match FindSectionById(sections, last.sourceId)
      case None =>
      case Some(s) => PassesLength(last, s, BlockRepeats(last, s));
    }
  }

  /**
   The number of events is the sum over the blocks of repeats × chords; blocks whose source
   section is missing count zero. Sorting the blocks first does not change the total.
   */
  lemma BuildCount(sections: seq<Section>, blocks: seq<ArrangementBlock>)
    ensures |BuildArrangedChordEvents(sections, blocks)| == SumInts(MapSeq(blocks, CountOf(sections)))
  {
    var sorted := SortBy(blocks, BlockStart);
    SortByCorrect(blocks, BlockStart);
    CollectCount(sections, sorted);
    PermMap(sorted, blocks, CountOf(sections));
    PermSum(MapSeq(sorted, CountOf(sections)), MapSeq(blocks, CountOf(sections)));
    SortByCorrect(Collect(sections, sorted), EventStart);
    assert |SortBy(Collect(sections, sorted), EventStart)| == |multiset(Collect(sections, sorted))|;
  }

  lemma {:induction false} CollectInRange(sections: seq<Section>, blocks: seq<ArrangementBlock>)
    ensures forall e :: e in Collect(sections, blocks) ==> EventInRange(e)
    decreases |blocks|
  {
    if |blocks| > 0 {
      var last := blocks[|blocks| - 1];
      CollectInRange(sections, blocks[..|blocks| - 1]);
      match FindSectionById(sections, last.sourceId)
      case None =>
      case Some(s) =>
        forall e | e in BlockEvents(last, s)
          ensures EventInRange(e)
        {
          BlockEventsInRange(last, s, BlockRepeats(last, s), e);
        }
    }
  }

  /**
   The built events are ordered by start beat, are exactly the collected events of the blocks
   taken in start order (a permutation, stable among equal start beats), and every one of them
   has its fields in range.
   */
  lemma BuildSortedInRange(sections: seq<Section>, blocks: seq<ArrangementBlock>)
    ensures SortedBy(BuildArrangedChordEvents(sections, blocks), EventStart)
    ensures multiset(BuildArrangedChordEvents(sections, blocks)) ==
      multiset(Collect(sections, SortBy(blocks, BlockStart)))
    ensures forall k ::
              WithKey(BuildArrangedChordEvents(sections, blocks), EventStart, k) ==
              WithKey(Collect(sections, SortBy(blocks, BlockStart)), EventStart, k)
    ensures forall e :: e in BuildArrangedChordEvents(sections, blocks) ==> EventInRange(e)
  {
    var collected := Collect(sections, SortBy(blocks, BlockStart));
    SortByCorrect(collected, EventStart);
    CollectInRange(sections, SortBy(blocks, BlockStart));
    forall e | e in BuildArrangedChordEvents(sections, blocks)
      ensures EventInRange(e)
    {
      assert e in multiset(BuildArrangedChordEvents(sections, blocks));
      assert e in multiset(collected);
    }
  }

  // ---------------------------------------------------------------------------------------------
  // Snapshot
  // ---------------------------------------------------------------------------------------------

  /** `totalBeats` of `createArrangementSnapshot`: the latest event end, and 0 without events. */
  function TotalBeats(events: seq<Event>): (r: real)
    ensures r >= 0.0
    ensures forall i :: 0 <= i < |events| ==> events[i].startBeat + events[i].durationBeats <= r
    ensures r == 0.0 || exists i :: 0 <= i < |events| && r == events[i].startBeat + events[i].durationBeats
    decreases |events|
  {
    if |events| == 0 then 0.0
    else
      var e := events[|events| - 1];
      var before := TotalBeats(events[..|events| - 1]);
      MaxR(before, e.startBeat + e.durationBeats)
  }

  /** `ArrangementSnapshot`; `exportedAt` is the clock reading passed in. */
  datatype Snapshot = Snapshot(
    exportedAt: int,
    tempo: real,
    timeSignature: string,
    totalBeats: real,
    blockCount: int,
    sections: seq<Section>,
    blocks: seq<ArrangementBlock>,
    events: seq<Event>)

  /**
   `createArrangementSnapshot`: an absent or zero tempo falls back to 120 and an absent or empty
   time signature to "4/4"; the total covers the end of every event.
   */
  function CreateArrangementSnapshot(sections: seq<Section>, blocks: seq<ArrangementBlock>, tempo: Option<real>,
                                     timeSignature: Option<string>, now: int): (r: Snapshot)
    ensures r.events == BuildArrangedChordEvents(sections, blocks)
    ensures r.sections == sections && r.blocks == blocks && r.blockCount == |blocks| && r.exportedAt == now
    ensures r.tempo == (if tempo.Some? && tempo.value != 0.0 then tempo.value else 120.0)
    ensures r.timeSignature == (if timeSignature.Some? && timeSignature.value != "" then timeSignature.value else "4/4")
    ensures r.totalBeats >= 0.0
    ensures forall i :: 0 <= i < |r.events| ==> r.events[i].startBeat + r.events[i].durationBeats <= r.totalBeats
  {
    var events := BuildArrangedChordEvents(sections, blocks);
    Snapshot(now,
             if tempo.Some? && tempo.value != 0.0 then tempo.value else 120.0,
             if timeSignature.Some? && timeSignature.value != "" then timeSignature.value else "4/4",
             TotalBeats(events), |blocks|, sections, blocks, events)
  }

  // ---------------------------------------------------------------------------------------------
  // OSC progression
  // ---------------------------------------------------------------------------------------------

  /** `OscProgressionChord`. */
  datatype OscChord = OscChord(notes: seq<int>, duration: real)

  function OscDuration(p: seq<OscChord>): real
    decreases |p|
  {
    if |p| == 0 then 0.0 else OscDuration(p[..|p| - 1]) + p[|p| - 1].duration
  }

  lemma {:induction false} OscDurationAppend(a: seq<OscChord>, b: seq<OscChord>)
    ensures OscDuration(a + b) == OscDuration(a) + OscDuration(b)
    decreases |b|
  {
    if |b| == 0 {
      assert a + b == a;
    } else {
      assert (a + b)[..|a + b| - 1] == a + b[..|b| - 1];
      OscDurationAppend(a, b[..|b| - 1]);
    }
  }

  /** The chord an event plays: its notes for its duration. */
  function EventChord(e: Event): OscChord
  {
    OscChord(e.notes, e.durationBeats)
  }

  /** The rest inserted before an event that starts after the cursor. */
  function Gap(e: Event, cursor: real): (r: seq<OscChord>)
    ensures |r| <= 1
    ensures |r| == 1 <==> e.startBeat > cursor
    ensures |r| == 1 ==> r[0].notes == [] && r[0].duration > 0.0
  {
    if e.startBeat > cursor then [OscChord([], e.startBeat - cursor)] else []
  }

  /** The cursor after an event: from where its chord starts, one event duration on. */
  function Advance(e: Event, cursor: real): real
  {
    MaxR(cursor, e.startBeat) + e.durationBeats
  }

  /** The cursor after a run of events. */
  function CursorAfter(events: seq<Event>, cursor: real): real
    decreases |events|
  {
    if |events| == 0 then cursor else CursorAfter(events[1..], Advance(events[0], cursor))
  }

  /** The loop of `toOscProgression` over already sorted events, from a cursor. */
  function Fill(events: seq<Event>, cursor: real): seq<OscChord>
    decreases |events|
  {
    if |events| == 0 then []
    else (Gap(events[0], cursor) + [EventChord(events[0])]) + Fill(events[1..], Advance(events[0], cursor))
  }

  /** `toOscProgression`: sort by start beat and fill the gaps from beat 0. */
  function ToOscProgression(events: seq<Event>): (r: seq<OscChord>)
    ensures |events| == 0 ==> r == []
  {
    if |events| == 0 then [] else Fill(SortBy(events, EventStart), 0.0)
  }

  lemma {:induction false} FillAppend(a: seq<Event>, b: seq<Event>, cursor: real)
    ensures Fill(a + b, cursor) == Fill(a, cursor) + Fill(b, CursorAfter(a, cursor))
    ensures CursorAfter(a + b, cursor) == CursorAfter(b, CursorAfter(a, cursor))
    decreases |a|
  {
    if |a| == 0 {
      assert a + b == b;
    } else {
      assert (a + b)[1..] == a[1..] + b;
      FillAppend(a[1..], b, Advance(a[0], cursor));
    }
  }

  /** The filled progression lasts exactly as long as the cursor moved. */
  lemma {:induction false} FillDuration(events: seq<Event>, cursor: real)
    ensures OscDuration(Fill(events, cursor)) == CursorAfter(events, cursor) - cursor
    decreases |events|
  {
    if |events| > 0 {
      var e := events[0];
      var head := Gap(e, cursor) + [EventChord(e)];
      FillDuration(events[1..], Advance(e, cursor));
      OscDurationAppend(head, Fill(events[1..], Advance(e, cursor)));
      OscDurationAppend(Gap(e, cursor), [EventChord(e)]);
      assert OscDuration([EventChord(e)]) == e.durationBeats;
      if e.startBeat > cursor {
        assert OscDuration(Gap(e, cursor)) == e.startBeat - cursor;
      } else {
        assert Gap(e, cursor) == [];
      }
    }
  }

  /** The filled progression splits at event `k`: what comes before, its rest, its chord, the rest. */
  lemma FillSplit(events: seq<Event>, k: int)
    requires 0 <= k < |events|
    ensures var cursor := CursorAfter(events[..k], 0.0);
      Fill(events, 0.0) == Fill(events[..k], 0.0) + ((Gap(events[k], cursor) + [EventChord(events[k])])
        + Fill(events[k + 1..], Advance(events[k], cursor)))
  {
    var cursor := CursorAfter(events[..k], 0.0);
    var rest := events[k..];
    assert events == events[..k] + rest;
    FillAppend(events[..k], rest, 0.0);
    assert rest[0] == events[k] && rest[1..] == events[k + 1..];
    assert Fill(rest, cursor) == (Gap(events[k], cursor) + [EventChord(events[k])]) + Fill(events[k + 1..], Advance(events[k], cursor));
  }

  /**
   Timing: in the filled progression the chord of event `k` follows everything before it and at
   most one rest (`FillSplit`), and it begins at `max(startBeat, end of the previous chord)` —
   exactly at its start beat whenever the events do not overlap.
   */
  lemma FillTiming(events: seq<Event>, k: int)
    requires 0 <= k < |events|
    ensures var cursor := CursorAfter(events[..k], 0.0);
      OscDuration(Fill(events[..k], 0.0) + Gap(events[k], cursor)) == MaxR(cursor, events[k].startBeat)
  {
    var cursor := CursorAfter(events[..k], 0.0);
    FillDuration(events[..k], 0.0);
    OscDurationAppend(Fill(events[..k], 0.0), Gap(events[k], cursor));
    if events[k].startBeat > cursor {
      assert OscDuration(Gap(events[k], cursor)) == events[k].startBeat - cursor;
    } else {
      assert Gap(events[k], cursor) == [];
    }
  }

  /** Events that start where the previous one ends, from the cursor, need no rest at all. */
  lemma {:induction false} FillContiguous(events: seq<Event>, cursor: real)
    requires |events| > 0 ==> events[0].startBeat == cursor
    requires Contiguous(events)
    ensures Fill(events, cursor) == MapSeq(events, EventChord)
    decreases |events|
  {
    if |events| > 0 {
      var e := events[0];
      assert Gap(e, cursor) == [];
      assert Advance(e, cursor) == EndBeat(e);
      assert Contiguous(events[1..]) by {
        forall i | 0 <= i < |events[1..]| - 1
          ensures events[1..][i + 1].startBeat == EndBeat(events[1..][i])
        {
          assert events[1..][i] == events[i + 1];
        }
      }
      FillContiguous(events[1..], Advance(e, cursor));
      assert MapSeq(events, EventChord) == [EventChord(e)] + MapSeq(events[1..], EventChord);
    }
  }

  /** Contiguous events with positive durations are already in start order. */
  lemma {:induction false} ContiguousSorted(events: seq<Event>)
    requires Contiguous(events)
    requires forall i :: 0 <= i < |events| ==> events[i].durationBeats > 0.0
    ensures SortedBy(events, EventStart)
    decreases |events|
  {
    if |events| > 1 {
      var tail := events[1..];
      assert Contiguous(tail) by {
        forall i | 0 <= i < |tail| - 1
          ensures tail[i + 1].startBeat == EndBeat(tail[i])
        {
          assert tail[i] == events[i + 1];
        }
      }
      ContiguousSorted(tail);
      forall i, j | 0 <= i < j < |events|
        ensures EventStart(events[i]) <= EventStart(events[j])
      {
        if i > 0 {
          assert events[i] == tail[i - 1] && events[j] == tail[j - 1];
        } else if j > 1 {
          assert events[1] == tail[0] && events[j] == tail[j - 1];
        }
      }
    }
  }

  /**
   A single block starting at beat 0 plays on the OSC bridge as its chords, pass after pass, with
   no rest inserted.
   */
  lemma BlockOscProgression(b: ArrangementBlock, s: Section)
    requires |s.progression| > 0 && b.startBeat == 0.0
    ensures ToOscProgression(BlockEvents(b, s)) == MapSeq(BlockEvents(b, s), EventChord)
  {
    var events := BlockEvents(b, s);
    PassesSpan(b, s, BlockRepeats(b, s));
    forall i | 0 <= i < |events|
      ensures events[i].durationBeats > 0.0
    {
      assert events[i] in events;
      BlockEventsInRange(b, s, BlockRepeats(b, s), events[i]);
    }
    ContiguousSorted(events);
    SortBySortedIdentity(events, EventStart);
    FillContiguous(events, 0.0);
  }
}

=== FILE: bags.dfy ===
/**
 Facts about rearrangements: two sequences with the same multiset of elements have the same sum,
 and keep the same multiset after an element-wise map.
 */
module Bags {
  import opened Common

  /** `s.map(f)`. */
  function MapSeq<T, U>(s: seq<T>, f: T -> U): (r: seq<U>)
    ensures |r| == |s|
    ensures forall i :: 0 <= i < |s| ==> r[i] == f(s[i])
  {
    seq(|s|, i requires 0 <= i < |s| => f(s[i]))
  }

  lemma MapSeqAppend<T, U>(a: seq<T>, b: seq<T>, f: T -> U)
    ensures MapSeq(a + b, f) == MapSeq(a, f) + MapSeq(b, f)
  {
  }

  lemma MapSeqLast<T, U>(s: seq<T>, f: T -> U)
    requires |s| > 0
    ensures MapSeq(s, f) == MapSeq(s[..|s| - 1], f) + [f(s[|s| - 1])]
  {
  }

  /** Inserting `x` at position `j` shifts the elements from `j` on one place up. */
  lemma InsertAt<T>(s: seq<T>, j: int, x: T)
    requires 0 <= j <= |s|
    ensures var r := s[..j] + [x] + s[j..];
      |r| == |s| + 1 && r[j] == x &&
      (forall i :: 0 <= i < j ==> r[i] == s[i]) && (forall i :: j <= i < |s| ==> r[i + 1] == s[i])
  {
  }

  /** Removing the element at `j` takes one copy of it out of the multiset. */
  lemma RemoveAt<T>(s: seq<T>, j: int)
    requires 0 <= j < |s|
    ensures s == s[..j] + [s[j]] + s[j + 1..]
    ensures multiset(s[..j] + s[j + 1..]) == multiset(s) - multiset{s[j]}
  {
    assert s == s[..j] + [s[j]] + s[j + 1..];
  }

  lemma {:induction false} PermSum(a: seq<int>, b: seq<int>)
    requires multiset(a) == multiset(b)
    ensures SumInts(a) == SumInts(b)
    decreases |a|
  {
    if |a| == 0 {
      assert |b| == |multiset(b)| == 0;
    } else {
      var x := a[|a| - 1];
      var init := a[..|a| - 1];
      assert a == init + [x];
      assert x in multiset(b);
      var j :| 0 <= j < |b| && b[j] == x;
      var front := b[..j];
      var back := b[j + 1..];
      PermRemoveLast(a, b, j);
      PermSum(init, front + back);
      assert b == (front + [x]) + back;
      SumIntsAppend(init, [x]);
      SumIntsAppend(front, [x]);
      SumIntsAppend(front + [x], back);
      SumIntsAppend(front, back);
    }
  }

  lemma {:induction false} PermMap<T, U>(a: seq<T>, b: seq<T>, f: T -> U)
    requires multiset(a) == multiset(b)
    ensures multiset(MapSeq(a, f)) == multiset(MapSeq(b, f))
    decreases |a|
  {
    if |a| == 0 {
      assert |b| == |multiset(b)| == 0;
    } else {
      var x := a[|a| - 1];
      var init := a[..|a| - 1];
      assert a == init + [x];
      assert x in multiset(b);
      var j :| 0 <= j < |b| && b[j] == x;
      var rest := b[..j] + b[j + 1..];
      PermRemoveLast(a, b, j);
      PermMap(init, rest, f);
      var front := b[..j];
      var back := b[j + 1..];
      assert b == (front + [x]) + back;
      MultisetMapAppend(init, [x], f);
      MultisetMapAppend(front, back, f);
      MultisetMapAppend(front + [x], back, f);
      MultisetMapAppend(front, [x], f);
    }
  }

  /** Taking the last element of `a` out of a permutation `b` of it leaves a permutation. */
  lemma PermRemoveLast<T>(a: seq<T>, b: seq<T>, j: int)
    requires multiset(a) == multiset(b) && |a| > 0
    requires 0 <= j < |b| && b[j] == a[|a| - 1]
    ensures multiset(a[..|a| - 1]) == multiset(b[..j] + b[j + 1..])
  {
    assert a == a[..|a| - 1] + [a[|a| - 1]];
    RemoveAt(b, j);
  }

  lemma MultisetMapAppend<T, U>(a: seq<T>, b: seq<T>, f: T -> U)
    ensures multiset(MapSeq(a + b, f)) == multiset(MapSeq(a, f)) + multiset(MapSeq(b, f))
  {
    MapSeqAppend(a, b, f);
  }

  /** How many times `v` occurs in `xs`. */
  function Count<T(==)>(xs: seq<T>, v: T): nat
    decreases |xs|
  {
    if |xs| == 0 then 0 else Count(xs[..|xs| - 1], v) + (if xs[|xs| - 1] == v then 1 else 0)
  }

  lemma {:induction false} CountAppend<T>(a: seq<T>, b: seq<T>, v: T)
    ensures Count(a + b, v) == Count(a, v) + Count(b, v)
    decreases |b|
  {
    if |b| == 0 {
      assert a + b == a;
    } else {
      assert (a + b)[..|a + b| - 1] == a + b[..|b| - 1];
      CountAppend(a, b[..|b| - 1], v);
    }
  }

  lemma {:induction false} CountMultiplicity<T>(xs: seq<T>, v: T)
    ensures Count(xs, v) == multiset(xs)[v]
    decreases |xs|
  {
    if |xs| > 0 {
      var init := xs[..|xs| - 1];
      assert xs == init + [xs[|xs| - 1]];
      CountMultiplicity(init, v);
    }
  }

  /** Rearranging a sequence does not change how often a value occurs in it. */
  lemma CountPerm<T>(a: seq<T>, b: seq<T>, v: T)
    requires multiset(a) == multiset(b)
    ensures Count(a, v) == Count(b, v)
  {
    CountMultiplicity(a, v);
    CountMultiplicity(b, v);
  }
}

=== FILE: common.dfy ===
/**
 Values and small arithmetic shared by every component: optional values, error results,
 the clamping idiom `Math.max(lo, Math.min(hi, x))`, JavaScript's truncating remainder and
 sums over sequences.
 */
module Common {

  /** `undefined`/`null` versus a present value. */
  datatype Option<+T> = None | Some(value: T) {
    /** The `??` operator: the value when present, else the default. */
    function GetOr(default: T): T
    {
      match this
      case Some(v) => v
      case None => default
    }
  }

  /** A computation that either produces a value or fails with an error kind. */
  datatype Result<+T, +E> = Ok(value: T) | Err(error: E)

  function Max(a: int, b: int): int { if a >= b then a else b }

  function Min(a: int, b: int): int { if a <= b then a else b }

  function MaxR(a: real, b: real): real { if a >= b then a else b }

  function MinR(a: real, b: real): real { if a <= b then a else b }

  /** `Math.max(lo, Math.min(hi, x))`, the clamp written throughout the TypeScript code. */
  function Clamp(x: int, lo: int, hi: int): (r: int)
    requires lo <= hi
    ensures lo <= r <= hi
    ensures lo <= x <= hi ==> r == x
    ensures x < lo ==> r == lo
    ensures x > hi ==> r == hi
  {
    Max(lo, Min(hi, x))
  }

  /** The same clamp on real numbers. */
  function ClampR(x: real, lo: real, hi: real): (r: real)
    requires lo <= hi
    ensures lo <= r <= hi
    ensures lo <= x <= hi ==> r == x
  {
    MaxR(lo, MinR(hi, x))
  }

  /** JavaScript's `%` on integers: the remainder takes the sign of the dividend. */
  function JsRem(a: int, b: int): (r: int)
    requires b > 0
    ensures a >= 0 ==> 0 <= r < b && r == a % b
    ensures a < 0 ==> -b < r <= 0 && r == (if a % b == 0 then 0 else a % b - b)
  {
    if a >= 0 then a % b
    else
      var m := (-a) % b;
      var q := (-a) / b;
      assert -a == b * q + m;
      if m == 0 then
        ModUnique(a, b, -q, 0);
        -m
      else
        assert a == b * (-q - 1) + (b - m);
        ModUnique(a, b, -q - 1, b - m);
        -m
  }

  /** Euclidean division is determined by any quotient/remainder pair with the remainder in range. */
  lemma ModUnique(a: int, b: int, q: int, s: int)
    requires b > 0 && 0 <= s < b && a == b * q + s
    ensures a % b == s && a / b == q
  {
    var d := a / b;
    var m := a % b;
    assert a == b * d + m;
    if q > d {
      MulLe(b, d + 1, q);
    } else if q < d {
      MulLe(b, q + 1, d);
    }
  }

  lemma MulLe(b: int, x: int, y: int)
    requires b > 0 && x <= y
    ensures b * x <= b * y
  {
    assert b * y - b * x == b * (y - x);
  }

  /** `Math.trunc` on reals. */
  function Trunc(x: real): (r: int)
    ensures x >= 0.0 ==> r as real <= x < r as real + 1.0
    ensures x < 0.0 ==> r as real - 1.0 < x <= r as real
  {
    if x >= 0.0 then x.Floor else -((-x).Floor)
  }

  lemma MulPos(a: real, b: real)
    requires a > 0.0 && b > 0.0
    ensures a * b > 0.0
  {
  }

  lemma DivSign(x: real, y: real)
    requires y > 0.0
    ensures x >= 0.0 ==> x / y >= 0.0
    ensures x < 0.0 ==> x / y < 0.0
  {
    var q := x / y;
    assert y * q == x;
    if q < 0.0 {
      MulPos(y, -q);
    } else if q > 0.0 {
      MulPos(y, q);
    }
  }

  lemma FmodBounds(x: real, y: real, q: real, t: real)
    requires y > 0.0 && q == x / y && t <= q < t + 1.0
    ensures 0.0 <= x - y * t < y
  {
    assert y * q == x;
    assert y * t <= y * q by { assert y * q - y * t == y * (q - t); }
    MulPos(y, t + 1.0 - q);
    assert y * (t + 1.0) - y * q == y * (t + 1.0 - q);
  }

  lemma FmodBoundsNeg(x: real, y: real, q: real, t: real)
    requires y > 0.0 && q == x / y && t - 1.0 < q <= t
    ensures -y < x - y * t <= 0.0
  {
    assert y * q == x;
    assert y * q <= y * t by { assert y * t - y * q == y * (t - q); }
    MulPos(y, q - (t - 1.0));
    assert y * q - y * (t - 1.0) == y * (q - (t - 1.0));
  }

  /** JavaScript's `%` on (finite) numbers: `x - y * trunc(x / y)`. */
  function JsFmod(x: real, y: real): (r: real)
    requires y > 0.0
    ensures x >= 0.0 ==> 0.0 <= r < y
    ensures x < 0.0 ==> -y < r <= 0.0
  {
    var t := Trunc(x / y) as real;
    DivSign(x, y);
    if x >= 0.0 then
      FmodBounds(x, y, x / y, t);
      x - y * t
    else
      FmodBoundsNeg(x, y, x / y, t);
      x - y * t
  }

  /** `Math.ceil` on reals. */
  function Ceil(x: real): (r: int)
    ensures x <= r as real < x + 1.0
  {
    if x.Floor as real == x then x.Floor else x.Floor + 1
  }

  function SumInts(s: seq<int>): int
  {
    if |s| == 0 then 0 else SumInts(s[..|s| - 1]) + s[|s| - 1]
  }

  function SumReals(s: seq<real>): real
  {
    if |s| == 0 then 0.0 else SumReals(s[..|s| - 1]) + s[|s| - 1]
  }

  lemma {:induction false} SumIntsAppend(a: seq<int>, b: seq<int>)
    ensures SumInts(a + b) == SumInts(a) + SumInts(b)
    decreases |b|
  {
    if |b| == 0 {
      assert a + b == a;
    } else {
      assert (a + b)[..|a + b| - 1] == a + b[..|b| - 1];
      SumIntsAppend(a, b[..|b| - 1]);
    }
  }

  lemma {:induction false} SumRealsAppend(a: seq<real>, b: seq<real>)
    ensures SumReals(a + b) == SumReals(a) + SumReals(b)
    decreases |b|
  {
    if |b| == 0 {
      assert a + b == a;
    } else {
      assert (a + b)[..|a + b| - 1] == a + b[..|b| - 1];
      SumRealsAppend(a, b[..|b| - 1]);
    }
  }

  lemma {:induction false} SumRealsNonNegative(s: seq<real>)
    requires forall i :: 0 <= i < |s| ==> s[i] >= 0.0
    ensures SumReals(s) >= 0.0
    decreases |s|
  {
    if |s| > 0 {
      SumRealsNonNegative(s[..|s| - 1]);
    }
  }
}

=== FILE: expandable_timeline.dfy ===
/**
 The timeline size state machine of src/hooks/useExpandableTimeline.ts: four display modes with
 preset heights, a custom height left by drag-resizing (clamped, and snapped to nearby presets),
 toggling, cycling and the keyboard shortcuts. React state is a value here and each handler a
 transition; a handler that calls `changeMode` more than once leaves the last call's mode, as a
 batched React update does.
 */
module ExpandableTimeline {
  import opened Common

  datatype Mode = Collapsed | Normal | Expanded | Fullscreen

  /** `TimelineSize`: the preset height of each mode. */
  datatype Sizes = Sizes(collapsed: real, normal: real, expanded: real, fullscreen: real)

  /** `DEFAULT_SIZES`; fullscreen's 0 stands for the viewport height. */
  const DefaultSizes := Sizes(80.0, 200.0, 400.0, 0.0)

  const MinHeight := 80.0
  const MaxHeight := 800.0
  const SnapThreshold := 20.0

  /** The options' partial sizes: a present entry replaces the default. */
  datatype SizeOverrides = SizeOverrides(collapsed: Option<real>, normal: Option<real>, expanded: Option<real>, fullscreen: Option<real>)

  /** `{ ...DEFAULT_SIZES, ...sizes }`. */
  function MergeSizes(o: SizeOverrides): (s: Sizes)
    ensures o.collapsed.None? ==> s.collapsed == DefaultSizes.collapsed
    ensures o.normal.None? ==> s.normal == DefaultSizes.normal
    ensures o.expanded.None? ==> s.expanded == DefaultSizes.expanded
    ensures o.fullscreen.None? ==> s.fullscreen == DefaultSizes.fullscreen
    ensures o.collapsed.Some? ==> s.collapsed == o.collapsed.value
    ensures o.normal.Some? ==> s.normal == o.normal.value
    ensures o.expanded.Some? ==> s.expanded == o.expanded.value
    ensures o.fullscreen.Some? ==> s.fullscreen == o.fullscreen.value
  {
    Sizes(o.collapsed.GetOr(80.0), o.normal.GetOr(200.0), o.expanded.GetOr(400.0), o.fullscreen.GetOr(0.0))
  }

  function Preset(sizes: Sizes, m: Mode): real
  {
    match m
    case Collapsed => sizes.collapsed
    case Normal => sizes.normal
    case Expanded => sizes.expanded
    case Fullscreen => sizes.fullscreen
  }

  datatype TimelineState = TimelineState(
    mode: Mode,
    customHeight: Option<real>,
    isDragging: bool,
    dragStartY: real,
    dragStartHeight: real)

  function Init(initialMode: Mode): TimelineState
  {
    TimelineState(initialMode, None, false, 0.0, 0.0)
  }

  /** `customHeight ?? timelineSizes[mode]`. */
  function Height(st: TimelineState, sizes: Sizes): (h: real)
    ensures st.customHeight.None? ==> h == Preset(sizes, st.mode)
    ensures st.customHeight.Some? ==> h == st.customHeight.value
  {
    st.customHeight.GetOr(Preset(sizes, st.mode))
  }

  // ---------------------------------------------------------------------------------------------
  // Modes
  // ---------------------------------------------------------------------------------------------

  /** `changeMode`: the new mode at its preset height (any custom height is dropped). */
  function ChangeMode(st: TimelineState, m: Mode): (r: TimelineState)
    ensures r.mode == m && forall sizes :: Height(r, sizes) == Preset(sizes, m)
    ensures r.(mode := st.mode, customHeight := st.customHeight) == st  // the drag fields are kept
  {
    st.(mode := m, customHeight := None)
  }

  /** `toggle`: normal goes to expanded, every other mode to normal. */
  function Toggle(st: TimelineState): (r: TimelineState)
    ensures st.mode == Normal ==> r.mode == Expanded
    ensures st.mode != Normal ==> r.mode == Normal
    ensures r.customHeight.None?
  {
    ChangeMode(st, if st.mode == Normal then Expanded else Normal)
  }

  /** Toggling twice returns to normal or expanded, wherever one started among those two. */
  lemma ToggleTwice(st: TimelineState)
    requires st.mode == Normal || st.mode == Expanded
    ensures Toggle(Toggle(st)).mode == st.mode
  {
  }

  /** The `cycle` order. */
  const Cycle: seq<Mode> := [Collapsed, Normal, Expanded, Fullscreen]

  /** `modes.indexOf(mode)`. */
  function CycleIndex(m: Mode): (i: nat)
    ensures i < |Cycle| && Cycle[i] == m
  {
    match m
    case Collapsed => 0
    case Normal => 1
    case Expanded => 2
    case Fullscreen => 3
  }

  /** `cycle`: the next mode of the order, wrapping from fullscreen to collapsed. */
  function CycleMode(st: TimelineState): (r: TimelineState)
    ensures r.mode == Cycle[(CycleIndex(st.mode) + 1) % 4]
    ensures r.customHeight.None?
  {
    ChangeMode(st, Cycle[(CycleIndex(st.mode) + 1) % 4])
  }

  /** Four cycles come back to the starting mode, at its preset height. */
  lemma CycleFour(st: TimelineState)
    ensures var r := CycleMode(CycleMode(CycleMode(CycleMode(st))));
      r.mode == st.mode && r.customHeight.None?
  {
  }

  /** Each mode is reached by exactly one cycle step: cycling visits every mode. */
  lemma CycleVisitsAll(m: Mode, st: TimelineState)
    ensures exists k :: 0 <= k < 4 && CycleMode(ChangeMode(st, Cycle[k])).mode == m
  {
    var i := CycleIndex(m);
    var k := (i + 3) % 4;
    assert CycleMode(ChangeMode(st, Cycle[k])).mode == m;
  }

  // ---------------------------------------------------------------------------------------------
  // Drag resizing
  // ---------------------------------------------------------------------------------------------

  /** `handleDragStart`: remembers the pointer and the current height. */
  function DragStart(st: TimelineState, sizes: Sizes, clientY: real): (r: TimelineState)
    ensures r.isDragging && r.dragStartY == clientY && r.dragStartHeight == Height(st, sizes)
    ensures r.mode == st.mode && r.customHeight == st.customHeight
    ensures r.(isDragging := st.isDragging, dragStartY := st.dragStartY, dragStartHeight := st.dragStartHeight) == st
  {
    st.(isDragging := true, dragStartY := clientY, dragStartHeight := Height(st, sizes))
  }

  /** `handleDragEnd`: only the dragging flag is cleared. */
  function DragEnd(st: TimelineState): (r: TimelineState)
    ensures !r.isDragging && r.mode == st.mode && r.customHeight == st.customHeight
    ensures r.(isDragging := st.isDragging) == st  // every other field is kept
  {
    st.(isDragging := false)
  }

  /** The dragged height before snapping: moving up grows the timeline, within `[80, 800]`. */
  function DraggedHeight(st: TimelineState, clientY: real): (h: real)
    ensures MinHeight <= h <= MaxHeight
  {
    ClampR(st.dragStartHeight + (st.dragStartY - clientY), MinHeight, MaxHeight)
  }

  /** `Math.abs(a - b) < 20`. */
  predicate Near(a: real, b: real)
  {
    -SnapThreshold < a - b < SnapThreshold
  }

  /** One entry of the snapping loop: a near preset becomes the height and the mode. */
  function SnapTo(st: TimelineState, h: real, sizes: Sizes, m: Mode): (r: TimelineState)
  {
    if Near(h, Preset(sizes, m)) then st.(customHeight := Some(Preset(sizes, m)), mode := m) else st
  }

  /**
   `handleDrag`: the clamped height, then every preset but fullscreen's in table order snaps
   the height and mode when it is near; ignored unless a drag is in progress.
   */
  function Drag(st: TimelineState, sizes: Sizes, clientY: real): (r: TimelineState)
    ensures !st.isDragging ==> r == st
  {
    if !st.isDragging then st
    else
      var h := DraggedHeight(st, clientY);
      var dragged := st.(customHeight := Some(h));
      SnapTo(SnapTo(SnapTo(dragged, h, sizes, Collapsed), h, sizes, Normal), h, sizes, Expanded)
  }

  /**
   A drag ends at the clamped height, or at the last preset near it (in which case the mode
   follows); with either, the custom height is set.
   */
  lemma DragOutcome(st: TimelineState, sizes: Sizes, clientY: real)
    requires st.isDragging
    ensures var r := Drag(st, sizes, clientY);
      var h := DraggedHeight(st, clientY);
      r.customHeight.Some? &&
      ((r.customHeight.value == h && r.mode == st.mode) ||
       (r.mode != Fullscreen && Near(h, Preset(sizes, r.mode)) && r.customHeight.value == Preset(sizes, r.mode)))
    ensures Drag(st, sizes, clientY).(mode := st.mode, customHeight := st.customHeight) == st  // the drag fields are kept
  {
  }

  /** With the default sizes a drag always leaves the height within `[80, 800]`. */
  lemma DragHeightBounded(st: TimelineState, clientY: real)
    requires st.isDragging
    ensures MinHeight <= Height(Drag(st, DefaultSizes, clientY), DefaultSizes) <= MaxHeight
  {
    DragOutcome(st, DefaultSizes, clientY);
  }

  /** With the default sizes, a height near a non-fullscreen preset lands exactly on it in that mode. */
  lemma DragSnapsDefault(st: TimelineState, clientY: real, m: Mode)
    requires st.isDragging && m != Fullscreen
    requires Near(DraggedHeight(st, clientY), Preset(DefaultSizes, m))
    ensures var r := Drag(st, DefaultSizes, clientY);
      r.mode == m && Height(r, DefaultSizes) == Preset(DefaultSizes, m)
  {
  }

  /** A height near no preset stays as dragged, and the mode does not change. */
  lemma DragWithoutSnap(st: TimelineState, sizes: Sizes, clientY: real)
    requires st.isDragging
    requires forall m :: m != Fullscreen ==> !Near(DraggedHeight(st, clientY), Preset(sizes, m))
    ensures var r := Drag(st, sizes, clientY);
      r.mode == st.mode && Height(r, sizes) == DraggedHeight(st, clientY)
  {
    var h := DraggedHeight(st, clientY);
    assert !Near(h, Preset(sizes, Collapsed)) && !Near(h, Preset(sizes, Normal)) && !Near(h, Preset(sizes, Expanded));
  }

  // ---------------------------------------------------------------------------------------------
  // Keyboard shortcuts
  // ---------------------------------------------------------------------------------------------

  /** The keys the handler looks at; `t` and `T` are one key here. */
  datatype Key = LetterT | Escape | ArrowUp | ArrowDown | OtherKey

  datatype KeyPress = KeyPress(key: Key, shift: bool, ctrlOrMeta: bool)

  /** One step up the collapsed < normal < expanded < fullscreen ladder; none from fullscreen. */
  function Up(m: Mode): (r: Option<Mode>)
    ensures r.None? <==> m == Fullscreen
    ensures r.Some? ==> CycleIndex(r.value) == CycleIndex(m) + 1
  {
    match m
    case Collapsed => Some(Normal)
    case Normal => Some(Expanded)
    case Expanded => Some(Fullscreen)
    case Fullscreen => None
  }

  /** One step down the ladder; none from collapsed. */
  function Down(m: Mode): (r: Option<Mode>)
    ensures r.None? <==> m == Collapsed
    ensures r.Some? ==> CycleIndex(r.value) + 1 == CycleIndex(m)
  {
    match m
    case Fullscreen => Some(Expanded)
    case Expanded => Some(Normal)
    case Normal => Some(Collapsed)
    case Collapsed => None
  }

  /** Up and down are inverse steps on the ladder. */
  lemma LadderInverse(m: Mode)
    ensures Up(m).Some? ==> Down(Up(m).value) == Some(m)
    ensures Down(m).Some? ==> Up(Down(m).value) == Some(m)
    ensures Up(m).None? <==> m == Fullscreen
    ensures Down(m).None? <==> m == Collapsed
  {
  }

  function Then(st: TimelineState, m: Option<Mode>): TimelineState
  {
    if m.Some? then ChangeMode(st, m.value) else st
  }

  /**
   The `keydown` handler: ignored while an input has focus; otherwise each matching shortcut
   applies in turn, each computing its mode from the mode before the key press.
   */
  function HandleKey(st: TimelineState, press: KeyPress, inputFocused: bool): (r: TimelineState)
    ensures inputFocused ==> r == st
  {
    if inputFocused then st
    else
      var mode := st.mode;
      var afterT := if press.key == LetterT then Toggle(st) else st;
      var afterShiftT :=
        if press.shift && press.key == LetterT then
          ChangeMode(afterT, if mode == Fullscreen then Normal else Fullscreen)
        else afterT;
      var afterEscape :=
        if press.key == Escape && mode == Fullscreen then ChangeMode(afterShiftT, Normal) else afterShiftT;
      var afterUp := if press.ctrlOrMeta && press.key == ArrowUp then Then(afterEscape, Up(mode)) else afterEscape;
      if press.ctrlOrMeta && press.key == ArrowDown then Then(afterUp, Down(mode)) else afterUp
  }

  /** Ctrl+Up climbs one step, leaving fullscreen (and its height) as it is. */
  lemma CtrlUp(st: TimelineState, shift: bool)
    ensures var r := HandleKey(st, KeyPress(ArrowUp, shift, true), false);
      (st.mode == Fullscreen ==> r == st) &&
      (st.mode != Fullscreen ==> r == ChangeMode(st, Up(st.mode).value))
  {
  }

  /** Ctrl+Down descends one step, leaving collapsed as it is. */
  lemma CtrlDown(st: TimelineState, shift: bool)
    ensures var r := HandleKey(st, KeyPress(ArrowDown, shift, true), false);
      (st.mode == Collapsed ==> r == st) &&
      (st.mode != Collapsed ==> r == ChangeMode(st, Down(st.mode).value))
  {
  }

  /** Escape leaves fullscreen for normal and does nothing in any other mode. */
  lemma EscapeKey(st: TimelineState, shift: bool, ctrl: bool)
    ensures var r := HandleKey(st, KeyPress(Escape, shift, ctrl), false);
      (st.mode == Fullscreen ==> r == ChangeMode(st, Normal)) && (st.mode != Fullscreen ==> r == st)
  {
  }

  /** T toggles; Shift+T overrides the toggle and switches fullscreen on or off. */
  lemma LetterTKey(st: TimelineState, ctrl: bool)
    ensures HandleKey(st, KeyPress(LetterT, false, ctrl), false) == Toggle(st)
    ensures HandleKey(st, KeyPress(LetterT, true, ctrl), false).mode == (if st.mode == Fullscreen then Normal else Fullscreen)
  {
  }

  /** Nothing happens while a text field has focus. */
  lemma FocusedInputIgnored(st: TimelineState, press: KeyPress)
    ensures HandleKey(st, press, true) == st
  {
  }
}

=== FILE: hardware.dfy ===
/**
 The ATOM SQ controller codecs of src/services/hardware/HardwareService.ts: sign-bit relative
 encoder decoding, the SysEx frame that writes a line of the controller's display, the pad
 message and the native-mode start-up sequence. Message bytes are JavaScript numbers, so they
 are `int`s here; whether an output port is open and SysEx is enabled are parameters.
 */
module Hardware {
  import opened Common

  // ---------------------------------------------------------------------------------------------
  // Relative encoders
  // ---------------------------------------------------------------------------------------------

  /** The CC number of the first of the eight encoders. */
  const EncoderBaseCc := 14

  datatype EncoderTurn = EncoderTurn(encoderIndex: int, delta: int)

  /** `parseRelativeCC`: values up to 64 turn clockwise by that much, larger ones by `value - 128`. */
  function ParseRelativeCc(cc: int, value: int): (r: EncoderTurn)
    ensures r.encoderIndex + EncoderBaseCc == cc
    ensures value <= 64 ==> r.delta == value
    ensures value > 64 ==> r.delta < value && (r.delta - value) % 128 == 0
  {
    var delta := if value <= 64 then value else value - 128;
    EncoderTurn(cc - EncoderBaseCc, delta)
  }

  /** The controller's side: a turn of `delta` steps as a 7-bit sign-bit relative value. */
  function EncodeRelative(delta: int): (value: int)
    requires -63 <= delta <= 64
    ensures 0 <= value < 128
  {
    if delta >= 0 then delta else delta + 128
  }

  /** Every turn the controller can send decodes to itself. */
  lemma RelativeRoundTrip(cc: int, delta: int)
    requires -63 <= delta <= 64
    ensures ParseRelativeCc(cc, EncodeRelative(delta)).delta == delta
  {
  }

  /** Every 7-bit value is the encoding of the turn it decodes to. */
  lemma RelativeValueRoundTrip(value: int)
    requires 0 <= value < 128
    ensures var d := ParseRelativeCc(EncoderBaseCc, value).delta;
      -63 <= d <= 64 && EncodeRelative(d) == value
  {
  }

  /** The eight encoder CCs 14..21 map onto indices 0..7; nothing outside is rejected. */
  lemma EncoderIndexRange(cc: int, value: int)
    ensures 14 <= cc <= 21 <==> 0 <= ParseRelativeCc(cc, value).encoderIndex <= 7
  {
  }

  /** The decodes the controller's documentation lists. */
  lemma RelativeExamples()
    ensures ParseRelativeCc(14, 1) == EncoderTurn(0, 1)
    ensures ParseRelativeCc(15, 127) == EncoderTurn(1, -1)
    ensures ParseRelativeCc(18, 64) == EncoderTurn(4, 64)
    ensures ParseRelativeCc(19, 65) == EncoderTurn(5, -63)
  {
  }

  // ---------------------------------------------------------------------------------------------
  // Display SysEx
  // ---------------------------------------------------------------------------------------------

  /** Manufacturer and model header of every display frame. */
  const SysexHeader: seq<int> := [0xF0, 0x00, 0x01, 0x06, 0x22, 0x12]
  /** The character code the display draws as a note icon. */
  const NoteIconByte := 0x0B
  /** Centred text. */
  const Alignment := 0x01
  const SysexEnd := 0xF7

  /** What `updateDisplay` is handed: a string, or raw byte values for special characters. */
  datatype Content = Text(text: string) | Bytes(bytes: seq<int>)

  /** `charCodeAt` over `split("")`: the UTF-16 code units of one character. */
  function CodeUnits(c: char): (r: seq<int>)
    ensures 1 <= |r| <= 2
    ensures c as int < 0x1_0000 <==> r == [c as int]
    ensures |r| == 2 ==> 0xD800 <= r[0] < 0xDC00 && 0xDC00 <= r[1] < 0xE000
  {
    var v := c as int;
    if v < 0x1_0000 then [v]
    else [0xD800 + (v - 0x1_0000) / 0x400, 0xDC00 + (v - 0x1_0000) % 0x400]
  }

  /** The code unit a display character is sent as: `♪` becomes the note icon. */
  function DisplayUnits(c: char): (r: seq<int>)
  {
    if c == '♪' then [NoteIconByte] else CodeUnits(c)
  }

  /** The text bytes of a display update; string content is converted character by character. */
  function TextBytes(content: Content): (r: seq<int>)
    decreases if content.Text? then |content.text| else 0
  {
    match content
    case Bytes(bytes) => bytes
    case Text(text) =>
      if |text| == 0 then []
      else TextBytes(Text(text[..|text| - 1])) + DisplayUnits(text[|text| - 1])
  }

  /** Text of plain characters below U+10000 becomes one code unit each, the note sign the icon byte. */
  lemma {:induction false} TextBytesBmp(text: string)
    requires forall i :: 0 <= i < |text| ==> text[i] as int < 0x1_0000
    ensures var r := TextBytes(Text(text));
      |r| == |text| &&
      forall i :: 0 <= i < |text| ==> r[i] == (if text[i] == '♪' then NoteIconByte else text[i] as int)
    decreases |text|
  {
    if |text| > 0 {
      TextBytesBmp(text[..|text| - 1]);
    }
  }

  /** The display frame: header, line, colour, alignment, the text bytes and the end marker. */
  function DisplayFrame(line: int, rgb: (int, int, int), textBytes: seq<int>): (r: seq<int>)
    ensures |r| == 12 + |textBytes|
    ensures r[..6] == SysexHeader && r[|r| - 1] == SysexEnd
    ensures r[11..|r| - 1] == textBytes
  {
    SysexHeader + [line, rgb.0, rgb.1, rgb.2, Alignment] + textBytes + [SysexEnd]
  }

  /** Reads a display frame back into its line, colour and text bytes. */
  function ParseDisplayFrame(msg: seq<int>): (r: Option<(int, (int, int, int), seq<int>)>)
  {
    if |msg| >= 12 && msg[..6] == SysexHeader && msg[10] == Alignment && msg[|msg| - 1] == SysexEnd then
      Some((msg[6], (msg[7], msg[8], msg[9]), msg[11..|msg| - 1]))
    else None
  }

  lemma DisplayFrameRoundTrip(line: int, rgb: (int, int, int), textBytes: seq<int>)
    ensures ParseDisplayFrame(DisplayFrame(line, rgb, textBytes)) == Some((line, rgb, textBytes))
  {
    var r := DisplayFrame(line, rgb, textBytes);
    assert r[6] == line && r[7] == rgb.0 && r[8] == rgb.1 && r[9] == rgb.2 && r[10] == Alignment;
  }

  /** Where messages go: whether an output port was found and whether SysEx was granted. */
  datatype Port = Port(hasOutput: bool, sysexEnabled: bool)

  /** `updateDisplay`: the messages sent, none without an output port or without SysEx. */
  function UpdateDisplay(port: Port, line: int, content: Content, rgb: (int, int, int)): (sent: seq<seq<int>>)
    ensures !port.hasOutput || !port.sysexEnabled ==> sent == []
    ensures port.hasOutput && port.sysexEnabled ==>
      |sent| == 1 && ParseDisplayFrame(sent[0]) == Some((line, rgb, TextBytes(content)))
  {
    if !port.hasOutput || !port.sysexEnabled then []
    else
      DisplayFrameRoundTrip(line, rgb, TextBytes(content));
      [DisplayFrame(line, rgb, TextBytes(content))]
  }

  /** The default colour of a display update. */
  const DefaultRgb := (127, 127, 127)

  // ---------------------------------------------------------------------------------------------
  // Pads and native mode
  // ---------------------------------------------------------------------------------------------

  /** Note-on status byte on channel 1. */
  const NoteOnChannel1 := 0x90

  /** A three-byte channel message read back: status nibble, channel and two data bytes. */
  datatype ChannelMessage = ChannelMessage(kind: int, channel: int, data1: int, data2: int)

  function ParseChannelMessage(msg: seq<int>): (r: Option<ChannelMessage>)
    ensures r.Some? <==> |msg| == 3 && 0x80 <= msg[0] < 0xF0
    ensures r.Some? ==>
      0x8 <= r.value.kind < 0xF && 0 <= r.value.channel < 16 && msg[0] == r.value.kind * 16 + r.value.channel &&
      r.value.data1 == msg[1] && r.value.data2 == msg[2]
  {
    if |msg| == 3 && 0x80 <= msg[0] < 0xF0 then
      Some(ChannelMessage(msg[0] / 16, msg[0] % 16, msg[1], msg[2]))
    else None
  }

  /** `setPadState`: one note-on on channel 1 whose velocity selects the pad's light mode. */
  function SetPadState(port: Port, note: int, mode: int): (sent: seq<seq<int>>)
    ensures !port.hasOutput ==> sent == []
    ensures port.hasOutput ==>
      |sent| == 1 && ParseChannelMessage(sent[0]) == Some(ChannelMessage(9, 0, note, mode))
  {
    if !port.hasOutput then [] else [[NoteOnChannel1, note, mode]]
  }

  /** Note-off for note 0 at velocity 127 on channel 16: the controller's native-mode request. */
  const NativeModeHandshake: seq<int> := [0x8F, 0x00, 0x7F]

  /**
   `initializeNativeMode`: with an output and SysEx, the handshake followed by a green
   "CHORD GEN" title on line 0; nothing otherwise.
   */
  function InitializeNativeMode(port: Port): (sent: seq<seq<int>>)
    ensures !port.hasOutput || !port.sysexEnabled ==> sent == []
    ensures port.hasOutput && port.sysexEnabled ==>
      |sent| == 2 && ParseChannelMessage(sent[0]) == Some(ChannelMessage(8, 15, 0, 127)) &&
      ParseDisplayFrame(sent[1]) == Some((0, (127, 255, 127), TextBytes(Text("CHORD GEN"))))
  {
    if !port.hasOutput || !port.sysexEnabled then []
    else [NativeModeHandshake] + UpdateDisplay(port, 0, Text("CHORD GEN"), (127, 255, 127))
  }
}

=== FILE: live_store.dfy ===
/**
 The Live connection store of src/stores/liveStore.ts: transport controls that update the local
 transport while no OSC link is up, the handlers for transport and track observations, tempo,
 track selection and disconnecting. Whether the OSC link is up is a parameter; with it up the
 transport controls hand over to the OSC service instead of changing local state.
 */
module LiveStore {
  import opened Common

  datatype Track = Track(index: int, name: string, color: int)

  datatype Transport = Transport(isPlaying: bool, currentBeat: real, tempo: real)

  datatype LiveState = LiveState(isConnected: bool, transport: Transport, tracks: seq<Track>, selectedTrackIndex: int)

  const Initial := LiveState(false, Transport(false, 0.0, 120.0), [], 0)

  /** Beats in a bar while offline: the store assumes 4/4. */
  const BeatsPerBarOffline := 4

  // ---------------------------------------------------------------------------------------------
  // Transport controls
  // ---------------------------------------------------------------------------------------------

  /** `play`: the local transport runs whether or not the link is up. */
  function Play(st: LiveState): (r: LiveState)
    ensures r.transport.isPlaying
    ensures r.transport.currentBeat == st.transport.currentBeat && r.transport.tempo == st.transport.tempo
    ensures r.isConnected == st.isConnected && r.tracks == st.tracks && r.selectedTrackIndex == st.selectedTrackIndex
  {
    st.(transport := st.transport.(isPlaying := true))
  }

  /** `pause`: stops the local transport where it is. */
  function Pause(st: LiveState): (r: LiveState)
    ensures !r.transport.isPlaying
    ensures r.transport.currentBeat == st.transport.currentBeat && r.transport.tempo == st.transport.tempo
    ensures r.isConnected == st.isConnected && r.tracks == st.tracks && r.selectedTrackIndex == st.selectedTrackIndex
  {
    st.(transport := st.transport.(isPlaying := false))
  }

  /** `stop`: stops and rewinds to beat 0. */
  function Stop(st: LiveState): (r: LiveState)
    ensures !r.transport.isPlaying && r.transport.currentBeat == 0.0
    ensures r.transport.tempo == st.transport.tempo
    ensures r.isConnected == st.isConnected && r.tracks == st.tracks && r.selectedTrackIndex == st.selectedTrackIndex
  {
    st.(transport := st.transport.(isPlaying := false, currentBeat := 0.0))
  }

  /** `jumpByBars`: offline, moves by four beats a bar and never before beat 0. */
  function JumpByBars(st: LiveState, bars: real, linkUp: bool): (r: LiveState)
    ensures linkUp ==> r == st
    ensures !linkUp ==> r.transport.currentBeat >= 0.0 && r.transport.currentBeat >= st.transport.currentBeat + bars * 4.0
    ensures !linkUp && st.transport.currentBeat + bars * 4.0 >= 0.0 ==>
      r.transport.currentBeat == st.transport.currentBeat + bars * 4.0
    ensures !linkUp && st.transport.currentBeat + bars * 4.0 < 0.0 ==> r.transport.currentBeat == 0.0
    ensures r.transport.isPlaying == st.transport.isPlaying && r.transport.tempo == st.transport.tempo
    ensures r.tracks == st.tracks
    ensures r.(transport := st.transport) == st && r.transport.(currentBeat := st.transport.currentBeat) == st.transport
  {
    if linkUp then st
    else st.(transport := st.transport.(currentBeat := MaxR(0.0, st.transport.currentBeat + bars * BeatsPerBarOffline as real)))
  }

  /** `jumpToBeat`: offline, goes to the beat, or to 0 for a negative one. */
  function JumpToBeat(st: LiveState, beat: real, linkUp: bool): (r: LiveState)
    ensures linkUp ==> r == st
    ensures !linkUp ==> r.transport.currentBeat >= 0.0 && (beat >= 0.0 ==> r.transport.currentBeat == beat)
    ensures !linkUp && beat < 0.0 ==> r.transport.currentBeat == 0.0
    ensures r.transport.isPlaying == st.transport.isPlaying && r.transport.tempo == st.transport.tempo
    ensures r.tracks == st.tracks
    ensures r.(transport := st.transport) == st && r.transport.(currentBeat := st.transport.currentBeat) == st.transport
  {
    if linkUp then st
    else st.(transport := st.transport.(currentBeat := MaxR(0.0, beat)))
  }

  /** A jump forward and the same jump back return to the start when the first stayed clear of beat 0. */
  lemma JumpBackRestores(st: LiveState, bars: real)
    requires bars >= 0.0 && st.transport.currentBeat >= 0.0
    ensures JumpByBars(JumpByBars(st, bars, false), -bars, false) == st
  {
  }

  /** Playhead positions the store produces on its own are never negative. */
  ghost predicate BeatNonNegative(st: LiveState)
  {
    st.transport.currentBeat >= 0.0
  }

  /** Every local control keeps the playhead at or after beat 0. */
  lemma LocalControlsKeepBeat(st: LiveState, bars: real, beat: real, tempo: real, linkUp: bool)
    requires BeatNonNegative(st)
    ensures BeatNonNegative(Play(st)) && BeatNonNegative(Pause(st)) && BeatNonNegative(Stop(st))
    ensures BeatNonNegative(JumpByBars(st, bars, linkUp)) && BeatNonNegative(JumpToBeat(st, beat, linkUp))
    ensures BeatNonNegative(SetTempo(st, tempo)) && BeatNonNegative(Disconnect(st))
  {
  }

  /** `setTempo`: only the tempo changes (the OSC service is told as well). */
  function SetTempo(st: LiveState, tempo: real): (r: LiveState)
    ensures r.transport.tempo == tempo
    ensures r.transport.isPlaying == st.transport.isPlaying && r.transport.currentBeat == st.transport.currentBeat
    ensures r.isConnected == st.isConnected && r.tracks == st.tracks && r.selectedTrackIndex == st.selectedTrackIndex
  {
    st.(transport := st.transport.(tempo := tempo))
  }

  function SelectTrack(st: LiveState, index: int): (r: LiveState)
    ensures r.selectedTrackIndex == index && r.transport == st.transport && r.tracks == st.tracks
    ensures r.isConnected == st.isConnected
  {
    st.(selectedTrackIndex := index)
  }

  /** `disconnect`: closes the link and forgets the tracks; transport and selection stay. */
  function Disconnect(st: LiveState): (r: LiveState)
    ensures !r.isConnected && r.tracks == []
    ensures r.transport == st.transport && r.selectedTrackIndex == st.selectedTrackIndex
  {
    st.(isConnected := false, tracks := [])
  }

  /** A successful `initializeOSC` marks the store connected; a failed one changes nothing. */
  function InitializeOsc(st: LiveState, connected: bool): (r: LiveState)
    ensures r.isConnected == (connected || st.isConnected)
    ensures r.transport == st.transport && r.tracks == st.tracks
    ensures r.selectedTrackIndex == st.selectedTrackIndex
    ensures !connected ==> r == st
  {
    if connected then st.(isConnected := true) else st
  }

  /** The track a `createProgression` without a track index goes to: the selected one. */
  function ProgressionTrack(st: LiveState, trackIndex: Option<int>): (r: int)
    ensures trackIndex.Some? ==> r == trackIndex.value
    ensures trackIndex.None? ==> r == st.selectedTrackIndex
  {
    trackIndex.GetOr(st.selectedTrackIndex)
  }

  // ---------------------------------------------------------------------------------------------
  // Observations from Live
  // ---------------------------------------------------------------------------------------------

  /**
   The `/live/transport` handler: playing exactly when the first argument is 1, beat and tempo
   from the next two.
   */
  function OnTransportUpdate(st: LiveState, playing: real, beat: real, tempo: real): (r: LiveState)
    ensures r.transport.isPlaying <==> playing == 1.0
    ensures r.transport.currentBeat == beat && r.transport.tempo == tempo
    ensures r.isConnected == st.isConnected && r.tracks == st.tracks
    ensures r.selectedTrackIndex == st.selectedTrackIndex
  {
    st.(transport := Transport(playing == 1.0, beat, tempo))
  }

  /** `findIndex` on the track index. */
  function FindTrack(tracks: seq<Track>, index: int): (r: int)
    ensures -1 <= r < |tracks|
    ensures r >= 0 ==> tracks[r].index == index && forall k :: 0 <= k < r ==> tracks[k].index != index
    ensures r == -1 ==> forall k :: 0 <= k < |tracks| ==> tracks[k].index != index
    decreases |tracks|
  {
    if |tracks| == 0 then -1
    else if tracks[0].index == index then 0
    else
      var k := FindTrack(tracks[1..], index);
      if k < 0 then -1 else k + 1
  }

  /** No two tracks share an index. */
  predicate UniqueIndices(tracks: seq<Track>)
  {
    forall i, j :: 0 <= i < j < |tracks| ==> tracks[i].index != tracks[j].index
  }

  /** The `/live/track_info` handler: replaces the track with that index in place, or appends it. */
  function OnTrackInfo(st: LiveState, index: int, name: string, color: int): (r: LiveState)
    ensures r.transport == st.transport && r.isConnected == st.isConnected
    ensures r.selectedTrackIndex == st.selectedTrackIndex
  {
    var t := Track(index, name, color);
    var k := FindTrack(st.tracks, index);
    if k >= 0 then st.(tracks := st.tracks[k := t]) else st.(tracks := st.tracks + [t])
  }

  /** After a track report the reported track is listed exactly once and the others are untouched. */
  lemma TrackInfoUpsert(st: LiveState, index: int, name: string, color: int)
    requires UniqueIndices(st.tracks)
    ensures var tracks := OnTrackInfo(st, index, name, color).tracks;
      UniqueIndices(tracks) &&
      (exists k :: 0 <= k < |tracks| && tracks[k] == Track(index, name, color)) &&
      (forall k :: 0 <= k < |st.tracks| && st.tracks[k].index != index ==> tracks[k] == st.tracks[k]) &&
      |tracks| == |st.tracks| + (if FindTrack(st.tracks, index) >= 0 then 0 else 1)
  {
    var k := FindTrack(st.tracks, index);
    var tracks := OnTrackInfo(st, index, name, color).tracks;
    if k >= 0 {
      assert tracks[k] == Track(index, name, color);
    } else {
      assert tracks[|st.tracks|] == Track(index, name, color);
    }
  }

  /** Reporting the same track twice changes nothing the second time. */
  lemma TrackInfoIdempotent(st: LiveState, index: int, name: string, color: int)
    ensures var once := OnTrackInfo(st, index, name, color);
      OnTrackInfo(once, index, name, color) == once
  {
    var k := FindTrack(st.tracks, index);
    var once := OnTrackInfo(st, index, name, color);
    var at := if k >= 0 then k else |st.tracks|;
    assert once.tracks[at] == Track(index, name, color);
    forall j | 0 <= j < at
      ensures once.tracks[j].index != index
    {
      assert once.tracks[j] == st.tracks[j];
    }
    assert FindTrack(once.tracks, index) == at;
  }
}

=== FILE: loop_timeline.dfy ===
/**
 The layout arithmetic of src/components/ProgressionEditor/LoopTimeline.tsx: note names, section
 lengths, the cumulative section positions, the transport clock text, the bar/beat readout, the
 active beat of a section and the drag-to-reorder handler.
 */
module LoopTimeline {
  import opened Common
  import opened Text
  import opened Song
  import ArrangementLane

  // ---------------------------------------------------------------------------------------------
  // Note names
  // ---------------------------------------------------------------------------------------------

  const NoteNames: seq<string> := ["C", "C#", "D", "D#", "E", "F", "F#", "G", "G#", "A", "A#", "B"]

  /**
   `midiToNoteName`: `noteNames[midi % 12]`. JavaScript's `%` keeps the sign of `midi`, so a
   negative note that is not a multiple of 12 reads past the table and yields `undefined` (`None`).
   */
  function MidiToNoteName(midi: int): (r: Option<string>)
    ensures midi >= 0 ==> r == Some(NoteNames[midi % 12])
    ensures r.Some? <==> JsRem(midi, 12) >= 0
  {
    var k := JsRem(midi, 12);
    if 0 <= k then Some(NoteNames[k]) else None
  }

  /** Names repeat every octave, and the twelve pitch classes have twelve different names. */
  lemma NoteNamesPeriodic(midi: int)
    requires midi >= 0
    ensures MidiToNoteName(midi + 12) == MidiToNoteName(midi)
    ensures forall a, b :: 0 <= a < b < 12 ==> NoteNames[a] != NoteNames[b]
  {
    assert (midi + 12) % 12 == midi % 12;
  }

  // ---------------------------------------------------------------------------------------------
  // Section lengths and positions
  // ---------------------------------------------------------------------------------------------

  /** `getBaseSectionBeats`: the chord durations summed. */
  function BaseSectionBeats(s: Section): real
  {
    TotalDuration(s.progression)
  }

  /** `getTotalSectionBeats`: base beats times `max(1, repeats || 1)`. */
  function TotalSectionBeats(s: Section): real
  {
    BaseSectionBeats(s) * ArrangementLane.SectionRepeats(s) as real
  }

  /** The total beats of a run of sections, summed from the left. */
  function SpanOf(sections: seq<Section>): real
    decreases |sections|
  {
    if |sections| == 0 then 0.0
    else SpanOf(sections[..|sections| - 1]) + TotalSectionBeats(sections[|sections| - 1])
  }

  lemma SpanStep(sections: seq<Section>, i: int)
    requires 0 <= i < |sections|
    ensures SpanOf(sections[..i + 1]) == SpanOf(sections[..i]) + TotalSectionBeats(sections[i])
  {
    assert sections[..i + 1][..i] == sections[..i];
  }

  datatype Position = Position(startBeat: real, endBeat: real, totalBeats: real)

  /**
   `sectionBeatPositions`: section `i` starts at the total beats of the sections before it and
   ends its own total beats later.
   */
  function SectionPositions(sections: seq<Section>): (r: seq<Position>)
    ensures |r| == |sections|
    ensures forall i :: 0 <= i < |r| ==>
      r[i].totalBeats == TotalSectionBeats(sections[i]) && r[i].endBeat == r[i].startBeat + r[i].totalBeats
  {
    seq(|sections|, i requires 0 <= i < |sections| =>
      Position(SpanOf(sections[..i]), SpanOf(sections[..i]) + TotalSectionBeats(sections[i]), TotalSectionBeats(sections[i])))
  }

  /** The `map` with its running `cumulativeBeat` computes `SectionPositions`. */
  method SectionPositionsLoop(sections: seq<Section>) returns (r: seq<Position>)
    ensures r == SectionPositions(sections)
  {
    ghost var full := SectionPositions(sections);
    var cumulativeBeat := 0.0;
    r := [];
    var i := 0;
    while i < |sections|
      invariant 0 <= i <= |sections|
      invariant cumulativeBeat == SpanOf(sections[..i])
      invariant r == full[..i]
    {
      var sectionStartBeat := cumulativeBeat;
      var sectionBeats := TotalSectionBeats(sections[i]);
      SpanStep(sections, i);
      cumulativeBeat := cumulativeBeat + sectionBeats;
      r := r + [Position(sectionStartBeat, cumulativeBeat, sectionBeats)];
      i := i + 1;
    }
  }

  /** The positions tile the timeline: the first starts at 0 and each starts where the last ended. */
  lemma PositionsContiguous(sections: seq<Section>)
    ensures var p := SectionPositions(sections);
      (|p| > 0 ==> p[0].startBeat == 0.0) &&
      forall i :: 0 <= i < |p| - 1 ==> p[i + 1].startBeat == p[i].endBeat
  {
    var p := SectionPositions(sections);
    forall i | 0 <= i < |p| - 1
      ensures p[i + 1].startBeat == p[i].endBeat
    {
      SpanStep(sections, i);
    }
    if |p| > 0 {
      assert sections[..0] == [];
    }
  }

  /** `totalBeats`: the end of the last section, or 0 without sections. */
  function TimelineBeats(positions: seq<Position>): real
  {
    if |positions| > 0 then positions[|positions| - 1].endBeat else 0.0
  }

  /** The timeline is as long as all sections' total beats together. */
  lemma TimelineBeatsIsSpan(sections: seq<Section>)
    ensures TimelineBeats(SectionPositions(sections)) == SpanOf(sections)
  {
    if |sections| > 0 {
      SpanStep(sections, |sections| - 1);
      assert sections[..|sections|] == sections;
    }
  }

  // ---------------------------------------------------------------------------------------------
  // Clock text
  // ---------------------------------------------------------------------------------------------

  /** Minutes and whole seconds of `formatSecondsToClock`, negatives counted as 0. */
  function ClockFields(totalSeconds: real): (r: (int, int))
    ensures r.0 >= 0 && 0 <= r.1 < 60
    ensures r.0 * 60 + r.1 == MaxR(0.0, totalSeconds).Floor
  {
    var safe := MaxR(0.0, totalSeconds);
    var minutes := (safe / 60.0).Floor;
    var rem := JsFmod(safe, 60.0);
    ClockFieldsSum(safe, minutes, rem);
    (minutes, rem.Floor)
  }

  lemma ClockFieldsSum(safe: real, minutes: int, rem: real)
    requires safe >= 0.0 && minutes == (safe / 60.0).Floor && rem == JsFmod(safe, 60.0)
    ensures minutes >= 0 && rem == safe - 60.0 * minutes as real
    ensures minutes * 60 + rem.Floor == safe.Floor
  {
    DivSign(safe, 60.0);
    assert Trunc(safe / 60.0) == minutes;
    var k := minutes * 60;
    assert rem == safe - k as real;
    assert (safe - k as real).Floor == safe.Floor - k;
  }

  lemma NatToStringShort(n: nat)
    requires n < 100
    ensures |NatToString(n)| <= 2
  {
    if n >= 10 {
      assert NatToString(n) == NatToString(n / 10) + [DigitChar(n % 10)];
    }
  }

  /** `String(n).padStart(2, "0")`: at least two digits, exactly two below 100, reading back `n`. */
  function Field(n: nat): (r: string)
    ensures |r| >= 2 && (n < 100 ==> |r| == 2)
    ensures forall i :: 0 <= i < |r| ==> IsDigit(r[i])
    ensures ParseDigits(r) == n
  {
    ParsePadded(NatToString(n), 2);
    ParseNatToString(n);
    if n < 100 then NatToStringShort(n); PadStartZeros(NatToString(n), 2)
    else PadStartZeros(NatToString(n), 2)
  }

  /** Two-digit (at least) minutes, a colon, two-digit seconds. */
  function ClockText(minutes: nat, seconds: nat): (r: string)
  {
    Field(minutes) + ":" + Field(seconds)
  }

  /** `formatSecondsToClock`: minutes padded to two digits, `:`, seconds padded to two digits. */
  function FormatSecondsToClock(totalSeconds: real): string
  {
    var f := ClockFields(totalSeconds);
    ClockText(f.0, f.1)
  }

  /** Two digit fields around a colon: the colon sits third from the end. */
  lemma ClockTextShape(minutes: string, seconds: string)
    requires |minutes| >= 2 && |seconds| == 2
    requires forall i :: 0 <= i < |minutes| ==> IsDigit(minutes[i])
    requires forall i :: 0 <= i < |seconds| ==> IsDigit(seconds[i])
    ensures |minutes + ":" + seconds| == |minutes| + 3
    ensures (minutes + ":" + seconds)[|minutes|] == ':'
    ensures (minutes + ":" + seconds)[..|minutes|] == minutes
    ensures (minutes + ":" + seconds)[|minutes| + 1..] == seconds
    ensures forall i :: 0 <= i < |minutes + ":" + seconds| && i != |minutes| ==> IsDigit((minutes + ":" + seconds)[i])
  {
    var r := minutes + ":" + seconds;
    forall i | 0 <= i < |r| && i != |r| - 3
      ensures IsDigit(r[i])
    {
      if i < |minutes| {
        assert r[i] == minutes[i];
      } else {
        assert r[i] == seconds[i - |minutes| - 1];
      }
    }
  }

  lemma PaddedDigits(s: string, width: nat)
    requires forall i :: 0 <= i < |s| ==> IsDigit(s[i])
    ensures var r := PadStartZeros(s, width); forall i :: 0 <= i < |r| ==> IsDigit(r[i])
  {
    var r := PadStartZeros(s, width);
    forall i | 0 <= i < |r|
      ensures IsDigit(r[i])
    {
      if i >= |r| - |s| {
        assert r[i] == r[|r| - |s|..][i - (|r| - |s|)];
      }
    }
  }

  /** Leading zeros do not change a digit string's value. */
  lemma {:induction false} ParseDigitsZero(s: string)
    requires forall i :: 0 <= i < |s| ==> IsDigit(s[i])
    ensures ParseDigits("0" + s) == ParseDigits(s)
    decreases |s|
  {
    if |s| > 0 {
      var t := "0" + s;
      assert t[..|t| - 1] == "0" + s[..|s| - 1];
      ParseDigitsZero(s[..|s| - 1]);
    }
  }

  lemma {:induction false} ParsePadded(s: string, width: nat)
    requires forall i :: 0 <= i < |s| ==> IsDigit(s[i])
    ensures forall i :: 0 <= i < |PadStartZeros(s, width)| ==> IsDigit(PadStartZeros(s, width)[i])
    ensures ParseDigits(PadStartZeros(s, width)) == ParseDigits(s)
    decreases width - |s|
  {
    PaddedDigits(s, width);
    if |s| < width {
      ParseDigitsZero(s);
      ParsePadded("0" + s, width);
    }
  }

  /** Reads `mm:ss` back: the digits before and after the last `:`. */
  function ParseClock(t: string): (r: Option<(int, int)>)
  {
    if |t| >= 5 && t[|t| - 3] == ':' && (forall i :: 0 <= i < |t| && i != |t| - 3 ==> IsDigit(t[i])) then
      Some((ParseDigits(t[..|t| - 3]), ParseDigits(t[|t| - 2..])))
    else None
  }

  /** Any two digit fields joined by a colon read back as those fields. */
  lemma ParseClockOf(minutes: string, seconds: string)
    requires |minutes| >= 2 && |seconds| == 2
    requires forall i :: 0 <= i < |minutes| ==> IsDigit(minutes[i])
    requires forall i :: 0 <= i < |seconds| ==> IsDigit(seconds[i])
    ensures ParseClock(minutes + ":" + seconds) == Some((ParseDigits(minutes), ParseDigits(seconds)))
  {
    var t := minutes + ":" + seconds;
    ClockTextShape(minutes, seconds);
    assert t[..|t| - 3] == minutes;
    assert t[|t| - 2..] == seconds;
    assert |t| >= 5 && t[|t| - 3] == ':';
    assert forall i :: 0 <= i < |t| && i != |t| - 3 ==> IsDigit(t[i]);
    assert ParseDigits(t[..|t| - 3]) == ParseDigits(minutes);
    assert ParseDigits(t[|t| - 2..]) == ParseDigits(seconds);
  }

  /** The clock text carries the whole minutes and seconds of the (non-negative) input. */
  lemma ClockRoundTrip(totalSeconds: real)
    ensures ParseClock(FormatSecondsToClock(totalSeconds)) == Some(ClockFields(totalSeconds))
  {
    var f := ClockFields(totalSeconds);
    ParseClockOf(Field(f.0), Field(f.1));
  }

  // ---------------------------------------------------------------------------------------------
  // Playhead readouts
  // ---------------------------------------------------------------------------------------------

  /** JavaScript's `%` with any non-zero divisor: the sign follows the dividend, so `x % -y == x % y`. */
  function JsRemR(x: real, y: real): (r: real)
    requires y != 0.0
    ensures x >= 0.0 ==> 0.0 <= r < (if y > 0.0 then y else -y)
  {
    JsFmod(x, if y > 0.0 then y else -y)
  }

  /** `findIndex` of the first position holding the beat in `[start, end)`; -1 if none does. */
  function FindActive(positions: seq<Position>, beat: real): (r: int)
    ensures -1 <= r < |positions|
    ensures r >= 0 ==> positions[r].startBeat <= beat < positions[r].endBeat
    ensures r >= 0 ==> forall k :: 0 <= k < r ==> !(positions[k].startBeat <= beat < positions[k].endBeat)
    ensures r == -1 ==> forall k :: 0 <= k < |positions| ==> !(positions[k].startBeat <= beat < positions[k].endBeat)
    decreases |positions|
  {
    if |positions| == 0 then -1
    else if positions[0].startBeat <= beat < positions[0].endBeat then 0
    else
      var k := FindActive(positions[1..], beat);
      if k < 0 then -1 else k + 1
  }

  /** `beatsPerBar || 4`: never 0. */
  function BeatsPerBar(s: Section): (r: int)
    ensures r != 0
  {
    OrInt(s.beatsPerBar, 4)
  }

  /** The bars before a section: each earlier section's total beats over its bar length, rounded up. */
  function BarsBefore(sections: seq<Section>): int
    decreases |sections|
  {
    if |sections| == 0 then 0
    else
      var s := sections[|sections| - 1];
      BarsBefore(sections[..|sections| - 1]) + Ceil(TotalSectionBeats(s) / BeatsPerBar(s) as real)
  }

  /** The playhead folded into `[0, total)` of the loop (0 when the sections hold no beats). */
  function Looped(currentBeat: real, sections: seq<Section>): real
  {
    var total := TimelineBeats(SectionPositions(sections));
    if total <= 0.0 then 0.0 else JsRemR(JsRemR(currentBeat, total) + total, total)
  }

  /** The first section whose span holds the folded playhead; -1 without beats or without one. */
  function ActiveSection(currentBeat: real, sections: seq<Section>): (r: int)
    ensures -1 <= r < |sections|
    ensures r >= 0 ==>
      SectionPositions(sections)[r].startBeat <= Looped(currentBeat, sections) < SectionPositions(sections)[r].endBeat
  {
    var positions := SectionPositions(sections);
    if TimelineBeats(positions) <= 0.0 || |positions| == 0 then -1
    else FindActive(positions, Looped(currentBeat, sections))
  }

  /**
   The bar and beat-in-bar readout: the playhead is folded into the loop, its section found, and
   bars counted from the song start; `(1, 1)` without beats or without a section holding it.
   */
  function BarAndBeat(currentBeat: real, sections: seq<Section>): (int, int)
  {
    var idx := ActiveSection(currentBeat, sections);
    if idx < 0 then (1, 1)
    else
      var into := Looped(currentBeat, sections) - SectionPositions(sections)[idx].startBeat;
      Readout(BarsBefore(sections[..idx]), into, BeatsPerBar(sections[idx]))
  }

  /** Bar and beat-in-bar for a playhead `into` beats past a section start that follows `barsBefore` bars. */
  function Readout(barsBefore: int, into: real, bpb: int): (int, int)
    requires bpb != 0
  {
    (barsBefore + (into / bpb as real).Floor + 1, JsRemR(into, bpb as real).Floor + 1)
  }

  lemma ReadoutBounds(barsBefore: int, into: real, bpb: int)
    requires barsBefore >= 0 && into >= 0.0 && bpb > 0
    ensures var r := Readout(barsBefore, into, bpb); r.0 >= 1 && 1 <= r.1 <= bpb
  {
    DivSign(into, bpb as real);
  }

  /** Sections the readout can count bars in: non-negative chord lengths and bar lengths. */
  ghost predicate Measured(sections: seq<Section>)
  {
    forall i :: 0 <= i < |sections| ==> TotalSectionBeats(sections[i]) >= 0.0 && BeatsPerBar(sections[i]) > 0
  }

  lemma {:induction false} BarsBeforeNonNegative(sections: seq<Section>)
    requires Measured(sections)
    ensures BarsBefore(sections) >= 0
    decreases |sections|
  {
    if |sections| > 0 {
      var s := sections[|sections| - 1];
      BarsBeforeNonNegative(sections[..|sections| - 1]);
      DivSign(TotalSectionBeats(s), BeatsPerBar(s) as real);
    }
  }

  /** The folded playhead lies in `[0, total)` whenever the sections hold beats. */
  lemma LoopedInRange(currentBeat: real, sections: seq<Section>)
    requires TimelineBeats(SectionPositions(sections)) > 0.0
    ensures 0.0 <= Looped(currentBeat, sections) < TimelineBeats(SectionPositions(sections))
  {
    var total := TimelineBeats(SectionPositions(sections));
    var inner := JsRemR(currentBeat, total);
    assert -total < inner < total;
  }

  /** With measured sections the readout shows bar 1 or later and a beat within the active section's bar. */
  lemma BarAndBeatBounds(currentBeat: real, sections: seq<Section>)
    requires Measured(sections)
    ensures var r := BarAndBeat(currentBeat, sections);
      r.0 >= 1 && r.1 >= 1
    ensures var idx := ActiveSection(currentBeat, sections);
      idx >= 0 ==> BarAndBeat(currentBeat, sections).1 <= BeatsPerBar(sections[idx])
  {
    var idx := ActiveSection(currentBeat, sections);
    if idx >= 0 {
      BarsBeforeNonNegative(sections[..idx]);
      ReadoutBounds(BarsBefore(sections[..idx]), Looped(currentBeat, sections) - SectionPositions(sections)[idx].startBeat, BeatsPerBar(sections[idx]));
    }
  }

  /**
   `getActiveBeatInSection`: the whole beats since the section started when the playhead (folded
   by `%`, without the sign fix the bar readout applies) is inside it, else -1.
   */
  function ActiveBeatInSection(currentBeat: real, positions: seq<Position>, totalBeats: real, sectionIndex: int): (r: int)
    requires 0 <= sectionIndex < |positions|
    ensures r != -1 ==> r >= 0 && r as real < positions[sectionIndex].endBeat - positions[sectionIndex].startBeat
    ensures r != -1 <==>
      (totalBeats != 0.0 && positions[sectionIndex].startBeat <= JsRemR(currentBeat, totalBeats) < positions[sectionIndex].endBeat)
  {
    if totalBeats == 0.0 then -1
    else
      var loopedBeat := JsRemR(currentBeat, totalBeats);
      var position := positions[sectionIndex];
      if position.startBeat <= loopedBeat < position.endBeat then (loopedBeat - position.startBeat).Floor
      else -1
  }

  /** On the component's own positions an active beat is below the section's total beats. */
  lemma ActiveBeatBelowTotal(currentBeat: real, sections: seq<Section>, sectionIndex: int)
    requires 0 <= sectionIndex < |sections|
    ensures var p := SectionPositions(sections);
      var r := ActiveBeatInSection(currentBeat, p, TimelineBeats(p), sectionIndex);
      r == -1 || (0 <= r && r as real < TotalSectionBeats(sections[sectionIndex]))
  {
  }

  // ---------------------------------------------------------------------------------------------
  // Drag to reorder
  // ---------------------------------------------------------------------------------------------

  /**
   `handleDragEnd` as written: equal indices return early; otherwise it calls `reorderSection`,
   which the progression store does not define, so the call throws a `TypeError`.
   */
  function HandleDragEndAsWritten(sections: seq<Section>, fromIndex: int, toIndex: int): (r: Result<seq<Section>, string>)
    ensures fromIndex == toIndex ==> r == Ok(sections)
  {
    if fromIndex == toIndex then Ok(sections)
    else Err("reorderSection is not a function")
  }

  /** Every real drag, between two different places, fails as written. */
  lemma HandleDragEndAsWrittenFails(sections: seq<Section>, fromIndex: int, toIndex: int)
    requires 0 <= fromIndex < |sections| && 0 <= toIndex < |sections| && fromIndex != toIndex
    ensures HandleDragEndAsWritten(sections, fromIndex, toIndex).Err?
  {
  }

  /** Takes the item at `from` out and puts it back in at `to`. */
  function MoveItem<T>(xs: seq<T>, from: int, to: int): (r: seq<T>)
    requires 0 <= from < |xs| && 0 <= to < |xs|
    ensures |r| == |xs| && r[to] == xs[from]
  {
    var rest := xs[..from] + xs[from + 1..];
    rest[..to] + [xs[from]] + rest[to..]
  }

  /** A move only reorders: the same items, with the same multiplicities. */
  lemma MoveItemPermutes<T>(xs: seq<T>, from: int, to: int)
    requires 0 <= from < |xs| && 0 <= to < |xs|
    ensures multiset(MoveItem(xs, from, to)) == multiset(xs)
  {
    var rest := xs[..from] + xs[from + 1..];
    assert xs == xs[..from] + [xs[from]] + xs[from + 1..];
    assert multiset(xs) == multiset(rest) + multiset{xs[from]};
    assert rest == rest[..to] + rest[to..];
    assert multiset(MoveItem(xs, from, to)) == multiset(rest[..to]) + multiset{xs[from]} + multiset(rest[to..]);
  }

  /** Moving back undoes a move. */
  lemma MoveItemBack<T>(xs: seq<T>, from: int, to: int)
    requires 0 <= from < |xs| && 0 <= to < |xs|
    ensures MoveItem(MoveItem(xs, from, to), to, from) == xs
  {
    var rest := xs[..from] + xs[from + 1..];
    var y := MoveItem(xs, from, to);
    assert y[..to] + y[to + 1..] == rest by {
      assert y[..to] == rest[..to];
      assert y[to + 1..] == rest[to..];
    }
    assert rest[..from] == xs[..from];
    assert rest[from..] == xs[from + 1..];
    assert xs == xs[..from] + [xs[from]] + xs[from + 1..];
  }

  /** `handleDragEnd` with the reorder the call evidently means: a move of one section. */
  function HandleDragEnd(sections: seq<Section>, fromIndex: int, toIndex: int): (r: seq<Section>)
    requires 0 <= fromIndex < |sections| && 0 <= toIndex < |sections|
    ensures |r| == |sections| && r[toIndex] == sections[fromIndex]
    ensures fromIndex == toIndex ==> r == sections
  {
    if fromIndex == toIndex then sections else MoveItem(sections, fromIndex, toIndex)
  }
}

=== FILE: markdown_outline.dfy ===
/**
 The outline extractor of tools/extract/extract.js: a Markdown document is split into lines, `##`
 headings open entries, `###` headings open children of the current entry, and every other line is
 appended to the text of the newest child or, without one, of the entry. Reading the file and
 printing the JSON are outside the model.
 */
module MarkdownOutline {
  import opened Text

  // ---------------------------------------------------------------------------------------------
  // Lines
  // ---------------------------------------------------------------------------------------------

  /** A line cut before a `"\r\n"` break loses its `'\r'`. */
  function StripCr(line: string): string
  {
    if |line| > 0 && line[|line| - 1] == '\r' then line[..|line| - 1] else line
  }

  /** `md.split(/\r?\n/)`. */
  function SplitLines(s: string): (r: seq<string>)
    ensures |r| >= 1
    decreases |s|
  {
    var i := IndexOfChar(s, '\n');
    if i == |s| then [s] else [StripCr(s[..i])] + SplitLines(s[i + 1..])
  }

  /** No line holds a `'\n'`. */
  lemma {:induction false} SplitLinesNoNewline(s: string)
    ensures forall k :: 0 <= k < |SplitLines(s)| ==> '\n' !in SplitLines(s)[k]
    decreases |s|
  {
    var i := IndexOfChar(s, '\n');
    if i < |s| {
      SplitLinesNoNewline(s[i + 1..]);
      var line := StripCr(s[..i]);
      assert forall c :: c in line ==> c in s[..i];
      assert SplitLines(s) == [line] + SplitLines(s[i + 1..]);
    }
  }

  /** Without carriage returns, joining the lines with `"\n"` gives the document back. */
  lemma {:induction false} SplitJoinRoundTrip(s: string)
    requires '\r' !in s
    ensures Join(SplitLines(s), "\n") == s
    decreases |s|
  {
    var i := IndexOfChar(s, '\n');
    if i < |s| {
      var line := s[..i];
      var rest := s[i + 1..];
      assert s == line + "\n" + rest;
      NotInSuffix(s, i + 1, '\r');
      SplitJoinRoundTrip(rest);
      assert '\r' !in line && '\n' !in line by {
        assert forall k :: 0 <= k < |line| ==> line[k] == s[k];
      }
      JoinStep(line, rest);
    }
  }

  /** A line followed by a line break splits off in front of the remaining lines. */
  lemma SplitLinesCons(line: string, rest: string)
    requires '\n' !in line
    ensures SplitLines(line + "\n" + rest) == [StripCr(line)] + SplitLines(rest)
  {
    var s := line + "\n" + rest;
    forall j | 0 <= j < |line| ensures s[j] != '\n' {
      assert s[j] == line[j];
    }
    IndexOfCharAt(s, '\n', |line|);
    assert s[..|line|] == line && s[|line| + 1..] == rest;
  }

  lemma JoinStep(line: string, rest: string)
    requires '\n' !in line && '\r' !in line
    requires Join(SplitLines(rest), "\n") == rest
    ensures Join(SplitLines(line + "\n" + rest), "\n") == line + "\n" + rest
  {
    SplitLinesCons(line, rest);
    assert StripCr(line) == line by {
      assert |line| == 0 || line[|line| - 1] in line;
    }
    var tail := SplitLines(rest);
    assert ([line] + tail)[1..] == tail;
  }

  lemma NotInSuffix(s: string, j: int, c: char)
    requires 0 <= j <= |s| && c !in s
    ensures c !in s[j..]
  {
    forall d | d in s[j..] ensures d != c {
      var k :| 0 <= k < |s[j..]| && s[j..][k] == d;
      assert s[j + k] == d;
    }
  }

  // ---------------------------------------------------------------------------------------------
  // Headings
  // ---------------------------------------------------------------------------------------------

  /** A line as the loop body sees it: a `##` heading, a `###` heading, or text. */
  datatype LineKind = H2(title: string) | H3(title: string) | TextLine(line: string)

  /** `.*`: the longest prefix without a line terminator. */
  function TakeLine(s: string): (r: string)
    ensures |r| <= |s| && r == s[..|r|]
    ensures forall k :: 0 <= k < |r| ==> !IsLineTerminator(r[k])
    ensures |r| < |s| ==> IsLineTerminator(s[|r|])
    decreases |s|
  {
    if |s| == 0 || IsLineTerminator(s[0]) then "" else [s[0]] + TakeLine(s[1..])
  }

  /** `^##\s+(.*)`: two hashes and a whitespace character; a third `#` does not qualify. */
  predicate OpensH2(line: string)
  {
    |line| >= 3 && line[0] == '#' && line[1] == '#' && IsJsSpace(line[2])
  }

  /** `^###\s+(.*)`. */
  predicate OpensH3(line: string)
  {
    |line| >= 4 && line[0] == '#' && line[1] == '#' && line[2] == '#' && IsJsSpace(line[3])
  }

  /**
   The captured title: the greedy `\s+` takes every whitespace character after the hashes, `(.*)`
   the rest of the line up to a line terminator, and `trim` tidies the capture.
   */
  function HeadingTitle(rest: string): string
  {
    Trim(TakeLine(TrimStart(rest)))
  }

  /** The two matches of the loop body, `##` tried first. */
  function Classify(line: string): LineKind
  {
    if OpensH2(line) then H2(HeadingTitle(line[2..]))
    else if OpensH3(line) then H3(HeadingTitle(line[3..]))
    else TextLine(line)
  }

  /** A title without surrounding whitespace or line terminators. */
  predicate CleanTitle(t: string)
  {
    (forall k :: 0 <= k < |t| ==> !IsLineTerminator(t[k])) &&
    (|t| > 0 ==> !IsJsSpace(t[0]) && !IsJsSpace(t[|t| - 1]))
  }


  lemma {:induction false} TakeLineWhole(t: string)
    requires forall k :: 0 <= k < |t| ==> !IsLineTerminator(t[k])
    ensures TakeLine(t) == t
    decreases |t|
  {
    if |t| > 0 {
      TakeLineWhole(t[1..]);
      assert t == [t[0]] + t[1..];
    }
  }

  lemma {:induction false} CleanTitleIsTitle(t: string)
    requires CleanTitle(t)
    ensures HeadingTitle(" " + t) == t
  {
    assert (" " + t)[1..] == t;
    assert TrimStart(" " + t) == t;
    TakeLineWhole(t);
    assert TrimStart(t) == t;
    assert TrimEnd(t) == t;
  }

  /** A line opening a `##` heading reads the title after the hashes. */
  lemma {:induction false} ClassifyOpensH2(line: string)
    requires OpensH2(line)
    ensures Classify(line) == H2(HeadingTitle(line[2..]))
  {
  }

  /** A written `## t` heading is read back as an entry titled `t`. */
  lemma {:induction false} H2RoundTrip(t: string)
    requires CleanTitle(t)
    ensures Classify("## " + t) == H2(t)
  {
    var line := "## " + t;
    assert line[0] == '#' && line[1] == '#' && line[2] == ' ';
    assert line[2..] == " " + t;
    ClassifyOpensH2(line);
    CleanTitleIsTitle(t);
  }

  /** A line opening a `###` heading reads the title after the hashes. */
  lemma {:induction false} ClassifyOpensH3(line: string)
    requires OpensH3(line)
    ensures Classify(line) == H3(HeadingTitle(line[3..]))
  {
  }

  /** A written `### t` heading is read back as a child titled `t`. */
  lemma {:induction false} H3RoundTrip(t: string)
    requires CleanTitle(t)
    ensures Classify("### " + t) == H3(t)
  {
    var line := "### " + t;
    assert line[0] == '#' && line[1] == '#' && line[2] == '#' && line[3] == ' ';
    assert line[3..] == " " + t;
    ClassifyOpensH3(line);
    CleanTitleIsTitle(t);
  }

  /** Lines that do not start with `#` are text. */
  lemma {:induction false} PlainLineIsText(line: string)
    requires |line| == 0 || line[0] != '#'
    ensures Classify(line) == TextLine(line)
  {
  }

  // ---------------------------------------------------------------------------------------------
  // The outline
  // ---------------------------------------------------------------------------------------------

  datatype Child = Child(title: string, text: string)

  datatype Entry = Entry(title: string, children: seq<Child>, text: string)

  /** `text += (text ? '\n' : '') + line`. */
  function AppendText(text: string, line: string): string
  {
    if text == "" then line else text + "\n" + line
  }

  /** The entry opened for a child heading met before any `##` heading. */
  const Overview := Entry("Overview", [], "")

  /** The outline with its newest entry replaced. */
  function WithLast(outline: seq<Entry>, e: Entry): (r: seq<Entry>)
    requires |outline| > 0
    ensures |r| == |outline| && r[|r| - 1] == e
    ensures forall k :: 0 <= k < |r| - 1 ==> r[k] == outline[k]
  {
    outline[..|outline| - 1] + [e]
  }

  /** `current.children.push({ title, text: '' })`. */
  function AddChild(e: Entry, title: string): (r: Entry)
    ensures r.title == e.title && r.text == e.text && r.children == e.children + [Child(title, "")]
  {
    e.(children := e.children + [Child(title, "")])
  }

  /** A text line goes to the newest child, or to the entry itself while it has none. */
  function AddLine(e: Entry, line: string): (r: Entry)
    ensures r.title == e.title && |r.children| == |e.children|
    ensures |e.children| == 0 ==> r.text == AppendText(e.text, line)
    ensures |e.children| > 0 ==>
      && r.text == e.text
      && r.children[..|r.children| - 1] == e.children[..|e.children| - 1]
      && r.children[|r.children| - 1].title == e.children[|e.children| - 1].title
      && r.children[|r.children| - 1].text == AppendText(e.children[|e.children| - 1].text, line)
  {
    if |e.children| > 0 then
      var last := e.children[|e.children| - 1];
      e.(children := e.children[..|e.children| - 1] + [last.(text := AppendText(last.text, line))])
    else e.(text := AppendText(e.text, line))
  }

  /**
   One line of the loop. The current entry is always the newest one, so the outline alone is the
   loop's state; without an entry, text lines are dropped.
   */
  function Step(outline: seq<Entry>, kind: LineKind): seq<Entry>
  {
    match kind
    case H2(t) => outline + [Entry(t, [], "")]
    case H3(t) =>
      var o := if |outline| == 0 then [Overview] else outline;
      WithLast(o, AddChild(o[|o| - 1], t))
    case TextLine(line) =>
      if |outline| == 0 then outline else WithLast(outline, AddLine(outline[|outline| - 1], line))
  }

  /** The loop over classified lines. */
  function Parse(kinds: seq<LineKind>): seq<Entry>
    decreases |kinds|
  {
    if |kinds| == 0 then [] else Step(Parse(kinds[..|kinds| - 1]), kinds[|kinds| - 1])
  }

  function ClassifyAll(lines: seq<string>): (r: seq<LineKind>)
    ensures |r| == |lines| && forall k :: 0 <= k < |lines| ==> r[k] == Classify(lines[k])
  {
    seq(|lines|, k requires 0 <= k < |lines| => Classify(lines[k]))
  }

  /** `parseMarkdownToOutline`. */
  function ParseMarkdownToOutline(md: string): seq<Entry>
  {
    Parse(ClassifyAll(SplitLines(md)))
  }

  /** The `for (const line of lines)` loop, classifying each line as it goes. */
  method ParseMarkdownToOutlineLoop(md: string) returns (outline: seq<Entry>)
    ensures outline == ParseMarkdownToOutline(md)
  {
    var lines := SplitLines(md);
    ghost var kinds := ClassifyAll(lines);
    outline := [];
    var k := 0;
    while k < |lines|
      invariant 0 <= k <= |lines|
      invariant outline == Parse(kinds[..k])
    {
      assert kinds[..k + 1][..k] == kinds[..k];
      outline := Step(outline, Classify(lines[k]));
      k := k + 1;
    }
    assert kinds[..k] == kinds;
  }

  predicate AllText(kinds: seq<LineKind>)
  {
    forall k :: 0 <= k < |kinds| ==> kinds[k].TextLine?
  }

  /** A document without headings has an empty outline. */
  lemma {:induction false} TextOnlyEmpty(kinds: seq<LineKind>)
    requires AllText(kinds)
    ensures Parse(kinds) == []
    decreases |kinds|
  {
    if |kinds| > 0 {
      var init := kinds[..|kinds| - 1];
      assert AllText(init) by {
        forall k | 0 <= k < |init| ensures init[k].TextLine? {
          assert init[k] == kinds[k];
        }
      }
      TextOnlyEmpty(init);
    }
  }

  /** Text before the first heading never reaches the outline. */
  lemma {:induction false} PreambleDropped(preamble: seq<LineKind>, rest: seq<LineKind>)
    requires AllText(preamble)
    ensures Parse(preamble + rest) == Parse(rest)
    decreases |rest|
  {
    if |rest| == 0 {
      assert preamble + rest == preamble;
      TextOnlyEmpty(preamble);
    } else {
      var init := rest[..|rest| - 1];
      assert (preamble + rest)[..|preamble + rest| - 1] == preamble + init;
      PreambleDropped(preamble, init);
    }
  }

  /** A `###` heading before any `##` heading opens an "Overview" entry holding that child alone. */
  lemma {:induction false} OrphanChildOpensOverview(preamble: seq<LineKind>, t: string)
    requires AllText(preamble)
    ensures Parse(preamble + [H3(t)]) == [Entry("Overview", [Child(t, "")], "")]
  {
    var kinds := preamble + [H3(t)];
    assert kinds[..|kinds| - 1] == preamble;
    TextOnlyEmpty(preamble);
    assert Parse(kinds) == Step([], H3(t));
    assert AddChild(Overview, t) == Entry("Overview", [Child(t, "")], "");
    assert [Overview][..0] + [AddChild(Overview, t)] == [AddChild(Overview, t)];
  }

  lemma {:induction false} WithLastAppend(p: seq<Entry>, q: seq<Entry>, e: Entry)
    requires |q| > 0
    ensures WithLast(p + q, e) == p + WithLast(q, e)
  {
    assert (p + q)[..|p + q| - 1] == p + q[..|q| - 1];
  }

  /** Step on an outline with earlier entries only touches the newest. */
  lemma {:induction false} StepAppend(p: seq<Entry>, q: seq<Entry>, kind: LineKind)
    requires |q| > 0
    ensures Step(p + q, kind) == p + Step(q, kind)
  {
    var last := (p + q)[|p + q| - 1];
    assert last == q[|q| - 1];
    match kind
    case H2(t) =>
      assert (p + q) + [Entry(t, [], "")] == p + (q + [Entry(t, [], "")]);
    case H3(t) =>
      WithLastAppend(p, q, AddChild(last, t));
    case TextLine(line) =>
      WithLastAppend(p, q, AddLine(last, line));
  }

  /** A document opening with a `##` heading never has an empty outline. */
  lemma {:induction false} OpenedNonEmpty(kinds: seq<LineKind>)
    requires |kinds| > 0 && kinds[0].H2?
    ensures |Parse(kinds)| > 0
    decreases |kinds|
  {
    if |kinds| > 1 {
      var init := kinds[..|kinds| - 1];
      assert init[0] == kinds[0];
      OpenedNonEmpty(init);
    }
  }

  /**
   The outline of a document is the outline of its part before a `##` heading followed by the
   outline of the part from that heading on: every section is read independently.
   */
  lemma {:induction false} SplitAtHeading(a: seq<LineKind>, b: seq<LineKind>)
    requires |b| > 0 && b[0].H2?
    ensures Parse(a + b) == Parse(a) + Parse(b)
    decreases |b|
  {
    if |b| == 1 {
      assert (a + b)[..|a + b| - 1] == a;
      assert b[..0] == [];
      assert Parse(b) == [Entry(b[0].title, [], "")];
    } else {
      var init := b[..|b| - 1];
      assert init[0] == b[0];
      assert (a + b)[..|a + b| - 1] == a + init;
      SplitAtHeading(a, init);
      OpenedNonEmpty(init);
      StepAppend(Parse(a), Parse(init), b[|b| - 1]);
    }
  }

  // ---------------------------------------------------------------------------------------------
  // Section text
  // ---------------------------------------------------------------------------------------------

  /** The text the loop accumulates from a run of text lines. */
  function Accumulate(lines: seq<string>): string
    decreases |lines|
  {
    if |lines| == 0 then "" else AppendText(Accumulate(lines[..|lines| - 1]), lines[|lines| - 1])
  }

  /** The lines without the empty ones at the start. */
  function DropLeadingEmpty(lines: seq<string>): (r: seq<string>)
    ensures |r| > 0 ==> r[0] != ""
    decreases |lines|
  {
    if |lines| == 0 then [] else if lines[0] == "" then DropLeadingEmpty(lines[1..]) else lines
  }

  lemma {:induction false} DropLeadingEmptySnoc(lines: seq<string>, x: string)
    ensures DropLeadingEmpty(lines + [x]) ==
      if DropLeadingEmpty(lines) == [] then (if x == "" then [] else [x]) else DropLeadingEmpty(lines) + [x]
    decreases |lines|
  {
    if |lines| == 0 {
      assert lines + [x] == [x];
      assert [x][1..] == [];
    } else {
      assert (lines + [x])[1..] == lines[1..] + [x];
      DropLeadingEmptySnoc(lines[1..], x);
    }
  }

  lemma {:induction false} JoinSnoc(ws: seq<string>, x: string, sep: string)
    requires |ws| > 0
    ensures Join(ws + [x], sep) == Join(ws, sep) + sep + x
    decreases |ws|
  {
    if |ws| == 1 {
      assert (ws + [x])[1..] == [x];
    } else {
      assert (ws + [x])[1..] == ws[1..] + [x];
      JoinSnoc(ws[1..], x, sep);
    }
  }

  /**
   The accumulated text is the lines joined by `"\n"`, once the empty lines before the first
   non-empty one are dropped (they add nothing while the text is still empty).
   */
  lemma {:induction false} AccumulateIsJoin(lines: seq<string>)
    ensures Accumulate(lines) == Join(DropLeadingEmpty(lines), "\n")
    decreases |lines|
  {
    if |lines| > 0 {
      var init := lines[..|lines| - 1];
      var x := lines[|lines| - 1];
      assert lines == init + [x];
      AccumulateIsJoin(init);
      DropLeadingEmptySnoc(init, x);
      var d := DropLeadingEmpty(init);
      if d != [] {
        assert |Join(d, "\n")| >= |d[0]| > 0;
        JoinSnoc(d, x, "\n");
      }
    }
  }

  /** The text lines of a run of classified lines. */
  function TextOf(kinds: seq<LineKind>): (r: seq<string>)
    requires AllText(kinds)
    ensures |r| == |kinds| && forall k :: 0 <= k < |kinds| ==> r[k] == kinds[k].line
  {
    seq(|kinds|, k requires 0 <= k < |kinds| && AllText(kinds) => kinds[k].line)
  }

  /**
   A `##` heading followed by text lines is one entry with no children, whose text is those lines
   joined by `"\n"` without the leading empty ones.
   */
  lemma {:induction false} SectionText(title: string, body: seq<LineKind>)
    requires AllText(body)
    ensures Parse([H2(title)] + body) == [Entry(title, [], Accumulate(TextOf(body)))]
    decreases |body|
  {
    if |body| == 0 {
      assert [H2(title)] + body == [H2(title)];
      assert [H2(title)][..0] == [];
    } else {
      var init := body[..|body| - 1];
      var last := body[|body| - 1];
      assert body == init + [last];
      assert AllText(init) by {
        forall k | 0 <= k < |init| ensures init[k].TextLine? {
          assert init[k] == body[k];
        }
      }
      SectionText(title, init);
      var prev := Entry(title, [], Accumulate(TextOf(init)));
      assert [H2(title)] + body == ([H2(title)] + init) + [last];
      ParseSnoc([H2(title)] + init, last);
      TextOfSnoc(init, last);
      AccumulateSnoc(TextOf(init), last.line);
      assert AddLine(prev, last.line) == Entry(title, [], AppendText(prev.text, last.line));
    }
  }

  lemma ParseSnoc(kinds: seq<LineKind>, k: LineKind)
    ensures Parse(kinds + [k]) == Step(Parse(kinds), k)
  {
    assert (kinds + [k])[..|kinds|] == kinds;
  }

  lemma TextOfSnoc(kinds: seq<LineKind>, k: LineKind)
    requires AllText(kinds) && k.TextLine?
    ensures AllText(kinds + [k]) && TextOf(kinds + [k]) == TextOf(kinds) + [k.line]
  {
  }

  lemma AccumulateSnoc(lines: seq<string>, x: string)
    ensures Accumulate(lines + [x]) == AppendText(Accumulate(lines), x)
  {
    assert (lines + [x])[..|lines|] == lines;
  }

  lemma {:induction false} SectionTextJoined(title: string, body: seq<LineKind>)
    requires AllText(body)
    ensures Parse([H2(title)] + body) == [Entry(title, [], Join(DropLeadingEmpty(TextOf(body)), "\n"))]
  {
    SectionText(title, body);
    AccumulateIsJoin(TextOf(body));
  }
}

=== FILE: midi_file.dfy ===
/**
 The Standard MIDI File writer of src/services/output/ArrangementOutput.ts: variable-length
 quantities, big-endian 32-bit lengths, the note-on/note-off timeline and the byte layout of a
 format-0 file with one track. Every encoder has a decoder here, and the round trips are proved.
 */
module MidiFile {
  import opened Common
  import opened Sorting
  import opened Bags
  import opened ArrangementOutput

  type Byte = x: int | 0 <= x < 256

  // ---------------------------------------------------------------------------------------------
  // Variable-length quantities
  // ---------------------------------------------------------------------------------------------

  function Pow128(k: nat): (r: nat)
    ensures r >= 1
  {
    if k == 0 then 1 else 128 * Pow128(k - 1)
  }

  /** The leading groups of a quantity, most significant first, each with its continuation bit set. */
  function Lead(v: nat): (r: seq<Byte>)
    ensures forall i :: 0 <= i < |r| ==> r[i] >= 128
    decreases v
  {
    if v == 0 then [] else Lead(v / 128) + [v % 128 + 128]
  }

  /**
   `encodeVarLen`: big-endian groups of seven bits; every byte but the last has bit 7 set and
   the last carries the lowest seven bits with bit 7 clear.
   */
  function EncodeVarLen(v: nat): (r: seq<Byte>)
    ensures |r| >= 1
    ensures forall i :: 0 <= i < |r| - 1 ==> r[i] >= 128
    ensures r[|r| - 1] < 128
  {
    Lead(v / 128) + [v % 128]
  }

  /** A reader of variable-length quantities: the value, and the bytes after it. */
  function DecodeVarLen(bytes: seq<Byte>, acc: nat): (r: Option<(nat, seq<Byte>)>)
    ensures r.Some? ==> |r.value.1| < |bytes|
    decreases |bytes|
  {
    if |bytes| == 0 then None
    else if bytes[0] >= 128 then DecodeVarLen(bytes[1..], acc * 128 + (bytes[0] - 128))
    else Some((acc * 128 + bytes[0], bytes[1..]))
  }

  lemma {:induction false} DecodeLead(v: nat, acc: nat, rest: seq<Byte>)
    ensures DecodeVarLen(Lead(v) + rest, acc) == DecodeVarLen(rest, acc * Pow128(|Lead(v)|) + v)
    decreases v
  {
    if v > 0 {
      var q := v / 128;
      var c := v % 128 + 128;
      var p := Pow128(|Lead(q)|);
      assert Lead(v) + rest == Lead(q) + ([c] + rest);
      DecodeLead(q, acc, [c] + rest);
      assert ([c] + rest)[0] == c && ([c] + rest)[1..] == rest;
      assert DecodeVarLen([c] + rest, acc * p + q) == DecodeVarLen(rest, (acc * p + q) * 128 + (c - 128));
      assert |Lead(v)| == |Lead(q)| + 1 && Pow128(|Lead(v)|) == 128 * p;
      assert v == q * 128 + (c - 128);
      ShiftIn(acc, p, q, c - 128);
    } else {
      assert Lead(v) + rest == rest;
    }
  }

  lemma ShiftIn(acc: int, p: int, q: int, low: int)
    ensures (acc * p + q) * 128 + low == acc * (128 * p) + (q * 128 + low)
  {
    assert (acc * p) * 128 == acc * (128 * p);
  }

  /** Decoding what `encodeVarLen` wrote gives back the value and leaves what follows untouched. */
  lemma VarLenRoundTrip(v: nat, rest: seq<Byte>)
    ensures DecodeVarLen(EncodeVarLen(v) + rest, 0) == Some((v, rest))
  {
    var q := v / 128;
    assert EncodeVarLen(v) + rest == Lead(q) + ([v % 128] + rest);
    DecodeLead(q, 0, [v % 128] + rest);
    assert ([v % 128] + rest)[1..] == rest;
  }

  lemma {:induction false} LeadLength(v: nat, k: nat)
    ensures |Lead(v)| <= k <==> v < Pow128(k)
    decreases v
  {
    if v > 0 && k > 0 {
      LeadLength(v / 128, k - 1);
    }
  }

  /**
   A value takes at most `k + 1` bytes exactly when it is below 128^(k+1); in particular every
   value below 2^28 takes one to four bytes.
   */
  lemma VarLenLength(v: nat, k: nat)
    ensures |EncodeVarLen(v)| <= k + 1 <==> v < Pow128(k + 1)
  {
    LeadLength(v / 128, k);
  }

  lemma VarLenAtMostFour(v: nat)
    requires v < 0x1000_0000
    ensures 1 <= |EncodeVarLen(v)| <= 4
  {
    assert Pow128(4) == 0x1000_0000;
    VarLenLength(v, 3);
  }

  /** The bytes of `bs` packed little-end first into one integer, as the `buffer` of ArrangementOutput.ts holds them. */
  function Pack(bs: seq<Byte>): nat
  {
    if |bs| == 0 then 0 else bs[0] + 256 * Pack(bs[1..])
  }

  lemma PackStep(bs: seq<Byte>)
    requires |bs| > 0
    ensures Pack(bs) % 256 == bs[0] && Pack(bs) / 256 == Pack(bs[1..])
  {
    ModUnique(Pack(bs), 256, Pack(bs[1..]), bs[0]);
  }

  /**
   The two loops of `encodeVarLen` on an unbounded `buffer`: the first packs the groups into the
   buffer, the second emits its low byte until one has bit 7 clear.
   */
  method EncodeVarLenLoop(value: nat) returns (bytes: seq<Byte>)
    ensures bytes == EncodeVarLen(value)
  {
    ghost var enc := EncodeVarLen(value);
    var buffer := value % 128;
    var v: nat := value / 128;
    ghost var tail: seq<Byte> := [value % 128];
    while v != 0
      invariant enc == Lead(v) + tail && buffer == Pack(tail)
      decreases v
    {
      var c := v % 128 + 128;
      assert Lead(v) + tail == Lead(v / 128) + ([c] + tail);
      // `buffer <<= 8; buffer |= c`: the low byte of the shifted buffer is zero.
      buffer := buffer * 256 + c;
      tail := [c] + tail;
      v := v / 128;
    }
    bytes := [];
    ghost var rest := tail;
    while true
      invariant bytes + rest == enc && |rest| > 0 && buffer == Pack(rest)
      decreases |rest|
    {
      PackStep(rest);
      assert rest[0] == enc[|bytes|];
      var low: Byte := buffer % 256;
      bytes := bytes + [low];
      if low >= 128 {
        buffer := buffer / 256;
        assert bytes + rest[1..] == enc;
        rest := rest[1..];
      } else {
        assert |bytes| == |enc|;
        return;
      }
    }
  }

  // ---------------------------------------------------------------------------------------------
  // `encodeVarLen` with the 32-bit `buffer` of ArrangementOutput.ts
  // ---------------------------------------------------------------------------------------------

  const TwoTo32: int := 0x1_0000_0000

  /** The first loop, with `buffer <<= 8` truncated to 32 bits (the bit pattern as an unsigned value). */
  function Buffer32(v: nat, buffer: int): int
    decreases v
  {
    if v == 0 then buffer else Buffer32(v / 128, (buffer * 256 + v % 128 + 128) % TwoTo32)
  }

  /** `buffer >>= 8` on a 32-bit pattern: an arithmetic shift that copies the sign bit. */
  function Sar8(u: int): int
  {
    u / 256 + (if u >= 0x8000_0000 then 0xFF00_0000 else 0)
  }

  /** The second loop, run for at most `fuel` iterations; `None` when it has not stopped by then. */
  function Emit32(u: int, fuel: nat): Option<seq<int>>
    decreases fuel
  {
    if fuel == 0 then None
    else if u % 256 >= 128 then
      match Emit32(Sar8(u), fuel - 1)
      case None => None
      case Some(tail) => Some([u % 256] + tail)
    else Some([u % 256])
  }

  /** `encodeVarLen` as written, for a value the 32-bit operators read unchanged. */
  function EncodeVarLenAsWritten(value: nat, fuel: nat): Option<seq<int>>
    requires value < 0x8000_0000
  {
    Emit32(Buffer32(value / 128, value % 128), fuel)
  }

  /** The buffers the second loop passes through from the five-group value 2^28. */
  predicate OnHangingPath(u: int)
  {
    u == 0x8080_8081 || u == 0xFF80_8080 || u == 0xFFFF_8080 || u == 0xFFFF_FF80 || u == 0xFFFF_FFFF
  }

  lemma {:induction false} HangingPathNeverStops(u: int, fuel: nat)
    requires OnHangingPath(u)
    ensures Emit32(u, fuel) == None
    decreases fuel
  {
    if fuel > 0 {
      assert u % 256 >= 128 && OnHangingPath(Sar8(u));
      HangingPathNeverStops(Sar8(u), fuel - 1);
    }
  }

  /**
   At 2^28 (five groups) the first loop shifts the lowest group out of the 32-bit buffer and sets
   its sign bit; the arithmetic shift then fills the buffer with ones, and the second loop never
   finds a byte with bit 7 clear: no number of iterations finishes.
   */
  lemma EncodeVarLenAsWrittenHangs(fuel: nat)
    ensures EncodeVarLenAsWritten(0x1000_0000, fuel) == None
  {
    assert Buffer32(1, 0x80_8080) == 0x8080_8081 by {
      assert (0x80_8080 * 256 + 1 % 128 + 128) % TwoTo32 == 0x8080_8081;
    }
    assert Buffer32(0x80, 0x8080) == 0x8080_8081 by {
      assert (0x8080 * 256 + 0x80 % 128 + 128) % TwoTo32 == 0x80_8080;
    }
    assert Buffer32(0x4000, 0x80) == 0x8080_8081 by {
      assert (0x80 * 256 + 0x4000 % 128 + 128) % TwoTo32 == 0x8080;
    }
    assert Buffer32(0x20_0000, 0) == 0x8080_8081 by {
      assert (0 * 256 + 0x20_0000 % 128 + 128) % TwoTo32 == 0x80;
    }
    HangingPathNeverStops(0x8080_8081, fuel);
  }

  function Pow256(k: nat): (r: nat)
    ensures r >= 1
  {
    if k == 0 then 1 else 256 * Pow256(k - 1)
  }

  lemma {:induction false} PackBound(bs: seq<Byte>)
    ensures Pack(bs) < Pow256(|bs|)
    decreases |bs|
  {
    if |bs| > 0 {
      PackBound(bs[1..]);
      MulLe(256, Pack(bs[1..]) + 1, Pow256(|bs| - 1));
    }
  }

  lemma {:induction false} Buffer32Packs(v: nat, tail: seq<Byte>)
    requires |Lead(v) + tail| <= 4
    ensures Buffer32(v, Pack(tail)) == Pack(Lead(v) + tail)
    decreases v
  {
    if v == 0 {
      assert Lead(v) + tail == tail;
    } else {
      var c := v % 128 + 128;
      var next := [c] + tail;
      assert Lead(v) + tail == Lead(v / 128) + next;
      assert next[1..] == tail;
      PackBound(next);
      assert Pow256(|next|) <= Pow256(4) == TwoTo32 by {
        PowMonotone(|next|, 4);
      }
      assert (Pack(tail) * 256 + v % 128 + 128) % TwoTo32 == Pack(next);
      Buffer32Packs(v / 128, next);
    }
  }

  lemma {:induction false} PowMonotone(j: nat, k: nat)
    requires j <= k
    ensures Pow256(j) <= Pow256(k)
    decreases k
  {
    if j < k {
      PowMonotone(j, k - 1);
    }
  }

  /** A run of bytes shaped like a quantity: bit 7 set on all but the last, clear on the last. */
  ghost predicate VarLenShaped(bs: seq<Byte>)
  {
    |bs| > 0 && bs[|bs| - 1] < 128 && forall i :: 0 <= i < |bs| - 1 ==> bs[i] >= 128
  }

  lemma {:induction false} Emit32Packed(bs: seq<Byte>, fuel: nat)
    requires VarLenShaped(bs) && |bs| <= 4 && fuel >= |bs|
    ensures Emit32(Pack(bs), fuel) == Some(bs)
    decreases |bs|
  {
    PackStep(bs);
    if |bs| > 1 {
      var rest := bs[1..];
      assert VarLenShaped(rest) by {
        forall i | 0 <= i < |rest| - 1
          ensures rest[i] >= 128
        {
          assert rest[i] == bs[i + 1];
        }
      }
      PackBelowSign(bs);
      assert Sar8(Pack(bs)) == Pack(rest);
      Emit32Packed(rest, fuel - 1);
      assert bs == [bs[0]] + rest;
    } else {
      assert bs == [bs[0]];
    }
  }

  /** Three bytes below a last byte under 128 pack below 2^31, so the sign bit is clear. */
  lemma PackBelowSign(bs: seq<Byte>)
    requires VarLenShaped(bs) && |bs| <= 4
    ensures Pack(bs) < 0x8000_0000
  {
    var k := |bs|;
    assert Pack(bs[k..]) == 0;
    if k >= 4 {
      assert Pack(bs[3..]) == bs[3] + 256 * Pack(bs[4..]);
    }
    if k >= 3 {
      assert bs[2..][1..] == bs[3..];
      assert Pack(bs[2..]) == bs[2] + 256 * Pack(bs[3..]);
    }
    if k >= 2 {
      assert bs[1..][1..] == bs[2..];
      assert Pack(bs[1..]) == bs[1] + 256 * Pack(bs[2..]);
    }
    assert Pack(bs) == bs[0] + 256 * Pack(bs[1..]);
  }

  /** Below 2^28 the 32-bit loops emit exactly the quantity, within four iterations. */
  lemma EncodeVarLenAsWrittenAgrees(value: nat)
    requires value < 0x1000_0000
    ensures EncodeVarLenAsWritten(value, 4) == Some(EncodeVarLen(value))
  {
    VarLenAtMostFour(value);
    var tail: seq<Byte> := [value % 128];
    assert Pack(tail) == value % 128 by {
      assert tail[1..] == [];
    }
    Buffer32Packs(value / 128, tail);
    Emit32Packed(EncodeVarLen(value), 4);
  }

  // ---------------------------------------------------------------------------------------------
  // Big-endian fields
  // ---------------------------------------------------------------------------------------------

  /** `(x >> k) & 0xff` or `(x >>> k) & 0xff` with `d == 2^k`: bits `k .. k + 7` of `x`. */
  function ByteAt(x: int, d: nat): Byte
    requires d > 0
  {
    x / d % 256
  }

  /** `pushU32`: the four big-endian bytes of the value taken modulo 2^32. */
  function U32(value: int): (r: seq<Byte>)
    ensures |r| == 4
  {
    [ByteAt(value, 0x100_0000), ByteAt(value, 0x1_0000), ByteAt(value, 0x100), ByteAt(value, 1)]
  }

  /** The reader of a big-endian 32-bit field. */
  function ReadU32(b: seq<Byte>): int
    requires |b| >= 4
  {
    b[0] as int * 0x100_0000 + b[1] as int * 0x1_0000 + b[2] as int * 0x100 + b[3] as int
  }

  lemma DivDiv(x: int, a: int)
    requires a > 0
    ensures x / a / 256 == x / (a * 256)
  {
    var q := x / a;
    var r := x % a;
    var q2 := q / 256;
    var r2 := q % 256;
    assert x == a * (256 * q2 + r2) + r;
    assert a * (256 * q2 + r2) == (a * 256) * q2 + a * r2;
    MulLe(a, r2, 255);
    ModUnique(x, a * 256, q2, a * r2 + r);
  }

  /** Reading back what `pushU32` wrote gives the value modulo 2^32. */
  lemma U32RoundTrip(value: int)
    ensures ReadU32(U32(value)) == value % TwoTo32
  {
    var u := value % TwoTo32;
    DivDiv(value, 1);
    DivDiv(value, 0x100);
    DivDiv(value, 0x1_0000);
    DivDiv(value, 0x100_0000);
    var q1 := value / 0x100;
    var q2 := value / 0x1_0000;
    var q3 := value / 0x100_0000;
    var q4 := value / TwoTo32;
    assert value == q1 * 0x100 + value % 256;
    assert q1 == q2 * 0x100 + q1 % 256;
    assert q2 == q3 * 0x100 + q2 % 256;
    assert q3 == q4 * 0x100 + q3 % 256;
    assert value == q4 * TwoTo32 + (q3 % 256 * 0x100_0000 + q2 % 256 * 0x1_0000 + q1 % 256 * 0x100 + value % 256);
    ModUnique(value, TwoTo32, q4, q3 % 256 * 0x100_0000 + q2 % 256 * 0x1_0000 + q1 % 256 * 0x100 + value % 256);
  }

  // ---------------------------------------------------------------------------------------------
  // Note timeline
  // ---------------------------------------------------------------------------------------------

  /** One channel message of the timeline, at an absolute tick. */
  datatype MidiEvent = MidiEvent(tick: int, status: Byte, data1: Byte, data2: Byte)

  const NoteOn: Byte := 0x90
  const NoteOff: Byte := 0x80

  /** `Math.round` on an exact value: halves round up. */
  function JsRound(x: real): (r: int)
    ensures x - 0.5 < r as real <= x + 0.5
  {
    (x + 0.5).Floor
  }

  /** `startTick`. */
  function StartTick(e: Event, ppq: int): (r: int)
    ensures r >= 0
  {
    Max(0, JsRound(e.startBeat * ppq as real))
  }

  /** `durationTicks`: the gate scales the duration, never below 1% of it, and it lasts a tick at least. */
  function DurationTicks(e: Event, ppq: int): (r: int)
    ensures r >= 1
  {
    Max(1, JsRound(e.durationBeats * ppq as real * MaxR(0.01, e.gatePercent as real / 100.0)))
  }

  function Midi(v: int): Byte
  {
    ClampMidi(v)
  }

  /** For each note in turn, a note-on at the start and a note-off at the end. */
  function NoteMessages(start: int, end: int, notes: seq<int>, velocity: int): (r: seq<MidiEvent>)
    ensures |r| == 2 * |notes|
    decreases |notes|
  {
    if |notes| == 0 then []
    else
      [MidiEvent(start, NoteOn, Midi(notes[0]), Midi(velocity)), MidiEvent(end, NoteOff, Midi(notes[0]), 0)]
        + NoteMessages(start, end, notes[1..], velocity)
  }

  function EventMessages(e: Event, ppq: int): seq<MidiEvent>
  {
    var start := StartTick(e, ppq);
    NoteMessages(start, start + DurationTicks(e, ppq), e.notes, e.velocity)
  }

  /** The timeline before sorting, event after event. */
  function RawTimeline(events: seq<Event>, ppq: int): seq<MidiEvent>
    decreases |events|
  {
    if |events| == 0 then []
    else RawTimeline(events[..|events| - 1], ppq) + EventMessages(events[|events| - 1], ppq)
  }

  /** The comparator of ArrangementOutput.ts as one key: by tick, then by status (a status is below 256). */
  function MessageKey(m: MidiEvent): real
  {
    (m.tick * 256 + m.status) as real
  }

  /** The sorted timeline (`Array.prototype.sort` is stable). */
  function Timeline(events: seq<Event>, ppq: int): seq<MidiEvent>
  {
    SortBy(RawTimeline(events, ppq), MessageKey)
  }

  /** The key orders messages by tick first and by status between messages at the same tick. */
  lemma MessageKeyOrder(a: MidiEvent, b: MidiEvent)
    ensures MessageKey(a) <= MessageKey(b) <==> a.tick < b.tick || (a.tick == b.tick && a.status <= b.status)
  {
    if a.tick < b.tick {
      MulLe(256, a.tick + 1, b.tick);
    } else if a.tick > b.tick {
      MulLe(256, b.tick + 1, a.tick);
    }
  }

  /**
   The timeline is ordered by tick and, at equal ticks, by status, so a note-off (0x80) comes
   before a note-on (0x90) at the same tick.
   */
  lemma TimelineOrdered(events: seq<Event>, ppq: int, i: int, j: int)
    requires 0 <= i < j < |Timeline(events, ppq)|
    ensures var t := Timeline(events, ppq);
      t[i].tick < t[j].tick || (t[i].tick == t[j].tick && t[i].status <= t[j].status)
  {
    var t := Timeline(events, ppq);
    SortByCorrect(RawTimeline(events, ppq), MessageKey);
    assert MessageKey(t[i]) <= MessageKey(t[j]);
    MessageKeyOrder(t[i], t[j]);
  }

  function NoteCount(events: seq<Event>): nat
    decreases |events|
  {
    if |events| == 0 then 0 else NoteCount(events[..|events| - 1]) + |events[|events| - 1].notes|
  }

  function StatusOf(m: MidiEvent): Byte { m.status }

  function TickOf(m: MidiEvent): int { m.tick }

  lemma CountPair(status: Byte)
    ensures Count([NoteOn, NoteOff], status) == if status == NoteOn || status == NoteOff then 1 else 0
  {
    var pair: seq<Byte> := [NoteOn, NoteOff];
    var first: seq<Byte> := [NoteOn];
    assert pair[..1] == first && first[..0] == [];
    assert Count(first, status) == if status == NoteOn then 1 else 0;
    assert Count(pair, status) == Count(first, status) + if status == NoteOff then 1 else 0;
  }

  lemma {:induction false} NoteMessagesStatuses(start: int, end: int, notes: seq<int>, velocity: int, status: Byte)
    ensures Count(MapSeq(NoteMessages(start, end, notes, velocity), StatusOf), status)
      == if status == NoteOn || status == NoteOff then |notes| else 0
    decreases |notes|
  {
    if |notes| > 0 {
      var head := [MidiEvent(start, NoteOn, Midi(notes[0]), Midi(velocity)), MidiEvent(end, NoteOff, Midi(notes[0]), 0)];
      var rest := NoteMessages(start, end, notes[1..], velocity);
      NoteMessagesStatuses(start, end, notes[1..], velocity, status);
      MapSeqAppend(head, rest, StatusOf);
      assert MapSeq(head, StatusOf) == [NoteOn, NoteOff];
      CountPair(status);
      CountAppend([NoteOn, NoteOff], MapSeq(rest, StatusOf), status);
    }
  }

  lemma {:induction false} NoteMessagesTicks(start: int, end: int, notes: seq<int>, velocity: int)
    ensures forall i :: 0 <= i < |NoteMessages(start, end, notes, velocity)| ==>
      NoteMessages(start, end, notes, velocity)[i].tick == start || NoteMessages(start, end, notes, velocity)[i].tick == end
    decreases |notes|
  {
    if |notes| > 0 {
      NoteMessagesTicks(start, end, notes[1..], velocity);
    }
  }

  lemma {:induction false} RawTimelineStatuses(events: seq<Event>, ppq: int, status: Byte)
    ensures Count(MapSeq(RawTimeline(events, ppq), StatusOf), status)
      == if status == NoteOn || status == NoteOff then NoteCount(events) else 0
    decreases |events|
  {
    if |events| > 0 {
      var init := events[..|events| - 1];
      var e := events[|events| - 1];
      var a := RawTimeline(init, ppq);
      var b := EventMessages(e, ppq);
      assert RawTimeline(events, ppq) == a + b;
      assert NoteCount(events) == NoteCount(init) + |e.notes|;
      CountStatusAppend(a, b, status);
      RawTimelineStatuses(init, ppq, status);
      EventMessagesStatuses(e, ppq, status);
    }
  }

  lemma EventMessagesStatuses(e: Event, ppq: int, status: Byte)
    ensures Count(MapSeq(EventMessages(e, ppq), StatusOf), status)
      == if status == NoteOn || status == NoteOff then |e.notes| else 0
  {
    var start := StartTick(e, ppq);
    NoteMessagesStatuses(start, start + DurationTicks(e, ppq), e.notes, e.velocity, status);
  }

  lemma CountStatusAppend(a: seq<MidiEvent>, b: seq<MidiEvent>, status: Byte)
    ensures Count(MapSeq(a + b, StatusOf), status) == Count(MapSeq(a, StatusOf), status) + Count(MapSeq(b, StatusOf), status)
  {
    MapSeqAppend(a, b, StatusOf);
    CountAppend(MapSeq(a, StatusOf), MapSeq(b, StatusOf), status);
  }

  lemma {:induction false} RawTimelineLength(events: seq<Event>, ppq: int)
    ensures |RawTimeline(events, ppq)| == 2 * NoteCount(events)
    decreases |events|
  {
    if |events| > 0 {
      RawTimelineLength(events[..|events| - 1], ppq);
    }
  }

  lemma {:induction false} RawTimelineTicks(events: seq<Event>, ppq: int)
    ensures forall i :: 0 <= i < |RawTimeline(events, ppq)| ==> RawTimeline(events, ppq)[i].tick >= 0
    decreases |events|
  {
    if |events| > 0 {
      var init := events[..|events| - 1];
      var e := events[|events| - 1];
      var start := StartTick(e, ppq);
      RawTimelineTicks(init, ppq);
      NoteMessagesTicks(start, start + DurationTicks(e, ppq), e.notes, e.velocity);
    }
  }

  /**
   Each note yields exactly one note-on and one note-off: the sorted timeline holds `n` messages
   of each status for `n` notes and no other message.
   */
  lemma TimelineCounts(events: seq<Event>, ppq: int, status: Byte)
    ensures Count(MapSeq(Timeline(events, ppq), StatusOf), status)
      == if status == NoteOn || status == NoteOff then NoteCount(events) else 0
    ensures |Timeline(events, ppq)| == 2 * NoteCount(events)
  {
    var raw := RawTimeline(events, ppq);
    SortByCorrect(raw, MessageKey);
    RawTimelineStatuses(events, ppq, status);
    RawTimelineLength(events, ppq);
    PermMap(Timeline(events, ppq), raw, StatusOf);
    CountPerm(MapSeq(Timeline(events, ppq), StatusOf), MapSeq(raw, StatusOf), status);
    assert |multiset(Timeline(events, ppq))| == |multiset(raw)|;
  }

  /** No message of the timeline lies before tick 0. */
  lemma TimelineTicks(events: seq<Event>, ppq: int)
    ensures forall i :: 0 <= i < |Timeline(events, ppq)| ==> Timeline(events, ppq)[i].tick >= 0
  {
    var raw := RawTimeline(events, ppq);
    var t := Timeline(events, ppq);
    SortByCorrect(raw, MessageKey);
    RawTimelineTicks(events, ppq);
    forall i | 0 <= i < |t|
      ensures t[i].tick >= 0
    {
      assert t[i] in multiset(raw);
      var k :| 0 <= k < |raw| && raw[k] == t[i];
    }
  }

  // ---------------------------------------------------------------------------------------------
  // Track data and file layout
  // ---------------------------------------------------------------------------------------------

  /** The delta-time, status and two data bytes of one timeline message. */
  function MessageBytes(m: MidiEvent, lastTick: int): seq<Byte>
  {
    EncodeVarLen(Max(0, m.tick - lastTick)) + [m.status, m.data1, m.data2]
  }

  /** The timeline loop: each delta is measured from the tick of the message before. */
  function MessagesBytes(ms: seq<MidiEvent>, lastTick: int): seq<Byte>
    decreases |ms|
  {
    if |ms| == 0 then [] else MessageBytes(ms[0], lastTick) + MessagesBytes(ms[1..], ms[0].tick)
  }

  /** `pushMeta`. */
  function MetaBytes(metaType: Byte, data: seq<Byte>): seq<Byte>
  {
    EncodeVarLen(0) + ([0xFF, metaType] + (EncodeVarLen(|data|) + data))
  }

  const SetTempo: Byte := 0x51
  const TimeSignature: Byte := 0x58
  const EndOfTrack: seq<Byte> := [0x00, 0xFF, 0x2F, 0x00]

  /** The three bytes of microseconds per quarter note, big-endian. */
  function TempoData(usPerQuarter: int): seq<Byte>
  {
    [ByteAt(usPerQuarter, 0x1_0000), ByteAt(usPerQuarter, 0x100), ByteAt(usPerQuarter, 1)]
  }

  /** Numerator, power of two of the denominator, 24 clocks per click, 8 thirty-seconds per quarter. */
  function TimeSignatureData(numerator: int, denominatorPow: int): seq<Byte>
  {
    [ByteAt(numerator, 1), ByteAt(denominatorPow, 1), 24, 8]
  }

  function TrackData(timeline: seq<MidiEvent>, usPerQuarter: int, numerator: int, denominatorPow: int): seq<Byte>
  {
    MetaBytes(SetTempo, TempoData(usPerQuarter)) + (MetaBytes(TimeSignature, TimeSignatureData(numerator, denominatorPow))
      + (MessagesBytes(timeline, 0) + EndOfTrack))
  }

  const HeaderTag: seq<Byte> := [0x4D, 0x54, 0x68, 0x64]
  const TrackTag: seq<Byte> := [0x4D, 0x54, 0x72, 0x6B]

  /** `MThd`, length 6, format 0, one track, ticks per quarter note big-endian. */
  function Header(ppq: int): (r: seq<Byte>)
    ensures |r| == 14
  {
    HeaderTag + U32(6) + [0x00, 0x00, 0x00, 0x01] + [ByteAt(ppq, 0x100), ByteAt(ppq, 1)]
  }

  /**
   The options of `toMidiFileBytes` after the floating-point steps: the tempo already converted to
   microseconds per quarter and the time signature already parsed.
   */
  datatype MidiOptions = MidiOptions(ppq: Option<int>, usPerQuarter: int, numerator: int, denominatorPow: int)

  /** `options?.ppq || 480`. */
  function Ppq(opts: MidiOptions): int
  {
    if opts.ppq.Some? && opts.ppq.value != 0 then opts.ppq.value else 480
  }

  function Track(events: seq<Event>, opts: MidiOptions): seq<Byte>
  {
    TrackData(Timeline(events, Ppq(opts)), opts.usPerQuarter, opts.numerator, opts.denominatorPow)
  }

  /** `toMidiFileBytes`: the header chunk, then the one track chunk with its length. */
  function ToMidiFileBytes(events: seq<Event>, opts: MidiOptions): seq<Byte>
  {
    var track := Track(events, opts);
    Header(Ppq(opts)) + (TrackTag + (U32(|track|) + track))
  }

  // ---------------------------------------------------------------------------------------------
  // Reading the file back
  // ---------------------------------------------------------------------------------------------

  /** A channel message as read from a track: its delta-time and three bytes. */
  datatype Message = Message(delta: nat, status: Byte, data1: Byte, data2: Byte)

  /** Channel messages up to the end-of-track meta event, which must close the data. */
  function DecodeMessages(bytes: seq<Byte>): Option<seq<Message>>
    decreases |bytes|
  {
    match DecodeVarLen(bytes, 0)
    case None => None
    case Some((delta, rest)) =>
      if |rest| > 0 && rest[0] == 0xFF then
        if delta == 0 && rest == [0xFF, 0x2F, 0x00] then Some([]) else None
      else if |rest| < 3 then None
      else
        match DecodeMessages(rest[3..])
        case None => None
        case Some(ms) => Some([Message(delta, rest[0], rest[1], rest[2])] + ms)
  }

  /** One meta event: its type, its data and the bytes after it. */
  function DecodeMeta(bytes: seq<Byte>): Option<(Byte, seq<Byte>, seq<Byte>)>
  {
    match DecodeVarLen(bytes, 0)
    case None => None
    case Some((delta, rest)) =>
      if delta != 0 || |rest| < 2 || rest[0] != 0xFF then None
      else
        match DecodeVarLen(rest[2..], 0)
        case None => None
        case Some((len, data)) => if len <= |data| then Some((rest[1], data[..len], data[len..])) else None
  }

  /** What a track holds: the tempo and time-signature data, then the channel messages. */
  datatype TrackContent = TrackContent(tempo: seq<Byte>, timeSignature: seq<Byte>, messages: seq<Message>)

  function DecodeTrack(bytes: seq<Byte>): Option<TrackContent>
  {
    match DecodeMeta(bytes)
    case None => None
    case Some((t1, tempo, rest1)) =>
      match DecodeMeta(rest1)
      case None => None
      case Some((t2, sig, rest2)) =>
        if t1 != SetTempo || t2 != TimeSignature then None
        else
          match DecodeMessages(rest2)
          case None => None
          case Some(ms) => Some(TrackContent(tempo, sig, ms))
  }

  /** The header and the track chunk: ticks per quarter note and the track data. */
  function DecodeFile(bytes: seq<Byte>): Option<(int, seq<Byte>)>
  {
    if |bytes| < 22 || bytes[..4] != HeaderTag || ReadU32(bytes[4..8]) != 6 || bytes[8..12] != [0, 0, 0, 1]
      || bytes[14..18] != TrackTag || ReadU32(bytes[18..22]) != |bytes| - 22
    then None
    else Some((bytes[12] as int * 256 + bytes[13] as int, bytes[22..]))
  }

  /** The messages a track should hold for a timeline: deltas from the previous tick, never negative. */
  function Deltas(ms: seq<MidiEvent>, lastTick: int): (r: seq<Message>)
    ensures |r| == |ms|
    decreases |ms|
  {
    if |ms| == 0 then []
    else [Message(Max(0, ms[0].tick - lastTick), ms[0].status, ms[0].data1, ms[0].data2)] + Deltas(ms[1..], ms[0].tick)
  }

  /** Absolute ticks again, by summing the deltas. */
  function Accumulate(msgs: seq<Message>, lastTick: int): (r: seq<MidiEvent>)
    ensures |r| == |msgs|
    decreases |msgs|
  {
    if |msgs| == 0 then []
    else
      var tick := lastTick + msgs[0].delta;
      [MidiEvent(tick, msgs[0].status, msgs[0].data1, msgs[0].data2)] + Accumulate(msgs[1..], tick)
  }

  lemma {:induction false} MessagesRoundTrip(ms: seq<MidiEvent>, lastTick: int)
    requires forall i :: 0 <= i < |ms| ==> ms[i].status != 0xFF
    ensures DecodeMessages(MessagesBytes(ms, lastTick) + EndOfTrack) == Some(Deltas(ms, lastTick))
    decreases |ms|
  {
    if |ms| == 0 {
      assert MessagesBytes(ms, lastTick) + EndOfTrack == EncodeVarLen(0) + [0xFF, 0x2F, 0x00];
      VarLenRoundTrip(0, [0xFF, 0x2F, 0x00]);
    } else {
      var m := ms[0];
      var tail := MessagesBytes(ms[1..], m.tick) + EndOfTrack;
      var delta := Max(0, m.tick - lastTick);
      assert MessagesBytes(ms, lastTick) + EndOfTrack == EncodeVarLen(delta) + ([m.status, m.data1, m.data2] + tail);
      MessagesRoundTrip(ms[1..], m.tick);
      DecodeMessageStep(delta, m, tail, Deltas(ms[1..], m.tick));
    }
  }

  /** One channel message in front of a decodable tail decodes to that message and the tail's. */
  lemma DecodeMessageStep(delta: nat, m: MidiEvent, tail: seq<Byte>, decoded: seq<Message>)
    requires m.status != 0xFF
    requires DecodeMessages(tail) == Some(decoded)
    ensures DecodeMessages(EncodeVarLen(delta) + ([m.status, m.data1, m.data2] + tail))
      == Some([Message(delta, m.status, m.data1, m.data2)] + decoded)
  {
    var rest := [m.status, m.data1, m.data2] + tail;
    VarLenRoundTrip(delta, rest);
    assert rest[3..] == tail;
  }

  lemma MetaRoundTrip(metaType: Byte, data: seq<Byte>, rest: seq<Byte>)
    ensures DecodeMeta(MetaBytes(metaType, data) + rest) == Some((metaType, data, rest))
  {
    var after := [0xFF, metaType] + (EncodeVarLen(|data|) + (data + rest));
    assert MetaBytes(metaType, data) + rest == EncodeVarLen(0) + after;
    VarLenRoundTrip(0, after);
    assert after[2..] == EncodeVarLen(|data|) + (data + rest);
    VarLenRoundTrip(|data|, data + rest);
    assert (data + rest)[..|data|] == data && (data + rest)[|data|..] == rest;
  }

  /** With ticks that never go back, from the starting tick on, summing the deltas restores them. */
  lemma {:induction false} AccumulateDeltas(ms: seq<MidiEvent>, lastTick: int)
    requires forall i :: 0 <= i < |ms| ==> lastTick <= ms[i].tick
    requires forall i, j :: 0 <= i < j < |ms| ==> ms[i].tick <= ms[j].tick
    ensures Accumulate(Deltas(ms, lastTick), lastTick) == ms
    decreases |ms|
  {
    if |ms| > 0 {
      AccumulateDeltas(ms[1..], ms[0].tick);
    }
  }

  /**
   A track reads back as the tempo and time-signature data and the timeline's messages: every
   status is a note-on or note-off, so none is taken for a meta event.
   */
  lemma TrackRoundTrip(events: seq<Event>, opts: MidiOptions)
    ensures DecodeTrack(Track(events, opts)) == Some(TrackContent(TempoData(opts.usPerQuarter),
      TimeSignatureData(opts.numerator, opts.denominatorPow), Deltas(Timeline(events, Ppq(opts)), 0)))
  {
    var t := Timeline(events, Ppq(opts));
    var messages := MessagesBytes(t, 0) + EndOfTrack;
    var sig := MetaBytes(TimeSignature, TimeSignatureData(opts.numerator, opts.denominatorPow));
    TimelineStatuses(events, Ppq(opts));
    MetaRoundTrip(SetTempo, TempoData(opts.usPerQuarter), sig + messages);
    MetaRoundTrip(TimeSignature, TimeSignatureData(opts.numerator, opts.denominatorPow), messages);
    MessagesRoundTrip(t, 0);
  }

  lemma {:induction false} RawTimelineNoteStatuses(events: seq<Event>, ppq: int)
    ensures forall i :: 0 <= i < |RawTimeline(events, ppq)| ==>
      RawTimeline(events, ppq)[i].status == NoteOn || RawTimeline(events, ppq)[i].status == NoteOff
    decreases |events|
  {
    if |events| > 0 {
      var e := events[|events| - 1];
      var start := StartTick(e, ppq);
      RawTimelineNoteStatuses(events[..|events| - 1], ppq);
      NoteMessagesNoteStatuses(start, start + DurationTicks(e, ppq), e.notes, e.velocity);
    }
  }

  lemma {:induction false} NoteMessagesNoteStatuses(start: int, end: int, notes: seq<int>, velocity: int)
    ensures forall i :: 0 <= i < |NoteMessages(start, end, notes, velocity)| ==>
      NoteMessages(start, end, notes, velocity)[i].status == NoteOn || NoteMessages(start, end, notes, velocity)[i].status == NoteOff
    decreases |notes|
  {
    if |notes| > 0 {
      NoteMessagesNoteStatuses(start, end, notes[1..], velocity);
    }
  }

  lemma TimelineStatuses(events: seq<Event>, ppq: int)
    ensures forall i :: 0 <= i < |Timeline(events, ppq)| ==> Timeline(events, ppq)[i].status != 0xFF
  {
    var raw := RawTimeline(events, ppq);
    var t := Timeline(events, ppq);
    SortByCorrect(raw, MessageKey);
    RawTimelineNoteStatuses(events, ppq);
    forall i | 0 <= i < |t|
      ensures t[i].status != 0xFF
    {
      assert t[i] in multiset(raw);
      var k :| 0 <= k < |raw| && raw[k] == t[i];
    }
  }

  /**
   The decoded messages, with their deltas summed from tick 0, are exactly the sorted timeline:
   the delta-times lose nothing because the timeline never goes back in time.
   */
  lemma TimelineRecovered(events: seq<Event>, ppq: int)
    ensures Accumulate(Deltas(Timeline(events, ppq), 0), 0) == Timeline(events, ppq)
  {
    var t := Timeline(events, ppq);
    TimelineTicks(events, ppq);
    forall i, j | 0 <= i < j < |t|
      ensures t[i].tick <= t[j].tick
    {
      TimelineOrdered(events, ppq, i, j);
    }
    AccumulateDeltas(t, 0);
  }

  lemma Ppq16(ppq: int)
    ensures ppq % 0x1_0000 == ByteAt(ppq, 0x100) * 256 + ByteAt(ppq, 1)
  {
    DivDiv(ppq, 0x100);
    ModUnique(ppq, 0x1_0000, ppq / 0x1_0000, ppq / 0x100 % 256 * 256 + ppq % 256);
  }

  /** The reader accepts any byte string whose fixed fields are in place. */
  lemma DecodeFileFields(bytes: seq<Byte>)
    requires |bytes| >= 22 && bytes[..4] == HeaderTag && ReadU32(bytes[4..8]) == 6
    requires bytes[8..12] == [0, 0, 0, 1] && bytes[14..18] == TrackTag && ReadU32(bytes[18..22]) == |bytes| - 22
    ensures DecodeFile(bytes) == Some((bytes[12] as int * 256 + bytes[13] as int, bytes[22..]))
  {
  }

  /** The reader of the file layout gets back the header's ticks per quarter and the track. */
  lemma {:induction false} FileLayout(ppq: int, track: seq<Byte>)
    requires |track| < TwoTo32
    ensures DecodeFile(Header(ppq) + (TrackTag + (U32(|track|) + track))) == Some((ppq % 0x1_0000, track))
  {
    var bytes := Header(ppq) + (TrackTag + (U32(|track|) + track));
    assert bytes[..4] == HeaderTag && ReadU32(bytes[4..8]) == 6 && bytes[8..12] == [0, 0, 0, 1] by {
      U32RoundTrip(6);
      assert bytes[4..8] == U32(6);
    }
    assert bytes[14..18] == TrackTag && ReadU32(bytes[18..22]) == |bytes| - 22 && bytes[22..] == track by {
      U32RoundTrip(|track|);
      assert bytes[18..22] == U32(|track|);
    }
    assert bytes[12] as int * 256 + bytes[13] as int == ppq % 0x1_0000 by {
      assert bytes[12] == ByteAt(ppq, 0x100) && bytes[13] == ByteAt(ppq, 1);
      Ppq16(ppq);
    }
    DecodeFileFields(bytes);
  }

  /**
   `toMidiFileBytes` writes the header chunk, then `MTrk` with the track length, then the track:
   the reader gets back the ticks per quarter note (as 16 bits) and the track.
   */
  lemma FileRoundTrip(events: seq<Event>, opts: MidiOptions)
    requires |Track(events, opts)| < TwoTo32
    ensures DecodeFile(ToMidiFileBytes(events, opts)) == Some((Ppq(opts) % 0x1_0000, Track(events, opts)))
  {
    FileLayout(Ppq(opts), Track(events, opts));
  }

  /** The track data ends with the end-of-track meta event `00 FF 2F 00`. */
  lemma TrackEnds(events: seq<Event>, opts: MidiOptions)
    ensures var track := Track(events, opts);
      |track| >= 4 && track[|track| - 4..] == EndOfTrack
  {
    var front := MetaBytes(SetTempo, TempoData(opts.usPerQuarter)) + MetaBytes(TimeSignature, TimeSignatureData(opts.numerator, opts.denominatorPow))
      + MessagesBytes(Timeline(events, Ppq(opts)), 0);
    assert Track(events, opts) == front + EndOfTrack;
  }
}

=== FILE: music_theory.dfy ===
/**
 The music-theory engine (src/services/musicTheory/MusicTheoryEngine.ts): chord spelling from
 interval formulas, diatonic qualities per mode, inversion and drop voicings, scale construction,
 range constraint and the naming helpers. Everything is integer arithmetic on MIDI note numbers
 over fixed tables. Chord qualities are the TypeScript strings, so an unknown quality can be passed
 in and falls back as MusicTheoryEngine.ts does.
 */
module MusicTheory {
  import opened Common
  import opened Sorting
  import opened Bags
  import opened Text

  /** `CHORD_FORMULAS`: semitone offsets from the root for each quality. */
  const ChordFormulas: map<string, seq<int>> := map[
    "Maj" := [0, 4, 7],
    "min" := [0, 3, 7],
    "dim" := [0, 3, 6],
    "aug" := [0, 4, 8],
    "sus2" := [0, 2, 7],
    "sus4" := [0, 5, 7],
    "Maj7" := [0, 4, 7, 11],
    "min7" := [0, 3, 7, 10],
    "dom7" := [0, 4, 7, 10],
    "dim7" := [0, 3, 6, 9],
    "hdim7" := [0, 3, 6, 10],
    "minMaj7" := [0, 3, 7, 11],
    "aug7" := [0, 4, 8, 10],
    "Maj9" := [0, 4, 7, 11, 14],
    "min9" := [0, 3, 7, 10, 14],
    "dom9" := [0, 4, 7, 10, 14],
    "Maj11" := [0, 4, 7, 11, 14, 17],
    "min11" := [0, 3, 7, 10, 14, 17],
    "dom11" := [0, 4, 7, 10, 14, 17],
    "Maj13" := [0, 4, 7, 11, 14, 17, 21],
    "min13" := [0, 3, 7, 10, 14, 17, 21],
    "dom13" := [0, 4, 7, 10, 14, 17, 21]
  ]

  /** Strictly increasing integers. */
  predicate StrictlyAscending(s: seq<int>)
  {
    forall i, j :: 0 <= i < j < |s| ==> s[i] < s[j]
  }

  /** Every formula starts at the root and climbs strictly. */
  lemma FormulasWellFormed()
    ensures forall q :: q in ChordFormulas ==>
      |ChordFormulas[q]| >= 3 && ChordFormulas[q][0] == 0 && StrictlyAscending(ChordFormulas[q])
  {
  }

  /** The formula used for a quality: `CHORD_FORMULAS[quality] || CHORD_FORMULAS["Maj"]`. */
  function Formula(quality: string): (f: seq<int>)
    ensures quality in ChordFormulas ==> f == ChordFormulas[quality]
    ensures quality !in ChordFormulas ==> f == [0, 4, 7]
  {
    if quality in ChordFormulas then ChordFormulas[quality] else ChordFormulas["Maj"]
  }

  /** `getChordNotes`: the root plus each interval of the quality's formula. */
  function ChordNotes(root: int, quality: string): (r: seq<int>)
    ensures |r| == |Formula(quality)|
    ensures forall i :: 0 <= i < |r| ==> r[i] == root + Formula(quality)[i]
  {
    seq(|Formula(quality)|, i requires 0 <= i < |Formula(quality)| => root + Formula(quality)[i])
  }

  /** Chord spelling starts on the root, climbs strictly and moves with it. */
  lemma ChordNotesShape(root: int, quality: string, k: int)
    ensures |ChordNotes(root, quality)| >= 3
    ensures ChordNotes(root, quality)[0] == root
    ensures StrictlyAscending(ChordNotes(root, quality))
    ensures ChordNotes(root + k, quality) == MapSeq(ChordNotes(root, quality), x => x + k)
  {
    FormulaShape(quality);
    var f := Formula(quality);
    var r := ChordNotes(root, quality);
    assert StrictlyAscending(r) by {
      forall i, j | 0 <= i < j < |r| ensures r[i] < r[j] {
        assert f[i] < f[j];
      }
    }
    var moved := ChordNotes(root + k, quality);
    assert moved == MapSeq(r, x => x + k) by {
      forall i | 0 <= i < |moved| ensures moved[i] == MapSeq(r, x => x + k)[i] {
        assert moved[i] == root + k + f[i];
      }
    }
  }

  /** The formula in use, known or the major fallback, has the shape of every table entry. */
  lemma FormulaShape(quality: string)
    ensures |Formula(quality)| >= 3 && Formula(quality)[0] == 0 && StrictlyAscending(Formula(quality))
  {
    FormulasWellFormed();
  }

  /** The seven church modes, in the order of their offset from Ionian. */
  datatype Mode = Ionian | Dorian | Phrygian | Lydian | Mixolydian | Aeolian | Locrian

  /** `MODAL_PROFILES[mode].steps`. */
  function Steps(mode: Mode): seq<int>
  {
    match mode
    case Ionian => [2, 2, 1, 2, 2, 2, 1]
    case Dorian => [2, 1, 2, 2, 2, 1, 2]
    case Phrygian => [1, 2, 2, 2, 1, 2, 2]
    case Lydian => [2, 2, 2, 1, 2, 2, 1]
    case Mixolydian => [2, 2, 1, 2, 2, 1, 2]
    case Aeolian => [2, 1, 2, 2, 1, 2, 2]
    case Locrian => [1, 2, 2, 1, 2, 2, 2]
  }

  /** The `modeOffsets` table of `getDiatonicQuality`. */
  function ModeOffset(mode: Mode): (r: int)
    ensures 0 <= r < 7
  {
    match mode
    case Ionian => 0
    case Dorian => 1
    case Phrygian => 2
    case Lydian => 3
    case Mixolydian => 4
    case Aeolian => 5
    case Locrian => 6
  }

  /** The qualities of the seven degrees of the major scale (I ii iii IV V7 vi vii-half-dim). */
  const MajorQualities: seq<string> := ["Maj", "min", "min", "Maj", "dom7", "min", "hdim7"]

  /**
   `getDiatonicQuality`: the major-scale table read at `(degree - 1 + offset) % 7` with the
   sign-keeping remainder; a negative index reads `undefined` (`None`). A negative multiple of 7
   gives the index `-0`, which reads entry 0.
   */
  function DiatonicQuality(degree: int, mode: Mode): (r: Option<string>)
    ensures r.Some? <==> degree - 1 + ModeOffset(mode) >= 0 || (degree - 1 + ModeOffset(mode)) % 7 == 0
    ensures r.Some? ==> r.value == MajorQualities[(degree - 1 + ModeOffset(mode)) % 7]
    ensures r.Some? ==> r.value in ChordFormulas
  {
    var index := JsRem(degree - 1 + ModeOffset(mode), 7);
    if index >= 0 then Some(MajorQualities[index]) else None
  }

  /** The familiar values in the major mode: V is a dominant seventh, vii is half-diminished. */
  lemma DiatonicQualityIonian()
    ensures DiatonicQuality(1, Ionian) == Some("Maj")
    ensures DiatonicQuality(2, Ionian) == Some("min")
    ensures DiatonicQuality(5, Ionian) == Some("dom7")
    ensures DiatonicQuality(7, Ionian) == Some("hdim7")
  {
  }

  /** A mode reads the major table shifted by its offset, and the table repeats every 7 degrees. */
  lemma DiatonicQualityRotation(degree: int, mode: Mode)
    requires degree >= 1
    ensures DiatonicQuality(degree, mode) == DiatonicQuality(degree + ModeOffset(mode), Ionian)
    ensures DiatonicQuality(degree + 7, mode) == DiatonicQuality(degree, mode)
  {
  }

  /** Raises the first `k` entries by an octave (the loop of `applyInversion`). */
  function RaiseLowest(s: seq<int>, k: int): (r: seq<int>)
    ensures |r| == |s|
    ensures forall i :: 0 <= i < |s| ==> r[i] == if i < k then s[i] + 12 else s[i]
  {
    seq(|s|, i requires 0 <= i < |s| => if i < k then s[i] + 12 else s[i])
  }

  /** `x % 12`, the pitch class of a MIDI note. */
  function PitchClass(x: int): int { x % 12 }

  /** The multiset of pitch classes of a chord. */
  function PitchClasses(s: seq<int>): multiset<int>
    decreases |s|
  {
    if |s| == 0 then multiset{} else PitchClasses(s[..|s| - 1]) + multiset{PitchClass(s[|s| - 1])}
  }

  /** The pitch classes are those of the element-wise mapped chord. */
  lemma {:induction false} PitchClassesMap(s: seq<int>)
    ensures PitchClasses(s) == multiset(MapSeq(s, PitchClass))
    decreases |s|
  {
    if |s| > 0 {
      var init := s[..|s| - 1];
      PitchClassesMap(init);
      assert s == init + [s[|s| - 1]];
      MapSeqAppend(init, [s[|s| - 1]], PitchClass);
    }
  }

  /** Octave shifts applied element-wise leave the pitch classes alone. */
  lemma OctaveShiftPitchClasses(a: seq<int>, b: seq<int>)
    requires |a| == |b|
    requires forall i :: 0 <= i < |a| ==> (a[i] - b[i]) % 12 == 0
    ensures PitchClasses(a) == PitchClasses(b)
  {
    PitchClassesMap(a);
    PitchClassesMap(b);
    assert MapSeq(a, PitchClass) == MapSeq(b, PitchClass) by {
      forall i | 0 <= i < |a|
        ensures PitchClass(a[i]) == PitchClass(b[i])
      {
        var d := (a[i] - b[i]) / 12;
        assert a[i] == b[i] + 12 * d;
        ModUnique(a[i], 12, d + b[i] / 12, b[i] % 12);
      }
    }
  }

  lemma PermPitchClasses(a: seq<int>, b: seq<int>)
    requires multiset(a) == multiset(b)
    ensures PitchClasses(a) == PitchClasses(b)
  {
    PitchClassesMap(a);
    PitchClassesMap(b);
    PermMap(a, b, PitchClass);
  }

  /** `applyInversion`: the lowest `inversion` notes of the sorted chord go up an octave. */
  function ApplyInversion(notes: seq<int>, inversion: int): (r: seq<int>)
    ensures |r| == |notes|
  {
    if |notes| == 0 || inversion == 0 then notes
    else SortInts(RaiseLowest(SortInts(notes), inversion))
  }

  lemma RaiseLowestPitchClasses(s: seq<int>, k: int)
    ensures PitchClasses(RaiseLowest(s, k)) == PitchClasses(s)
  {
    var r := RaiseLowest(s, k);
    forall i | 0 <= i < |s|
      ensures (r[i] - s[i]) % 12 == 0
    {
      assert r[i] - s[i] == 12 || r[i] - s[i] == 0;
    }
    OctaveShiftPitchClasses(r, s);
  }

  lemma {:induction false} RaiseLowestSum(s: seq<int>, k: int)
    ensures SumInts(RaiseLowest(s, k)) == SumInts(s) + 12 * Clamp(k, 0, |s|)
    decreases |s|
  {
    if |s| > 0 {
      var init := s[..|s| - 1];
      RaiseLowestSum(init, k);
      assert RaiseLowest(s, k)[..|s| - 1] == RaiseLowest(init, k);
    }
  }

  /** Sorting keeps the pitch classes and the sum, and orders the notes. */
  lemma SortIntsKeeps(s: seq<int>)
    ensures PitchClasses(SortInts(s)) == PitchClasses(s)
    ensures SumInts(SortInts(s)) == SumInts(s)
    ensures Ascending(SortInts(s))
  {
    SortIntsCorrect(s);
    PermPitchClasses(s, SortInts(s));
    PermSum(s, SortInts(s));
  }

  /**
   An inversion keeps the chord's pitch classes, raises its note sum by 12 per moved note
   (`min(inversion, n)` of them, none for a negative inversion) and, when it applies, returns the
   notes in ascending order.
   */
  lemma ApplyInversionCorrect(notes: seq<int>, inversion: int)
    ensures PitchClasses(ApplyInversion(notes, inversion)) == PitchClasses(notes)
    ensures SumInts(ApplyInversion(notes, inversion))
         == SumInts(notes) + 12 * Clamp(inversion, 0, |notes|)
    ensures |notes| > 0 && inversion != 0 ==> Ascending(ApplyInversion(notes, inversion))
    ensures inversion == 0 ==> ApplyInversion(notes, inversion) == notes
    ensures |notes| > 0 && inversion != 0 ==>
      multiset(ApplyInversion(notes, inversion)) == multiset(RaiseLowest(SortInts(notes), inversion))
  {
    if |notes| > 0 && inversion != 0 {
      var sorted := SortInts(notes);
      var raised := RaiseLowest(sorted, inversion);
      SortIntsKeeps(notes);
      RaiseLowestPitchClasses(sorted, inversion);
      RaiseLowestSum(sorted, inversion);
      SortIntsKeeps(raised);
      SortIntsCorrect(raised);
    }
  }

  /** One note dropped by an octave. */
  function LowerAt(s: seq<int>, i: int): (r: seq<int>)
    requires 0 <= i < |s|
    ensures |r| == |s|
  {
    s[i := s[i] - 12]
  }

  /**
   Whether a drop type moves the note at position `i` of `n` ascending notes: drop 2 the
   second-highest, drop 3 the third-highest, drop 2&4 the second- and fourth-highest.
   */
  predicate Dropped(dropType: int, n: int, i: int)
  {
    (dropType == 2 && i == n - 2) || (dropType == 3 && i == n - 3) ||
    (dropType == 23 && (i == n - 2 || i == n - 4))
  }

  /** The notes lowered by an octave for each drop type (positions counted from the top). */
  function Lowered(s: seq<int>, dropType: int): (r: seq<int>)
    requires |s| >= 4
    ensures |r| == |s|
    ensures forall i :: 0 <= i < |s| ==> r[i] == if Dropped(dropType, |s|, i) then s[i] - 12 else s[i]
  {
    var n := |s|;
    if dropType == 2 then LowerAt(s, n - 2)
    else if dropType == 3 then LowerAt(s, n - 3)
    else if dropType == 23 then LowerAt(LowerAt(s, n - 2), n - 4)
    else s
  }

  /** How far a drop type moves the chord's note sum down. */
  function DropAmount(dropType: int): int
  {
    if dropType == 2 || dropType == 3 then 12 else if dropType == 23 then 24 else 0
  }

  /** `applyDropVoicing`: on a chord of four or more notes, drop the selected upper voices. */
  function ApplyDropVoicing(notes: seq<int>, dropType: int): (r: seq<int>)
    ensures |r| == |notes|
  {
    if |notes| < 4 || dropType == 0 then notes
    else SortInts(Lowered(SortInts(notes), dropType))
  }

  /** Lowering one entry by an octave lowers the sum by 12 and keeps the pitch classes. */
  lemma LowerAtKeeps(s: seq<int>, i: int)
    requires 0 <= i < |s|
    ensures SumInts(LowerAt(s, i)) == SumInts(s) - 12
    ensures PitchClasses(LowerAt(s, i)) == PitchClasses(s)
  {
    LowerAtSum(s, i);
    LowerAtPitchClasses(s, i);
  }

  lemma LowerAtSum(s: seq<int>, i: int)
    requires 0 <= i < |s|
    ensures SumInts(s[i := s[i] - 12]) == SumInts(s) - 12
  {
    var t := s[i := s[i] - 12];
    assert s == s[..i] + [s[i]] + s[i + 1..];
    assert t == s[..i] + [s[i] - 12] + s[i + 1..];
    SumIntsAppend(s[..i] + [s[i]], s[i + 1..]);
    SumIntsAppend(s[..i], [s[i]]);
    SumIntsAppend(s[..i] + [s[i] - 12], s[i + 1..]);
    SumIntsAppend(s[..i], [s[i] - 12]);
  }

  lemma LowerAtPitchClasses(s: seq<int>, i: int)
    requires 0 <= i < |s|
    ensures PitchClasses(s[i := s[i] - 12]) == PitchClasses(s)
  {
    var t := s[i := s[i] - 12];
    forall j | 0 <= j < |s|
      ensures (t[j] - s[j]) % 12 == 0
    {
      assert t[j] - s[j] == -12 || t[j] - s[j] == 0;
    }
    OctaveShiftPitchClasses(t, s);
  }

  lemma LoweredSum(s: seq<int>, dropType: int)
    requires |s| >= 4
    ensures SumInts(Lowered(s, dropType)) == SumInts(s) - DropAmount(dropType)
  {
    var n := |s|;
    if dropType == 2 {
      LowerAtKeeps(s, n - 2);
    } else if dropType == 3 {
      LowerAtKeeps(s, n - 3);
    } else if dropType == 23 {
      LowerAtKeeps(s, n - 2);
      LowerAtKeeps(LowerAt(s, n - 2), n - 4);
    }
  }

  lemma LoweredPitchClasses(s: seq<int>, dropType: int)
    requires |s| >= 4
    ensures PitchClasses(Lowered(s, dropType)) == PitchClasses(s)
  {
    var n := |s|;
    if dropType == 2 {
      LowerAtKeeps(s, n - 2);
    } else if dropType == 3 {
      LowerAtKeeps(s, n - 3);
    } else if dropType == 23 {
      LowerAtKeeps(s, n - 2);
      LowerAtKeeps(LowerAt(s, n - 2), n - 4);
    }
  }

  /**
   A drop voicing keeps the pitch classes, lowers the note sum by 12 (drop 2, drop 3) or 24
   (drop 2&4), merely sorts for any other non-zero type, and leaves chords under four notes alone.
   */
  lemma ApplyDropVoicingCorrect(notes: seq<int>, dropType: int)
    ensures PitchClasses(ApplyDropVoicing(notes, dropType)) == PitchClasses(notes)
    ensures |notes| >= 4 && dropType != 0 ==>
      SumInts(ApplyDropVoicing(notes, dropType)) == SumInts(notes) - DropAmount(dropType)
    ensures |notes| >= 4 && dropType != 0 ==> Ascending(ApplyDropVoicing(notes, dropType))
    ensures |notes| >= 4 && dropType !in {0, 2, 3, 23} ==>
      ApplyDropVoicing(notes, dropType) == SortInts(notes)
    ensures |notes| < 4 || dropType == 0 ==> ApplyDropVoicing(notes, dropType) == notes
    ensures |notes| >= 4 && dropType != 0 ==>
      multiset(ApplyDropVoicing(notes, dropType)) == multiset(Lowered(SortInts(notes), dropType))
  {
    if |notes| >= 4 && dropType != 0 {
      var sorted := SortInts(notes);
      var lowered := Lowered(sorted, dropType);
      SortIntsKeeps(notes);
      LoweredSum(sorted, dropType);
      LoweredPitchClasses(sorted, dropType);
      SortIntsKeeps(lowered);
      SortIntsCorrect(lowered);
      if dropType !in {2, 3, 23} {
        SortIntsAscendingIdentity(sorted);
      }
    }
  }

  /** C major in first inversion is E, G, C: the lowest note, and only it, goes up an octave. */
  lemma ApplyInversionExample()
    ensures ApplyInversion([0, 4, 7], 1) == [4, 7, 12]
  {
    SortIntsAscendingIdentity([0, 4, 7]);
    assert RaiseLowest([0, 4, 7], 1) == [12, 4, 7];
    assert [12, 4, 7][..2] == [12, 4] && [12, 4][..1] == [12] && [12][..0] == [];
    assert SortBy([12], IntKey) == [12];
    assert SortBy([12, 4], IntKey) == InsertBy(4, [12], IntKey) == [4, 12];
    assert [4, 12][1..] == [12];
    assert InsertBy(7, [12], IntKey) == [7, 12];
    assert SortBy([12, 4, 7], IntKey) == InsertBy(7, [4, 12], IntKey) == [4, 7, 12];
  }

  /** Drop 2 on C major seventh (C E G B) lowers the G, the second-highest note: G C E B. */
  lemma ApplyDropVoicingExample()
    ensures ApplyDropVoicing([60, 64, 67, 71], 2) == [55, 60, 64, 71]
  {
    SortIntsAscendingIdentity([60, 64, 67, 71]);
    var low := [60, 64, 55, 71];
    assert Lowered([60, 64, 67, 71], 2) == low;
    assert low[..3] == [60, 64, 55] && [60, 64, 55][..2] == [60, 64] && [60, 64][..1] == [60] && [60][..0] == [];
    assert SortBy([60], IntKey) == [60];
    assert [60][1..] == [];
    assert SortBy([60, 64], IntKey) == InsertBy(64, [60], IntKey) == [60, 64];
    assert SortBy([60, 64, 55], IntKey) == InsertBy(55, [60, 64], IntKey) == [55, 60, 64];
    assert [55, 60, 64][1..] == [60, 64] && [60, 64][1..] == [64] && [64][1..] == [];
    assert InsertBy(71, [55, 60, 64], IntKey) == [55, 60, 64, 71];
    assert SortBy(low, IntKey) == InsertBy(71, [55, 60, 64], IntKey);
  }

  /** `applyVoicing`: inversion only when positive, then drop only when positive. */
  function ApplyVoicing(notes: seq<int>, inversion: int, dropType: int): (r: seq<int>)
    ensures |r| == |notes|
  {
    var inverted := if inversion > 0 then ApplyInversion(notes, inversion) else notes;
    if dropType > 0 then ApplyDropVoicing(inverted, dropType) else inverted
  }

  /** Voicing never changes which pitch classes sound, and with both settings off it is the identity. */
  lemma ApplyVoicingCorrect(notes: seq<int>, inversion: int, dropType: int)
    ensures PitchClasses(ApplyVoicing(notes, inversion, dropType)) == PitchClasses(notes)
    ensures inversion <= 0 && dropType <= 0 ==> ApplyVoicing(notes, inversion, dropType) == notes
  {
    ApplyInversionCorrect(notes, inversion);
    var inverted := if inversion > 0 then ApplyInversion(notes, inversion) else notes;
    ApplyDropVoicingCorrect(inverted, dropType);
  }

  const InversionNames: seq<string> := ["Root Position", "1st Inversion", "2nd Inversion", "3rd Inversion"]

  /** `inversionNames[Math.min(inversion, 3)] || "Root Position"`. */
  function InversionName(inversion: int): (r: string)
    ensures r in InversionNames
    ensures inversion >= 3 ==> r == "3rd Inversion"
    ensures inversion <= 0 ==> r == "Root Position"
  {
    var i := Min(inversion, 3);
    if 0 <= i then InversionNames[i] else "Root Position"
  }

  /** The drop-voicing suffix: text only for drops 2, 3 and 23. */
  function DropSuffix(dropType: int): (r: string)
    ensures r == "" <==> dropType !in {2, 3, 23}
  {
    if dropType == 2 then " Drop 2"
    else if dropType == 3 then " Drop 3"
    else if dropType == 23 then " Drop 2&4"
    else ""
  }

  /** `getVoicingDescription`. */
  function VoicingDescription(inversion: int, dropType: int): (r: string)
    ensures StartsWith(r, InversionName(inversion))
    ensures |r| == |InversionName(inversion)| <==> dropType !in {2, 3, 23}
  {
    InversionName(inversion) + DropSuffix(dropType)
  }

  /** The description is the clamped inversion name followed by the drop suffix, and nothing else. */
  lemma VoicingDescriptionParts(inversion: int, dropType: int)
    ensures VoicingDescription(inversion, dropType)[|InversionName(inversion)|..] == DropSuffix(dropType)
    ensures VoicingDescription(inversion, 0) == InversionName(inversion)
  {
    var name := InversionName(inversion);
    assert (name + DropSuffix(dropType))[|name|..] == DropSuffix(dropType);
    assert name + DropSuffix(0) == name;
  }

  lemma VoicingDescriptionExamples()
    ensures VoicingDescription(1, 2) == "1st Inversion Drop 2"
    ensures VoicingDescription(7, 23) == "3rd Inversion Drop 2&4"
    ensures VoicingDescription(-1, 5) == "Root Position"
  {
    FirstInversionDrop2();
    ThirdInversionDrop24();
    assert InversionName(-1) == "Root Position" && DropSuffix(5) == "";
    assert "Root Position" + "" == "Root Position";
  }

  lemma FirstInversionDrop2()
    ensures VoicingDescription(1, 2) == "1st Inversion Drop 2"
  {
    assert InversionName(1) == "1st Inversion";
    assert DropSuffix(2) == " Drop 2";
  }

  lemma ThirdInversionDrop24()
    ensures VoicingDescription(7, 23) == "3rd Inversion Drop 2&4"
  {
    assert InversionName(7) == "3rd Inversion";
    assert DropSuffix(23) == " Drop 2&4";
  }

  const NoteNames: seq<string> := ["C", "C#", "D", "D#", "E", "F", "F#", "G", "G#", "A", "A#", "B"]

  /**
   `getChordName`: the note name at `root % 12` followed by the quality. A negative root that is
   not a multiple of 12 reads `undefined`, which the template literal renders as "undefined".
   */
  function ChordName(root: int, quality: string): (r: string)
    ensures EndsWith(r, quality)
    ensures root >= 0 ==> r == NoteNames[root % 12] + quality
  {
    var i := JsRem(root, 12);
    if i >= 0 then NoteNames[i] + quality else "undefined" + quality
  }

  /** Names repeat every octave. */
  lemma ChordNameOctave(root: int, quality: string)
    requires root >= 0
    ensures ChordName(root + 12, quality) == ChordName(root, quality)
  {
    ModUnique(root + 12, 12, root / 12 + 1, root % 12);
  }

  lemma ChordNameExamples()
    ensures ChordName(60, "Maj7") == "CMaj7"
    ensures ChordName(-12, "min") == "Cmin"
    ensures ChordName(-1, "min") == "undefinedmin"
  {
    assert NoteNames[0] == "C";
  }

  /** `parseDegree`'s lookup table. */
  const DegreeMap: map<string, int> := map[
    "1" := 0, "b2" := 1, "2" := 2, "b3" := 3, "3" := 4, "4" := 5, "#4" := 6, "b5" := 6,
    "5" := 7, "#5" := 8, "b6" := 8, "6" := 9, "b7" := 10, "7" := 11
  ]

  /** `parseDegree`: the table value, or 0 for anything the table does not hold. */
  function ParseDegree(degree: string): (r: int)
    ensures 0 <= r <= 11
    ensures degree !in DegreeMap ==> r == 0
    ensures degree in DegreeMap ==> r == DegreeMap[degree]
  {
    if degree in DegreeMap then DegreeMap[degree] else 0
  }

  /** The plain degrees 1..7 name the pitches of the major scale. */
  lemma {:induction false} ParseDegreeMatchesIonian(k: int)
    requires 1 <= k <= 7
    ensures ParseDegree(NatToString(k)) == ScaleNotes(0, Ionian)[k - 1]
  {
    IonianNotes();
    var d := NatToString(k);
    assert d == [DigitChar(k)];
    var notes := ScaleNotes(0, Ionian);
    if k == 1 { assert d == "1" && ParseDegree(d) == 0 == notes[0]; }
    else if k == 2 { assert d == "2" && ParseDegree(d) == 2 == notes[1]; }
    else if k == 3 { assert d == "3" && ParseDegree(d) == 4 == notes[2]; }
    else if k == 4 { assert d == "4" && ParseDegree(d) == 5 == notes[3]; }
    else if k == 5 { assert d == "5" && ParseDegree(d) == 7 == notes[4]; }
    else if k == 6 { assert d == "6" && ParseDegree(d) == 9 == notes[5]; }
    else { assert d == "7" && ParseDegree(d) == 11 == notes[6]; }
  }


  /** The major scale on C. */
  lemma IonianNotes()
    ensures ScaleNotes(0, Ionian) == [0, 2, 4, 5, 7, 9, 11]
  {
    assert Steps(Ionian)[..6] == [2, 2, 1, 2, 2, 2];
    assert Running(11, []) == [11];
    assert Running(9, [2]) == [9, 11];
    assert Running(7, [2, 2]) == [7, 9, 11];
    assert Running(5, [2, 2, 2]) == [5, 7, 9, 11];
    assert Running(4, [1, 2, 2, 2]) == [4, 5, 7, 9, 11];
    assert Running(2, [2, 1, 2, 2, 2]) == [2, 4, 5, 7, 9, 11];
    assert Running(0, [2, 2, 1, 2, 2, 2]) == [0, 2, 4, 5, 7, 9, 11];
  }

  /** `[start, start + s0, start + s0 + s1, ...]`: the running sums of the steps. */
  function Running(start: int, steps: seq<int>): (r: seq<int>)
    ensures |r| == |steps| + 1
    ensures r[0] == start
    decreases |steps|
  {
    if |steps| == 0 then [start] else [start] + Running(start + steps[0], steps[1..])
  }

  lemma {:induction false} RunningShape(start: int, steps: seq<int>)
    requires forall i :: 0 <= i < |steps| ==> steps[i] > 0
    ensures StrictlyAscending(Running(start, steps))
    ensures Running(start, steps)[|steps|] == start + SumFirst(steps)
    decreases |steps|
  {
    if |steps| > 0 {
      RunningShape(start + steps[0], steps[1..]);
      var r := Running(start, steps);
      var t := Running(start + steps[0], steps[1..]);
      assert forall i :: 1 <= i < |r| ==> r[i] == t[i - 1];
    }
  }

  /** Sum of a sequence, front to back. */
  function SumFirst(s: seq<int>): int
  {
    if |s| == 0 then 0 else s[0] + SumFirst(s[1..])
  }

  lemma SumFirstSeven(s: seq<int>)
    requires |s| == 7
    ensures SumFirst(s[..6]) == s[0] + s[1] + s[2] + s[3] + s[4] + s[5]
    ensures SumFirst(s) == s[0] + s[1] + s[2] + s[3] + s[4] + s[5] + s[6]
  {
    var t := s[..6];
    assert t[5..][1..] == [];
    assert t[4..][1..] == t[5..];
    assert t[3..][1..] == t[4..];
    assert t[2..][1..] == t[3..];
    assert t[1..][1..] == t[2..];
    assert t[0..] == t;
    assert SumFirst(t[5..]) == s[5];
    assert SumFirst(t[4..]) == s[4] + s[5];
    assert SumFirst(t[3..]) == s[3] + s[4] + s[5];
    assert SumFirst(t[2..]) == s[2] + s[3] + s[4] + s[5];
    assert SumFirst(t[1..]) == s[1] + s[2] + s[3] + s[4] + s[5];
    assert s[6..][1..] == [];
    assert s[5..][1..] == s[6..];
    assert s[4..][1..] == s[5..];
    assert s[3..][1..] == s[4..];
    assert s[2..][1..] == s[3..];
    assert s[1..][1..] == s[2..];
    assert SumFirst(s[6..]) == s[6];
    assert SumFirst(s[5..]) == s[5] + s[6];
    assert SumFirst(s[4..]) == s[4] + s[5] + s[6];
    assert SumFirst(s[3..]) == s[3] + s[4] + s[5] + s[6];
    assert SumFirst(s[2..]) == s[2] + s[3] + s[4] + s[5] + s[6];
    assert SumFirst(s[1..]) == s[1] + s[2] + s[3] + s[4] + s[5] + s[6];
  }

  /** `getScaleNotes`: the root and the running sums of all but the octave-closing step. */
  function ScaleNotes(root: int, mode: Mode): (r: seq<int>)
    ensures |r| == 7
    ensures r[0] == root
  {
    Running(root, Steps(mode)[..6])
  }

  /** Each scale has seven strictly rising notes within the octave above its root. */
  lemma ScaleNotesCorrect(root: int, mode: Mode)
    ensures StrictlyAscending(ScaleNotes(root, mode))
    ensures forall i :: 0 <= i < 7 ==> root <= ScaleNotes(root, mode)[i] <= root + 11
    ensures SumFirst(Steps(mode)) == 12
  {
    var all := Steps(mode);
    var steps := all[..6];
    RunningShape(root, steps);
    SumFirstSeven(all);
    forall i | 0 <= i < 7
      ensures root <= ScaleNotes(root, mode)[i] <= root + 11
    {
      if i > 0 {
        assert ScaleNotes(root, mode)[0] < ScaleNotes(root, mode)[i];
      }
      if i < 6 {
        assert ScaleNotes(root, mode)[i] < ScaleNotes(root, mode)[6];
      }
    }
  }

  /** `constrainToRange` on one note: up by octaves to the minimum, then down to the maximum. */
  function ConstrainNote(note: int, lo: int, hi: int): (r: int)
    ensures (r - note) % 12 == 0
    ensures r <= hi
    ensures hi - lo >= 11 ==> lo <= r
    ensures lo <= note <= hi ==> r == note
  {
    LowerTo(RaiseTo(note, lo), hi)
  }

  /** The first `while` loop: add octaves while below the minimum. */
  function RaiseTo(note: int, lo: int): (r: int)
    ensures r >= lo && (r - note) % 12 == 0
    ensures note >= lo ==> r == note
    ensures note < lo ==> r < lo + 12
    decreases lo - note
  {
    if note < lo then RaiseTo(note + 12, lo) else note
  }

  /** The second `while` loop: remove octaves while above the maximum. */
  function LowerTo(note: int, hi: int): (r: int)
    ensures r <= hi && (r - note) % 12 == 0
    ensures note <= hi ==> r == note
    ensures note > hi ==> r > hi - 12
    decreases note - hi
  {
    if note > hi then LowerTo(note - 12, hi) else note
  }

  /** `constrainToRange`: every note moved by octaves into `[lo, hi]` as far as the span allows. */
  function ConstrainToRange(notes: seq<int>, lo: int, hi: int): (r: seq<int>)
    ensures |r| == |notes|
    ensures forall i :: 0 <= i < |r| ==> r[i] == ConstrainNote(notes[i], lo, hi)
  {
    seq(|notes|, i requires 0 <= i < |notes| => ConstrainNote(notes[i], lo, hi))
  }

  /**
   The two `while` loops of `constrainToRange`, run note by note. Each note ends up at or below the
   maximum, an octave multiple away from where it started, and at or above the minimum whenever
   the range spans an octave.
   */
  method ConstrainToRangeLoops(notes: seq<int>, lo: int, hi: int) returns (r: seq<int>)
    ensures |r| == |notes|
    ensures forall i :: 0 <= i < |r| ==> r[i] <= hi && (r[i] - notes[i]) % 12 == 0
    ensures hi - lo >= 11 ==> forall i :: 0 <= i < |r| ==> lo <= r[i]
    ensures forall i :: 0 <= i < |r| && lo <= notes[i] <= hi ==> r[i] == notes[i]
    ensures r == ConstrainToRange(notes, lo, hi)
  {
    r := [];
    var k := 0;
    while k < |notes|
      invariant 0 <= k <= |notes| && |r| == k
      invariant forall i :: 0 <= i < k ==> r[i] == ConstrainNote(notes[i], lo, hi)
    {
      var c := ConstrainNoteLoops(notes[k], lo, hi);
      r := r + [c];
      k := k + 1;
    }
  }

  /** The two `while` loops for one note: up by octaves below the minimum, then down above the maximum. */
  method ConstrainNoteLoops(note: int, lo: int, hi: int) returns (c: int)
    ensures c <= hi && (c - note) % 12 == 0
    ensures hi - lo >= 11 ==> lo <= c
    ensures c == ConstrainNote(note, lo, hi)
  {
    c := note;
    while c < lo
      invariant RaiseTo(c, lo) == RaiseTo(note, lo)
      decreases lo - c
    {
      c := c + 12;
    }
    while c > hi
      invariant LowerTo(c, hi) == LowerTo(RaiseTo(note, lo), hi)
      decreases c - hi
    {
      c := c - 12;
    }
  }

  /** Range constraint keeps the pitch classes and, once the range spans an octave, is idempotent. */
  lemma ConstrainToRangeCorrect(notes: seq<int>, lo: int, hi: int)
    ensures PitchClasses(ConstrainToRange(notes, lo, hi)) == PitchClasses(notes)
    ensures hi - lo >= 11 ==>
      ConstrainToRange(ConstrainToRange(notes, lo, hi), lo, hi) == ConstrainToRange(notes, lo, hi)
  {
    OctaveShiftPitchClasses(ConstrainToRange(notes, lo, hi), notes);
  }

  /** The optional `range` of a voicing request. */
  datatype NoteRange = NoteRange(min: int, max: int)

  /** `generateChord`: spell, voice, then constrain to the range when one is given. */
  function GenerateChord(root: int, quality: string, inversion: int, drop: int, range: Option<NoteRange>)
    : (r: seq<int>)
    ensures |r| == |Formula(quality)|
  {
    var voiced := ApplyVoicing(ChordNotes(root, quality), inversion, drop);
    match range
    case Some(rg) => ConstrainToRange(voiced, rg.min, rg.max)
    case None => voiced
  }

  /**
   A generated chord sounds exactly the pitch classes of its quality's formula on the root; with
   no voicing and no range it is the plain spelling, and with a range spanning an octave every
   note lies inside it.
   */
  lemma GenerateChordCorrect(root: int, quality: string, inversion: int, drop: int, range: Option<NoteRange>)
    ensures PitchClasses(GenerateChord(root, quality, inversion, drop, range))
         == PitchClasses(ChordNotes(root, quality))
    ensures inversion <= 0 && drop <= 0 && range.None? ==>
      GenerateChord(root, quality, inversion, drop, range) == ChordNotes(root, quality)
    ensures range.Some? && range.value.max - range.value.min >= 11 ==>
      forall i :: 0 <= i < |GenerateChord(root, quality, inversion, drop, range)| ==>
        range.value.min <= GenerateChord(root, quality, inversion, drop, range)[i] <= range.value.max
  {
    var notes := ChordNotes(root, quality);
    ApplyVoicingCorrect(notes, inversion, drop);
    if range.Some? {
      ConstrainToRangeCorrect(ApplyVoicing(notes, inversion, drop), range.value.min, range.value.max);
    }
  }

  /**
   `getScaleDegreeRoot`: the scale note at `(degree - 1) % 7` with the sign-keeping remainder; a
   negative index reads `undefined`.
   */
  function ScaleDegreeRoot(keyRoot: int, degree: int, mode: Mode): (r: Option<int>)
    ensures r.Some? <==> degree >= 1 || (degree - 1) % 7 == 0
    ensures r.Some? ==> r.value == ScaleNotes(keyRoot, mode)[(degree - 1) % 7]
  {
    var index := JsRem(degree - 1, 7);
    if index >= 0 then Some(ScaleNotes(keyRoot, mode)[index]) else None
  }

  /** Degrees 1 to 7 name the scale's notes in order, inside the octave above the key root. */
  lemma ScaleDegreeRootCorrect(keyRoot: int, degree: int, mode: Mode)
    requires 1 <= degree
    ensures ScaleDegreeRoot(keyRoot, degree, mode).Some?
    ensures keyRoot <= ScaleDegreeRoot(keyRoot, degree, mode).value <= keyRoot + 11
    ensures degree <= 7 ==> ScaleDegreeRoot(keyRoot, degree, mode).value == ScaleNotes(keyRoot, mode)[degree - 1]
    ensures ScaleDegreeRoot(keyRoot, degree + 7, mode) == ScaleDegreeRoot(keyRoot, degree, mode)
  {
    ScaleNotesCorrect(keyRoot, mode);
    ModUnique(degree + 6, 7, (degree - 1) / 7 + 1, (degree - 1) % 7);
  }

  /**
   A row of `extensionMap` in `extendChordQuality`: the qualities reached by the extensions 7, 9, 11
   and 13, in that order, for the ten qualities the table lists.
   */
  function ExtensionRow(quality: string): (r: Option<seq<string>>)
    ensures r.Some? ==> |r.value| == 4
  {
    if quality == "Maj" || quality == "Maj7" then Some(["Maj7", "Maj9", "Maj11", "Maj13"])
    else if quality == "min" || quality == "min7" then Some(["min7", "min9", "min11", "min13"])
    else if quality == "dim" then Some(["dim7", "dim7", "dim7", "dim7"])
    else if quality == "aug" then Some(["aug7", "aug7", "aug7", "aug7"])
    else if quality == "sus2" || quality == "sus4" || quality == "dom7" then Some(["dom7", "dom9", "dom11", "dom13"])
    else if quality == "hdim7" then Some(["hdim7", "hdim7", "hdim7", "hdim7"])
    else None
  }

  /** The column of an extension in `extensionMap`; any other number is not a key. */
  function ExtensionColumn(extension: int): (r: Option<int>)
    ensures r.Some? <==> extension in {7, 9, 11, 13}
    ensures r.Some? ==> 0 <= r.value < 4
  {
    if extension == 7 then Some(0)
    else if extension == 9 then Some(1)
    else if extension == 11 then Some(2)
    else if extension == 13 then Some(3)
    else None
  }

  /** `extendChordQuality`: the mapped extension, or the quality unchanged when nothing is mapped. */
  function ExtendChordQuality(quality: string, extension: int): (r: string)
    ensures ExtensionRow(quality).None? || extension !in {7, 9, 11, 13} ==> r == quality
  {
    match (ExtensionRow(quality), ExtensionColumn(extension))
    case (Some(row), Some(col)) => row[col]
    case _ => quality
  }

  /** The quality an extension reaches, when one is mapped, is one of its row's four. */
  lemma ExtendedInRow(quality: string, extension: int)
    requires ExtensionRow(quality).Some? && extension in {7, 9, 11, 13}
    ensures ExtendChordQuality(quality, extension) in ExtensionRow(quality).value
  {
  }

  lemma ExtendKnown(quality: string, extension: int)
    ensures quality in ChordFormulas ==> ExtendChordQuality(quality, extension) in ChordFormulas
  {
    if ExtensionRow(quality).Some? && extension in {7, 9, 11, 13} {
      ExtendedInRow(quality, extension);
    }
  }

  /** Every quality that has a row is a triad or a seventh chord. */
  lemma RowQualityShort(quality: string)
    requires ExtensionRow(quality).Some?
    ensures |Formula(quality)| <= 4
  {
    if quality == "Maj" || quality == "Maj7" {
    } else if quality == "min" || quality == "min7" {
    } else if quality == "dim" || quality == "aug" {
    } else if quality == "sus2" || quality == "sus4" || quality == "dom7" {
    } else {
      assert quality == "hdim7";
    }
  }

  /** Every quality in a row is at least a seventh chord. */
  lemma RowEntriesLong(quality: string, k: int)
    requires ExtensionRow(quality).Some? && 0 <= k < 4
    ensures |Formula(ExtensionRow(quality).value[k])| >= 4
  {
    var q := ExtensionRow(quality).value[k];
    if quality == "Maj" || quality == "Maj7" {
      assert q in {"Maj7", "Maj9", "Maj11", "Maj13"};
      MajorRowLong();
    } else if quality == "min" || quality == "min7" {
      assert q in {"min7", "min9", "min11", "min13"};
      MinorRowLong();
    } else if quality == "sus2" || quality == "sus4" || quality == "dom7" {
      assert q in {"dom7", "dom9", "dom11", "dom13"};
      DominantRowLong();
    } else {
      assert q in {"dim7", "aug7", "hdim7"};
      SeventhsLong();
    }
  }

  /** The rows of `extensionMap` hold sevenths and their extensions, four notes or more. */
  lemma MajorRowLong()
    ensures |Formula("Maj7")| >= 4 && |Formula("Maj9")| >= 4 && |Formula("Maj11")| >= 4 && |Formula("Maj13")| >= 4
  {
  }

  lemma MinorRowLong()
    ensures |Formula("min7")| >= 4 && |Formula("min9")| >= 4 && |Formula("min11")| >= 4 && |Formula("min13")| >= 4
  {
  }

  lemma DominantRowLong()
    ensures |Formula("dom7")| >= 4 && |Formula("dom9")| >= 4 && |Formula("dom11")| >= 4 && |Formula("dom13")| >= 4
  {
  }

  lemma SeventhsLong()
    ensures |Formula("dim7")| >= 4 && |Formula("aug7")| >= 4 && |Formula("hdim7")| >= 4
  {
  }

  lemma ExtendGrows(quality: string, extension: int)
    ensures |Formula(ExtendChordQuality(quality, extension))| >= |Formula(quality)|
  {
    if ExtensionRow(quality).Some? && extension in {7, 9, 11, 13} {
      RowQualityShort(quality);
      RowEntriesLong(quality, ExtensionColumn(extension).value);
    }
  }

  lemma ExtendIdempotent(quality: string, extension: int)
    ensures ExtendChordQuality(ExtendChordQuality(quality, extension), extension)
         == ExtendChordQuality(quality, extension)
  {
    var e := ExtendChordQuality(quality, extension);
    if ExtensionRow(quality).Some? && extension in {7, 9, 11, 13} {
      var col := ExtensionColumn(extension).value;
      assert e == ExtensionRow(quality).value[col];
      ExtendedFixed(e, col);
    }
  }

  /** A quality in column `col` of some row either has no row or sits in that column of its own. */
  lemma ExtendedFixed(e: string, col: int)
    requires 0 <= col < 4
    requires exists q :: ExtensionRow(q).Some? && ExtensionRow(q).value[col] == e
    ensures ExtensionRow(e).None? || ExtensionRow(e).value[col] == e
  {
  }

  /**
   Extending stays among the known qualities, never drops chord tones (the formula only grows),
   and is idempotent: an extended quality extends to itself.
   */
  lemma ExtendChordQualityCorrect(quality: string, extension: int)
    ensures quality in ChordFormulas ==> ExtendChordQuality(quality, extension) in ChordFormulas
    ensures |Formula(ExtendChordQuality(quality, extension))| >= |Formula(quality)|
    ensures ExtendChordQuality(ExtendChordQuality(quality, extension), extension)
         == ExtendChordQuality(quality, extension)
  {
    ExtendKnown(quality, extension);
    ExtendGrows(quality, extension);
    ExtendIdempotent(quality, extension);
  }

  /** The result of `getRomanNumeral`: a string, `undefined`, or a thrown `TypeError`. */
  datatype Numeral = Text(text: string) | Undefined | Thrown

  const Numerals: seq<string> := ["I", "II", "III", "IV", "V", "VI", "VII"]

  /** The degree sign appended to diminished numerals. */
  const Degree: string := "\U{00B0}"

  /**
   The case analysis of `getRomanNumeral` for a defined quality and a numeral that may be
   `undefined` (calling `toLowerCase` on it throws; interpolating it writes "undefined").
   */
  function NumeralFor(quality: string, numeral: Option<string>): (r: Numeral)
    ensures r.Thrown? <==> numeral.None? && (Contains(quality, "min") || quality == "hdim7" || Contains(quality, "dim"))
  {
    if Contains(quality, "min") || quality == "hdim7" then
      match numeral
      case None => Thrown
      case Some(n) => Text(if quality == "hdim7" then AsciiLower(n) + Degree else AsciiLower(n))
    else if Contains(quality, "dim") then
      match numeral
      case None => Thrown
      case Some(n) => Text(AsciiLower(n) + Degree)
    else if Contains(quality, "aug") then
      Text(numeral.GetOr("undefined") + "+")
    else
      match numeral
      case None => Undefined
      case Some(n) => Text(n)
  }

  /** `getRomanNumeral`: reading `.includes` of an `undefined` quality throws. */
  function RomanNumeral(degree: int, mode: Mode): (r: Numeral)
    ensures DiatonicQuality(degree, mode).None? ==> r.Thrown?
  {
    match DiatonicQuality(degree, mode)
    case None => Thrown
    case Some(q) =>
      var index := JsRem(degree - 1, 7);
      NumeralFor(q, if index >= 0 then Some(Numerals[index]) else None)
  }

  lemma {:induction false} ShorterNotContains(s: string, sub: string)
    requires |s| < |sub|
    ensures !Contains(s, sub)
    decreases |s|
  {
    if |s| > 0 {
      ShorterNotContains(s[1..], sub);
    }
  }

  /** The qualities the diatonic table holds, read through `includes`. */
  lemma MajorQualityShapes()
    ensures !Contains("Maj", "min") && !Contains("Maj", "dim") && !Contains("Maj", "aug")
    ensures !Contains("dom7", "min") && !Contains("dom7", "dim") && !Contains("dom7", "aug")
    ensures Contains("min", "min")
    ensures !Contains("hdim7", "min")
  {
    assert StartsWith("min", "min");
    var maj: string := "Maj";
    assert maj[1..] == "aj" && maj[..3] == "Maj";
    ShorterNotContains("aj", "min");
    ShorterNotContains("aj", "dim");
    ShorterNotContains("aj", "aug");
    var dom: string := "dom7";
    assert dom[1..] == "om7" && dom[..3] == "dom";
    var om: string := "om7";
    assert om[1..] == "m7" && om[..3] == "om7";
    ShorterNotContains("m7", "min");
    ShorterNotContains("m7", "dim");
    ShorterNotContains("m7", "aug");
    var h: string := "hdim7";
    assert h[1..] == "dim7" && h[..3] == "hdi";
    var d: string := "dim7";
    assert d[1..] == "im7" && d[..3] == "dim";
    var i: string := "im7";
    assert i[1..] == "m7" && i[..3] == "im7";
  }

  /**
   For degrees 1 to 7 the numeral is the table's, lower-cased exactly when the diatonic chord is
   minor or half-diminished, with the degree sign exactly for the half-diminished one.
   */
  lemma RomanNumeralCorrect(degree: int, mode: Mode)
    requires 1 <= degree <= 7
    ensures DiatonicQuality(degree, mode).Some?
    ensures var q := DiatonicQuality(degree, mode).value;
      RomanNumeral(degree, mode) == Text(
        if q == "hdim7" then AsciiLower(Numerals[degree - 1]) + Degree
        else if q == "min" then AsciiLower(Numerals[degree - 1])
        else Numerals[degree - 1])
  {
    var q := DiatonicQuality(degree, mode).value;
    var n := Numerals[degree - 1];
    var sum := degree - 1 + ModeOffset(mode);
    var idx := if sum < 7 then sum else sum - 7;
    ModUnique(sum, 7, if sum < 7 then 0 else 1, idx);
    ModUnique(degree - 1, 7, 0, degree - 1);
    assert q == MajorQualities[idx];
    assert RomanNumeral(degree, mode) == NumeralFor(q, Some(n));
    if idx == 6 {
      NumeralHalfDiminished(n);
    } else if idx == 1 || idx == 2 || idx == 5 {
      NumeralMinor(n);
    } else {
      NumeralMajor(q, n);
    }
  }

  lemma NumeralHalfDiminished(n: string)
    ensures NumeralFor("hdim7", Some(n)) == Text(AsciiLower(n) + Degree)
  {
  }

  lemma NumeralMinor(n: string)
    ensures NumeralFor("min", Some(n)) == Text(AsciiLower(n))
  {
    MajorQualityShapes();
  }

  lemma NumeralMajor(q: string, n: string)
    requires q == "Maj" || q == "dom7"
    ensures NumeralFor(q, Some(n)) == Text(n)
  {
    MajorQualityShapes();
  }


  /** The tonic of the major mode is an upper-case I. */
  lemma RomanNumeralTonic()
    ensures RomanNumeral(1, Ionian) == Text("I")
  {
    RomanNumeralCorrect(1, Ionian);
  }

  /** The seventh degree of the major mode is half-diminished: lower case with the degree sign. */
  lemma RomanNumeralLeadingTone(d: int, m: Mode)
    requires d == 7 && m == Ionian
    ensures RomanNumeral(d, m) == Text("vii" + Degree)
  {
    assert DiatonicQuality(d, m) == Some("hdim7");
    RomanNumeralCorrect(d, m);
    assert AsciiLower("VII") == "vii";
  }

  /** Degree 0 in the major mode reads an `undefined` quality, whose `includes` throws. */
  lemma RomanNumeralUndefinedQuality()
    ensures RomanNumeral(0, Ionian) == Thrown
  {
  }

  /** Degree 0 in Dorian has a quality (major) but no numeral, and returns `undefined`. */
  lemma RomanNumeralUndefinedNumeral()
    ensures RomanNumeral(0, Dorian) == Undefined
  {
    assert DiatonicQuality(0, Dorian) == Some("Maj");
    assert JsRem(-1, 7) == -1;
    assert RomanNumeral(0, Dorian) == NumeralFor("Maj", None);
    MajorQualityShapes();
  }

  /**
   `generateDiatonicChord`. `None` is the case where the degree's root reads `undefined` and the
   arithmetic yields no numbers. An `undefined` quality behaves like any name missing from the
   tables (it extends to itself and spells the major formula), so it is passed on as "undefined".
   An `extension` of 0 is falsy and skipped.
   */
  function GenerateDiatonicChord(keyRoot: int, degree: int, mode: Mode, extension: int, inversion: int,
                                 drop: int, range: Option<NoteRange>): (r: Option<seq<int>>)
    ensures r.Some? <==> ScaleDegreeRoot(keyRoot, degree, mode).Some?
  {
    match ScaleDegreeRoot(keyRoot, degree, mode)
    case None => None
    case Some(root) =>
      var base := DiatonicQuality(degree, mode).GetOr("undefined");
      var quality := if extension != 0 then ExtendChordQuality(base, extension) else base;
      Some(GenerateChord(root, quality, inversion, drop, range))
  }

  /**
   For degrees 1 to 7 the chord is built on the degree's scale note with the (extended) diatonic
   quality: it sounds that chord's pitch classes, and keeps to a range spanning an octave.
   */
  lemma GenerateDiatonicChordCorrect(keyRoot: int, degree: int, mode: Mode, extension: int, inversion: int,
                                     drop: int, range: Option<NoteRange>)
    requires 1 <= degree <= 7
    ensures var r := GenerateDiatonicChord(keyRoot, degree, mode, extension, inversion, drop, range);
      var q := DiatonicQuality(degree, mode).value;
      var quality := if extension != 0 then ExtendChordQuality(q, extension) else q;
      r.Some? && PitchClasses(r.value) == PitchClasses(ChordNotes(ScaleNotes(keyRoot, mode)[degree - 1], quality))
    ensures var r := GenerateDiatonicChord(keyRoot, degree, mode, extension, inversion, drop, range);
      range.Some? && range.value.max - range.value.min >= 11 ==>
        forall i :: 0 <= i < |r.value| ==> range.value.min <= r.value[i] <= range.value.max
  {
    ScaleDegreeRootCorrect(keyRoot, degree, mode);
    var root := ScaleNotes(keyRoot, mode)[degree - 1];
    var q := DiatonicQuality(degree, mode).value;
    var quality := if extension != 0 then ExtendChordQuality(q, extension) else q;
    GenerateChordCorrect(root, quality, inversion, drop, range);
  }
}

=== FILE: osc_router.dfy ===
/**
 The Max for Live helper's router, m4l-helper/code/osc_router.js: a flat
 `[pitch, start, duration, velocity, ...]` array is regrouped into note records for Live's clip
 API, and transport and track observations are forwarded to the OSC outlet. Outlet calls are the
 returned messages; the Max runtime itself is outside the model.
 */
module OscRouter {
  import opened Common
  import OscService
  import LiveStore

  /**
   A note record for `set_notes`; a field read past the end of the flat array is `undefined`,
   here `None`.
   */
  datatype NoteRecord = NoteRecord(pitch: Option<real>, startTime: Option<real>, duration: Option<real>, velocity: Option<real>, mute: int)

  /** `flatNotes[i]`: undefined past the end. */
  function At(flat: seq<real>, i: nat): (r: Option<real>)
    ensures r.Some? <==> i < |flat|
    ensures i < |flat| ==> r.value == flat[i]
  {
    if i < |flat| then Some(flat[i]) else None
  }

  /** The record built from the four values starting at offset `4 * i`, unmuted. */
  function RecordAt(flat: seq<real>, i: nat): NoteRecord
  {
    NoteRecord(At(flat, 4 * i), At(flat, 4 * i + 1), At(flat, 4 * i + 2), At(flat, 4 * i + 3), 0)
  }

  /** How many records `formatNotes` makes: one per started group of four. */
  function RecordCount(n: nat): (r: nat)
    ensures 4 * r >= n && 4 * (r - 1) < n
  {
    (n + 3) / 4
  }

  /** `formatNotes`: record `i` reads offsets `4i .. 4i + 3`, in input order, with `mute = 0`. */
  function FormatNotes(flat: seq<real>): (r: seq<NoteRecord>)
    ensures |r| == RecordCount(|flat|)
    ensures forall i :: 0 <= i < |r| ==> r[i].mute == 0 && r[i].pitch == At(flat, 4 * i)
    ensures forall i :: 0 <= i < |r| ==>
      r[i].startTime == At(flat, 4 * i + 1) && r[i].duration == At(flat, 4 * i + 2) &&
      r[i].velocity == At(flat, 4 * i + 3)
  {
    seq(RecordCount(|flat|), i requires 0 <= i < RecordCount(|flat|) => RecordAt(flat, i))
  }

  /** The `for (i = 0; i < length; i += 4)` loop of `formatNotes`. */
  method FormatNotesLoop(flat: seq<real>) returns (notes: seq<NoteRecord>)
    ensures notes == FormatNotes(flat)
  {
    notes := [];
    var i := 0;
    while i < |flat|
      invariant i % 4 == 0 && 0 <= i <= |flat| + 3
      invariant i < |flat| || i / 4 == RecordCount(|flat|)
      invariant notes == FormatNotes(flat)[..i / 4]
      decreases |flat| - i
    {
      notes := notes + [RecordAt(flat, i / 4)];
      i := i + 4;
    }
  }

  /** A note whose four fields are all present. */
  predicate Complete(n: NoteRecord)
  {
    n.pitch.Some? && n.startTime.Some? && n.duration.Some? && n.velocity.Some? && n.mute == 0
  }

  /** The sender's side: complete records laid out back to back as a flat array. */
  function Flatten(notes: seq<NoteRecord>): (r: seq<real>)
    requires forall i :: 0 <= i < |notes| ==> Complete(notes[i])
    ensures |r| == 4 * |notes|
    decreases |notes|
  {
    if |notes| == 0 then []
    else
      var n := notes[|notes| - 1];
      assert Complete(n);
      Flatten(notes[..|notes| - 1]) + [n.pitch.value, n.startTime.value, n.duration.value, n.velocity.value]
  }

  /** Offsets `4i .. 4i + 3` of the flat array are note `i`'s four fields. */
  lemma {:induction false} FlattenAt(notes: seq<NoteRecord>, i: nat)
    requires forall k :: 0 <= k < |notes| ==> Complete(notes[k])
    requires i < |notes|
    ensures var flat := Flatten(notes);
      Some(flat[4 * i]) == notes[i].pitch && Some(flat[4 * i + 1]) == notes[i].startTime &&
      Some(flat[4 * i + 2]) == notes[i].duration && Some(flat[4 * i + 3]) == notes[i].velocity
    decreases |notes|
  {
    if i < |notes| - 1 {
      var init := notes[..|notes| - 1];
      assert init[i] == notes[i];
      FlattenAt(init, i);
    }
  }

  /** Regrouping a flattened list of complete notes gives the notes back. */
  lemma FormatFlattenRoundTrip(notes: seq<NoteRecord>)
    requires forall k :: 0 <= k < |notes| ==> Complete(notes[k])
    ensures FormatNotes(Flatten(notes)) == notes
  {
    var r := FormatNotes(Flatten(notes));
    forall i | 0 <= i < |notes|
      ensures r[i] == notes[i]
    {
      FlattenAt(notes, i);
    }
  }

  /** A flat array of whole groups of four is exactly the flattening of its records. */
  lemma FlattenFormatRoundTrip(flat: seq<real>)
    requires |flat| % 4 == 0
    ensures var notes := FormatNotes(flat);
      (forall k :: 0 <= k < |notes| ==> Complete(notes[k])) && Flatten(notes) == flat
  {
    var notes := FormatNotes(flat);
    assert forall k :: 0 <= k < |notes| ==> Complete(notes[k]);
    var back := Flatten(notes);
    forall j | 0 <= j < |flat|
      ensures back[j] == flat[j]
    {
      FlattenAt(notes, j / 4);
    }
  }

  // ---------------------------------------------------------------------------------------------
  // Outlets
  // ---------------------------------------------------------------------------------------------

  /** One argument of an outlet call. */
  datatype Atom = Num(n: real) | Sym(s: string) | Notes(notes: seq<NoteRecord>)

  /** `outlet(index, ...args)`. */
  datatype OutletCall = OutletCall(outlet: nat, args: seq<Atom>)

  /** The router's transport copy. */
  datatype Transport = Transport(isPlaying: real, currentBeat: real, tempo: real)

  const InitialTransport := Transport(0.0, 0.0, 120.0)

  /** `updateTransport`: stores exactly the triple and forwards the same values as `/live/transport`. */
  function UpdateTransport(isPlaying: real, currentBeat: real, tempo: real): (r: (Transport, OutletCall))
    ensures r.0.isPlaying == isPlaying && r.0.currentBeat == currentBeat && r.0.tempo == tempo
    ensures r.1.outlet == 1 && |r.1.args| == 4 && r.1.args[0] == Sym("/live/transport")
    ensures r.1.args[1..] == [Num(r.0.isPlaying), Num(r.0.currentBeat), Num(r.0.tempo)]
  {
    (Transport(isPlaying, currentBeat, tempo),
     OutletCall(1, [Sym("/live/transport"), Num(isPlaying), Num(currentBeat), Num(tempo)]))
  }

  function SendResponse(success: real, message: string): OutletCall
  {
    OutletCall(1, [Sym("/live/response"), Num(success), Sym(message)])
  }

  function SendError(message: string): OutletCall
  {
    OutletCall(1, [Sym("/live/error"), Sym(message)])
  }

  function SendTrackInfo(index: real, name: string, color: real): OutletCall
  {
    OutletCall(1, [Sym("/live/track_info"), Num(index), Sym(name), Num(color)])
  }

  /**
   The helper's `createProgression`: a `create_clip` call with the regrouped notes on outlet 0,
   then a success response on outlet 1.
   */
  function CreateProgression(trackIndex: real, startBeat: real, noteData: seq<real>): seq<OutletCall>
  {
    [OutletCall(0, [Sym("create_clip"), Num(trackIndex), Notes(FormatNotes(noteData)), Num(startBeat)]),
     SendResponse(1.0, "Progression created")]
  }

  /** Notes sent flat by the application arrive in the clip as the same notes, followed by a success response. */
  lemma CreateClipCarriesNotes(trackIndex: real, startBeat: real, notes: seq<NoteRecord>)
    requires forall k :: 0 <= k < |notes| ==> Complete(notes[k])
    ensures var calls := CreateProgression(trackIndex, startBeat, Flatten(notes));
      |calls| == 2 && calls[0].outlet == 0 && calls[0].args[2] == Notes(notes) &&
      calls[1].args[..2] == [Sym("/live/response"), Num(1.0)]
  {
    FormatFlattenRoundTrip(notes);
  }

  /**
   Every reply and observation leaves on outlet 1 under the address the application listens on,
   with the values in the order its handlers read them.
   */
  lemma ObservationAddresses(success: real, message: string, index: real, name: string, color: real)
    ensures SendResponse(success, message) ==
      OutletCall(1, [Sym(OscService.ResponseAddress), Num(success), Sym(message)])
    ensures SendError(message) == OutletCall(1, [Sym(OscService.ErrorAddress), Sym(message)])
    ensures SendTrackInfo(index, name, color) ==
      OutletCall(1, [Sym(OscService.TrackInfoAddress), Num(index), Sym(name), Num(color)])
  {
  }

  /**
   A transport update forwarded by the router and handled by the application's `/live/transport`
   handler leaves the application's transport agreeing with the router's copy.
   */
  lemma TransportReachesStore(st: LiveStore.LiveState, isPlaying: real, currentBeat: real, tempo: real)
    ensures var (copy, call) := UpdateTransport(isPlaying, currentBeat, tempo);
      call.args[0] == Sym(OscService.TransportUpdateAddress) &&
      var t := LiveStore.OnTransportUpdate(st, call.args[1].n, call.args[2].n, call.args[3].n).transport;
      t == LiveStore.Transport(copy.isPlaying == 1.0, copy.currentBeat, copy.tempo)
  {
  }
}

=== FILE: osc_service.dfy ===
/**
 The renderer-side OSC client of src/services/live/OSCService.ts: sending wraps a single argument
 into an argument list and sends nothing while disconnected, `createProgression` flattens a chord
 progression into timed notes, and incoming messages are dispatched through a registry of
 handlers keyed by address, with `"*"` handlers seeing every message. Handlers are named by
 identifiers here; what a handler does when called is outside the model.
 */
module OscService {
  import opened Common
  import opened ArrangementOutput

  // ---------------------------------------------------------------------------------------------
  // Messages
  // ---------------------------------------------------------------------------------------------

  const CreateProgressionAddress := "/live/create_progression"
  const GetTransportAddress := "/live/get_transport"
  const GetTracksAddress := "/live/get_tracks"
  const SetTempoAddress := "/live/set_tempo"
  const HandshakeAddress := "/live/handshake"
  /** Observations and replies sent by the Live helper back to the application. */
  const TransportUpdateAddress := "/live/transport"
  const TrackInfoAddress := "/live/track_info"
  const ResponseAddress := "/live/response"
  const ErrorAddress := "/live/error"
  const Wildcard := "*"

  /** `OSCNote`. */
  datatype OscNote = OscNote(pitch: int, startTime: real, duration: real, velocity: int)

  /** The payload of a `createProgression` command. */
  datatype ProgressionCommand = ProgressionCommand(trackIndex: int, startBeat: real, notes: seq<OscNote>)

  /** The values handed to `sendOSCMessage` and to handlers. */
  datatype Value =
    | Num(n: real)
    | Str(s: string)
    | List(items: seq<Value>)
    | Handshake(version: string, clientId: string)
    | Command(command: ProgressionCommand)
    | Incoming(address: string, args: seq<Value>)

  datatype OscMessage = OscMessage(address: string, args: seq<Value>)

  /** The UDP port's state: whether a port object exists and whether it reported ready. */
  datatype Link = Link(hasPort: bool, connected: bool)

  /** `sendOSCMessage`: a list is sent as the argument list, anything else as a one-element list. */
  function SendOscMessage(link: Link, address: string, args: Value): (sent: seq<OscMessage>)
    ensures !link.hasPort || !link.connected ==> sent == []
    ensures link.hasPort && link.connected ==> |sent| == 1 && sent[0].address == address
    ensures link.hasPort && link.connected && args.List? ==> sent[0].args == args.items
    ensures link.hasPort && link.connected && !args.List? ==> sent[0].args == [args]
  {
    if !link.hasPort || !link.connected then []
    else [OscMessage(address, if args.List? then args.items else [args])]
  }

  /** The port became ready: connected, and the handshake is sent. */
  function OnReady(link: Link): (r: (Link, seq<OscMessage>))
    requires link.hasPort
    ensures r.0.connected
    ensures r.1 == [OscMessage(HandshakeAddress, [Handshake("1.0.0", "chordgen-pro")])]
  {
    var ready := Link(true, true);
    (ready, SendOscMessage(ready, HandshakeAddress, Handshake("1.0.0", "chordgen-pro")))
  }

  /** A port error leaves the port in place but disconnected. */
  function OnError(link: Link): (r: Link)
    ensures r.hasPort == link.hasPort && !r.connected
  {
    link.(connected := false)
  }

  /** `closeOSC`: drops the port; without one nothing changes. */
  function CloseOsc(link: Link): (r: Link)
    ensures !r.hasPort || r == link
    ensures link.hasPort ==> !r.connected
  {
    if link.hasPort then Link(false, false) else link
  }

  /** After closing, every send is dropped until the port is opened again. */
  lemma ClosedSendsNothing(link: Link, address: string, args: Value)
    requires link.hasPort
    ensures SendOscMessage(CloseOsc(link), address, args) == []
  {
  }

  /** `requestTransportState`, `requestTrackList`, `setTempo` and `sendRawOSC`. */
  function RequestTransportState(link: Link): seq<OscMessage>
  {
    SendOscMessage(link, GetTransportAddress, List([]))
  }

  function RequestTrackList(link: Link): seq<OscMessage>
  {
    SendOscMessage(link, GetTracksAddress, List([]))
  }

  function SetTempo(link: Link, tempo: real): seq<OscMessage>
  {
    SendOscMessage(link, SetTempoAddress, List([Num(tempo)]))
  }

  function SendRawOsc(link: Link, address: string, args: seq<Value>): seq<OscMessage>
  {
    SendOscMessage(link, address, List(args))
  }

  /** Requests carry no arguments, a tempo carries exactly the tempo, raw arguments go through as they are. */
  lemma CommandArguments(link: Link, tempo: real, address: string, args: seq<Value>)
    requires link.hasPort && link.connected
    ensures RequestTransportState(link) == [OscMessage(GetTransportAddress, [])]
    ensures RequestTrackList(link) == [OscMessage(GetTracksAddress, [])]
    ensures SetTempo(link, tempo) == [OscMessage(SetTempoAddress, [Num(tempo)])]
    ensures SendRawOsc(link, address, args) == [OscMessage(address, args)]
  {
  }

  // ---------------------------------------------------------------------------------------------
  // createProgression
  // ---------------------------------------------------------------------------------------------

  /** Notes of one chord starting at `start`: one per pitch, in order, at velocity 100. */
  function ChordNotes(c: OscChord, start: real): (r: seq<OscNote>)
    ensures |r| == |c.notes|
  {
    seq(|c.notes|, j requires 0 <= j < |c.notes| => OscNote(c.notes[j], start, c.duration, 100))
  }

  /** How many notes a progression flattens to. */
  function NoteCount(p: seq<OscChord>): nat
    decreases |p|
  {
    if |p| == 0 then 0 else NoteCount(p[..|p| - 1]) + |p[|p| - 1].notes|
  }

  /** The flat note list: each chord's notes start where the durations before it end. */
  function FlattenNotes(p: seq<OscChord>): (r: seq<OscNote>)
    ensures |r| == NoteCount(p)
    decreases |p|
  {
    if |p| == 0 then []
    else
      var init := p[..|p| - 1];
      FlattenNotes(init) + ChordNotes(p[|p| - 1], OscDuration(init))
  }

  lemma NoteCountStep(p: seq<OscChord>, k: nat)
    requires k < |p|
    ensures NoteCount(p[..k + 1]) == NoteCount(p[..k]) + |p[k].notes|
  {
    assert p[..k + 1][..k] == p[..k];
  }

  lemma DurationStep(p: seq<OscChord>, k: nat)
    requires k < |p|
    ensures OscDuration(p[..k + 1]) == OscDuration(p[..k]) + p[k].duration
  {
    assert p[..k + 1][..k] == p[..k];
  }

  lemma FlattenStep(p: seq<OscChord>, k: nat)
    requires k < |p|
    ensures FlattenNotes(p[..k + 1]) == FlattenNotes(p[..k]) + ChordNotes(p[k], OscDuration(p[..k]))
  {
    assert p[..k + 1][..k] == p[..k];
  }

  /** The notes of chord `k` come after all the notes of the chords before it. */
  lemma {:induction false} NoteCountPrefix(p: seq<OscChord>, k: nat)
    requires k < |p|
    ensures NoteCount(p[..k]) + |p[k].notes| <= NoteCount(p)
    decreases |p|
  {
    if k < |p| - 1 {
      var init := p[..|p| - 1];
      assert init[..k] == p[..k];
      NoteCountPrefix(init, k);
    } else {
      assert p[..k] == p[..|p| - 1];
    }
  }

  /**
   Pitch `j` of chord `k` sits after the notes of the earlier chords and starts at the sum of
   their durations, lasting the chord's duration at velocity 100.
   */
  lemma {:induction false} FlattenNoteAt(p: seq<OscChord>, k: nat, j: nat)
    requires k < |p| && j < |p[k].notes|
    ensures NoteCount(p[..k]) + j < NoteCount(p)
    ensures FlattenNotes(p)[NoteCount(p[..k]) + j] == OscNote(p[k].notes[j], OscDuration(p[..k]), p[k].duration, 100)
    decreases |p|
  {
    NoteCountPrefix(p, k);
    var init := p[..|p| - 1];
    if k < |p| - 1 {
      assert init[..k] == p[..k];
      assert init[k] == p[k];
      FlattenNoteAt(init, k, j);
    } else {
      assert p[..k] == init;
    }
  }

  /** `createProgression`'s two nested `forEach` loops with the running beat. */
  method FlattenNotesLoop(p: seq<OscChord>) returns (notes: seq<OscNote>)
    ensures notes == FlattenNotes(p)
  {
    notes := [];
    var currentBeat := 0.0;
    for k := 0 to |p|
      invariant notes == FlattenNotes(p[..k])
      invariant currentBeat == OscDuration(p[..k])
    {
      var chord := p[k];
      ghost var before := notes;
      for j := 0 to |chord.notes|
        invariant notes == before + ChordNotes(chord, currentBeat)[..j]
      {
        notes := notes + [OscNote(chord.notes[j], currentBeat, chord.duration, 100)];
      }
      assert ChordNotes(chord, currentBeat)[..|chord.notes|] == ChordNotes(chord, currentBeat);
      FlattenStep(p, k);
      DurationStep(p, k);
      currentBeat := currentBeat + chord.duration;
    }
    assert p[..|p|] == p;
  }

  /** `createProgression`: an omitted track is 0 and an omitted start beat is -1 ("at the playhead"). */
  function CreateProgression(link: Link, p: seq<OscChord>, trackIndex: Option<int>, startBeat: Option<real>): (sent: seq<OscMessage>)
    ensures !link.hasPort || !link.connected ==> sent == []
    ensures link.hasPort && link.connected ==>
      |sent| == 1 && sent[0].address == CreateProgressionAddress && |sent[0].args| == 1 &&
      sent[0].args[0].Command? &&
      sent[0].args[0].command.trackIndex == (if trackIndex.Some? then trackIndex.value else 0) &&
      sent[0].args[0].command.startBeat == (if startBeat.Some? then startBeat.value else -1.0) &&
      |sent[0].args[0].command.notes| == NoteCount(p)
    ensures link.hasPort && link.connected ==> sent[0].args[0].Command? && sent[0].args[0].command.notes == FlattenNotes(p)
  {
    var command := ProgressionCommand(trackIndex.GetOr(0), startBeat.GetOr(-1.0), FlattenNotes(p));
    SendOscMessage(link, CreateProgressionAddress, Command(command))
  }

  /**
   On a connected link, the message `createProgression` sends carries pitch `j` of chord `k`
   after the notes of the earlier chords, starting at the sum of their durations, lasting the
   chord's duration at velocity 100.
   */
  lemma CreateProgressionCarriesNotes(link: Link, p: seq<OscChord>, trackIndex: Option<int>, startBeat: Option<real>, k: nat, j: nat)
    requires link.hasPort && link.connected
    requires k < |p| && j < |p[k].notes|
    ensures var sent := CreateProgression(link, p, trackIndex, startBeat);
      sent[0].args[0].Command? &&
      NoteCount(p[..k]) + j < |sent[0].args[0].command.notes| &&
      sent[0].args[0].command.notes[NoteCount(p[..k]) + j] == OscNote(p[k].notes[j], OscDuration(p[..k]), p[k].duration, 100)
  {
    FlattenNoteAt(p, k, j);
  }

  // ---------------------------------------------------------------------------------------------
  // Handler registry and dispatch
  // ---------------------------------------------------------------------------------------------

  /** A registered callback, named by an identifier. */
  type HandlerId = nat

  /** `messageHandlers`: handlers per address, in registration order. */
  type Registry = map<string, seq<HandlerId>>

  /** The handlers registered for an address; none when the address has no list. */
  function Handlers(reg: Registry, address: string): seq<HandlerId>
  {
    if address in reg then reg[address] else []
  }

  /** `onOSCMessage`: appends the handler to the address's list, creating it if needed. */
  function OnOscMessage(reg: Registry, address: string, h: HandlerId): (r: Registry)
    ensures address in r && Handlers(r, address) == Handlers(reg, address) + [h]
    ensures forall a :: a != address ==> Handlers(r, a) == Handlers(reg, a)
  {
    reg[address := Handlers(reg, address) + [h]]
  }

  /** `indexOf`: the first position of `h`, or -1. */
  function IndexOf(hs: seq<HandlerId>, h: HandlerId): (i: int)
    ensures -1 <= i < |hs|
    ensures i >= 0 ==> hs[i] == h && forall k :: 0 <= k < i ==> hs[k] != h
    ensures i == -1 <==> h !in hs
    decreases |hs|
  {
    if |hs| == 0 then -1
    else if hs[0] == h then 0
    else
      var k := IndexOf(hs[1..], h);
      if k < 0 then -1 else k + 1
  }

  /** The unsubscribe function `onOSCMessage` returns: removes the first occurrence of the handler. */
  function Unsubscribe(reg: Registry, address: string, h: HandlerId): (r: Registry)
    ensures forall a :: a != address ==> Handlers(r, a) == Handlers(reg, a)
    ensures h !in Handlers(reg, address) ==> Handlers(r, address) == Handlers(reg, address)
    ensures h in Handlers(reg, address) ==>
      multiset(Handlers(r, address)) == multiset(Handlers(reg, address)) - multiset{h}
    ensures h in Handlers(reg, address) ==>  // the first occurrence goes; the others keep their order
      exists i :: 0 <= i < |Handlers(reg, address)| && Handlers(reg, address)[i] == h &&
        (forall k :: 0 <= k < i ==> Handlers(reg, address)[k] != h) &&
        Handlers(r, address) == Handlers(reg, address)[..i] + Handlers(reg, address)[i + 1..]
  {
    if address !in reg then reg
    else
      var hs := reg[address];
      var i := IndexOf(hs, h);
      if i > -1 then
        assert hs == hs[..i] + [h] + hs[i + 1..];
        reg[address := hs[..i] + hs[i + 1..]]
      else reg
  }

  /** Unsubscribing 1 from [1, 2, 1] removes the first 1 and keeps the rest in order. */
  lemma UnsubscribeFirstExample()
    ensures Handlers(Unsubscribe(map["/a" := [1, 2, 1]], "/a", 1), "/a") == [2, 1]
    ensures Handlers(Unsubscribe(map["/a" := [1, 2, 3]], "/a", 1), "/a") == [2, 3]
  {
    assert IndexOf([1, 2, 1], 1) == 0;
    assert IndexOf([1, 2, 3], 1) == 0;
  }

  /** Subscribing and then unsubscribing leaves every address with the same handlers, counted with multiplicity. */
  lemma SubscribeUnsubscribe(reg: Registry, address: string, h: HandlerId)
    ensures var r := Unsubscribe(OnOscMessage(reg, address, h), address, h);
      (forall a :: a != address ==> Handlers(r, a) == Handlers(reg, a)) &&
      multiset(Handlers(r, address)) == multiset(Handlers(reg, address))
  {
    var added := OnOscMessage(reg, address, h);
    assert h in Handlers(added, address) by {
      assert Handlers(added, address)[|Handlers(reg, address)|] == h;
    }
  }

  /** A handler subscribed once is gone from its address after its unsubscribe. */
  lemma UnsubscribeOnce(reg: Registry, address: string, h: HandlerId)
    requires h !in Handlers(reg, address)
    ensures Handlers(Unsubscribe(OnOscMessage(reg, address, h), address, h), address) == Handlers(reg, address)
  {
    var hs := Handlers(reg, address);
    assert IndexOf(hs + [h], h) == |hs| by {
      assert (hs + [h])[|hs|] == h;
    }
    assert (hs + [h])[..|hs|] == hs;
  }

  /** One handler invocation: which handler, with which argument. */
  datatype Call = Call(handler: HandlerId, arg: Value)

  function CallsWith(hs: seq<HandlerId>, arg: Value): (r: seq<Call>)
    ensures |r| == |hs|
    ensures forall i :: 0 <= i < |hs| ==> r[i] == Call(hs[i], arg)
  {
    seq(|hs|, i requires 0 <= i < |hs| => Call(hs[i], arg))
  }

  /**
   `handleIncomingMessage`: the address's handlers get the argument list, then the `"*"` handlers
   get the address together with the arguments.
   */
  function Dispatch(reg: Registry, msg: OscMessage): (calls: seq<Call>)
    ensures |calls| == |Handlers(reg, msg.address)| + |Handlers(reg, Wildcard)|
    ensures forall i :: 0 <= i < |Handlers(reg, msg.address)| ==>
      calls[i] == Call(Handlers(reg, msg.address)[i], List(msg.args))
    ensures forall i :: 0 <= i < |Handlers(reg, Wildcard)| ==>
      calls[|Handlers(reg, msg.address)| + i] == Call(Handlers(reg, Wildcard)[i], Incoming(msg.address, msg.args))
  {
    CallsWith(Handlers(reg, msg.address), List(msg.args)) +
    CallsWith(Handlers(reg, Wildcard), Incoming(msg.address, msg.args))
  }

  /** A newly subscribed handler of a concrete address is called last among that address's handlers. */
  lemma SubscribedHandlerCalled(reg: Registry, msg: OscMessage, h: HandlerId)
    requires msg.address != Wildcard
    ensures var calls := Dispatch(OnOscMessage(reg, msg.address, h), msg);
      calls[|Handlers(reg, msg.address)|] == Call(h, List(msg.args)) &&
      calls[..|Handlers(reg, msg.address)|] == Dispatch(reg, msg)[..|Handlers(reg, msg.address)|] &&
      calls[|Handlers(reg, msg.address)| + 1..] == Dispatch(reg, msg)[|Handlers(reg, msg.address)|..]
  {
  }

  /** A handler registered for another concrete address is never called. */
  lemma OtherAddressNotCalled(reg: Registry, address: string, msg: OscMessage, h: HandlerId)
    requires address != msg.address && address != Wildcard
    ensures Dispatch(OnOscMessage(reg, address, h), msg) == Dispatch(reg, msg)
  {
  }
}

=== FILE: output_adapters.dfy ===
/**
 The output adapter table of src/services/output/OutputAdapters.ts: the four destinations an
 arrangement can be sent to, looked up by id and filtered by transport or by format and
 availability.
 */
module OutputAdapters {
  import opened Common

  datatype TransportKind = OscTransport | MidiTransport | FileTransport

  datatype Format = OscFormat | MidiFormat | JsonFormat

  datatype Availability = Available | Planned

  /** `OutputTargetAdapter` (every adapter's direction is "out"). */
  datatype Adapter = Adapter(id: string, name: string, transport: TransportKind, format: Format, availability: Availability)

  /** `OUTPUT_ADAPTERS`, in table order. */
  const Table: seq<Adapter> := [
    Adapter("live-osc", "Ableton Live OSC", OscTransport, OscFormat, Available),
    Adapter("json-file", "Arrangement JSON File", FileTransport, JsonFormat, Available),
    Adapter("midi-file", "Standard MIDI File", FileTransport, MidiFormat, Available),
    Adapter("webmidi-out", "General MIDI Out", MidiTransport, MidiFormat, Available)
  ]

  /** No two adapters share an id. */
  predicate UniqueIds(adapters: seq<Adapter>)
  {
    forall i, j :: 0 <= i < j < |adapters| ==> adapters[i].id != adapters[j].id
  }

  lemma TableIdsUnique()
    ensures |Table| == 4 && UniqueIds(Table)
    ensures Table[0].id == "live-osc" && Table[1].id == "json-file"
    ensures Table[2].id == "midi-file" && Table[3].id == "webmidi-out"
  {
  }

  /** `find` by id over a list of adapters: the first match. */
  function FindById(adapters: seq<Adapter>, id: string): (r: Option<Adapter>)
    ensures r.Some? ==> r.value in adapters && r.value.id == id
    ensures r.None? <==> forall i :: 0 <= i < |adapters| ==> adapters[i].id != id
    decreases |adapters|
  {
    if |adapters| == 0 then None
    else if adapters[0].id == id then Some(adapters[0])
    else FindById(adapters[1..], id)
  }

  /** `getAdapterById`: the table's adapter with that id, absent for an unknown id. */
  function GetAdapterById(id: string): (r: Option<Adapter>)
    ensures r.Some? ==> r.value in Table && r.value.id == id
    ensures r.None? <==> forall i :: 0 <= i < |Table| ==> Table[i].id != id
  {
    FindById(Table, id)
  }

  /** With unique ids, looking an adapter up by its own id finds exactly that adapter. */
  lemma {:induction false} FindOwnId(adapters: seq<Adapter>, k: nat)
    requires UniqueIds(adapters) && k < |adapters|
    ensures FindById(adapters, adapters[k].id) == Some(adapters[k])
    decreases |adapters|
  {
    if k > 0 {
      assert adapters[0].id != adapters[k].id;
      assert adapters[1..][k - 1] == adapters[k];
      FindOwnId(adapters[1..], k - 1);
    }
  }

  lemma GetAdapterOwnId(k: nat)
    requires k < |Table|
    ensures GetAdapterById(Table[k].id) == Some(Table[k])
  {
    TableIdsUnique();
    FindOwnId(Table, k);
  }

  /** `filter`: the elements satisfying `keep`, in their original order. */
  function Filter(adapters: seq<Adapter>, keep: Adapter -> bool): (r: seq<Adapter>)
    ensures |r| <= |adapters|
    ensures forall a :: a in r <==> a in adapters && keep(a)
    decreases |adapters|
  {
    if |adapters| == 0 then []
    else
      var rest := Filter(adapters[..|adapters| - 1], keep);
      var last := adapters[|adapters| - 1];
      assert adapters == adapters[..|adapters| - 1] + [last];
      if keep(last) then rest + [last] else rest
  }

  /** Filtering a concatenation filters each part. */
  lemma {:induction false} FilterAppend(a: seq<Adapter>, b: seq<Adapter>, keep: Adapter -> bool)
    ensures Filter(a + b, keep) == Filter(a, keep) + Filter(b, keep)
    decreases |b|
  {
    if |b| == 0 {
      assert a + b == a;
    } else {
      var init := b[..|b| - 1];
      assert (a + b)[..|a + b| - 1] == a + init;
      FilterAppend(a, init, keep);
    }
  }

  /** `getAdaptersByTransport`: exactly the table's adapters with that transport, in table order. */
  function GetAdaptersByTransport(transport: TransportKind): (r: seq<Adapter>)
    ensures forall a :: a in r <==> a in Table && a.transport == transport
  {
    Filter(Table, (a: Adapter) => a.transport == transport)
  }

  /** `getAvailableAdaptersByFormat`: exactly the available table adapters with that format. */
  function GetAvailableAdaptersByFormat(format: Format): (r: seq<Adapter>)
    ensures forall a :: a in r <==> a in Table && a.format == format && a.availability == Available
  {
    Filter(Table, (a: Adapter) => a.format == format && a.availability == Available)
  }

  /** One element, kept or dropped. */
  function Keep1(x: Adapter, keep: Adapter -> bool): seq<Adapter>
  {
    if keep(x) then [x] else []
  }

  /** Filtering the table decides each of its four rows in turn. */
  lemma FilterTable(keep: Adapter -> bool)
    ensures Filter(Table, keep) == Keep1(Table[0], keep) + Keep1(Table[1], keep) + Keep1(Table[2], keep) + Keep1(Table[3], keep)
  {
    var t := Table;
    assert t == [t[0]] + [t[1]] + [t[2]] + [t[3]];
    assert [t[0]][..0] == [];
    assert Filter([t[0]], keep) == Keep1(t[0], keep);
    assert [t[1]][..0] == [];
    assert Filter([t[1]], keep) == Keep1(t[1], keep);
    assert [t[2]][..0] == [];
    assert Filter([t[2]], keep) == Keep1(t[2], keep);
    assert [t[3]][..0] == [];
    assert Filter([t[3]], keep) == Keep1(t[3], keep);
    FilterAppend([t[0]], [t[1]], keep);
    FilterAppend([t[0]] + [t[1]], [t[2]], keep);
    FilterAppend([t[0]] + [t[1]] + [t[2]], [t[3]], keep);
  }

  /** The OSC transport is Live's bridge alone. */
  lemma OscTransportAdapters()
    ensures GetAdaptersByTransport(OscTransport) == [Table[0]]
  {
    FilterTable((a: Adapter) => a.transport == OscTransport);
  }

  /** The file transport is the JSON export then the MIDI file export. */
  lemma FileTransportAdapters()
    ensures GetAdaptersByTransport(FileTransport) == [Table[1], Table[2]]
  {
    FilterTable((a: Adapter) => a.transport == FileTransport);
  }

  /** The MIDI transport is the Web MIDI output alone. */
  lemma MidiTransportAdapters()
    ensures GetAdaptersByTransport(MidiTransport) == [Table[3]]
  {
    FilterTable((a: Adapter) => a.transport == MidiTransport);
  }

  /** The MIDI format is available as a file and as a live output, in that order. */
  lemma MidiFormatAdapters()
    ensures GetAvailableAdaptersByFormat(MidiFormat) == [Table[2], Table[3]]
  {
    FilterTable((a: Adapter) => a.format == MidiFormat && a.availability == Available);
  }
}

=== FILE: patch_lines.dfy ===
/**
 The patch-line splicer of rewrite_lines.py: it locates the `"lines"` block of a Max patcher text
 after a fixed object marker, renders a fixed list of connections as patchline literals and keeps
 everything before the block, replacing the rest by the rendered block. Python's `str.index` and
 `str.rfind` are modelled as searches over `seq<char>`; the file read and write are not modelled
 except for the newline translation that `Path.read_text` performs.
 */
module PatchLines {
  import opened Common
  import opened Text
  import opened Bags

  /** The object whose definition precedes the lines block. */
  const Marker := "\"id\" : \"obj-unpack_bytes\""

  /** The text that opens the old lines block, searched for from the marker on. */
  const StartPattern := ",\r\n\t\t,\r\n\t\t\t\"lines\" : ["

  /** The end of the patcher, which must occur somewhere in the document. */
  const EndPattern := "\r\n\t\t]\r\n\t}\r\n}"

  /** The first line of the rendered block. */
  const Header := "\n\t\t\"lines\" : [\n"

  /** What closes the rendered block and the document. */
  const Suffix := "\t\t]\n\t}\n}"

  /** One connection `(destName, destPort, srcName, srcPort)`. */
  datatype Entry = Entry(destName: string, destOutlet: int, srcName: string, srcOutlet: int)

  /** The connections the script writes, in its order. */
  const Entries: seq<Entry> := [
    Entry("obj-12", 0, "obj-10", 0),
    Entry("obj-v8", 0, "obj-12", 0),
    Entry("obj-2", 0, "obj-1", 0),
    Entry("obj-3", 0, "obj-2", 0),
    Entry("obj-v8", 0, "obj-3", 0),
    Entry("obj-route_outputs", 0, "obj-v8", 0),
    Entry("obj-out_midi", 0, "obj-route_outputs", 0),
    Entry("obj-out_sysex", 0, "obj-route_outputs", 1),
    Entry("obj-pattr", 0, "obj-dict", 0),
    Entry("obj-prev_msg", 0, "obj-prev_button", 0),
    Entry("obj-next_msg", 0, "obj-next_button", 0),
    Entry("obj-new_msg", 0, "obj-new_button", 0),
    Entry("obj-v8", 0, "obj-prev_msg", 0),
    Entry("obj-v8", 0, "obj-next_msg", 0),
    Entry("obj-v8", 0, "obj-new_msg", 0),
    Entry("obj-set_display", 0, "obj-route_outputs", 2),
    Entry("obj-ai_status_display", 0, "obj-route_outputs", 3),
    Entry("obj-ai_suggestions_display", 0, "obj-route_outputs", 4),
    Entry("obj-inversion_display", 0, "obj-route_outputs", 5),
    Entry("obj-drop_display", 0, "obj-route_outputs", 6),
    Entry("obj-analysis_status_msg", 0, "obj-route_outputs", 7),
    Entry("obj-analysis_status_display", 0, "obj-analysis_status_msg", 0),
    Entry("obj-saved_progressions_msg", 0, "obj-route_outputs", 8),
    Entry("obj-saved_progressions_display", 0, "obj-saved_progressions_msg", 0),
    Entry("obj-section_display", 0, "obj-set_display", 0),
    Entry("obj-transition_msg", 0, "obj-transition_menu", 1),
    Entry("obj-trigger_msg", 0, "obj-trigger_button", 0),
    Entry("obj-v8", 0, "obj-transition_msg", 0),
    Entry("obj-v8", 0, "obj-trigger_msg", 0),
    Entry("obj-ai_msg", 0, "obj-ai_toggle", 0),
    Entry("obj-v8", 0, "obj-ai_msg", 0),
    Entry("obj-build_url", 1, "obj-api_key", 0),
    Entry("obj-jit_uldl", 0, "obj-build_url", 0),
    Entry("obj-build_request", 0, "obj-v8", 3),
    Entry("obj-build_request", 1, "obj-api_key", 0),
    Entry("obj-jit_uldl", 0, "obj-build_request", 0),
    Entry("obj-route_responses", 0, "obj-jit_uldl", 1),
    Entry("obj-v8", 0, "obj-route_responses", 2),
    Entry("obj-combine_export", 1, "obj-filename_input", 0),
    Entry("obj-v8", 0, "obj-combine_export", 0),
    Entry("obj-combine_export", 0, "obj-export_button", 0),
    Entry("obj-dialog_msg", 0, "obj-dialog_button", 0),
    Entry("obj-file_dialog", 0, "obj-dialog_msg", 0),
    Entry("obj-filename_input", 0, "obj-file_dialog", 0),
    Entry("obj-route_file", 0, "obj-save_file", 0),
    Entry("obj-write_prep", 1, "obj-route_file", 0),
    Entry("obj-file_writer", 0, "obj-write_prep", 0),
    Entry("obj-unpack_bytes", 0, "obj-route_file", 0),
    Entry("obj-file_writer", 0, "obj-unpack_bytes", 0)
  ]

  // ---------------------------------------------------------------------------------------------
  // Searching
  // ---------------------------------------------------------------------------------------------

  /** `text.index(sub, start)`: the first occurrence at or after `start`, `None` for the ValueError. */
  function IndexFrom(text: string, sub: string, start: nat): (r: Option<nat>)
    ensures r.Some? ==> start <= r.value && OccursAt(text, sub, r.value)
    ensures r.Some? ==> forall j :: start <= j < r.value ==> !OccursAt(text, sub, j)
    ensures r.None? ==> forall j :: start <= j ==> !OccursAt(text, sub, j)
    decreases |text| - start
  {
    if start + |sub| > |text| then None
    else if OccursAt(text, sub, start) then Some(start)
    else IndexFrom(text, sub, start + 1)
  }

  /** The last occurrence of `sub` starting below `k`. */
  function LastBelow(text: string, sub: string, k: nat): (r: Option<nat>)
    ensures r.Some? ==> r.value < k && OccursAt(text, sub, r.value)
    ensures r.Some? ==> forall j :: r.value < j < k ==> !OccursAt(text, sub, j)
    ensures r.None? ==> forall j :: 0 <= j < k ==> !OccursAt(text, sub, j)
    decreases k
  {
    if k == 0 then None
    else if OccursAt(text, sub, k - 1) then Some(k - 1)
    else LastBelow(text, sub, k - 1)
  }

  /** `text.rfind(sub)`: the last occurrence, `None` for `-1`. */
  function RFind(text: string, sub: string): (r: Option<nat>)
    ensures r.Some? ==> OccursAt(text, sub, r.value)
    ensures r.None? <==> forall j :: 0 <= j ==> !OccursAt(text, sub, j)
  {
    LastBelow(text, sub, |text| + 1)
  }

  // ---------------------------------------------------------------------------------------------
  // Rendering
  // ---------------------------------------------------------------------------------------------

  /** The text of a patchline up to its destination name. */
  const EntryOpen := "\t\t\t{\n\t\t\t\t\"patchline\" : {\n\t\t\t\t\t\"destination\" : [ \""

  /** What follows an object name: the closing quote and the separator before the port. */
  const NameEnd := "\", "

  /** Between the destination port and the source name. */
  const DestEnd := " ],\n\t\t\t\t\t\"source\" : [ \""

  /** After the source port: the closing brackets of the patchline literal. */
  const SrcEnd := " ]\n\t\t\t\t}\n\t\t\t}"

  /** The fixed text around the four fields of a patchline literal. */
  datatype Template = Template(open: string, nameEnd: string, destEnd: string, srcEnd: string)

  /** The script's patchline layout. */
  const Patchline := Template(EntryOpen, NameEnd, DestEnd, SrcEnd)

  /** A patchline literal in a given layout; ports render as `str(int)`. */
  function RenderWith(t: Template, e: Entry): string
  {
    t.open + (e.destName + (t.nameEnd + (IntToString(e.destOutlet) + (t.destEnd
      + (e.srcName + (t.nameEnd + (IntToString(e.srcOutlet) + t.srcEnd)))))))
  }

  /** One patchline literal, with the script's indentation. */
  function RenderEntry(e: Entry): string
  {
    RenderWith(Patchline, e)
  }

  /** The rendered elements joined by `",\n"`, with a final `"\n"` after the last one. */
  function Elements(es: seq<Entry>): string
  {
    JoinedLines(es, RenderEntry)
  }

  /** `Elements` for any rendering of the entries. */
  function JoinedLines<T>(es: seq<T>, render: T -> string): string
  {
    if |es| == 0 then "" else Join(MapSeq(es, render), ",\n") + "\n"
  }

  /** The block the script writes for a list of entries. */
  function Block(es: seq<Entry>): string
  {
    Header + Elements(es) + Suffix
  }

  /** Each element followed by `",\n"`: what the loop has built before the last entry. */
  function Terminated<T>(es: seq<T>, render: T -> string): string
    decreases |es|
  {
    if |es| == 0 then "" else Terminated(es[..|es| - 1], render) + render(es[|es| - 1]) + ",\n"
  }

  lemma {:induction false} TerminatedCons<T>(e: T, es: seq<T>, render: T -> string)
    ensures Terminated([e] + es, render) == render(e) + ",\n" + Terminated(es, render)
    decreases |es|
  {
    if |es| > 0 {
      var init := es[..|es| - 1];
      assert ([e] + es)[..|es|] == [e] + init;
      TerminatedCons(e, init, render);
    } else {
      assert ([e] + es)[..0] == [];
    }
  }

  /** Joining with a separator is terminating every element but the last. */
  lemma {:induction false} JoinTerminated<T>(es: seq<T>, render: T -> string)
    requires |es| > 0
    ensures Join(MapSeq(es, render), ",\n") == Terminated(es[..|es| - 1], render) + render(es[|es| - 1])
    decreases |es|
  {
    if |es| > 1 {
      var rest := es[1..];
      JoinTerminated(rest, render);
      assert MapSeq(es, render)[1..] == MapSeq(rest, render);
      TerminatedCons(es[0], rest[..|rest| - 1], render);
      assert [es[0]] + rest[..|rest| - 1] == es[..|es| - 1];
      assert rest[|rest| - 1] == es[|es| - 1];
    } else {
      assert es[..0] == [];
    }
  }

  /** The script's loop over the entries, for any rendering of one entry. */
  method RenderLines<T>(es: seq<T>, render: T -> string) returns (lines: string)
    ensures lines == JoinedLines(es, render)
  {
    lines := "";
    var idx := 0;
    while idx < |es|
      invariant 0 <= idx <= |es|
      invariant idx < |es| || idx == 0 ==> lines == Terminated(es[..idx], render)
      invariant idx == |es| && idx > 0 ==> lines == JoinedLines(es, render)
    {
      assert es[..idx + 1][..idx] == es[..idx];
      lines := lines + render(es[idx]);
      if idx < |es| - 1 {
        lines := lines + ",\n";
      } else {
        JoinTerminated(es, render);
        assert es[..|es| - 1] == es[..idx];
        lines := lines + "\n";
      }
      idx := idx + 1;
    }
    if |es| == 0 {
      assert es[..0] == [];
    }
  }

  /** The rendering loop of the script: header, one literal per entry, suffix. */
  method RenderBlock(es: seq<Entry>) returns (block: string)
    ensures block == Block(es)
  {
    var lines := RenderLines(es, RenderEntry);
    block := Header + lines + Suffix;
  }

  /** The block opens with the header and closes with the suffix, whatever the entries. */
  lemma BlockFrame(es: seq<Entry>)
    ensures StartsWith(Block(es), Header) && EndsWith(Block(es), Suffix)
    ensures |es| == 0 ==> Block(es) == Header + Suffix
  {
    var b := Block(es);
    assert b == Header + (Elements(es) + Suffix);
    assert b[..|Header|] == Header;
    assert b[|b| - |Suffix|..] == Suffix;
  }

  // ---------------------------------------------------------------------------------------------
  // Reading a rendered patchline back
  // ---------------------------------------------------------------------------------------------

  /** The longest prefix of `s` without `stop`, and what follows it. */
  function SplitAt(s: string, stop: char): (r: (string, string))
    ensures r.0 + r.1 == s
    ensures stop !in r.0
    ensures |r.1| > 0 ==> r.1[0] == stop
  {
    var i := IndexOfChar(s, stop);
    assert s[..i] + s[i..] == s;
    (s[..i], s[i..])
  }

  /** A split is unique: a part without the stop character followed by one that starts with it. */
  lemma SplitAtUnique(x: string, y: string, stop: char)
    requires stop !in x && |y| > 0 && y[0] == stop
    ensures SplitAt(x + y, stop) == (x, y)
  {
    var s := x + y;
    forall j | 0 <= j < |x| ensures s[j] != stop {
      assert s[j] == x[j];
    }
    IndexOfCharAt(s, stop, |x|);
    assert s[..|x|] == x && s[|x|..] == y;
  }

  /** A field closed by `stop`, which must open the delimiter `delim`; then the text after it. */
  function Field(s: string, stop: char, delim: string): (r: Option<(string, string)>)
  {
    var (f, rest) := SplitAt(s, stop);
    if StartsWith(rest, delim) then Some((f, rest[|delim|..])) else None
  }

  /** Reads one literal of a layout back; `None` for any text `RenderWith` cannot produce. */
  function DecodeWith(t: Template, s: string): (r: Option<Entry>)
  {
    if !StartsWith(s, t.open) then None
    else match Field(s[|t.open|..], '"', t.nameEnd)
      case None => None
      case Some((dest, r1)) => match Field(r1, ' ', t.destEnd)
        case None => None
        case Some((destPort, r2)) => match Field(r2, '"', t.nameEnd)
          case None => None
          case Some((src, r3)) => match Field(r3, ' ', t.srcEnd)
            case None => None
            case Some((srcPort, r4)) =>
              if r4 != "" then None
              else match (ParseInt(destPort), ParseInt(srcPort))
                case (Some(dp), Some(sp)) => Some(Entry(dest, dp, src, sp))
                case _ => None
  }

  /** Reads one patchline of the script's layout back. */
  function DecodeEntry(s: string): (r: Option<Entry>)
  {
    DecodeWith(Patchline, s)
  }

  /** A layout the decoder can split: each name is closed by a quote and each port by a space. */
  predicate Delimited(t: Template)
  {
    |t.nameEnd| > 0 && t.nameEnd[0] == '"' && |t.destEnd| > 0 && t.destEnd[0] == ' ' &&
    |t.srcEnd| > 0 && t.srcEnd[0] == ' '
  }

  lemma PatchlineDelimited()
    ensures Delimited(Patchline)
  {
  }

  /** A rendered port has neither a space nor a quote in it. */
  lemma IntToStringPlain(n: int)
    ensures ' ' !in IntToString(n) && '"' !in IntToString(n)
  {
    var s := IntToString(n);
    if n >= 0 {
      assert forall i :: 0 <= i < |s| ==> IsDigit(s[i]);
    } else {
      var t := NatToString(-n);
      assert s == "-" + t;
      assert forall i :: 1 <= i < |s| ==> s[i] == t[i - 1];
    }
  }

  /** A field is read up to its delimiter. */
  lemma FieldReads(x: string, delim: string, rest: string, stop: char)
    requires stop !in x && |delim| > 0 && delim[0] == stop
    ensures Field(x + (delim + rest), stop, delim) == Some((x, rest))
  {
    SplitAtUnique(x, delim + rest, stop);
    assert (delim + rest)[..|delim|] == delim;
    assert (delim + rest)[|delim|..] == rest;
  }

  /** In a delimited layout, names without quotes are read back: rendering loses nothing. */
  lemma DecodeRenderWith(t: Template, e: Entry)
    requires Delimited(t)
    requires '"' !in e.destName && '"' !in e.srcName
    ensures DecodeWith(t, RenderWith(t, e)) == Some(e)
  {
    var dp := IntToString(e.destOutlet);
    var sp := IntToString(e.srcOutlet);
    var r3 := sp + t.srcEnd;
    var r2 := e.srcName + (t.nameEnd + r3);
    var r1 := dp + (t.destEnd + r2);
    var r0 := e.destName + (t.nameEnd + r1);
    var s := RenderWith(t, e);
    assert StartsWith(s, t.open) && s[|t.open|..] == r0 by {
      assert s == t.open + r0;
    }
    assert Field(r0, '"', t.nameEnd) == Some((e.destName, r1)) by {
      FieldReads(e.destName, t.nameEnd, r1, '"');
    }
    assert Field(r1, ' ', t.destEnd) == Some((dp, r2)) by {
      IntToStringPlain(e.destOutlet);
      FieldReads(dp, t.destEnd, r2, ' ');
    }
    assert Field(r2, '"', t.nameEnd) == Some((e.srcName, r3)) by {
      FieldReads(e.srcName, t.nameEnd, r3, '"');
    }
    assert Field(r3, ' ', t.srcEnd) == Some((sp, "")) by {
      IntToStringPlain(e.srcOutlet);
      assert t.srcEnd + "" == t.srcEnd;
      FieldReads(sp, t.srcEnd, "", ' ');
    }
    IntToStringRoundTrip(e.destOutlet);
    IntToStringRoundTrip(e.srcOutlet);
    DecodeFields(t, s, e, r1, r2, r3, dp, sp);
  }

  /** The decoder's chain of fields, once each field is known. */
  lemma DecodeFields(t: Template, s: string, e: Entry, r1: string, r2: string, r3: string, dp: string, sp: string)
    requires StartsWith(s, t.open)
    requires Field(s[|t.open|..], '"', t.nameEnd) == Some((e.destName, r1))
    requires Field(r1, ' ', t.destEnd) == Some((dp, r2))
    requires Field(r2, '"', t.nameEnd) == Some((e.srcName, r3))
    requires Field(r3, ' ', t.srcEnd) == Some((sp, ""))
    requires ParseInt(dp) == Some(e.destOutlet) && ParseInt(sp) == Some(e.srcOutlet)
    ensures DecodeWith(t, s) == Some(e)
  {
  }

  /** Every patchline the script renders for quote-free names reads back as its entry. */
  lemma DecodeRenderEntry(e: Entry)
    requires '"' !in e.destName && '"' !in e.srcName
    ensures DecodeEntry(RenderEntry(e)) == Some(e)
  {
    PatchlineDelimited();
    DecodeRenderWith(Patchline, e);
  }

  // ---------------------------------------------------------------------------------------------
  // Splicing
  // ---------------------------------------------------------------------------------------------

  /** Why the script stops without writing: two `ValueError`s and the `SystemExit`. */
  datatype Failure = MarkerNotFound | StartNotFound | EndNotFound

  /** Where the marker and the lines block start. */
  datatype Location = Location(markerIdx: nat, linesStart: nat)

  /** The three searches, in the script's order. */
  function Locate(text: string): (r: Result<Location, Failure>)
    ensures r.Ok? ==> r.value.markerIdx <= r.value.linesStart <= |text|
    ensures r.Ok? ==> OccursAt(text, Marker, r.value.markerIdx) && OccursAt(text, StartPattern, r.value.linesStart)
    ensures r == Err(MarkerNotFound) <==> forall j :: 0 <= j ==> !OccursAt(text, Marker, j)
    ensures r.Ok? ==> exists j :: 0 <= j && OccursAt(text, EndPattern, j)
    ensures r == Err(EndNotFound) ==> forall j :: 0 <= j ==> !OccursAt(text, EndPattern, j)
  {
    match IndexFrom(text, Marker, 0)
    case None => Err(MarkerNotFound)
    case Some(m) =>
      match IndexFrom(text, StartPattern, m)
      case None => Err(StartNotFound)
      case Some(ls) =>
        if RFind(text, EndPattern).None? then Err(EndNotFound) else Ok(Location(m, ls))
  }

  /**
   `text[:lines_start] + lines_block`: the position of the terminator is never used, and the start
   pattern itself is cut off with everything after it.
   */
  function Splice(text: string, es: seq<Entry>): (r: Result<string, Failure>)
    ensures r.Ok? <==> Locate(text).Ok?
    ensures r.Err? ==> r.error == Locate(text).error
    ensures r.Ok? ==> r.value == text[..Locate(text).value.linesStart] + Block(es)
  {
    match Locate(text)
    case Err(f) => Err(f)
    case Ok(loc) => Ok(text[..loc.linesStart] + Block(es))
  }

  /** What the script writes when it gets that far. */
  function Rewrite(text: string): (r: Result<string, Failure>)
  {
    Splice(text, Entries)
  }

  /**
   Everything before the lines block survives, and the document ends with the block, whose frame
   does not depend on the document.
   */
  lemma SpliceKeepsPrefix(text: string, es: seq<Entry>)
    requires Splice(text, es).Ok?
    ensures var n := Locate(text).value.linesStart;
      |Splice(text, es).value| == n + |Block(es)| &&
      Splice(text, es).value[..n] == text[..n] &&
      EndsWith(Splice(text, es).value, Block(es)) &&
      EndsWith(Splice(text, es).value, Suffix)
  {
    var n := Locate(text).value.linesStart;
    var out := Splice(text, es).value;
    assert out == text[..n] + Block(es);
    assert out[..n] == text[..n];
    assert out[|out| - |Block(es)|..] == Block(es);
    BlockFrame(es);
    assert out[|out| - |Suffix|..] == Block(es)[|Block(es)| - |Suffix|..];
  }

  /** The output depends on the document only through the text before the lines block. */
  lemma SpliceIgnoresTail(a: string, b: string, es: seq<Entry>)
    requires Locate(a).Ok? && Locate(b).Ok?
    requires Locate(a).value.linesStart == Locate(b).value.linesStart
    requires a[..Locate(a).value.linesStart] == b[..Locate(b).value.linesStart]
    ensures Splice(a, es) == Splice(b, es)
  {
  }

  /**
   A document with the marker at `m`, the start pattern at `ls >= m` and the terminator anywhere is
   spliced, and the block replaces the text from the first start pattern after the marker on.
   */
  lemma SpliceSucceeds(text: string, es: seq<Entry>, m: nat, ls: nat, e: nat)
    requires OccursAt(text, Marker, m) && OccursAt(text, StartPattern, ls) && m <= ls
    requires OccursAt(text, EndPattern, e)
    ensures Splice(text, es).Ok?
    ensures Locate(text).value.markerIdx <= m && Locate(text).value.linesStart <= ls
  {
    var found := IndexFrom(text, Marker, 0);
    assert found.Some? && found.value <= m;
    var start := IndexFrom(text, StartPattern, found.value);
    assert start.Some? && start.value <= ls;
    assert RFind(text, EndPattern).Some?;
  }

  // ---------------------------------------------------------------------------------------------
  // Reading the patcher file
  // ---------------------------------------------------------------------------------------------

  /**
   `Path.read_text()` opens the file with universal newlines: `"\r\n"` and a lone `"\r"` both become
   `"\n"`.
   */
  function UniversalNewlines(raw: string): (r: string)
    ensures '\r' !in r
    decreases |raw|
  {
    if |raw| == 0 then ""
    else if raw[0] == '\r' then
      "\n" + UniversalNewlines(if |raw| > 1 && raw[1] == '\n' then raw[2..] else raw[1..])
    else [raw[0]] + UniversalNewlines(raw[1..])
  }

  /** Text without carriage returns never contains the start pattern. */
  lemma NoStartWithoutCarriageReturn(text: string)
    requires '\r' !in text
    ensures forall j :: 0 <= j ==> !OccursAt(text, StartPattern, j)
  {
    forall j | 0 <= j
      ensures !OccursAt(text, StartPattern, j)
    {
      if j + |StartPattern| <= |text| {
        assert text[j..j + |StartPattern|][1] == text[j + 1];
        assert text[j + 1] in text;
      }
    }
  }

  /** The script as written: the splice runs on the newline-translated text. */
  function RewriteFileAsWritten(raw: string): (r: Result<string, Failure>)
  {
    Rewrite(UniversalNewlines(raw))
  }

  /** As written, no file is ever rewritten: the start pattern holds a `"\r"` that reading removed. */
  lemma RewriteFileAsWrittenFails(raw: string)
    ensures RewriteFileAsWritten(raw).Err?
    ensures RewriteFileAsWritten(raw).error != EndNotFound
  {
    var text := UniversalNewlines(raw);
    NoStartWithoutCarriageReturn(text);
    match IndexFrom(text, Marker, 0)
    case None =>
    case Some(m) =>
      assert IndexFrom(text, StartPattern, m).None?;
  }

  /** The script reading the file without newline translation (`newline=''`). */
  function RewriteFile(raw: string): (r: Result<string, Failure>)
  {
    Rewrite(raw)
  }

  /**
   Read untranslated, a patcher holding the marker, a start pattern after it and the terminator is
   rewritten: the text before that start pattern (or an earlier one) is kept and the block follows.
   */
  lemma RewriteFileSucceeds(raw: string, m: nat, ls: nat, e: nat)
    requires OccursAt(raw, Marker, m) && OccursAt(raw, StartPattern, ls) && m <= ls
    requires OccursAt(raw, EndPattern, e)
    ensures RewriteFile(raw).Ok? && Locate(raw).value.linesStart <= ls
    ensures RewriteFile(raw).value == raw[..Locate(raw).value.linesStart] + Block(Entries)
  {
    SpliceSucceeds(raw, Entries, m, ls, e);
  }
}

=== FILE: progression_manager.dfy ===
/**
 The progression manager (src/services/progression/ProgressionManager.ts): the built-in pattern
 library, section cloning and repeat flattening, sliding-window pattern detection, pattern lookup
 and application, custom-pattern parsing, transposition, analysis and validation.
 Copies made for immutable updates are plain values here, so `cloneProgression` is the identity.
 */
module ProgressionManager {
  import opened Common
  import opened Text
  import opened Bags
  import opened Song
  import opened MusicTheory

  /** `normalizeDegree`: the degree's semitone folded into 0..11. */
  function NormalizeDegree(degree: string): (r: int)
    ensures 0 <= r <= 11
    ensures r == ParseDegree(degree)
  {
    var semitone := ParseDegree(degree);
    JsRem(JsRem(semitone, 12) + 12, 12)
  }

  /** A built-in pattern as written in the table, before its semitones are recomputed. */
  function Builtin(id: string, name: string, description: string, degrees: seq<string>,
                   qualities: seq<string>, semitones: seq<int>): Pattern
  {
    Pattern(id, name, description, degrees, Some(qualities), semitones, Some(4.0), None, false)
  }

  /** `_DEFAULT_PATTERNS` with the semitone columns ProgressionManager.ts writes out by hand. */
  const WrittenPatterns: seq<Pattern> := [
    Builtin("pop_1-5-6-4", "I-V-vi-IV (Pop Cadence)",
      "Classic pop progression with a hopeful resolution",
      ["1", "5", "6", "4"], ["Maj", "Maj", "min", "Maj"], [0, 7, 9, 5]),
    Builtin("sensitive_vi-iv-i-v", "vi-IV-I-V (Sensitive Loop)",
      "Emotionally charged loop used in ballads",
      ["6", "4", "1", "5"], ["min", "Maj", "Maj", "Maj"], [9, 5, 0, 7]),
    Builtin("50s_i-vi-ii-v", "I-vi-ii-V (50s Turnaround)",
      "Jazz/blues turnaround popular in classic progressions",
      ["1", "6", "2", "5"], ["Maj", "min", "min", "Maj"], [0, 9, 2, 7]),
    Builtin("jazz_ii-v-i", "ii-V-I (Jazz Cadence)",
      "The most common progression in jazz",
      ["2", "5", "1"], ["min7", "dom7", "Maj7"], [2, 7, 0]),
    Builtin("blues_12bar", "I-IV-I-V (12-Bar Blues)",
      "Foundation of blues music",
      ["1", "4", "1", "5"], ["dom7", "dom7", "dom7", "dom7"], [0, 5, 0, 7]),
    Builtin("andalusian_cadence", "vi-V-IV-III (Andalusian)",
      "Descending progression common in flamenco",
      ["6", "5", "4", "3"], ["min", "Maj", "Maj", "Maj"], [9, 7, 5, 4]),
    Builtin("circle_of_fifths", "vi-ii-V-I (Circle Progression)",
      "Follows the circle of fifths",
      ["6", "2", "5", "1"], ["min7", "min7", "dom7", "Maj7"], [9, 2, 7, 0])
  ]

  /** The `.map` that recomputes a pattern's semitones from its degrees. */
  function WithSemitones(p: Pattern): (r: Pattern)
    ensures |r.semitones| == |r.degrees|
  {
    p.(semitones := MapSeq(p.degrees, NormalizeDegree))
  }

  /** `DEFAULT_PATTERNS`. */
  const DefaultPatterns: seq<Pattern> := MapSeq(WrittenPatterns, WithSemitones)

  /**
   Recomputing the semitones changes nothing: every hand-written column already agrees with
   `normalizeDegree`, so each default pattern's semitones are its degrees' semitones.
   */
  lemma DefaultPatternsSemitones()
    ensures |DefaultPatterns| == 7
    ensures forall i :: 0 <= i < 7 ==> DefaultPatterns[i] == WrittenPatterns[i]
    ensures forall i, k :: 0 <= i < 7 && 0 <= k < |DefaultPatterns[i].degrees| ==>
      DefaultPatterns[i].semitones[k] == NormalizeDegree(DefaultPatterns[i].degrees[k])
  {
    forall i | 0 <= i < 7
      ensures WithSemitones(WrittenPatterns[i]) == WrittenPatterns[i]
    {
      var p := WrittenPatterns[i];
      PlainDegreeSemitones();
      var m := MapSeq(p.degrees, NormalizeDegree);
      forall k | 0 <= k < |m| ensures m[k] == p.semitones[k] {
        assert m[k] == NormalizeDegree(p.degrees[k]);
      }
      assert m == p.semitones;
    }
  }

  /** The semitones of the plain degrees the built-in patterns use. */
  lemma PlainDegreeSemitones()
    ensures NormalizeDegree("1") == 0 && NormalizeDegree("2") == 2 && NormalizeDegree("3") == 4
    ensures NormalizeDegree("4") == 5 && NormalizeDegree("5") == 7 && NormalizeDegree("6") == 9
  {
  }

  /** `cloneSection`: an absent or zero repeat count becomes 1 and an absent or zero metre 4. */
  function CloneSection(s: Section): (r: Section)
    ensures r.id == s.id && r.name == s.name && r.progression == s.progression
    ensures r.rootHeld == s.rootHeld && r.currentNotes == s.currentNotes && r.transitions == s.transitions
  {
    s.(repeats := Some(OrInt(s.repeats, 1)), beatsPerBar := Some(OrInt(s.beatsPerBar, 4)))
  }

  /**
   Cloning normalises: the clone has a present, non-zero repeat count and metre, cloning again
   changes nothing, and a section is its own clone exactly when it was already normalised.
   */
  lemma CloneSectionCorrect(s: Section)
    ensures CloneSection(s).repeats.Some? && CloneSection(s).repeats.value != 0
    ensures CloneSection(s).beatsPerBar.Some? && CloneSection(s).beatsPerBar.value != 0
    ensures CloneSection(CloneSection(s)) == CloneSection(s)
    ensures CloneSection(s) == s <==>
      (s.repeats.Some? && s.repeats.value != 0 && s.beatsPerBar.Some? && s.beatsPerBar.value != 0)
  {
  }

  /** `n` copies of `s`, one after another (`Array(n).fill(s).flat()`). */
  function RepeatSeq<T>(s: seq<T>, n: nat): (r: seq<T>)
    ensures |r| == n * |s|
  {
    if n == 0 then [] else RepeatSeq(s, n - 1) + s
  }

  /** Entry `k` of the repetition is entry `k mod |s|` of the original. */
  lemma {:induction false} RepeatSeqIndex<T>(s: seq<T>, n: nat, k: int)
    requires 0 <= k < n * |s|
    ensures RepeatSeq(s, n)[k] == s[k % |s|]
    decreases n
  {
    var m := |s|;
    if k < (n - 1) * m {
      RepeatSeqIndex(s, n - 1, k);
    } else {
      ModUnique(k, m, n - 1, k - (n - 1) * m);
    }
  }

  /** The number of times a section plays: `section.repeats || 1`. */
  function RepeatCount(s: Section): int
  {
    OrInt(s.repeats, 1)
  }

  /**
   `flattenSectionsWithRepeats`. A negative repeat count makes `Array(n)` throw a `RangeError`,
   which is `None`.
   */
  function Flatten(sections: seq<Section>): (r: Option<Progression>)
    decreases |sections|
  {
    if |sections| == 0 then Some([])
    else
      var n := RepeatCount(sections[0]);
      match Flatten(sections[1..])
      case None => None
      case Some(rest) => if n < 0 then None else Some(RepeatSeq(sections[0].progression, n) + rest)
  }

  /** Flattening fails exactly when some section has a negative repeat count. */
  lemma {:induction false} FlattenDefined(sections: seq<Section>)
    ensures Flatten(sections).Some? <==> forall i :: 0 <= i < |sections| ==> RepeatCount(sections[i]) >= 0
    decreases |sections|
  {
    if |sections| > 0 {
      FlattenDefined(sections[1..]);
      assert forall i :: 1 <= i < |sections| ==> sections[i] == sections[1..][i - 1];
    }
  }

  /**
   Flattening is the in-order concatenation of each section repeated: it distributes over
   concatenation of section lists and a single section gives its repetition.
   */
  lemma {:induction false} FlattenAppend(a: seq<Section>, b: seq<Section>)
    requires Flatten(a).Some? && Flatten(b).Some?
    ensures Flatten(a + b) == Some(Flatten(a).value + Flatten(b).value)
    decreases |a|
  {
    if |a| == 0 {
      assert a + b == b;
      assert Flatten(a).value == [];
      assert [] + Flatten(b).value == Flatten(b).value;
    } else {
      assert (a + b)[1..] == a[1..] + b;
      assert (a + b)[0] == a[0];
      var head := RepeatSeq(a[0].progression, RepeatCount(a[0]));
      var mid := Flatten(a[1..]).value;
      var tail := Flatten(b).value;
      FlattenAppend(a[1..], b);
      assert Flatten(a).value == head + mid;
      assert Flatten(a[1..] + b) == Some(mid + tail);
      assert head + (mid + tail) == (head + mid) + tail;
    }
  }

  lemma FlattenSingle(s: Section)
    requires RepeatCount(s) >= 0
    ensures Flatten([s]) == Some(RepeatSeq(s.progression, RepeatCount(s)))
  {
    assert [s][1..] == [];
    assert Flatten([s][1..]) == Some([]);
    var r := RepeatSeq(s.progression, RepeatCount(s));
    assert r + [] == r;
  }

  /** `getProgressionDuration`: the reduce from the left agrees with the sum from the right. */
  function ProgressionDuration(p: Progression): (r: real)
    ensures r == TotalDuration(p)
  {
    DurationFrom(0.0, p)
  }

  /** `progression.reduce((total, chord) => total + chord.duration, acc)`. */
  function DurationFrom(acc: real, p: Progression): (r: real)
    ensures r == acc + TotalDuration(p)
    decreases |p|
  {
    if |p| == 0 then acc
    else
      TotalDurationAppend([p[0]], p[1..]);
      assert [p[0]] + p[1..] == p;
      assert [p[0]][..0] == [];
      DurationFrom(acc + p[0].duration, p[1..])
  }

  // ---------------------------------------------------------------------------------------------
  // Pattern detection
  // ---------------------------------------------------------------------------------------------

  /** `keyRoot` when given, else the first chord's first note unless that is absent or 0, else 60. */
  function BaseRoot(p: Progression, keyRoot: Option<int>): int
  {
    match keyRoot
    case Some(k) => k
    case None => if |p| > 0 && |p[0].notes| > 0 && p[0].notes[0] != 0 then p[0].notes[0] else 60
  }

  /** `(((note - baseRoot) % 12) + 12) % 12` with JavaScript's remainder. */
  function Offset(note: int, base: int): (r: int)
    ensures 0 <= r < 12
    ensures r == (note - base) % 12
  {
    JsRem(JsRem(note - base, 12) + 12, 12)
  }

  /** The offsets of the first notes of the chords that have notes, in order. */
  function Offsets(p: Progression, base: int): (r: seq<int>)
    ensures |r| <= |p|
    ensures forall i :: 0 <= i < |r| ==> 0 <= r[i] < 12
    decreases |p|
  {
    if |p| == 0 then []
    else (if |p[0].notes| > 0 then [Offset(p[0].notes[0], base)] else []) + Offsets(p[1..], base)
  }

  /** The window of `offsets` at `start` spells `sig`. */
  predicate WindowMatches(sig: seq<int>, offsets: seq<int>, start: int)
  {
    0 <= start && start + |sig| <= |offsets| && offsets[start..start + |sig|] == sig
  }

  function Detected(p: Pattern, start: int, base: int): DetectedPattern
  {
    DetectedPattern(p.id, p.name, p.description, start, |p.semitones|, base)
  }

  /** The inner sliding-window loop from `start` on, for one pattern. */
  function ScanFrom(p: Pattern, offsets: seq<int>, base: int, start: nat): seq<DetectedPattern>
    decreases |offsets| - start
  {
    if start + |p.semitones| > |offsets| then []
    else
      (if WindowMatches(p.semitones, offsets, start) then [Detected(p, start, base)] else [])
      + ScanFrom(p, offsets, base, start + 1)
  }

  /** One pattern's matches; a pattern with no semitones is skipped. */
  function ScanPattern(p: Pattern, offsets: seq<int>, base: int): seq<DetectedPattern>
  {
    if |p.semitones| == 0 || |p.semitones| > |offsets| then [] else ScanFrom(p, offsets, base, 0)
  }

  /** The `forEach` over the definitions, in order. */
  function DetectIn(defs: seq<Pattern>, offsets: seq<int>, base: int): seq<DetectedPattern>
    decreases |defs|
  {
    if |defs| == 0 then [] else ScanPattern(defs[0], offsets, base) + DetectIn(defs[1..], offsets, base)
  }

  /** `detectPatterns` over a given pattern list. */
  function DetectPatternsWith(defs: seq<Pattern>, p: Progression, keyRoot: Option<int>): (r: seq<DetectedPattern>)
    ensures |p| == 0 ==> r == []
    ensures |Offsets(p, BaseRoot(p, keyRoot))| < 2 ==> r == []
  {
    if |p| == 0 then []
    else
      var base := BaseRoot(p, keyRoot);
      var offsets := Offsets(p, base);
      if |offsets| < 2 then [] else DetectIn(defs, offsets, base)
  }

  /** `detectPatterns`: the built-in library only. */
  function DetectPatterns(p: Progression, keyRoot: Option<int>): seq<DetectedPattern>
  {
    DetectPatternsWith(DefaultPatterns, p, keyRoot)
  }

  /** A detection is justified by pattern `p` when its window matches `p`'s semitones. */
  predicate Justified(d: DetectedPattern, p: Pattern, offsets: seq<int>, base: int)
  {
    && |p.semitones| > 0
    && d == Detected(p, d.startIndex, base)
    && WindowMatches(p.semitones, offsets, d.startIndex)
  }

  lemma {:induction false} ScanFromCorrect(p: Pattern, offsets: seq<int>, base: int, start: nat)
    ensures forall d :: d in ScanFrom(p, offsets, base, start) ==>
      d == Detected(p, d.startIndex, base) && start <= d.startIndex
      && WindowMatches(p.semitones, offsets, d.startIndex)
    ensures forall k :: start <= k && WindowMatches(p.semitones, offsets, k) ==>
      Detected(p, k, base) in ScanFrom(p, offsets, base, start)
    decreases |offsets| - start
  {
    if start + |p.semitones| <= |offsets| {
      ScanFromCorrect(p, offsets, base, start + 1);
    }
  }

  lemma ScanPatternCorrect(p: Pattern, offsets: seq<int>, base: int)
    ensures forall d :: d in ScanPattern(p, offsets, base) ==> Justified(d, p, offsets, base)
    ensures forall k :: |p.semitones| > 0 && WindowMatches(p.semitones, offsets, k) ==>
      Detected(p, k, base) in ScanPattern(p, offsets, base)
  {
    ScanFromCorrect(p, offsets, base, 0);
  }

  /**
   Every detection comes from a definition whose window matches (soundness), and every matching
   window is reported (completeness).
   */
  lemma {:induction false} DetectInCorrect(defs: seq<Pattern>, offsets: seq<int>, base: int)
    ensures forall d :: d in DetectIn(defs, offsets, base) ==>
      exists j :: 0 <= j < |defs| && Justified(d, defs[j], offsets, base)
    ensures forall j, k ::
      (0 <= j < |defs| && |defs[j].semitones| > 0 && WindowMatches(defs[j].semitones, offsets, k))
      ==> Detected(defs[j], k, base) in DetectIn(defs, offsets, base)
    decreases |defs|
  {
    if |defs| > 0 {
      ScanPatternCorrect(defs[0], offsets, base);
      DetectInCorrect(defs[1..], offsets, base);
      forall d | d in DetectIn(defs, offsets, base)
        ensures exists j :: 0 <= j < |defs| && Justified(d, defs[j], offsets, base)
      {
        if d in ScanPattern(defs[0], offsets, base) {
          assert Justified(d, defs[0], offsets, base);
        } else {
          var j :| 0 <= j < |defs[1..]| && Justified(d, defs[1..][j], offsets, base);
          assert Justified(d, defs[j + 1], offsets, base);
        }
      }
      forall j, k | 0 <= j < |defs| && |defs[j].semitones| > 0 && WindowMatches(defs[j].semitones, offsets, k)
        ensures Detected(defs[j], k, base) in DetectIn(defs, offsets, base)
      {
        if j > 0 {
          assert defs[j] == defs[1..][j - 1];
        }
      }
    }
  }

  /**
   `detectPatterns` reports exactly the windows of the chord-root offsets that spell a pattern's
   semitones, each with the pattern's id, name and description, its start and length, and the
   base root; a window past the end is never reported.
   */
  lemma DetectPatternsCorrect(defs: seq<Pattern>, p: Progression, keyRoot: Option<int>)
    ensures var base := BaseRoot(p, keyRoot);
      var offsets := Offsets(p, base);
      forall d :: d in DetectPatternsWith(defs, p, keyRoot) ==>
        d.startIndex + d.length <= |offsets|
        && exists j :: 0 <= j < |defs| && Justified(d, defs[j], offsets, base)
    ensures var base := BaseRoot(p, keyRoot);
      var offsets := Offsets(p, base);
      |offsets| >= 2 ==>
        forall j, k :: 0 <= j < |defs| && |defs[j].semitones| > 0 && WindowMatches(defs[j].semitones, offsets, k)
          ==> Detected(defs[j], k, base) in DetectPatternsWith(defs, p, keyRoot)
  {
    var base := BaseRoot(p, keyRoot);
    var offsets := Offsets(p, base);
    DetectInCorrect(defs, offsets, base);
    if |p| == 0 {
      assert offsets == [];
    }
  }

  // ---------------------------------------------------------------------------------------------
  // Pattern library
  // ---------------------------------------------------------------------------------------------

  /** `getPatternDefinitions`: built-ins first, then the custom patterns. */
  function PatternDefinitions(custom: seq<Pattern>): (r: seq<Pattern>)
    ensures |r| == |DefaultPatterns| + |custom|
    ensures r[..|DefaultPatterns|] == DefaultPatterns && r[|DefaultPatterns|..] == custom
  {
    DefaultPatterns + custom
  }

  /** The lookup key matches a pattern's id or name, ignoring case. */
  predicate PatternMatches(p: Pattern, normalized: string)
  {
    AsciiLower(p.id) == normalized || AsciiLower(p.name) == normalized
  }

  /** `Array.prototype.find` with `PatternMatches`. */
  function FindFirst(ps: seq<Pattern>, normalized: string): (r: Option<Pattern>)
    ensures r.Some? ==> r.value in ps && PatternMatches(r.value, normalized)
    ensures r.None? <==> forall i :: 0 <= i < |ps| ==> !PatternMatches(ps[i], normalized)
    decreases |ps|
  {
    if |ps| == 0 then None
    else if PatternMatches(ps[0], normalized) then Some(ps[0])
    else FindFirst(ps[1..], normalized)
  }

  /** The pattern found is the first match in list order. */
  lemma {:induction false} FindFirstIsFirst(ps: seq<Pattern>, normalized: string, i: int)
    requires 0 <= i < |ps| && PatternMatches(ps[i], normalized)
    requires forall j :: 0 <= j < i ==> !PatternMatches(ps[j], normalized)
    ensures FindFirst(ps, normalized) == Some(ps[i])
    decreases |ps|
  {
    if i > 0 {
      FindFirstIsFirst(ps[1..], normalized, i - 1);
    }
  }

  /** `findPattern`: an empty query finds nothing; otherwise built-ins are searched first. */
  function FindPattern(idOrName: string, custom: seq<Pattern>): (r: Option<Pattern>)
    ensures idOrName == "" ==> r.None?
    ensures r.Some? ==> r.value in PatternDefinitions(custom) && PatternMatches(r.value, AsciiLower(idOrName))
  {
    var normalized := AsciiLower(idOrName);
    if normalized == "" then None else FindFirst(PatternDefinitions(custom), normalized)
  }

  /** Lookup ignores case: a query and its lower-cased form find the same pattern. */
  lemma FindPatternIgnoresCase(idOrName: string, custom: seq<Pattern>)
    ensures FindPattern(AsciiLower(idOrName), custom) == FindPattern(idOrName, custom)
  {
    AsciiLowerIdempotent(idOrName);
  }

  /** A non-empty query finds nothing only when no definition matches it. */
  lemma FindPatternMissing(idOrName: string, custom: seq<Pattern>)
    requires idOrName != ""
    ensures FindPattern(idOrName, custom).None? <==>
      forall i :: 0 <= i < |PatternDefinitions(custom)| ==>
        !PatternMatches(PatternDefinitions(custom)[i], AsciiLower(idOrName))
  {
    assert |AsciiLower(idOrName)| > 0;
  }

  /** A match in the front part of a list is found before anything in the back part. */
  lemma FindFirstFront(front: seq<Pattern>, back: seq<Pattern>, normalized: string, i: int)
    requires 0 <= i < |front| && PatternMatches(front[i], normalized)
    ensures FindFirst(front + back, normalized).Some?
    ensures FindFirst(front + back, normalized).value in front
  {
    var ps := front + back;
    assert ps[i] == front[i];
    var first := FirstMatchIndex(ps, normalized, i);
    FindFirstIsFirst(ps, normalized, first);
    assert ps[first] == front[first];
  }

  /** A built-in match shadows every custom pattern. */
  lemma FindPatternBuiltinFirst(idOrName: string, custom: seq<Pattern>, i: int)
    requires idOrName != ""
    requires 0 <= i < |DefaultPatterns| && PatternMatches(DefaultPatterns[i], AsciiLower(idOrName))
    ensures FindPattern(idOrName, custom).Some?
    ensures FindPattern(idOrName, custom).value in DefaultPatterns
  {
    assert |AsciiLower(idOrName)| > 0;
    FindFirstFront(DefaultPatterns, custom, AsciiLower(idOrName), i);
  }

  /** The least index at or below `i` holding a match. */
  function FirstMatchIndex(ps: seq<Pattern>, normalized: string, i: int): (r: int)
    requires 0 <= i < |ps| && PatternMatches(ps[i], normalized)
    ensures 0 <= r <= i && PatternMatches(ps[r], normalized)
    ensures forall j :: 0 <= j < r ==> !PatternMatches(ps[j], normalized)
    decreases i
  {
    if exists j :: 0 <= j < i && PatternMatches(ps[j], normalized) then
      var j :| 0 <= j < i && PatternMatches(ps[j], normalized);
      FirstMatchIndex(ps, normalized, j)
    else i
  }

  /** `ApplyPatternOptions`: every field optional. */
  datatype ApplyOptions = ApplyOptions(root: Option<int>, duration: Option<real>, inversion: Option<int>, drop: Option<int>)

  /** `pattern.qualities?.[index] || pattern.defaultQuality || "Maj"`. */
  function QualityAt(p: Pattern, index: int): (r: string)
    ensures r != ""
  {
    if p.qualities.Some? && 0 <= index < |p.qualities.value| && p.qualities.value[index] != "" then
      p.qualities.value[index]
    else if p.defaultQuality.Some? && p.defaultQuality.value != "" then p.defaultQuality.value
    else "Maj"
  }

  /** `parseInt(degree) || undefined`. */
  function DegreeNumber(degree: string): (r: Option<int>)
    ensures r.Some? ==> r.value != 0
  {
    match JsParseInt(degree)
    case Some(v) => if v != 0 then Some(v) else None
    case None => None
  }

  /** A chord `applyPattern` builds, once its root, quality and degree number are known. */
  function DegreeChord(chordRoot: int, quality: string, degree: Option<int>, duration: real, inversion: int, drop: int): (c: Chord)
  {
    Chord(Voiced(ChordNotes(chordRoot, quality), inversion, drop), duration,
      Some(NoMetadata.(root := Some(chordRoot), quality := Some(quality), degree := degree,
        inversion := Some(inversion), drop := Some(drop))))
  }

  /** The chord `applyPattern` builds for the `i`-th degree of a found pattern. */
  function PatternChord(p: Pattern, options: ApplyOptions, i: int): Chord
    requires 0 <= i < |p.degrees|
  {
    DegreeChord(options.root.GetOr(60) + NormalizeDegree(p.degrees[i]), QualityAt(p, i),
      DegreeNumber(p.degrees[i]), options.duration.GetOr(p.duration.GetOr(4.0)),
      options.inversion.GetOr(0), options.drop.GetOr(0))
  }

  /** The progression `applyPattern` builds from a found pattern: one chord per degree. */
  function ApplyFound(p: Pattern, options: ApplyOptions): (r: Progression)
    ensures |r| == |p.degrees|
    ensures forall i :: 0 <= i < |p.degrees| ==> r[i] == PatternChord(p, options, i)
  {
    seq(|p.degrees|, i requires 0 <= i < |p.degrees| => PatternChord(p, options, i))
  }

  /** `applyPattern`: `None` (JavaScript's `null`) for an unknown pattern. */
  function ApplyPattern(patternId: string, options: ApplyOptions, custom: seq<Pattern>): (r: Option<Progression>)
    ensures r.Some? <==> FindPattern(patternId, custom).Some?
    ensures r.Some? ==> r.value == ApplyFound(FindPattern(patternId, custom).value, options)
  {
    match FindPattern(patternId, custom)
    case None => None
    case Some(p) => Some(ApplyFound(p, options))
  }

  /** The voicing step of `applyPattern`: only a non-zero inversion or drop revoices. */
  function Voiced(notes: seq<int>, inversion: int, drop: int): seq<int>
  {
    if inversion != 0 || drop != 0 then ApplyVoicing(notes, inversion, drop) else notes
  }

  /** Revoicing keeps the pitch classes. */
  lemma VoicedPitchClasses(notes: seq<int>, inversion: int, drop: int)
    ensures PitchClasses(Voiced(notes, inversion, drop)) == PitchClasses(notes)
  {
    ApplyVoicingCorrect(notes, inversion, drop);
  }

  /** A built chord records its root, quality and degree and sounds that root and quality's pitch classes. */
  lemma DegreeChordCorrect(chordRoot: int, quality: string, degree: Option<int>, duration: real, inversion: int, drop: int)
    ensures var c := DegreeChord(chordRoot, quality, degree, duration, inversion, drop);
      && c.metadata.Some?
      && c.metadata.value.root == Some(chordRoot)
      && c.metadata.value.quality == Some(quality)
      && c.metadata.value.degree == degree
      && c.duration == duration
      && PitchClasses(c.notes) == PitchClasses(ChordNotes(chordRoot, quality))
      && (inversion == 0 && drop == 0 ==> c.notes == ChordNotes(chordRoot, quality))
  {
    VoicedPitchClasses(ChordNotes(chordRoot, quality), inversion, drop);
  }

  /** Any chord equal to a built one has the facts `DegreeChordCorrect` states. */
  lemma BuiltChordCorrect(c: Chord, chordRoot: int, quality: string, degree: Option<int>, duration: real, inversion: int, drop: int)
    requires c == DegreeChord(chordRoot, quality, degree, duration, inversion, drop)
    ensures && c.metadata.Some?
      && c.metadata.value.root == Some(chordRoot)
      && c.metadata.value.quality == Some(quality)
      && c.metadata.value.degree == degree
      && c.duration == duration
      && PitchClasses(c.notes) == PitchClasses(ChordNotes(chordRoot, quality))
      && (inversion == 0 && drop == 0 ==> c.notes == ChordNotes(chordRoot, quality))
  {
    DegreeChordCorrect(chordRoot, quality, degree, duration, inversion, drop);
  }

  /**
   Chord `i` built from a pattern stands on the root (60 by default) raised by the semitones of
   degree `i`, records that root, the pattern's quality for the degree and the degree's number,
   lasts the chosen duration, and sounds the pitch classes of that quality on that root; without
   an inversion or a drop its notes are the chord as spelled.
   */
  lemma ApplyFoundCorrect(p: Pattern, options: ApplyOptions, i: int, chordRoot: int)
    requires 0 <= i < |p.degrees|
    requires chordRoot == options.root.GetOr(60) + NormalizeDegree(p.degrees[i])
    ensures var c := ApplyFound(p, options)[i];
      && c.metadata.Some?
      && c.metadata.value.root == Some(chordRoot)
      && c.metadata.value.quality == Some(QualityAt(p, i))
      && c.metadata.value.degree == DegreeNumber(p.degrees[i])
      && c.duration == options.duration.GetOr(p.duration.GetOr(4.0))
      && PitchClasses(c.notes) == PitchClasses(ChordNotes(chordRoot, QualityAt(p, i)))
      && (options.inversion.GetOr(0) == 0 && options.drop.GetOr(0) == 0 ==> c.notes == ChordNotes(chordRoot, QualityAt(p, i)))
  {
    var quality, degree := QualityAt(p, i), DegreeNumber(p.degrees[i]);
    var duration, inversion, drop := options.duration.GetOr(p.duration.GetOr(4.0)), options.inversion.GetOr(0), options.drop.GetOr(0);
    assert ApplyFound(p, options)[i] == PatternChord(p, options, i);
    BuiltChordCorrect(ApplyFound(p, options)[i], chordRoot, quality, degree, duration, inversion, drop);
  }

  /**
   `applyPattern` on a found pattern yields one chord per degree, chord `i` as `ApplyFoundCorrect`
   describes it: on the root plus degree `i`'s semitones, with the pattern's quality for it.
   */
  lemma ApplyPatternCorrect(patternId: string, options: ApplyOptions, custom: seq<Pattern>, p: Pattern, i: int, chordRoot: int)
    requires FindPattern(patternId, custom) == Some(p)
    requires 0 <= i < |p.degrees|
    requires chordRoot == options.root.GetOr(60) + NormalizeDegree(p.degrees[i])
    ensures var r := ApplyPattern(patternId, options, custom);
      && r.Some? && |r.value| == |p.degrees|
      && r.value[i].metadata.Some?
      && r.value[i].metadata.value.root == Some(chordRoot)
      && r.value[i].metadata.value.quality == Some(QualityAt(p, i))
      && PitchClasses(r.value[i].notes) == PitchClasses(ChordNotes(chordRoot, QualityAt(p, i)))
  {
    ApplyFoundCorrect(p, options, i, chordRoot);
  }

  /**
   `saveCustomPattern`: `None` for an empty name or degree text, or fewer than two degrees; the
   id is "custom_" and the slug of the lower-cased name. `description` defaults to "" at the
   call site.
   */
  function SaveCustomPattern(name: string, degreeSequence: string, description: string): (r: Option<Pattern>)
    ensures r.Some? <==> name != "" && degreeSequence != "" && |Words(degreeSequence)| >= 2
  {
    if name == "" || degreeSequence == "" then None
    else
      var degrees := Words(degreeSequence);
      if |degrees| < 2 then None
      else
        Some(Pattern("custom_" + Slug(AsciiLower(name)), name, description, degrees, None,
          MapSeq(degrees, NormalizeDegree), Some(4.0), None, true))
  }

  /**
   A saved pattern keeps the degrees written (each a word of the text, in order), aligns one
   semitone with each degree, and has an id of "custom_" followed by a slug: letters, digits and
   single underscores, stable under slugging again.
   */
  lemma SaveCustomPatternCorrect(name: string, degreeSequence: string, description: string)
    requires SaveCustomPattern(name, degreeSequence, description).Some?
    ensures var p := SaveCustomPattern(name, degreeSequence, description).value;
      && p.degrees == Words(degreeSequence)
      && (forall k :: 0 <= k < |p.degrees| ==> IsWord(p.degrees[k]))
      && |p.semitones| == |p.degrees|
      && (forall k :: 0 <= k < |p.degrees| ==> p.semitones[k] == NormalizeDegree(p.degrees[k]))
      && StartsWith(p.id, "custom_")
      && SlugForm(p.id[7..])
      && Slug(p.id[7..]) == p.id[7..]
      && p.custom
  {
    WordsAreWords(degreeSequence);
    var slug := Slug(AsciiLower(name));
    SlugCorrect(AsciiLower(name));
    assert ("custom_" + slug)[7..] == slug;
  }

  /** Degrees written with single spaces are read back as written. */
  lemma SaveCustomPatternDegrees(name: string, degrees: seq<string>, description: string)
    requires name != "" && |degrees| >= 2
    requires forall k :: 0 <= k < |degrees| ==> IsWord(degrees[k])
    ensures SaveCustomPattern(name, Join(degrees, " "), description).Some?
    ensures SaveCustomPattern(name, Join(degrees, " "), description).value.degrees == degrees
  {
    WordsJoin(degrees);
  }

  // ---------------------------------------------------------------------------------------------
  // Transposition, analysis and validation
  // ---------------------------------------------------------------------------------------------

  /** One chord of `transposeProgression`: a root of 0 is falsy and becomes `undefined`. */
  function TransposeChord(c: Chord, semitones: int): (r: Chord)
    ensures |r.notes| == |c.notes| && r.duration == c.duration
    ensures forall i :: 0 <= i < |c.notes| ==> r.notes[i] == c.notes[i] + semitones
  {
    Chord(MapSeq(c.notes, x => x + semitones), c.duration,
      match c.metadata
      case None => None
      case Some(m) =>
        Some(m.(root := if m.root.Some? && m.root.value != 0 then Some(m.root.value + semitones) else None)))
  }

  /** `transposeProgression`. */
  function Transpose(p: Progression, semitones: int): (r: Progression)
    ensures |r| == |p|
    ensures forall i :: 0 <= i < |p| ==> r[i] == TransposeChord(p[i], semitones)
  {
    MapSeq(p, c => TransposeChord(c, semitones))
  }

  /** No metadata root reads 0, so transposing back cannot lose one. */
  predicate RootsSurvive(p: Progression, semitones: int)
  {
    forall i :: 0 <= i < |p| && p[i].metadata.Some? && p[i].metadata.value.root.Some? ==>
      p[i].metadata.value.root.value != 0 && p[i].metadata.value.root.value + semitones != 0
  }

  lemma {:induction false} TransposeDuration(p: Progression, semitones: int)
    ensures TotalDuration(Transpose(p, semitones)) == TotalDuration(p)
    decreases |p|
  {
    if |p| > 0 {
      var init := p[..|p| - 1];
      assert Transpose(p, semitones)[..|p| - 1] == Transpose(init, semitones);
      TransposeDuration(init, semitones);
    }
  }

  /** Transposing a chord back restores its notes, and the whole chord when its root survives. */
  lemma TransposeChordBack(c: Chord, semitones: int)
    ensures TransposeChord(TransposeChord(c, semitones), -semitones).notes == c.notes
    ensures (c.metadata.Some? && c.metadata.value.root.Some? ==>
               c.metadata.value.root.value != 0 && c.metadata.value.root.value + semitones != 0)
            ==> TransposeChord(TransposeChord(c, semitones), -semitones) == c
  {
    var back := TransposeChord(TransposeChord(c, semitones), -semitones);
    assert back.notes == c.notes;
  }

  /** Transposing back restores every chord's notes. */
  lemma TransposeBackNotes(p: Progression, semitones: int)
    ensures forall i :: 0 <= i < |p| ==> Transpose(Transpose(p, semitones), -semitones)[i].notes == p[i].notes
  {
    forall i | 0 <= i < |p|
      ensures Transpose(Transpose(p, semitones), -semitones)[i].notes == p[i].notes
    {
      TransposeChordBack(p[i], semitones);
    }
  }

  /** Transposing back restores the whole progression unless a root passes through 0. */
  lemma TransposeBack(p: Progression, semitones: int)
    requires RootsSurvive(p, semitones)
    ensures Transpose(Transpose(p, semitones), -semitones) == p
  {
    var back := Transpose(Transpose(p, semitones), -semitones);
    forall i | 0 <= i < |p|
      ensures back[i] == p[i]
    {
      TransposeChordBack(p[i], semitones);
    }
  }

  /** `${n} notes`. */
  function NoteCount(c: Chord): string
  {
    NatToString(|c.notes|) + " notes"
  }

  /** `analyzeChord`: name and voicing when the metadata has a truthy root and quality. */
  function AnalyzeChord(c: Chord): (r: string)
    ensures (c.metadata.None? || c.metadata.value.root.None? || c.metadata.value.root.value == 0
             || c.metadata.value.quality.None? || c.metadata.value.quality.value == "") ==> r == NoteCount(c)
  {
    match c.metadata
    case None => NoteCount(c)
    case Some(m) =>
      if m.root.None? || m.root.value == 0 || m.quality.None? || m.quality.value == "" then NoteCount(c)
      else
        ChordName(m.root.value, m.quality.value) + " - "
          + VoicingDescription(OrInt(m.inversion, 0), OrInt(m.drop, 0))
  }

  /** Moving a chord up an octave does not change its analysis. */
  lemma {:induction false} AnalyzeChordOctave(c: Chord)
    requires c.metadata.Some? && c.metadata.value.root.Some? && c.metadata.value.root.value > 0
    ensures AnalyzeChord(TransposeChord(c, 12)) == AnalyzeChord(c)
  {
    var m := c.metadata.value;
    var t := TransposeChord(c, 12);
    var tm := m.(root := Some(m.root.value + 12));
    assert t.metadata == Some(tm);
    if m.quality.Some? && m.quality.value != "" {
      ChordNameOctave(m.root.value, m.quality.value);
      assert AnalyzeChord(t) == ChordName(m.root.value + 12, m.quality.value) + " - "
        + VoicingDescription(OrInt(m.inversion, 0), OrInt(m.drop, 0));
    } else {
      assert NoteCount(t) == NoteCount(c);
    }
  }

  /** `progression.flatMap(chord => chord.notes)`. */
  function AllNotes(p: Progression): (r: seq<int>)
    ensures forall i, k :: 0 <= i < |p| && 0 <= k < |p[i].notes| ==> p[i].notes[k] in r
    ensures forall x :: x in r ==> exists i :: 0 <= i < |p| && x in p[i].notes
    decreases |p|
  {
    if |p| == 0 then [] else p[0].notes + AllNotes(p[1..])
  }

  function MinOf(s: seq<int>): (r: int)
    requires |s| > 0
    ensures r in s && forall x :: x in s ==> r <= x
  {
    if |s| == 1 then s[0]
    else
      assert s == [s[0]] + s[1..];
      Min(s[0], MinOf(s[1..]))
  }

  function MaxOf(s: seq<int>): (r: int)
    requires |s| > 0
    ensures r in s && forall x :: x in s ==> x <= r
  {
    if |s| == 1 then s[0]
    else
      assert s == [s[0]] + s[1..];
      Max(s[0], MaxOf(s[1..]))
  }

  /** `Chord ${n} has no notes`. */
  function NoNotesWarning(n: int): (r: string)
    ensures |r| > 1 && r[1] == 'h'
  {
    "Chord " + IntToString(n) + " has no notes"
  }

  /** `Chord ${n} has invalid duration`. */
  function BadDurationWarning(n: int): (r: string)
    ensures |r| > 1 && r[1] == 'h'
  {
    "Chord " + IntToString(n) + " has invalid duration"
  }

  /** The warnings of one chord numbered `n`. */
  function ChordWarning(c: Chord, n: int): (r: seq<string>)
    ensures r == [] <==> ChordSound(c)
    ensures forall w :: w in r ==> |w| > 1 && w[1] == 'h'
  {
    (if |c.notes| == 0 then [NoNotesWarning(n)] else [])
      + (if c.duration <= 0.0 then [BadDurationWarning(n)] else [])
  }

  /** The per-chord warnings, numbering chords from `first`. */
  function ChordWarnings(p: Progression, first: int): seq<string>
    decreases |p|
  {
    if |p| == 0 then [] else ChordWarning(p[0], first) + ChordWarnings(p[1..], first + 1)
  }

  const EmptyWarning := "Progression is empty"
  const LowWarning := "Contains notes below piano range (A0)"
  const HighWarning := "Contains notes above piano range (C8)"

  /**
   The range warnings for the notes of a non-empty progression. `Math.min()` of no notes is
   `Infinity` and `Math.max()` is `-Infinity`, so a progression without notes draws none.
   */
  function RangeWarnings(all: seq<int>): seq<string>
  {
    (if |all| > 0 && MinOf(all) < 21 then [LowWarning] else [])
      + (if |all| > 0 && MaxOf(all) > 108 then [HighWarning] else [])
  }

  /** `validateProgression`. */
  function ValidateProgression(p: Progression): (r: seq<string>)
    ensures |p| == 0 ==> r == [EmptyWarning]
  {
    if |p| == 0 then [EmptyWarning] else ChordWarnings(p, 1) + RangeWarnings(AllNotes(p))
  }

  /** A chord that draws no warning of its own. */
  predicate ChordSound(c: Chord)
  {
    |c.notes| > 0 && c.duration > 0.0
  }

  predicate AllSound(p: Progression)
  {
    forall i :: 0 <= i < |p| ==> ChordSound(p[i])
  }

  /** Every note lies between A0 (MIDI 21) and C8 (MIDI 108). */
  predicate InPianoRange(notes: seq<int>)
  {
    forall x :: x in notes ==> 21 <= x <= 108
  }

  /** The per-chord warnings are empty exactly when every chord is sound. */
  lemma {:induction false} ChordWarningsEmpty(p: Progression, first: int)
    ensures ChordWarnings(p, first) == [] <==> AllSound(p)
    decreases |p|
  {
    if |p| > 0 {
      ChordWarningsEmpty(p[1..], first + 1);
      if forall i :: 1 <= i < |p| ==> ChordSound(p[i]) {
        assert forall i :: 0 <= i < |p[1..]| ==> ChordSound(p[1..][i]);
      }
    }
  }

  /** Every per-chord warning reads `Ch...`, so none is a range warning. */
  lemma {:induction false} ChordWarningsShape(p: Progression, first: int)
    ensures forall w :: w in ChordWarnings(p, first) ==> |w| > 1 && w[1] == 'h'
    decreases |p|
  {
    if |p| > 0 {
      ChordWarningsShape(p[1..], first + 1);
    }
  }

  /** The low warning appears exactly when some note lies below A0 (MIDI 21). */
  lemma RangeWarningsLow(all: seq<int>)
    ensures LowWarning in RangeWarnings(all) <==> exists x :: x in all && x < 21
  {
    assert LowWarning[15] != HighWarning[15];
    if |all| > 0 {
      var lo := MinOf(all);
    }
  }

  /** The high warning appears exactly when some note lies above C8 (MIDI 108). */
  lemma RangeWarningsHigh(all: seq<int>)
    ensures HighWarning in RangeWarnings(all) <==> exists x :: x in all && x > 108
  {
    assert LowWarning[15] != HighWarning[15];
    if |all| > 0 {
      var hi := MaxOf(all);
    }
  }

  /** There is no range warning exactly when every note lies in 21..108. */
  lemma RangeWarningsEmpty(all: seq<int>)
    ensures RangeWarnings(all) == [] <==> InPianoRange(all)
  {
    if |all| > 0 {
      var lo := MinOf(all);
      var hi := MaxOf(all);
    }
  }

  /** Any message that is not shaped like a per-chord warning is found only among the range warnings. */
  lemma ValidateFinds(p: Progression, w: string)
    requires |p| > 0 && |w| > 1 && w[1] != 'h'
    ensures w in ValidateProgression(p) <==> w in RangeWarnings(AllNotes(p))
  {
    ChordWarningsShape(p, 1);
  }

  /** The low warning appears exactly when some note of the progression lies below 21. */
  lemma ValidateLow(p: Progression)
    requires |p| > 0
    ensures LowWarning in ValidateProgression(p) <==> exists x :: x in AllNotes(p) && x < 21
  {
    ValidateFinds(p, LowWarning);
    RangeWarningsLow(AllNotes(p));
  }

  /** The high warning appears exactly when some note of the progression lies above 108. */
  lemma ValidateHigh(p: Progression)
    requires |p| > 0
    ensures HighWarning in ValidateProgression(p) <==> exists x :: x in AllNotes(p) && x > 108
  {
    ValidateFinds(p, HighWarning);
    RangeWarningsHigh(AllNotes(p));
  }

  /**
   A non-empty progression validates clean exactly when every chord has notes and a positive
   duration and every note lies in the piano range 21..108.
   */
  lemma ValidateClean(p: Progression)
    requires |p| > 0
    ensures ValidateProgression(p) == [] <==> AllSound(p) && InPianoRange(AllNotes(p))
  {
    var chord := ChordWarnings(p, 1);
    var range := RangeWarnings(AllNotes(p));
    assert ValidateProgression(p) == chord + range;
    assert |chord + range| == |chord| + |range|;
    ChordWarningsEmpty(p, 1);
    RangeWarningsEmpty(AllNotes(p));
  }
}

=== FILE: progression_store.dfy ===
/**
 The song store of src/stores/progressionStore.ts as a state record and one transition function per
 action. Every action keeps the store's invariant `Valid` (at least one section, and the current
 index pointing at one of them), which the initial state establishes.
 */
module ProgressionStore {
  import opened Common
  import opened Text
  import opened Sorting
  import opened Song
  import opened MusicTheory
  import opened ProgressionManager

  /** `ProgressionSnapshot.metadata`. */
  datatype SnapshotMeta = SnapshotMeta(savedAt: int, tags: Option<seq<string>>, tempo: Option<real>, key: Option<string>)

  /** `Partial<ProgressionSnapshot["metadata"]>`: an absent field is a key the object does not have. */
  datatype PartialMeta = PartialMeta(savedAt: Option<int>, tags: Option<seq<string>>, tempo: Option<real>, key: Option<string>)

  datatype Snapshot = Snapshot(name: string, progression: Progression, metadata: SnapshotMeta)

  datatype State = State(
    keyRoot: int,
    mode: Mode,
    selectedSlot: Option<int>,
    sections: seq<Section>,
    currentSectionIndex: int,
    customPatterns: seq<Pattern>,
    savedProgressions: map<string, Snapshot>)

  /** The store's invariant: there is a section and the current index selects one. */
  predicate Valid(s: State)
  {
    |s.sections| > 0 && 0 <= s.currentSectionIndex < |s.sections|
  }

  /** `createEmptySection`; the random UUID is a parameter. */
  function EmptySection(id: string, name: string): (r: Section)
    ensures r.id == id && r.name == name && r.progression == []
    ensures r.repeats == Some(1) && r.beatsPerBar == Some(4)
  {
    Section(id, name, [], Some(1), Some(4), None, [], TransitionConfig(NoTransition, 2.0))
  }

  /**
   `initialState`: key C (60), Ionian, no slot, one empty "Section 1". progressionStore.ts builds it once, so
   `reset` restores the very same first section id; `firstId` is that id.
   */
  function Initial(firstId: string): (r: State)
    ensures Valid(r) && r.currentSectionIndex == 0 && |r.sections| == 1
    ensures r.sections[0].name == "Section 1" && r.sections[0].progression == []
    ensures r.keyRoot == 60 && r.customPatterns == [] && r.savedProgressions == map[]
  {
    State(60, Ionian, None, [EmptySection(firstId, "Section 1")], 0, [], map[])
  }

  /** `reset`: back to the initial state, whatever the current one. */
  function Reset(s: State, firstId: string): (r: State)
    ensures Valid(r) && r == Initial(firstId)
  {
    Initial(firstId)
  }

  // ---------------------------------------------------------------------------------------------
  // Key, mode and slot
  // ---------------------------------------------------------------------------------------------

  function SetKeyRoot(s: State, root: int): (r: State)
    requires Valid(s)
    ensures Valid(r) && r.keyRoot == root
    ensures r.sections == s.sections && r.currentSectionIndex == s.currentSectionIndex
    ensures r.(keyRoot := s.keyRoot) == s  // every other field is kept
  {
    s.(keyRoot := root)
  }

  function SetMode(s: State, mode: Mode): (r: State)
    requires Valid(s)
    ensures Valid(r) && r.mode == mode
    ensures r.sections == s.sections && r.currentSectionIndex == s.currentSectionIndex
    ensures r.(mode := s.mode) == s  // every other field is kept
  {
    s.(mode := mode)
  }

  function SelectSlot(s: State, index: Option<int>): (r: State)
    requires Valid(s)
    ensures Valid(r) && r.selectedSlot == index
    ensures r.sections == s.sections && r.currentSectionIndex == s.currentSectionIndex
    ensures r.(selectedSlot := s.selectedSlot) == s  // every other field is kept
  {
    s.(selectedSlot := index)
  }

  // ---------------------------------------------------------------------------------------------
  // Sections
  // ---------------------------------------------------------------------------------------------

  /** `getCurrentSection`; under the invariant the `|| sections[0]` fallback never fires. */
  function CurrentSection(s: State): (r: Section)
    requires Valid(s)
    ensures r in s.sections
  {
    s.sections[s.currentSectionIndex]
  }

  /** `loadSection`: an index outside the section list is ignored. */
  function LoadSection(s: State, index: int): (r: State)
    requires Valid(s)
    ensures Valid(r) && r.sections == s.sections
    ensures 0 <= index < |s.sections| ==> r.currentSectionIndex == index
    ensures !(0 <= index < |s.sections|) ==> r == s
    ensures r.(currentSectionIndex := s.currentSectionIndex) == s  // only the index may change
  {
    if 0 <= index < |s.sections| then s.(currentSectionIndex := index) else s
  }

  /** `updateCurrentSection`: the cloned section replaces the current one. */
  function UpdateCurrentSection(s: State, section: Section): (r: State)
    requires Valid(s)
    ensures Valid(r) && r.currentSectionIndex == s.currentSectionIndex
    ensures |r.sections| == |s.sections|
    ensures r.sections[s.currentSectionIndex] == CloneSection(section)
    ensures forall i :: 0 <= i < |s.sections| && i != s.currentSectionIndex ==> r.sections[i] == s.sections[i]
    ensures r.customPatterns == s.customPatterns && r.savedProgressions == s.savedProgressions
    ensures r.(sections := s.sections) == s  // only the sections change
  {
    s.(sections := s.sections[s.currentSectionIndex := CloneSection(section)])
  }

  /** `moveSection`: the new index is clamped into the section list. */
  function MoveSection(s: State, offset: int): (r: State)
    requires Valid(s)
    ensures Valid(r) && r.sections == s.sections
    ensures r.currentSectionIndex == Clamp(s.currentSectionIndex + offset, 0, |s.sections| - 1)
    ensures r.(currentSectionIndex := s.currentSectionIndex) == s  // only the index changes
  {
    s.(currentSectionIndex := Max(0, Min(|s.sections| - 1, s.currentSectionIndex + offset)))
  }

  /** The name `createSection` gives: the argument unless it is absent or empty. */
  function NewSectionName(name: Option<string>, count: int): (r: string)
    ensures name.Some? && name.value != "" ==> r == name.value
    ensures (name.None? || name.value == "") ==> r == "Section " + IntToString(count + 1)
  {
    if name.Some? && name.value != "" then name.value else "Section " + IntToString(count + 1)
  }

  /** `createSection`: appends an empty section and makes it current. */
  function CreateSection(s: State, name: Option<string>, id: string): (r: State)
    requires Valid(s)
    ensures Valid(r)
    ensures r.sections == s.sections + [EmptySection(id, NewSectionName(name, |s.sections|))]
    ensures r.currentSectionIndex == |s.sections|
    ensures r.(sections := s.sections, currentSectionIndex := s.currentSectionIndex) == s  // nothing else changes
  {
    s.(sections := s.sections + [EmptySection(id, NewSectionName(name, |s.sections|))],
       currentSectionIndex := |s.sections|)
  }

  /** `xs.filter((_, i) => i !== index)`. */
  function RemoveIndex<T>(xs: seq<T>, index: int): (r: seq<T>)
    ensures 0 <= index < |xs| ==> |r| == |xs| - 1
    ensures !(0 <= index < |xs|) ==> r == xs
    ensures 0 <= index < |xs| ==> forall i :: 0 <= i < |r| ==> r[i] == (if i < index then xs[i] else xs[i + 1])
  {
    if 0 <= index < |xs| then xs[..index] + xs[index + 1..] else xs
  }

  /**
   `deleteSection`: refused while only one section is left; otherwise that index is removed and the
   current index is pulled back into range (it is not shifted when an earlier section goes).
   */
  function DeleteSection(s: State, index: int): (r: State)
    requires Valid(s)
    ensures Valid(r)
    ensures |s.sections| <= 1 ==> r == s
    ensures |s.sections| > 1 ==> r.sections == RemoveIndex(s.sections, index)
    ensures |s.sections| > 1 && s.currentSectionIndex < |r.sections| ==> r.currentSectionIndex == s.currentSectionIndex
    ensures |s.sections| > 1 && s.currentSectionIndex >= |r.sections| ==> r.currentSectionIndex == |r.sections| - 1
    ensures r.(sections := s.sections, currentSectionIndex := s.currentSectionIndex) == s  // nothing else changes
  {
    if |s.sections| <= 1 then s
    else
      var remaining := RemoveIndex(s.sections, index);
      s.(sections := remaining,
         currentSectionIndex := if s.currentSectionIndex >= |remaining| then |remaining| - 1 else s.currentSectionIndex)
  }

  /** `renameSection`: a plain field update, without the normalising clone. */
  function RenameSection(s: State, name: string): (r: State)
    requires Valid(s)
    ensures Valid(r) && |r.sections| == |s.sections| && r.currentSectionIndex == s.currentSectionIndex
    ensures r.sections[s.currentSectionIndex] == CurrentSection(s).(name := name)
    ensures forall i :: 0 <= i < |s.sections| && i != s.currentSectionIndex ==> r.sections[i] == s.sections[i]
    ensures r.(sections := s.sections) == s  // key, mode, slot, patterns and saved progressions are kept
  {
    s.(sections := s.sections[s.currentSectionIndex := CurrentSection(s).(name := name)])
  }

  // ---------------------------------------------------------------------------------------------
  // Chords of the current section
  // ---------------------------------------------------------------------------------------------

  /** Every chord action: the current section with a new progression, through `updateCurrentSection`. */
  function WithProgression(s: State, p: Progression): (r: State)
    requires Valid(s)
    ensures Valid(r)
  {
    UpdateCurrentSection(s, CurrentSection(s).(progression := p))
  }

  /** The current section's progression. */
  function CurrentProgression(s: State): Progression
    requires Valid(s)
  {
    CurrentSection(s).progression
  }

  function AddChord(s: State, chord: Chord): (r: State)
    requires Valid(s)
    ensures Valid(r)
  {
    WithProgression(s, CurrentProgression(s) + [chord])
  }

  function RemoveChord(s: State, index: int): (r: State)
    requires Valid(s)
    ensures Valid(r)
  {
    WithProgression(s, RemoveIndex(CurrentProgression(s), index))
  }

  /**
   `newProgression[index] = chord`: replaces an existing chord or, at one past the end, appends.
   A negative index writes a non-element property and leaves the chords alone.
   */
  function UpdateChord(s: State, index: int, chord: Chord): (r: State)
    requires Valid(s) && index <= |CurrentProgression(s)|
    ensures Valid(r)
  {
    var p := CurrentProgression(s);
    WithProgression(s,
      if index < 0 then p
      else if index < |p| then p[index := chord]
      else p + [chord])
  }

  /** Where `splice(index, 0, x)` inserts: negative counts from the end, both ends clamp. */
  function SpliceIndex(index: int, length: int): (r: int)
    requires length >= 0
    ensures 0 <= r <= length
    ensures 0 <= index <= length ==> r == index
  {
    if index < 0 then Max(length + index, 0) else Min(index, length)
  }

  function InsertAt<T>(xs: seq<T>, index: int, x: T): (r: seq<T>)
    ensures |r| == |xs| + 1
    ensures r[SpliceIndex(index, |xs|)] == x
    ensures r[..SpliceIndex(index, |xs|)] == xs[..SpliceIndex(index, |xs|)]
    ensures r[SpliceIndex(index, |xs|) + 1..] == xs[SpliceIndex(index, |xs|)..]
  {
    var k := SpliceIndex(index, |xs|);
    xs[..k] + [x] + xs[k..]
  }

  function InsertChord(s: State, index: int, chord: Chord): (r: State)
    requires Valid(s)
    ensures Valid(r)
  {
    WithProgression(s, InsertAt(CurrentProgression(s), index, chord))
  }

  function ClearProgression(s: State): (r: State)
    requires Valid(s)
    ensures Valid(r) && CurrentProgression(r) == []
  {
    WithProgression(s, [])
  }

  /** `setProgression`; `cloneProgression` copies values, so the chords are the given ones. */
  function SetProgression(s: State, p: Progression): (r: State)
    requires Valid(s)
    ensures Valid(r) && CurrentProgression(r) == p
  {
    WithProgression(s, p)
  }

  /**
   A chord action changes the current section's progression to `p`, normalises its repeat count and
   metre, and touches nothing else.
   */
  lemma WithProgressionEffect(s: State, p: Progression)
    requires Valid(s)
    ensures |WithProgression(s, p).sections| == |s.sections|
    ensures WithProgression(s, p).currentSectionIndex == s.currentSectionIndex
    ensures CurrentProgression(WithProgression(s, p)) == p
    ensures CurrentSection(WithProgression(s, p)) == CloneSection(CurrentSection(s)).(progression := p)
    ensures forall i :: 0 <= i < |s.sections| && i != s.currentSectionIndex ==>
      WithProgression(s, p).sections[i] == s.sections[i]
    ensures WithProgression(s, p).customPatterns == s.customPatterns
    ensures WithProgression(s, p).savedProgressions == s.savedProgressions
    ensures WithProgression(s, p).(sections := s.sections) == s  // key, mode, slot and index are kept too
  {
  }

  /** `addChord` appends to the current section only. */
  lemma AddChordAppends(s: State, chord: Chord)
    requires Valid(s)
    ensures CurrentProgression(AddChord(s, chord)) == CurrentProgression(s) + [chord]
    ensures |AddChord(s, chord).sections| == |s.sections|
    ensures forall i :: 0 <= i < |s.sections| && i != s.currentSectionIndex ==>
      AddChord(s, chord).sections[i] == s.sections[i]
  {
    WithProgressionEffect(s, CurrentProgression(s) + [chord]);
  }

  /** An index in range: `removeChord` deletes exactly that chord. */
  lemma RemoveChordDeletes(s: State, index: int)
    requires Valid(s) && 0 <= index < |CurrentProgression(s)|
    ensures CurrentProgression(RemoveChord(s, index)) ==
      CurrentProgression(s)[..index] + CurrentProgression(s)[index + 1..]
  {
  }

  /** An index out of range: `removeChord` leaves the chords as they were. */
  lemma RemoveChordOutOfRange(s: State, index: int)
    requires Valid(s) && !(0 <= index < |CurrentProgression(s)|)
    ensures CurrentProgression(RemoveChord(s, index)) == CurrentProgression(s)
  {
  }

  /** An index in range: `insertChord` puts the chord at that position and shifts the rest right. */
  lemma InsertChordPlaces(s: State, index: int, chord: Chord)
    requires Valid(s) && 0 <= index <= |CurrentProgression(s)|
    ensures CurrentProgression(InsertChord(s, index, chord)) ==
      CurrentProgression(s)[..index] + [chord] + CurrentProgression(s)[index..]
  {
  }

  /** Removing the chord just inserted gives the progression back. */
  lemma RemoveAfterInsert(s: State, index: int, chord: Chord)
    requires Valid(s) && 0 <= index <= |CurrentProgression(s)|
    ensures CurrentProgression(RemoveChord(InsertChord(s, index, chord), index)) == CurrentProgression(s)
  {
    var p := CurrentProgression(s);
    var q := CurrentProgression(InsertChord(s, index, chord));
    assert q == p[..index] + [chord] + p[index..];
    assert q[..index] + q[index + 1..] == p;
  }

  /** `updateChord` inside the progression replaces exactly one chord. */
  lemma UpdateChordReplaces(s: State, index: int, chord: Chord)
    requires Valid(s) && 0 <= index < |CurrentProgression(s)|
    ensures |CurrentProgression(UpdateChord(s, index, chord))| == |CurrentProgression(s)|
    ensures CurrentProgression(UpdateChord(s, index, chord))[index] == chord
    ensures forall j :: 0 <= j < |CurrentProgression(s)| && j != index ==>
      CurrentProgression(UpdateChord(s, index, chord))[j] == CurrentProgression(s)[j]
  {
  }

  // ---------------------------------------------------------------------------------------------
  // Custom patterns
  // ---------------------------------------------------------------------------------------------

  /** No two custom patterns share an id. */
  predicate UniqueIds(ps: seq<Pattern>)
  {
    forall i, j :: 0 <= i < j < |ps| ==> ps[i].id != ps[j].id
  }

  predicate HasId(ps: seq<Pattern>, id: string)
  {
    exists i :: 0 <= i < |ps| && ps[i].id == id
  }

  /** `ps.map(p => p.id === x.id ? x : p)`. */
  function ReplaceById(ps: seq<Pattern>, x: Pattern): (r: seq<Pattern>)
    ensures |r| == |ps|
    ensures forall i :: 0 <= i < |ps| ==> r[i] == (if ps[i].id == x.id then x else ps[i])
  {
    seq(|ps|, i requires 0 <= i < |ps| => if ps[i].id == x.id then x else ps[i])
  }

  /** `addCustomPattern`: replaces the patterns with the same id, else appends. */
  function AddCustomPattern(s: State, pattern: Pattern): (r: State)
    requires Valid(s)
    ensures Valid(r) && r.sections == s.sections
    ensures HasId(s.customPatterns, pattern.id) ==> r.customPatterns == ReplaceById(s.customPatterns, pattern)
    ensures !HasId(s.customPatterns, pattern.id) ==> r.customPatterns == s.customPatterns + [pattern]
    ensures r.(customPatterns := s.customPatterns) == s  // only the patterns change
  {
    if HasId(s.customPatterns, pattern.id) then s.(customPatterns := ReplaceById(s.customPatterns, pattern))
    else s.(customPatterns := s.customPatterns + [pattern])
  }

  /** `removeCustomPattern`: `filter(p => p.id !== patternId)`. */
  function RemoveById(ps: seq<Pattern>, id: string): (r: seq<Pattern>)
  {
    if |ps| == 0 then []
    else RemoveById(ps[..|ps| - 1], id) + (if ps[|ps| - 1].id == id then [] else [ps[|ps| - 1]])
  }

  function RemoveCustomPattern(s: State, patternId: string): (r: State)
    requires Valid(s)
    ensures Valid(r) && r.sections == s.sections
    ensures r.customPatterns == RemoveById(s.customPatterns, patternId)
    ensures r.(customPatterns := s.customPatterns) == s  // only the patterns change
  {
    s.(customPatterns := RemoveById(s.customPatterns, patternId))
  }

  /** After `addCustomPattern` the ids are still unique and the pattern is stored exactly once. */
  lemma AddCustomPatternUnique(s: State, pattern: Pattern)
    requires Valid(s) && UniqueIds(s.customPatterns)
    ensures UniqueIds(AddCustomPattern(s, pattern).customPatterns)
    ensures pattern in AddCustomPattern(s, pattern).customPatterns
    ensures |AddCustomPattern(s, pattern).customPatterns| ==
      |s.customPatterns| + (if HasId(s.customPatterns, pattern.id) then 0 else 1)
  {
    var ps := s.customPatterns;
    if HasId(ps, pattern.id) {
      var k :| 0 <= k < |ps| && ps[k].id == pattern.id;
      assert ReplaceById(ps, pattern)[k] == pattern;
    } else {
      var r := ps + [pattern];
      forall i, j | 0 <= i < j < |r|
        ensures r[i].id != r[j].id
      {
        if j == |ps| {
          assert r[i] == ps[i];
        }
      }
    }
  }

  /** What `removeCustomPattern` keeps: exactly the patterns with another id, in order. */
  lemma {:induction false} RemoveByCorrect(ps: seq<Pattern>, id: string)
    ensures forall q :: q in RemoveById(ps, id) <==> q in ps && q.id != id
    ensures |RemoveById(ps, id)| <= |ps|
    ensures !HasId(ps, id) ==> RemoveById(ps, id) == ps
    decreases |ps|
  {
    if |ps| > 0 {
      var init := ps[..|ps| - 1];
      RemoveByCorrect(init, id);
      assert ps == init + [ps[|ps| - 1]];
      if !HasId(ps, id) {
        forall k | 0 <= k < |init|
          ensures init[k].id != id
        {
          assert init[k] == ps[k];
        }
      }
    }
  }

  /** Removing by id filters each part of a concatenation, so the kept patterns stay in order. */
  lemma {:induction false} RemoveByIdAppend(a: seq<Pattern>, b: seq<Pattern>, id: string)
    ensures RemoveById(a + b, id) == RemoveById(a, id) + RemoveById(b, id)
    decreases |b|
  {
    if |b| == 0 {
      assert a + b == a;
    } else {
      var init := b[..|b| - 1];
      assert (a + b)[..|a + b| - 1] == a + init;
      assert (a + b)[|a + b| - 1] == b[|b| - 1];
      RemoveByIdAppend(a, init, id);
    }
  }

  /** A single pattern is kept exactly when it has another id. */
  lemma RemoveByIdSingle(q: Pattern, id: string)
    ensures RemoveById([q], id) == if q.id == id then [] else [q]
  {
    assert [q][..0] == [];
  }

  /** Adding a pattern and removing its id leaves no pattern with that id; the others survive. */
  lemma RemoveAfterAdd(s: State, pattern: Pattern)
    requires Valid(s)
    ensures !HasId(RemoveCustomPattern(AddCustomPattern(s, pattern), pattern.id).customPatterns, pattern.id)
    ensures forall q :: q in s.customPatterns && q.id != pattern.id ==>
      q in RemoveCustomPattern(AddCustomPattern(s, pattern), pattern.id).customPatterns
  {
    var added := AddCustomPattern(s, pattern).customPatterns;
    var removed := RemoveById(added, pattern.id);
    RemoveByCorrect(added, pattern.id);
    forall k | 0 <= k < |removed|
      ensures removed[k].id != pattern.id
    {
      assert removed[k] in removed;
    }
    forall q | q in s.customPatterns && q.id != pattern.id
      ensures q in removed
    {
      var k :| 0 <= k < |s.customPatterns| && s.customPatterns[k] == q;
      if HasId(s.customPatterns, pattern.id) {
        assert added[k] == q;
      } else {
        assert added[k] == q;
      }
    }
  }

  /** `getAllPatterns`. */
  function AllPatterns(s: State): (r: seq<Pattern>)
    ensures r == PatternDefinitions(s.customPatterns)
    ensures r[|DefaultPatterns|..] == s.customPatterns
  {
    PatternDefinitions(s.customPatterns)
  }

  /** `applyPatternToSection`: an unknown pattern leaves the store unchanged. */
  function ApplyPatternToSection(s: State, patternId: string, root: int): (r: State)
    requires Valid(s)
    ensures Valid(r)
    ensures ApplyPattern(patternId, ApplyOptions(Some(root), None, None, None), s.customPatterns).None? ==> r == s
    ensures ApplyPattern(patternId, ApplyOptions(Some(root), None, None, None), s.customPatterns).Some? ==>
      CurrentProgression(r) == ApplyPattern(patternId, ApplyOptions(Some(root), None, None, None), s.customPatterns).value
  {
    match ApplyPattern(patternId, ApplyOptions(Some(root), None, None, None), s.customPatterns)
    case None => s
    case Some(p) => SetProgression(s, p)
  }

  // ---------------------------------------------------------------------------------------------
  // Saved progressions
  // ---------------------------------------------------------------------------------------------

  /** `createProgressionSnapshot`: `{ savedAt: now, ...metadata }`, so a given `savedAt` wins. */
  function CreateSnapshot(name: string, p: Progression, metadata: PartialMeta, now: int): (r: Snapshot)
    ensures r.name == name && r.progression == p
    ensures r.metadata.savedAt == (if metadata.savedAt.Some? then metadata.savedAt.value else now)
    ensures r.metadata.tags == metadata.tags && r.metadata.tempo == metadata.tempo && r.metadata.key == metadata.key
  {
    Snapshot(name, p, SnapshotMeta(metadata.savedAt.GetOr(now), metadata.tags, metadata.tempo, metadata.key))
  }

  /** `saveProgression`: a map insert keyed by name; `now` is `Date.now()`. */
  function SaveProgression(s: State, name: string, metadata: PartialMeta, now: int): (r: State)
    requires Valid(s)
    ensures Valid(r) && r.sections == s.sections
    ensures name in r.savedProgressions && r.savedProgressions[name].progression == CurrentProgression(s)
    ensures r.savedProgressions.Keys == s.savedProgressions.Keys + {name}
    ensures forall k :: k in s.savedProgressions && k != name ==> r.savedProgressions[k] == s.savedProgressions[k]
    ensures r.(savedProgressions := s.savedProgressions) == s  // only the saved snapshots change
  {
    s.(savedProgressions := s.savedProgressions[name := CreateSnapshot(name, CurrentProgression(s), metadata, now)])
  }

  /** `loadProgression`: an unknown name leaves the store unchanged. */
  function LoadProgression(s: State, name: string): (r: State)
    requires Valid(s)
    ensures Valid(r)
    ensures name !in s.savedProgressions ==> r == s
    ensures name in s.savedProgressions ==> CurrentProgression(r) == s.savedProgressions[name].progression
    ensures r.(sections := s.sections) == s  // only the sections change
  {
    if name in s.savedProgressions then SetProgression(s, s.savedProgressions[name].progression) else s
  }

  /** `deleteProgression`: a map remove keyed by name. */
  function DeleteProgression(s: State, name: string): (r: State)
    requires Valid(s)
    ensures Valid(r) && r.sections == s.sections
    ensures r.savedProgressions.Keys == s.savedProgressions.Keys - {name}
    ensures forall k :: k in r.savedProgressions ==> r.savedProgressions[k] == s.savedProgressions[k]
    ensures r.(savedProgressions := s.savedProgressions) == s  // only the saved snapshots change
  {
    s.(savedProgressions := s.savedProgressions - {name})
  }

  /** Saving and then loading the same name restores the progression that was saved. */
  lemma LoadAfterSave(s: State, name: string, metadata: PartialMeta, now: int, t: State)
    requires Valid(s) && Valid(t)
    requires t.savedProgressions == SaveProgression(s, name, metadata, now).savedProgressions
    ensures CurrentProgression(LoadProgression(t, name)) == CurrentProgression(s)
  {
  }

  /** Saving and then deleting the same name leaves the other saved progressions as they were. */
  lemma DeleteAfterSave(s: State, name: string, metadata: PartialMeta, now: int)
    requires Valid(s)
    ensures DeleteProgression(SaveProgression(s, name, metadata, now), name).savedProgressions ==
      s.savedProgressions - {name}
  {
  }

  /** `getSavedProgressionNames`: each saved name once, in ascending order. */
  method SavedProgressionNames(s: State) returns (names: seq<string>)
    ensures StrictlySortedStrings(names)
    ensures forall k :: k in names <==> k in s.savedProgressions
  {
    names := SortedKeys(s.savedProgressions);
  }
}

=== FILE: routing_store.dfy ===
/**
 The routing settings store of src/stores/routingStore.ts: which output adapter each route uses,
 the MIDI output channel and the per-mode default channels (clamped to 1..16), the last MIDI
 signal and a bounded, newest-first history of connection events. The clock and the random part
 of event ids are parameters.
 */
module RoutingStore {
  import opened Common
  import opened Text
  import opened Song
  import opened OutputAdapters

  datatype RoutingKey = OscOutRoute | MidiOutRoute | JsonExportRoute | MidiExportRoute

  datatype ConnectionEvent = ConnectionEvent(id: string, at: int, source: string, message: string)

  datatype RoutingState = RoutingState(
    oscOutRoute: string,
    midiOutRoute: string,
    jsonExportRoute: string,
    midiExportRoute: string,
    midiOutDeviceId: Option<string>,
    midiOutChannel: int,
    modeDefaultChannels: map<ModeId, int>,
    midiOutPulseAt: int,
    midiLastSignal: string,
    midiLastSignalAt: int,
    connectionEvents: seq<ConnectionEvent>,
    showHeaderConnectionCards: bool)

  const Defaults := RoutingState(
    "live-osc", "webmidi-out", "json-file", "midi-file", None, 1,
    map[Harmony := 1, Drum := 10, Other := 2], 0, "idle", 0, [], true)

  /** How many connection events the history keeps. */
  const MaxEvents := 40

  function Route(st: RoutingState, key: RoutingKey): string
  {
    match key
    case OscOutRoute => st.oscOutRoute
    case MidiOutRoute => st.midiOutRoute
    case JsonExportRoute => st.jsonExportRoute
    case MidiExportRoute => st.midiExportRoute
  }

  // ---------------------------------------------------------------------------------------------
  // Routes
  // ---------------------------------------------------------------------------------------------

  /** The state with one route replaced. */
  function WithRoute(st: RoutingState, key: RoutingKey, routeId: string): (r: RoutingState)
    ensures Route(r, key) == routeId
    ensures forall k :: k != key ==> Route(r, k) == Route(st, k)
    ensures r.midiOutChannel == st.midiOutChannel && r.modeDefaultChannels == st.modeDefaultChannels
    ensures r.connectionEvents == st.connectionEvents
    ensures r.(oscOutRoute := st.oscOutRoute, midiOutRoute := st.midiOutRoute,
               jsonExportRoute := st.jsonExportRoute, midiExportRoute := st.midiExportRoute) == st  // only routes change
  {
    match key
    case OscOutRoute => st.(oscOutRoute := routeId)
    case MidiOutRoute => st.(midiOutRoute := routeId)
    case JsonExportRoute => st.(jsonExportRoute := routeId)
    case MidiExportRoute => st.(midiExportRoute := routeId)
  }

  /** `setRoute`: an id the adapter table does not know leaves the state as it was. */
  function SetRoute(st: RoutingState, key: RoutingKey, routeId: string): (r: RoutingState)
    ensures GetAdapterById(routeId).None? ==> r == st
    ensures GetAdapterById(routeId).Some? ==> r == WithRoute(st, key, routeId)
  {
    if GetAdapterById(routeId).None? then st else WithRoute(st, key, routeId)
  }

  /** Every route names an adapter of the table. */
  ghost predicate RoutesKnown(st: RoutingState)
  {
    GetAdapterById(st.oscOutRoute).Some? && GetAdapterById(st.midiOutRoute).Some? &&
    GetAdapterById(st.jsonExportRoute).Some? && GetAdapterById(st.midiExportRoute).Some?
  }

  lemma DefaultsKnown()
    ensures RoutesKnown(Defaults)
  {
    GetAdapterOwnId(0);
    GetAdapterOwnId(1);
    GetAdapterOwnId(2);
    GetAdapterOwnId(3);
  }

  /** Routes only ever move from one known adapter to another. */
  lemma SetRouteKeepsKnown(st: RoutingState, key: RoutingKey, routeId: string)
    requires RoutesKnown(st)
    ensures RoutesKnown(SetRoute(st, key, routeId))
  {
  }

  // ---------------------------------------------------------------------------------------------
  // Channels
  // ---------------------------------------------------------------------------------------------

  /** `Math.max(1, Math.min(16, Math.floor(channel || 1)))`: 0 counts as absent and becomes 1. */
  function SafeChannel(channel: real): (r: int)
    ensures 1 <= r <= 16
    ensures 1.0 <= channel < 17.0 ==> r == channel.Floor
    ensures channel < 1.0 ==> r == 1
    ensures channel >= 16.0 ==> r == 16
  {
    Clamp((if channel != 0.0 then channel else 1.0).Floor, 1, 16)
  }

  /** The channels the routing tests check. */
  lemma SafeChannelExamples()
    ensures SafeChannel(0.0) == 1 && SafeChannel(99.0) == 16 && SafeChannel(12.0) == 12
  {
  }

  /** `setMidiOutChannel`. */
  function SetMidiOutChannel(st: RoutingState, channel: real): (r: RoutingState)
    ensures r.midiOutChannel == SafeChannel(channel)
    ensures r.modeDefaultChannels == st.modeDefaultChannels && r.connectionEvents == st.connectionEvents
    ensures r.(midiOutChannel := st.midiOutChannel) == st  // every other field is kept
  {
    st.(midiOutChannel := SafeChannel(channel))
  }

  /** `setModeDefaultChannel`: the given mode's channel, clamped; the other modes keep theirs. */
  function SetModeDefaultChannel(st: RoutingState, mode: ModeId, channel: real): (r: RoutingState)
    ensures mode in r.modeDefaultChannels && r.modeDefaultChannels[mode] == SafeChannel(channel)
    ensures forall m :: m != mode ==> (m in r.modeDefaultChannels <==> m in st.modeDefaultChannels)
    ensures forall m :: m != mode && m in st.modeDefaultChannels ==> r.modeDefaultChannels[m] == st.modeDefaultChannels[m]
    ensures r.midiOutChannel == st.midiOutChannel
    ensures r.(modeDefaultChannels := st.modeDefaultChannels) == st  // every other field is kept
  {
    st.(modeDefaultChannels := st.modeDefaultChannels[mode := SafeChannel(channel)])
  }

  /** Every channel in the store is a MIDI channel 1..16. */
  ghost predicate ChannelsValid(st: RoutingState)
  {
    1 <= st.midiOutChannel <= 16 && forall m :: m in st.modeDefaultChannels ==> 1 <= st.modeDefaultChannels[m] <= 16
  }

  lemma ChannelsStayValid(st: RoutingState, key: RoutingKey, routeId: string, mode: ModeId, channel: real)
    requires ChannelsValid(st)
    ensures ChannelsValid(Defaults)
    ensures ChannelsValid(SetMidiOutChannel(st, channel)) && ChannelsValid(SetModeDefaultChannel(st, mode, channel))
    ensures ChannelsValid(SetRoute(st, key, routeId))
  {
  }

  // ---------------------------------------------------------------------------------------------
  // Signals and the connection history
  // ---------------------------------------------------------------------------------------------

  /** `evt-<now>-<random>`: the random base-36 part is a parameter. */
  function EventId(now: int, token: string): string
  {
    "evt-" + IntToString(now) + "-" + token
  }

  /** The newest `MaxEvents` of a history. */
  function Cap(events: seq<ConnectionEvent>): (r: seq<ConnectionEvent>)
    ensures |r| == Min(MaxEvents, |events|) && r == events[..|r|]
  {
    events[..Min(MaxEvents, |events|)]
  }

  /** `[event, ...events].slice(0, 40)`. */
  function Push(events: seq<ConnectionEvent>, e: ConnectionEvent): (r: seq<ConnectionEvent>)
    ensures |r| == Min(MaxEvents, |events| + 1) && r[0] == e
    ensures r[1..] == events[..|r| - 1]
  {
    Cap([e] + events)
  }

  /** `pushConnectionEvent`: the newest event first, with the given source. */
  function PushConnectionEvent(st: RoutingState, source: string, message: string, now: int, token: string): (r: RoutingState)
    ensures r.connectionEvents == Push(st.connectionEvents, ConnectionEvent(EventId(now, token), now, source, message))
    ensures r.midiLastSignal == st.midiLastSignal && r.midiOutChannel == st.midiOutChannel
    ensures r.(connectionEvents := st.connectionEvents) == st  // every other field is kept
  {
    st.(connectionEvents := Push(st.connectionEvents, ConnectionEvent(EventId(now, token), now, source, message)))
  }

  /** `setMidiOutSignal`: records the signal and its time and logs it as a `"midi"` event. */
  function SetMidiOutSignal(st: RoutingState, signal: string, now: int, token: string): (r: RoutingState)
    ensures r.midiLastSignal == signal && r.midiLastSignalAt == now
    ensures r.connectionEvents == Push(st.connectionEvents, ConnectionEvent(EventId(now, token), now, "midi", signal))
    ensures r.midiOutChannel == st.midiOutChannel && r.modeDefaultChannels == st.modeDefaultChannels
    ensures r.(midiLastSignal := st.midiLastSignal, midiLastSignalAt := st.midiLastSignalAt,
               connectionEvents := st.connectionEvents) == st  // every other field is kept
  {
    st.(midiLastSignal := signal, midiLastSignalAt := now,
        connectionEvents := Push(st.connectionEvents, ConnectionEvent(EventId(now, token), now, "midi", signal)))
  }

  function ClearConnectionEvents(st: RoutingState): (r: RoutingState)
    ensures r.connectionEvents == [] && r.midiLastSignal == st.midiLastSignal
    ensures r.(connectionEvents := st.connectionEvents) == st  // every other field is kept
  {
    st.(connectionEvents := [])
  }

  function PulseMidiOut(st: RoutingState, now: int): (r: RoutingState)
    ensures r.midiOutPulseAt == now && r.connectionEvents == st.connectionEvents
    ensures r.(midiOutPulseAt := st.midiOutPulseAt) == st  // every other field is kept
  {
    st.(midiOutPulseAt := now)
  }

  function SetMidiOutDeviceId(st: RoutingState, deviceId: Option<string>): (r: RoutingState)
    ensures r.midiOutDeviceId == deviceId && r.midiOutChannel == st.midiOutChannel
    ensures r.(midiOutDeviceId := st.midiOutDeviceId) == st  // every other field is kept
  {
    st.(midiOutDeviceId := deviceId)
  }

  function SetShowHeaderConnectionCards(st: RoutingState, show: bool): (r: RoutingState)
    ensures r.showHeaderConnectionCards == show && r.connectionEvents == st.connectionEvents
    ensures r.(showHeaderConnectionCards := st.showHeaderConnectionCards) == st  // every other field is kept
  {
    st.(showHeaderConnectionCards := show)
  }

  /** The history is bounded by `MaxEvents`. */
  ghost predicate HistoryBounded(st: RoutingState)
  {
    |st.connectionEvents| <= MaxEvents
  }

  lemma HistoryStaysBounded(st: RoutingState, source: string, message: string, now: int, token: string)
    ensures HistoryBounded(PushConnectionEvent(st, source, message, now, token))
    ensures HistoryBounded(SetMidiOutSignal(st, message, now, token))
    ensures HistoryBounded(ClearConnectionEvents(st)) && HistoryBounded(Defaults)
  {
  }

  /** Events pushed one after another: the history is their reverse, newest first. */
  function PushAll(events: seq<ConnectionEvent>, pushed: seq<ConnectionEvent>): seq<ConnectionEvent>
    decreases |pushed|
  {
    if |pushed| == 0 then events
    else Push(PushAll(events, pushed[..|pushed| - 1]), pushed[|pushed| - 1])
  }

  function Reverse(s: seq<ConnectionEvent>): (r: seq<ConnectionEvent>)
    ensures |r| == |s| && forall i :: 0 <= i < |s| ==> r[i] == s[|s| - 1 - i]
  {
    seq(|s|, i requires 0 <= i < |s| => s[|s| - 1 - i])
  }

  /** Capping, prepending and capping again is prepending and capping once. */
  lemma CapPrepend(e: ConnectionEvent, s: seq<ConnectionEvent>)
    ensures Cap([e] + Cap(s)) == Cap([e] + s)
  {
  }

  /**
   Any run of pushes onto a bounded history leaves the newest 40 of: the pushed events in reverse
   order, then the earlier history.
   */
  lemma {:induction false} PushAllNewestFirst(events: seq<ConnectionEvent>, pushed: seq<ConnectionEvent>)
    requires |events| <= MaxEvents
    ensures PushAll(events, pushed) == Cap(Reverse(pushed) + events)
    decreases |pushed|
  {
    if |pushed| == 0 {
      assert Reverse(pushed) + events == events;
    } else {
      var init := pushed[..|pushed| - 1];
      var e := pushed[|pushed| - 1];
      PushAllNewestFirst(events, init);
      assert Reverse(pushed) == [e] + Reverse(init);
      CapPrepend(e, Reverse(init) + events);
      assert [e] + (Reverse(init) + events) == Reverse(pushed) + events;
    }
  }
}

=== FILE: song.dfy ===
/**
 The shared song data model: chords, sections, chord-progression patterns and arrangement blocks,
 as declared in src/types/chord.ts, src/types/progression.ts, src/types/pattern.ts and
 src/types/arrangement.ts. Optional (`?:`) fields are `Option`s; numbers that are MIDI values are
 integers, numbers that are beats are reals.
 */
module Song {
  import opened Common

  /** Optional facts about how a chord was built. The chord quality is kept as the TypeScript string. */
  datatype ChordMetadata = ChordMetadata(
    root: Option<int>,
    quality: Option<string>,
    inversion: Option<int>,
    drop: Option<int>,
    degree: Option<int>,
    romanNumeral: Option<string>,
    velocities: Option<seq<int>>,
    strum: Option<seq<int>>,
    gate: Option<seq<int>>)

  /** Metadata with every field absent. */
  const NoMetadata := ChordMetadata(None, None, None, None, None, None, None, None, None)

  datatype Chord = Chord(notes: seq<int>, duration: real, metadata: Option<ChordMetadata>)

  type Progression = seq<Chord>

  datatype TransitionType = NoTransition | BackdoorDominant | Plagal | ModalBorrow

  datatype TransitionConfig = TransitionConfig(kind: TransitionType, length: real)

  /**
   A song section. `repeats` and `beatsPerBar` are optional numbers whose 0 behaves like an
   absent value wherever the TypeScript code writes `x || default`.
   */
  datatype Section = Section(
    id: string,
    name: string,
    progression: Progression,
    repeats: Option<int>,
    beatsPerBar: Option<int>,
    rootHeld: Option<int>,
    currentNotes: seq<int>,
    transitions: TransitionConfig)

  /** A reusable progression template; `semitones[i]` is the pitch offset of `degrees[i]`. */
  datatype Pattern = Pattern(
    id: string,
    name: string,
    description: string,
    degrees: seq<string>,
    qualities: Option<seq<string>>,
    semitones: seq<int>,
    duration: Option<real>,
    defaultQuality: Option<string>,
    custom: bool)

  /** An occurrence of a pattern found inside a progression. */
  datatype DetectedPattern = DetectedPattern(
    id: string,
    name: string,
    description: string,
    startIndex: int,
    length: int,
    root: int)

  datatype ModeId = Harmony | Drum | Other

  datatype ArrangementIntent = Main | Fill | Break | Transition | Custom

  /** One placement of a section on the arrangement lane (`labelText` is the TypeScript `label`). */
  datatype ArrangementBlock = ArrangementBlock(
    id: string,
    sourceId: string,
    mode: ModeId,
    midiChannel: Option<int>,
    startBeat: real,
    lengthBeats: real,
    labelText: string,
    repeats: Option<int>,
    intent: Option<ArrangementIntent>)

  /** `x || d` for an optional number: an absent value and 0 both give the default. */
  function OrInt(x: Option<int>, d: int): (r: int)
    ensures x.Some? && x.value != 0 ==> r == x.value
    ensures (x.None? || x.value == 0) ==> r == d
  {
    match x
    case Some(v) => if v != 0 then v else d
    case None => d
  }

  /** `x ?? d`: only an absent value gives the default. */
  function OrElse<T>(x: Option<T>, d: T): (r: T)
    ensures x.Some? ==> r == x.value
    ensures x.None? ==> r == d
  {
    x.GetOr(d)
  }

  /**
   `new Map(sections.map(s => [s.id, s])).get(id)`: when several sections share an id, the map
   keeps the last one.
   */
  function FindSectionById(sections: seq<Section>, id: string): (r: Option<Section>)
    ensures r.Some? ==> r.value in sections && r.value.id == id
    ensures r.None? <==> forall i :: 0 <= i < |sections| ==> sections[i].id != id
  {
    if |sections| == 0 then None
    else if sections[|sections| - 1].id == id then Some(sections[|sections| - 1])
    else FindSectionById(sections[..|sections| - 1], id)
  }

  /** The section found is the one at the highest index carrying that id. */
  lemma {:induction false} FindSectionByIdLast(sections: seq<Section>, id: string, i: int)
    requires 0 <= i < |sections| && sections[i].id == id
    requires forall j :: i < j < |sections| ==> sections[j].id != id
    ensures FindSectionById(sections, id) == Some(sections[i])
    decreases |sections|
  {
    if i < |sections| - 1 {
      FindSectionByIdLast(sections[..|sections| - 1], id, i);
    }
  }

  /** The sum of chord durations (`getProgressionDuration`). */
  function TotalDuration(p: Progression): real
  {
    if |p| == 0 then 0.0 else TotalDuration(p[..|p| - 1]) + p[|p| - 1].duration
  }

  lemma {:induction false} TotalDurationAppend(a: Progression, b: Progression)
    ensures TotalDuration(a + b) == TotalDuration(a) + TotalDuration(b)
    decreases |b|
  {
    if |b| == 0 {
      assert a + b == a;
    } else {
      assert (a + b)[..|a + b| - 1] == a + b[..|b| - 1];
      TotalDurationAppend(a, b[..|b| - 1]);
    }
  }
}

=== FILE: sorting.dfy ===
/**
 Ordering utilities. JavaScript's `Array.prototype.sort` with a numeric comparator is stable, so
 every sort in the TypeScript code is modelled by one stable insertion sort on a numeric key: elements with
 equal keys keep their input order. The default (comparator-less) sort on strings compares them
 character by character.
 */
module Sorting {

  /** Every earlier element's key is at most every later element's key. */
  ghost predicate SortedBy<T>(s: seq<T>, key: T -> real)
  {
    forall i, j :: 0 <= i < j < |s| ==> key(s[i]) <= key(s[j])
  }

  /** The elements of `s` whose key is exactly `k`, in their order in `s`. */
  function WithKey<T>(s: seq<T>, key: T -> real, k: real): (r: seq<T>)
    ensures |r| <= |s|
    ensures forall i :: 0 <= i < |r| ==> key(r[i]) == k
  {
    if |s| == 0 then []
    else (if key(s[0]) == k then [s[0]] else []) + WithKey(s[1..], key, k)
  }

  /** Inserts `x` after every element whose key is not greater than its own. */
  function InsertBy<T>(x: T, s: seq<T>, key: T -> real): (r: seq<T>)
    ensures |r| == |s| + 1
  {
    if |s| == 0 then [x]
    else if key(x) < key(s[0]) then [x] + s
    else [s[0]] + InsertBy(x, s[1..], key)
  }

  /** Stable sort by ascending key (insertion of each element in input order). */
  function SortBy<T>(s: seq<T>, key: T -> real): (r: seq<T>)
    ensures |r| == |s|
  {
    if |s| == 0 then [] else InsertBy(s[|s| - 1], SortBy(s[..|s| - 1], key), key)
  }

  lemma {:induction false} InsertByElements<T>(x: T, s: seq<T>, key: T -> real)
    ensures multiset(InsertBy(x, s, key)) == multiset(s) + multiset{x}
    ensures forall y :: y in InsertBy(x, s, key) <==> y == x || y in s
    decreases |s|
  {
    if |s| > 0 && key(x) >= key(s[0]) {
      InsertByElements(x, s[1..], key);
      assert s == [s[0]] + s[1..];
    }
  }

  lemma {:induction false} InsertBySorted<T>(x: T, s: seq<T>, key: T -> real)
    requires SortedBy(s, key)
    ensures SortedBy(InsertBy(x, s, key), key)
    ensures multiset(InsertBy(x, s, key)) == multiset(s) + multiset{x}
    decreases |s|
  {
    InsertByElements(x, s, key);
    if |s| > 0 && key(x) >= key(s[0]) {
      InsertBySorted(x, s[1..], key);
      var t := InsertBy(x, s[1..], key);
      InsertByElements(x, s[1..], key);
      forall i | 0 <= i < |t|
        ensures key(s[0]) <= key(t[i])
      {
        assert t[i] in multiset(t);
        if t[i] != x {
          assert t[i] in multiset(s[1..]);
          var j :| 0 <= j < |s[1..]| && s[1..][j] == t[i];
          assert s[j + 1] == t[i];
        }
      }
      assert InsertBy(x, s, key) == [s[0]] + t;
    } else if |s| > 0 {
      forall i, j | 0 <= i < j < |[x] + s|
        ensures key(([x] + s)[i]) <= key(([x] + s)[j])
      {
        if i > 0 {
          assert ([x] + s)[i] == s[i - 1];
        }
        assert ([x] + s)[j] == s[j - 1];
      }
    }
  }

  lemma {:induction false} WithKeyAppend<T>(a: seq<T>, b: seq<T>, key: T -> real, k: real)
    ensures WithKey(a + b, key, k) == WithKey(a, key, k) + WithKey(b, key, k)
    decreases |a|
  {
    if |a| > 0 {
      assert (a + b)[1..] == a[1..] + b;
      WithKeyAppend(a[1..], b, key, k);
    } else {
      assert a + b == b;
    }
  }

  /** In a sorted sequence, `x` lands after every element with its own key. */
  lemma {:induction false} InsertByWithKey<T>(x: T, s: seq<T>, key: T -> real, k: real)
    requires SortedBy(s, key)
    ensures WithKey(InsertBy(x, s, key), key, k)
         == WithKey(s, key, k) + (if key(x) == k then [x] else [])
    decreases |s|
  {
    if |s| == 0 {
    } else if key(x) < key(s[0]) {
      WithKeyAppend([x], s, key, k);
      if key(x) == k {
        NoneWithKey(s, key, k);
      }
    } else {
      var head: seq<T> := if key(s[0]) == k then [s[0]] else [];
      var t := InsertBy(x, s[1..], key);
      assert SortedBy(s[1..], key);
      InsertByWithKey(x, s[1..], key, k);
      assert WithKey(InsertBy(x, s, key), key, k) == head + WithKey(t, key, k) by {
        assert InsertBy(x, s, key) == [s[0]] + t;
        assert ([s[0]] + t)[1..] == t;
      }
      assert WithKey(s, key, k) == head + WithKey(s[1..], key, k);
    }
  }

  /** A sorted sequence whose first key exceeds `k` has no element with key `k`. */
  lemma {:induction false} NoneWithKey<T>(s: seq<T>, key: T -> real, k: real)
    requires SortedBy(s, key) && |s| > 0 && key(s[0]) > k
    ensures WithKey(s, key, k) == []
    decreases |s|
  {
    if |s| > 1 {
      assert key(s[0]) <= key(s[1]);
      NoneWithKey(s[1..], key, k);
    }
  }

  /**
   `SortBy` is a stable sort: the result is ordered, and for every key the elements carrying
   that key appear in the same order as in the input (which also makes it a permutation).
   */
  lemma {:induction false} SortByCorrect<T>(s: seq<T>, key: T -> real)
    ensures SortedBy(SortBy(s, key), key)
    ensures multiset(SortBy(s, key)) == multiset(s)
    ensures forall k :: WithKey(SortBy(s, key), key, k) == WithKey(s, key, k)
    decreases |s|
  {
    if |s| > 0 {
      var init := s[..|s| - 1];
      var x := s[|s| - 1];
      SortByCorrect(init, key);
      InsertBySorted(x, SortBy(init, key), key);
      assert s == init + [x];
      forall k
        ensures WithKey(SortBy(s, key), key, k) == WithKey(s, key, k)
      {
        InsertByWithKey(x, SortBy(init, key), key, k);
        WithKeyAppend(init, [x], key, k);
      }
    }
  }

  /** Sorting an already sorted sequence changes nothing. */
  lemma {:induction false} SortBySortedIdentity<T>(s: seq<T>, key: T -> real)
    requires SortedBy(s, key)
    ensures SortBy(s, key) == s
    decreases |s|
  {
    if |s| > 0 {
      var init := s[..|s| - 1];
      assert SortedBy(init, key);
      SortBySortedIdentity(init, key);
      InsertAtEnd(s[|s| - 1], init, key);
      assert init + [s[|s| - 1]] == s;
    }
  }

  lemma {:induction false} InsertAtEnd<T>(x: T, s: seq<T>, key: T -> real)
    requires forall i :: 0 <= i < |s| ==> key(s[i]) <= key(x)
    ensures InsertBy(x, s, key) == s + [x]
    decreases |s|
  {
    if |s| > 0 {
      InsertAtEnd(x, s[1..], key);
      assert s == [s[0]] + s[1..];
    }
  }

  /** Non-decreasing integers: the result of `sort((a, b) => a - b)`. */
  predicate Ascending(s: seq<int>)
  {
    forall i, j :: 0 <= i < j < |s| ==> s[i] <= s[j]
  }

  function IntKey(x: int): real { x as real }

  /** `[...s].sort((a, b) => a - b)` on integers. */
  function SortInts(s: seq<int>): (r: seq<int>)
    ensures |r| == |s|
  {
    SortBy(s, IntKey)
  }

  lemma SortIntsCorrect(s: seq<int>)
    ensures Ascending(SortInts(s))
    ensures multiset(SortInts(s)) == multiset(s)
  {
    SortByCorrect(s, IntKey);
    var r := SortInts(s);
    assert forall i, j :: 0 <= i < j < |r| ==> IntKey(r[i]) <= IntKey(r[j]);
  }

  lemma SortIntsAscendingIdentity(s: seq<int>)
    requires Ascending(s)
    ensures SortInts(s) == s
  {
    assert SortedBy(s, IntKey);
    SortBySortedIdentity(s, IntKey);
  }

  /** The code-unit order the comparator-less `sort()` uses on strings. */
  predicate StrLess(a: string, b: string)
  {
    if |a| == 0 then |b| > 0
    else if |b| == 0 then false
    else if a[0] != b[0] then a[0] < b[0]
    else StrLess(a[1..], b[1..])
  }

  lemma {:induction false} StrLessIrreflexive(a: string)
    ensures !StrLess(a, a)
    decreases |a|
  {
    if |a| > 0 {
      StrLessIrreflexive(a[1..]);
    }
  }

  lemma {:induction false} StrLessTransitive(a: string, b: string, c: string)
    requires StrLess(a, b) && StrLess(b, c)
    ensures StrLess(a, c)
    decreases |a|
  {
    if |a| > 0 && a[0] == b[0] && b[0] == c[0] {
      StrLessTransitive(a[1..], b[1..], c[1..]);
    }
  }

  /** Distinct strings are always ordered one way or the other. */
  lemma {:induction false} StrLessTotal(a: string, b: string)
    requires a != b
    ensures StrLess(a, b) || StrLess(b, a)
    decreases |a|
  {
    if |a| > 0 && |b| > 0 && a[0] == b[0] {
      assert a == [a[0]] + a[1..] && b == [b[0]] + b[1..];
      StrLessTotal(a[1..], b[1..]);
    }
  }

  lemma {:induction false} StrLessAsymmetric(a: string, b: string)
    requires StrLess(a, b)
    ensures !StrLess(b, a)
    decreases |a|
  {
    if |a| > 0 && |b| > 0 && a[0] == b[0] {
      StrLessAsymmetric(a[1..], b[1..]);
    }
  }

  /** Strictly increasing strings: sorted and free of duplicates. */
  predicate StrictlySortedStrings(s: seq<string>)
  {
    forall i, j :: 0 <= i < j < |s| ==> StrLess(s[i], s[j])
  }

  function InsertString(x: string, s: seq<string>): (r: seq<string>)
    ensures |r| == |s| + 1
  {
    if |s| == 0 then [x]
    else if StrLess(x, s[0]) then [x] + s
    else [s[0]] + InsertString(x, s[1..])
  }

  lemma {:induction false} InsertStringElements(x: string, s: seq<string>)
    ensures multiset(InsertString(x, s)) == multiset(s) + multiset{x}
    ensures forall y :: y in InsertString(x, s) <==> y == x || y in s
    decreases |s|
  {
    if |s| > 0 && !StrLess(x, s[0]) {
      InsertStringElements(x, s[1..]);
      assert s == [s[0]] + s[1..];
    }
  }

  lemma {:induction false} InsertStringSorted(x: string, s: seq<string>)
    requires StrictlySortedStrings(s) && x !in s
    ensures StrictlySortedStrings(InsertString(x, s))
    ensures multiset(InsertString(x, s)) == multiset(s) + multiset{x}
    ensures forall y :: y in InsertString(x, s) <==> y == x || y in s
    decreases |s|
  {
    InsertStringElements(x, s);
    if |s| > 0 && StrLess(x, s[0]) {
      forall j | 0 <= j < |s| ensures StrLess(x, s[j]) {
        if j > 0 {
          StrLessTransitive(x, s[0], s[j]);
        }
      }
      ConsSortedStrings(x, s);
    } else if |s| > 0 {
      StrLessTotal(x, s[0]);
      assert x != s[0] by {
        assert s[0] in s;
      }
      assert StrictlySortedStrings(s[1..]) && x !in s[1..];
      InsertStringSorted(x, s[1..]);
      var t := InsertString(x, s[1..]);
      forall i | 0 <= i < |t|
        ensures StrLess(s[0], t[i])
      {
        if t[i] != x {
          assert t[i] in t;
          assert t[i] in s[1..];
          var j :| 0 <= j < |s[1..]| && s[1..][j] == t[i];
          assert s[j + 1] == t[i];
        }
      }
      ConsSortedStrings(s[0], t);
      assert InsertString(x, s) == [s[0]] + t;
    }
  }

  /** A string below every element of a strictly sorted sequence can go in front of it. */
  lemma ConsSortedStrings(a: string, t: seq<string>)
    requires StrictlySortedStrings(t)
    requires forall i :: 0 <= i < |t| ==> StrLess(a, t[i])
    ensures StrictlySortedStrings([a] + t)
  {
    forall i, j | 0 <= i < j < |[a] + t|
      ensures StrLess(([a] + t)[i], ([a] + t)[j])
    {
      assert ([a] + t)[j] == t[j - 1];
      if i > 0 {
        assert ([a] + t)[i] == t[i - 1];
      }
    }
  }

  /** `Object.keys(m).sort()`: every key exactly once, in ascending order. */
  method SortedKeys<V>(m: map<string, V>) returns (r: seq<string>)
    ensures StrictlySortedStrings(r)
    ensures forall k :: k in r <==> k in m
    ensures |r| == |m.Keys|
  {
    r := [];
    var rest := m.Keys;
    while rest != {}
      invariant StrictlySortedStrings(r)
      invariant forall k :: k in rest ==> k !in r
      invariant forall k :: k in m <==> (k in rest || k in r)
      invariant |r| + |rest| == |m.Keys|
      decreases |rest|
    {
      var x :| x in rest;
      InsertStringSorted(x, r);
      r := InsertString(x, r);
      rest := rest - {x};
    }
    DistinctCount(r);
    assert Elements(r) == m.Keys;
    assert |r| == |m.Keys|;
  }

  function Elements(s: seq<string>): set<string>
  {
    set i | 0 <= i < |s| :: s[i]
  }

  /** A strictly sorted sequence has as many elements as its set of elements. */
  lemma {:induction false} DistinctCount(s: seq<string>)
    requires StrictlySortedStrings(s)
    ensures |Elements(s)| == |s|
    decreases |s|
  {
    if |s| > 0 {
      var t := s[1..];
      DistinctCount(t);
      assert s == [s[0]] + t;
      assert s[0] !in Elements(t) by {
        if s[0] in t {
          var j :| 0 <= j < |t| && t[j] == s[0];
          assert StrLess(s[0], s[j + 1]);
          StrLessIrreflexive(s[0]);
        }
      }
      assert Elements(s) == Elements(t) + {s[0]};
    }
  }
}

=== FILE: text.dfy ===
/**
 Character-level helpers the program gets from the JavaScript and Python runtimes: decimal
 rendering of integers (`${n}`, `str(n)`, `String(n)`), its inverse, the `\s` character class,
 `trim`, ASCII lower-casing and prefix tests.
 */
module Text {
  import opened Common

  predicate IsDigit(c: char) { '0' <= c <= '9' }

  function DigitChar(d: int): char
    requires 0 <= d < 10
  {
    ['0', '1', '2', '3', '4', '5', '6', '7', '8', '9'][d]
  }

  function DigitValue(c: char): (d: int)
    requires IsDigit(c)
    ensures 0 <= d < 10
  {
    c as int - '0' as int
  }

  lemma DigitRoundTrip(d: int)
    requires 0 <= d < 10
    ensures IsDigit(DigitChar(d)) && DigitValue(DigitChar(d)) == d
  {
  }

  /** Decimal digits of a natural number, most significant first, no leading zeros. */
  function NatToString(n: nat): (s: string)
    ensures |s| >= 1
    ensures forall i :: 0 <= i < |s| ==> IsDigit(s[i])
    ensures |s| > 1 ==> s[0] != '0'
    decreases n
  {
    if n < 10 then [DigitChar(n)] else NatToString(n / 10) + [DigitChar(n % 10)]
  }

  /** Decimal rendering of an integer, with a leading '-' when negative. */
  function IntToString(n: int): (s: string)
    ensures |s| >= 1
  {
    if n >= 0 then NatToString(n) else "-" + NatToString(-n)
  }

  /** The value of a string of decimal digits. */
  function ParseDigits(s: string): nat
    requires forall i :: 0 <= i < |s| ==> IsDigit(s[i])
  {
    if |s| == 0 then 0 else ParseDigits(s[..|s| - 1]) * 10 + DigitValue(s[|s| - 1])
  }

  /** Reads back a rendered integer; `None` for anything `IntToString` cannot produce. */
  function ParseInt(s: string): Option<int>
  {
    if |s| >= 2 && s[0] == '-' && (forall i :: 1 <= i < |s| ==> IsDigit(s[i])) then
      Some(-(ParseDigits(s[1..]) as int))
    else if |s| >= 1 && (forall i :: 0 <= i < |s| ==> IsDigit(s[i])) then
      Some(ParseDigits(s))
    else
      None
  }

  lemma {:induction false} ParseNatToString(n: nat)
    ensures ParseDigits(NatToString(n)) == n
    decreases n
  {
    if n >= 10 {
      var s := NatToString(n);
      assert s[..|s| - 1] == NatToString(n / 10);
      ParseNatToString(n / 10);
      DigitRoundTrip(n % 10);
    } else {
      DigitRoundTrip(n);
    }
  }

  /** Decimal rendering is inverted by `ParseInt`. */
  lemma IntToStringRoundTrip(n: int)
    ensures ParseInt(IntToString(n)) == Some(n)
  {
    if n >= 0 {
      ParseNatToString(n);
      var s := NatToString(n);
      assert s[0] != '-' by { assert IsDigit(s[0]); }
    } else {
      ParseNatToString(-n);
      var s := "-" + NatToString(-n);
      assert s[1..] == NatToString(-n);
    }
  }

  /** Rendering is injective, as a corollary of the round trip. */
  lemma IntToStringInjective(a: int, b: int)
    ensures IntToString(a) == IntToString(b) ==> a == b
  {
    IntToStringRoundTrip(a);
    IntToStringRoundTrip(b);
  }

  /** `String.prototype.padStart(width, "0")`. */
  function PadStartZeros(s: string, width: nat): (r: string)
    ensures |r| == if |s| >= width then |s| else width
    ensures r[|r| - |s|..] == s
    ensures forall i :: 0 <= i < |r| - |s| ==> r[i] == '0'
    decreases width - |s|
  {
    if |s| >= width then s else PadStartZeros("0" + s, width)
  }

  /** Members of the `\s` class of JavaScript regular expressions; `trim` strips the same set. */
  predicate IsJsSpace(c: char)
  {
    || c == '\t' || c == '\n' || c == '\U{000B}' || c == '\U{000C}' || c == '\r' || c == ' '
    || c == '\U{00A0}' || c == '\U{1680}' || ('\U{2000}' <= c <= '\U{200A}')
    || c == '\U{2028}' || c == '\U{2029}' || c == '\U{202F}' || c == '\U{205F}'
    || c == '\U{3000}' || c == '\U{FEFF}'
  }

  /** The characters `.` does not match in a JavaScript regular expression. */
  predicate IsLineTerminator(c: char)
  {
    c == '\n' || c == '\r' || c == '\U{2028}' || c == '\U{2029}'
  }

  function TrimStart(s: string): (r: string)
    ensures |r| <= |s| && r == s[|s| - |r|..]
    ensures |r| > 0 ==> !IsJsSpace(r[0])
    ensures forall k :: 0 <= k < |s| - |r| ==> IsJsSpace(s[k])  // only white space was removed
  {
    if |s| > 0 && IsJsSpace(s[0]) then
      TrimStart(s[1..])
    else s
  }

  function TrimEnd(s: string): (r: string)
    ensures |r| <= |s| && r == s[..|r|]
    ensures |r| > 0 ==> !IsJsSpace(r[|r| - 1])
    ensures forall k :: |r| <= k < |s| ==> IsJsSpace(s[k])  // only white space was removed
  {
    if |s| > 0 && IsJsSpace(s[|s| - 1]) then TrimEnd(s[..|s| - 1]) else s
  }

  /** `String.prototype.trim`: a slice of `s` with no white space at either end. */
  function Trim(s: string): (r: string)
    ensures |r| > 0 ==> !IsJsSpace(r[0]) && !IsJsSpace(r[|r| - 1])
    ensures |r| <= |TrimStart(s)| && r == s[|s| - |TrimStart(s)|..][..|r|]
    ensures var i := |s| - |TrimStart(s)|;
      i + |r| <= |s| && r == s[i..i + |r|] &&
      (forall k :: 0 <= k < i ==> IsJsSpace(s[k])) && (forall k :: i + |r| <= k < |s| ==> IsJsSpace(s[k]))
  {
    var t := TrimStart(s);
    var r := TrimEnd(t);
    r
  }

  predicate IsAsciiUpper(c: char) { 'A' <= c <= 'Z' }

  function AsciiLowerChar(c: char): (r: char)
    ensures !IsAsciiUpper(r)
  {
    if IsAsciiUpper(c) then (c as int + 32) as char else c
  }

  /** `toLowerCase`, on the ASCII range only. */
  function AsciiLower(s: string): (r: string)
    ensures |r| == |s|
    ensures forall i :: 0 <= i < |s| ==> r[i] == AsciiLowerChar(s[i])
  {
    seq(|s|, i requires 0 <= i < |s| => AsciiLowerChar(s[i]))
  }

  predicate StartsWith(s: string, prefix: string)
  {
    |prefix| <= |s| && s[..|prefix|] == prefix
  }

  predicate EndsWith(s: string, suffix: string)
  {
    |suffix| <= |s| && s[|s| - |suffix|..] == suffix
  }

  /** The index of the first `c` in `s`, or `|s|` when there is none. */
  function IndexOfChar(s: string, c: char): (i: nat)
    ensures i <= |s| && (i < |s| ==> s[i] == c)
    ensures forall j :: 0 <= j < i ==> s[j] != c
    decreases |s|
  {
    if |s| == 0 then 0 else if s[0] == c then 0 else 1 + IndexOfChar(s[1..], c)
  }

  /** The first occurrence is unique: a `c` with none before it is the one found. */
  lemma IndexOfCharAt(s: string, c: char, k: int)
    requires 0 <= k < |s| && s[k] == c
    requires forall j :: 0 <= j < k ==> s[j] != c
    ensures IndexOfChar(s, c) == k
  {
  }

  /** `s.includes(sub)`: `sub` occurs at some position of `s`. */
  predicate Contains(s: string, sub: string)
    decreases |s|
  {
    StartsWith(s, sub) || (|s| > 0 && Contains(s[1..], sub))
  }

  /** `sub` occurs in `s` starting at index `i`. */
  predicate OccursAt(s: string, sub: string, i: int)
  {
    0 <= i <= |s| - |sub| && s[i..i + |sub|] == sub
  }

  /** `Contains` finds an occurrence exactly when there is one at some index. */
  lemma {:induction false} ContainsSlice(s: string, sub: string)
    ensures Contains(s, sub) <==> exists i :: OccursAt(s, sub, i)
    decreases |s|
  {
    if StartsWith(s, sub) {
      assert OccursAt(s, sub, 0);
    }
    if |s| > 0 {
      ContainsSlice(s[1..], sub);
      if Contains(s[1..], sub) {
        var j :| OccursAt(s[1..], sub, j);
        assert s[1..][j..j + |sub|] == s[j + 1..j + 1 + |sub|];
        assert OccursAt(s, sub, j + 1);
      }
      if exists i :: OccursAt(s, sub, i) {
        var i :| OccursAt(s, sub, i);
        if i > 0 {
          assert s[1..][i - 1..i - 1 + |sub|] == s[i..i + |sub|];
          assert OccursAt(s[1..], sub, i - 1);
        }
      }
    } else if exists i :: OccursAt(s, sub, i) {
      var i :| OccursAt(s, sub, i);
      assert i == 0;
    }
  }

  /** Lower-casing twice is lower-casing once. */
  lemma AsciiLowerIdempotent(s: string)
    ensures AsciiLower(AsciiLower(s)) == AsciiLower(s)
  {
  }

  /**
   The words of `s.trim().split(/\s+/).filter(t => t.length > 0)`: the maximal runs of characters
   outside `\s`, in order. `cur` is the word being read.
   */
  function WordsFrom(s: string, cur: string): (r: seq<string>)
    decreases |s|
  {
    if |s| == 0 then (if cur == "" then [] else [cur])
    else if IsJsSpace(s[0]) then (if cur == "" then [] else [cur]) + WordsFrom(s[1..], "")
    else WordsFrom(s[1..], cur + [s[0]])
  }

  function Words(s: string): seq<string>
  {
    WordsFrom(s, "")
  }

  /** A word: non-empty and free of `\s` characters. */
  predicate IsWord(w: string)
  {
    |w| > 0 && forall i :: 0 <= i < |w| ==> !IsJsSpace(w[i])
  }

  /** `words.join(sep)`. */
  function Join(ws: seq<string>, sep: string): string
    decreases |ws|
  {
    if |ws| == 0 then "" else if |ws| == 1 then ws[0] else ws[0] + sep + Join(ws[1..], sep)
  }

  lemma {:induction false} WordsFromShape(s: string, cur: string)
    requires forall i :: 0 <= i < |cur| ==> !IsJsSpace(cur[i])
    ensures forall k :: 0 <= k < |WordsFrom(s, cur)| ==> IsWord(WordsFrom(s, cur)[k])
    decreases |s|
  {
    if |s| > 0 {
      if IsJsSpace(s[0]) {
        WordsFromShape(s[1..], "");
      } else {
        WordsFromShape(s[1..], cur + [s[0]]);
      }
    }
  }

  /** Every word found is non-empty and holds no white space. */
  lemma WordsAreWords(s: string)
    ensures forall k :: 0 <= k < |Words(s)| ==> IsWord(Words(s)[k])
  {
    WordsFromShape(s, "");
  }

  /** Reading a word's characters extends the current word. */
  lemma {:induction false} WordsFromWord(w: string, rest: string, cur: string)
    requires forall i :: 0 <= i < |w| ==> !IsJsSpace(w[i])
    ensures WordsFrom(w + rest, cur) == WordsFrom(rest, cur + w)
    decreases |w|
  {
    if |w| > 0 {
      assert (w + rest)[1..] == w[1..] + rest;
      WordsFromWord(w[1..], rest, cur + [w[0]]);
      assert cur + [w[0]] + w[1..] == cur + w;
    } else {
      assert w + rest == rest;
      assert cur + w == cur;
    }
  }

  /** Splitting words joined by single spaces gives the words back. */
  lemma {:induction false} WordsJoin(ws: seq<string>)
    requires forall k :: 0 <= k < |ws| ==> IsWord(ws[k])
    ensures Words(Join(ws, " ")) == ws
    decreases |ws|
  {
    if |ws| == 1 {
      WordsFromWord(ws[0], "", "");
      assert ws[0] + "" == ws[0];
      assert "" + ws[0] == ws[0];
    } else if |ws| > 1 {
      var rest := Join(ws[1..], " ");
      assert Join(ws, " ") == ws[0] + (" " + rest);
      WordsFromWord(ws[0], " " + rest, "");
      assert "" + ws[0] == ws[0];
      assert (" " + rest)[1..] == rest;
      WordsJoin(ws[1..]);
      assert ws == [ws[0]] + ws[1..];
    }
  }

  predicate IsSlugChar(c: char) { 'a' <= c <= 'z' || '0' <= c <= '9' }

  /**
   `s.replace(/[^a-z0-9]+/g, "_")`: each maximal run of other characters becomes one underscore.
   `inRun` says the previous character already started such a run.
   */
  function SlugFrom(s: string, inRun: bool): string
    decreases |s|
  {
    if |s| == 0 then ""
    else if IsSlugChar(s[0]) then [s[0]] + SlugFrom(s[1..], false)
    else (if inRun then "" else "_") + SlugFrom(s[1..], true)
  }

  function Slug(s: string): string
  {
    SlugFrom(s, false)
  }

  /** Letters, digits and single underscores only. */
  predicate SlugForm(t: string)
  {
    && (forall i :: 0 <= i < |t| ==> IsSlugChar(t[i]) || t[i] == '_')
    && (forall i :: 0 <= i < |t| - 1 ==> !(t[i] == '_' && t[i + 1] == '_'))
  }

  lemma {:induction false} SlugFromShape(s: string, inRun: bool)
    ensures SlugForm(SlugFrom(s, inRun))
    ensures inRun && |SlugFrom(s, inRun)| > 0 ==> SlugFrom(s, inRun)[0] != '_'
    decreases |s|
  {
    if |s| > 0 {
      if IsSlugChar(s[0]) {
        SlugFromShape(s[1..], false);
      } else {
        SlugFromShape(s[1..], true);
      }
    }
  }

  lemma {:induction false} SlugFromFixed(t: string, inRun: bool)
    requires SlugForm(t)
    requires inRun && |t| > 0 ==> t[0] != '_'
    ensures SlugFrom(t, inRun) == t
    decreases |t|
  {
    if |t| > 0 {
      assert SlugForm(t[1..]);
      if IsSlugChar(t[0]) {
        SlugFromFixed(t[1..], false);
        assert t == [t[0]] + t[1..];
      } else {
        assert |t| > 1 ==> t[1] != '_';
        SlugFromFixed(t[1..], true);
        assert t == "_" + t[1..];
      }
    }
  }

  /** A slug holds letters, digits and single underscores, and slugging it again changes nothing. */
  lemma SlugCorrect(s: string)
    ensures SlugForm(Slug(s))
    ensures Slug(Slug(s)) == Slug(s)
  {
    SlugFromShape(s, false);
    SlugFromFixed(Slug(s), false);
  }

  /** The leading decimal digits of a string. */
  function LeadingDigits(s: string): (r: string)
    ensures |r| <= |s| && r == s[..|r|]
    ensures forall i :: 0 <= i < |r| ==> IsDigit(r[i])
    ensures |r| < |s| ==> !IsDigit(s[|r|])
  {
    if |s| > 0 && IsDigit(s[0]) then [s[0]] + LeadingDigits(s[1..]) else ""
  }

  /** Whether the text opens with the `0x` (or `0X`) prefix of a hexadecimal numeral. */
  predicate HexPrefixed(u: string)
  {
    |u| >= 2 && u[0] == '0' && (u[1] == 'x' || u[1] == 'X')
  }

  predicate IsHexDigit(c: char) { IsDigit(c) || 'a' <= c <= 'f' || 'A' <= c <= 'F' }

  function HexDigitValue(c: char): (d: int)
    requires IsHexDigit(c)
    ensures 0 <= d < 16
  {
    if IsDigit(c) then DigitValue(c)
    else if 'a' <= c <= 'f' then c as int - 'a' as int + 10
    else c as int - 'A' as int + 10
  }

  /** The leading hexadecimal digits of a string. */
  function LeadingHexDigits(s: string): (r: string)
    ensures |r| <= |s| && r == s[..|r|]
    ensures forall i :: 0 <= i < |r| ==> IsHexDigit(r[i])
    ensures |r| < |s| ==> !IsHexDigit(s[|r|])
  {
    if |s| > 0 && IsHexDigit(s[0]) then [s[0]] + LeadingHexDigits(s[1..]) else ""
  }

  /** The value of a string of hexadecimal digits. */
  function ParseHex(s: string): nat
    requires forall i :: 0 <= i < |s| ==> IsHexDigit(s[i])
  {
    if |s| == 0 then 0 else ParseHex(s[..|s| - 1]) * 16 + HexDigitValue(s[|s| - 1])
  }

  /**
   The magnitude `parseInt` reads after the sign: with no radix given, a `0x` or `0X` prefix
   selects base 16, anything else base 10; no digits after that gives `NaN` (`None`).
   */
  function JsMagnitude(u: string): Option<nat>
  {
    if HexPrefixed(u) then
      var h := LeadingHexDigits(u[2..]);
      if h == "" then None else Some(ParseHex(h))
    else
      var d := LeadingDigits(u);
      if d == "" then None else Some(ParseDigits(d))
  }

  /**
   `parseInt(s)` with no radix: leading white space, an optional sign, then the longest run of
   digits in the base the prefix selects; no digits gives `NaN` (`None`).
   */
  function JsParseInt(s: string): Option<int>
  {
    var t := TrimStart(s);
    match JsMagnitude(JsUnsigned(t))
    case None => None
    case Some(m) => if |t| > 0 && t[0] == '-' then Some(-(m as int)) else Some(m)
  }

  /** The text after an optional leading sign. */
  function JsUnsigned(t: string): (r: string)
    ensures |t| > 0 && (t[0] == '-' || t[0] == '+') ==> r == t[1..]
    ensures |t| == 0 || (t[0] != '-' && t[0] != '+') ==> r == t
  {
    if |t| > 0 && (t[0] == '-' || t[0] == '+') then t[1..] else t
  }

  lemma {:induction false} LeadingDigitsAll(s: string)
    requires forall i :: 0 <= i < |s| ==> IsDigit(s[i])
    ensures LeadingDigits(s) == s
    decreases |s|
  {
    if |s| > 0 {
      LeadingDigitsAll(s[1..]);
    }
  }

  /** A non-empty digit string is read as its value. */
  lemma {:induction false} JsParseIntDigits(u: string)
    requires |u| > 0 && forall i :: 0 <= i < |u| ==> IsDigit(u[i])
    ensures JsParseInt(u) == Some(ParseDigits(u) as int)
  {
    assert !IsJsSpace(u[0]);
    assert TrimStart(u) == u;
    assert JsUnsigned(u) == u;
    assert !HexPrefixed(u) by { if |u| >= 2 { assert IsDigit(u[1]); } }
    LeadingDigitsAll(u);
  }

  /** A minus sign and a non-empty digit string is read as the negated value. */
  lemma {:induction false} JsParseIntMinusDigits(u: string)
    requires |u| > 0 && forall i :: 0 <= i < |u| ==> IsDigit(u[i])
    ensures JsParseInt("-" + u) == Some(-(ParseDigits(u) as int))
  {
    var t := "-" + u;
    assert t[0] == '-' && t[1..] == u;
    assert TrimStart(t) == t;
    assert JsUnsigned(t) == u;
    assert !HexPrefixed(u) by { if |u| >= 2 { assert IsDigit(u[1]); } }
    LeadingDigitsAll(u);
  }

  /** `parseInt` reads back a decimal rendering of a natural number. */
  lemma {:induction false} JsParseIntRoundTrip(n: nat)
    ensures JsParseInt(NatToString(n)) == Some(n as int)
  {
    JsParseIntDigits(NatToString(n));
    ParseNatToString(n);
  }

  /** A string starting with a letter or a symbol other than a sign is `NaN`. */
  lemma JsParseIntNaN(s: string)
    requires |s| > 0 && !IsJsSpace(s[0]) && !IsDigit(s[0]) && s[0] != '-' && s[0] != '+'
    ensures JsParseInt(s) == None
  {
  }

  /** Without a radix, a `0x` prefix reads hexadecimal: "0x1A" is 26 and "-0x1A" is -26. */
  lemma JsParseIntHex()
    ensures JsParseInt("0x1A") == Some(26)
    ensures JsParseInt("-0x1A") == Some(-26)
  {
    JsMagnitudeHex();
    JsParseIntSigned("0x1A", 26);
    JsParseIntSigned("-0x1A", 26);
  }

  /** Text with no leading white space whose magnitude after the sign is `m` reads as `m`, negated after a minus. */
  lemma JsParseIntSigned(t: string, m: nat)
    requires |t| > 0 && !IsJsSpace(t[0]) && JsMagnitude(JsUnsigned(t)) == Some(m)
    ensures JsParseInt(t) == Some(if t[0] == '-' then -(m as int) else m as int)
  {
    assert TrimStart(t) == t;
  }

  lemma JsMagnitudeHex()
    ensures JsMagnitude("0x1A") == Some(26)
    ensures JsUnsigned("0x1A") == "0x1A" && JsUnsigned("-0x1A") == "0x1A"
  {
    assert "-0x1A"[1..] == "0x1A";
    assert HexPrefixed("0x1A");
    assert "0x1A"[2..] == "1A";
    assert "1A"[1..] == "A" && "A"[1..] == "";
    assert LeadingHexDigits("A") == "A";
    assert LeadingHexDigits("1A") == "1A";
    assert "1A"[..1] == "1" && "1"[..0] == "";
    assert HexDigitValue('A') == 10 && HexDigitValue('1') == 1;
    assert ParseHex("1") == 1;
    assert ParseHex("1A") == 26;
  }
}
